=== FILE: README.md ===
# query_sheriff query analysis, modelled in Dafny

query_sheriff watches the SQL a Django application issues and reports
inefficiencies. `QueryAnalyzer.analyze` takes the captured query
dictionaries (`sql`, `params`, `time`, `stack_trace`) and runs seventeen
detectors over them: N+1 queries, missing indexes on WHERE, JOIN, ORDER BY
and aggregate columns, unnecessary DISTINCT, subqueries, Cartesian
products, large OFFSETs, non-sargable WHERE clauses, locks, long
transactions, slow queries, duplicates, full table scans, missing LIMITs
and `SELECT *`. Each detector adds typed findings (`type`, `query`,
`suggestion` and some optional fields) to one flat list. The SQL text
helpers of `utils.py` pull tables, columns, joins, ORDER BY lists and
aggregate arguments out of the query text. `OptimizationSuggestion`
renders a finding as advice text. `QueryFetcher` turns command-line input
into query dictionaries.

This project models that classification engine as pure Dafny functions
over immutable records:

- `Text`, `Wrappers`, `Lists`: Python string operations (`strip`,
  `split`, `upper`, `replace`, `in`), `Option`/`Result`, and
  `list(set(...))`.
- `Records`: the query dictionary (`QueryRecord`; a list entry that is
  not a dictionary is `Malformed`), the finding, the thresholds
  (`Config`), and the database facts (`SchemaFacts`).
- `Simplify`, `NPlusOne`: `simplify_query`, the batch filter, N+1
  grouping and the repeated-query rule.
- `Tables`, `Distinct`, `Joins`, `OrderBy`, `Aggregates`: the extraction
  helpers and the DISTINCT rule.
- `Indexes`: the plan scan of `is_indexed`, `generate_index_suggestion`
  and `detect_missing_indexes_for_clause`.
- `Patterns`: the regular-expression rules of the analyzer and
  `is_valid_sql`.
- `Suggestions`: the template lookup and the `suggest_*` texts.
- `Detectors`, `Analyzer`, `Fetcher`: the seventeen detectors, `analyze`
  and `fetch_from_manual_input`.
- `DetectorExamples` and the `*Example` lemmas: the cases of the
  repository's own tests, stated as lemmas.

Regular expressions are recognised by hand. A `re.search` is an
existential predicate over match positions, or a leftmost scan when the
match itself is used. A `re.sub` is a left-to-right scanner. Each
scanner takes the greedy or lazy choice that Python's engine makes at
each position.

`IGNORECASE`, `upper()` and `lower()` use ASCII case mapping. `\s` and
`str.strip` use Python's exact whitespace set. `\w` and `\d` are ASCII.

Errors that escape a Python function are `Err` values carrying the
exception class and message:

- `ValueError` from `generate_index_suggestion`, `extract_order_by_columns`,
  `extract_aggregate_functions` and `get_join_columns`;
- `IndexError` from `generate_index_suggestion` on an empty table list;
- `KeyError('time')` from the slow-query and transaction detectors.

The thresholds default to 0.5 s (slow), 500 (offset), 5.0 s (lock),
5.0 s (transaction) and 100 rows (small table). They come from
`DefaultConfig` and stay parameters. Query times are `real`s, the
values the detectors read with `float()`. A dictionary without a `time`
key has `None`. `fetch_from_manual_input` stores the string `'0.01'`;
the model stores the number 0.01 that `float('0.01')` gives.

Where the code and its documentation differ, the model follows the
code. The template dictionary has an entry meant for ORDER BY
findings, but it spells that key `Missing index on ORDER BY` while the
detector emits
`Missing Index on ORDER BY`. Such findings therefore render as the
fallback text (`Suggestions.OrderByKeyMisspelled`).

The code also differs from what its comments announce in these places,
and the model follows the code:

- The WHERE removal of `simplify_query` also deletes the `GROUP BY` or
  `ORDER BY` keyword that ends the clause.
- The plain-JOIN Cartesian rule flags every `JOIN <word>`, because `\s*`
  backtracks past its `(?!ON|USING)` lookahead
  (`Patterns.CartesianJoinIff`).
- The empty-list check of `get_join_columns` cannot fire, because a split
  always yields at least one piece (`Joins.ColumnList`).
- `normalize_column_name` is not idempotent: `"oonn"` becomes `"on"`.
- The ValueErrors of the ORDER BY and aggregate extraction are not caught
  by their detectors, so they end `analyze` (`Analyzer.Analyze`).

## Model

| member | source | states |
|---|---|---|
| Simplify.ReplaceDollarParams | query_sheriff/inspector/utils.py:176 | after `$<digits>` replacement no `$` followed by a digit is left, the text is no longer, and it starts with a digit exactly when the input does |
| Simplify.DollarParamsFixpoint | query_sheriff/inspector/utils.py:176 | text without a positional parameter is left unchanged |
| Simplify.DollarParamsIdempotent | query_sheriff/inspector/utils.py:176 | replacing the `$<digits>` parameters twice gives the same text as once |
| Simplify.DollarRun | query_sheriff/inspector/utils.py:176 | a `$` and a whole run of digits become one `?`, and the replacement carries on after the run |
| Simplify.DollarKeep | query_sheriff/inspector/utils.py:176 | a character that does not start a `$<digits>` parameter is kept, and the replacement carries on after it |
| Simplify.ReplacePercentParams | query_sheriff/inspector/utils.py:177 | no `%s` placeholder survives the replacement |
| Simplify.PercentParamsGone | query_sheriff/inspector/utils.py:177 | replacing `%s` by `?` never creates a new `%s` |
| Simplify.FirstStop | query_sheriff/inspector/utils.py:181 | the lazy `.*?` of the clause patterns stops at the first position where a terminator or the end matches; it fails exactly when a newline comes first |
| Simplify.FirstTerm | query_sheriff/inspector/utils.py:181 | the terminator consumed is one that matches there and no alternative listed before it matches, so the WHERE removal swallows the `ORDER BY`/`GROUP BY` keyword; none is consumed when none matches |
| Simplify.OrderByMatch | query_sheriff/inspector/utils.py:182 | a match of the ORDER BY list pattern spans only keyword letters, identifier characters, quotes, dots, commas and spaces |
| Simplify.RemoveAllSkip | query_sheriff/inspector/utils.py:181-183 | a removal pass keeps verbatim a prefix in which no match can start |
| Simplify.RemoveAllAbsent | query_sheriff/inspector/utils.py:181-183 | text that never contains a pattern's first letter is unchanged by that pass |
| Simplify.SimplifyQuery | query_sheriff/inspector/utils.py:169-188 | the result is normalized: whitespace only as single spaces between words, never at either end |
| Simplify.SimplifyQueryValue | query_sheriff/inspector/utils.py:169-193 | a non-string (`None`) comes back unchanged; a string comes back normalized |
| SimplifyExamples.DollarSkip | query_sheriff/inspector/utils.py:176 | text without `$` passes through the positional-parameter replacement verbatim, whatever follows it |
| SimplifyExamples.DollarParam | query_sheriff/inspector/utils.py:176 | `$` and one digit not followed by another digit become a single `?` |
| SimplifyExamples.WhereMatch | query_sheriff/inspector/utils.py:181 | the lazy WHERE match over a body free of terminators ends right after the first `ORDER BY`, keyword included |
| SimplifyExamples.WhereRemoved | query_sheriff/inspector/utils.py:181 | the WHERE pass deletes the clause together with its ORDER BY keyword and carries on with what follows |
| SimplifyExamples.OrderByFree | query_sheriff/inspector/utils.py:182 | without an ORDER keyword anywhere the ORDER BY pass changes nothing |
| SimplifyExamples.CollapseKeep | query_sheriff/inspector/utils.py:186 | a single-spaced prefix passes through the whitespace collapse unchanged |
| SimplifyExamples.SimplifyExample | query_sheriff/test_query_sheriff/test_utils/test_utils.py:152-155 | `SELECT * FROM users WHERE id = $1 ORDER BY created_at LIMIT 10 OFFSET 20` simplifies to `SELECT * FROM users created_at LIMIT 10 OFFSET 20`: the ORDER BY keyword is swallowed with the WHERE clause and its column stays |
| Lists.Dedup | query_sheriff/inspector/utils.py:324-328 | `list(set(xs))` has no repetitions, the same elements as `xs`, and is no longer |
| Lists.DedupNoDup | query_sheriff/inspector/utils.py:324-328 | a list without repetitions survives the set round trip unchanged |
| Lists.FilterMap | query_sheriff/inspector/analyzer.py:544-565 | the list comprehension keeps exactly the images of the kept elements, and is no longer than its input |
| Lists.FilterMapConcat | query_sheriff/inspector/analyzer.py:544-565 | filtering and mapping a concatenation is the concatenation of the results, so order is kept |
| NPlusOne.KeepUnbatched | query_sheriff/inspector/utils.py:233-249 | the kept queries are an order-preserving subsequence of the input, and exactly the non-batch ones |
| NPlusOne.KeepUnbatchedConcat | query_sheriff/inspector/utils.py:233-249 | filtering a concatenation filters each part, so order and multiplicity are kept |
| NPlusOne.KeepUnbatchedOne | query_sheriff/inspector/utils.py:236-248 | one query is kept iff it is not a batch |
| NPlusOne.IgnoreBatches | query_sheriff/inspector/utils.py:227-252 | keeps, in order, exactly the dictionary entries whose SQL has no BEGIN/COMMIT/ROLLBACK word and no INSERT INTO/UPDATE … VALUES; other list entries are dropped |
| NPlusOne.IgnoreBatchesConcat | query_sheriff/inspector/utils.py:227-252 | filtering a concatenation of entries filters each part, so order and multiplicity are kept |
| NPlusOne.IgnoreBatchesOne | query_sheriff/inspector/utils.py:227-252 | one entry survives iff it is a dictionary whose SQL is not a batch |
| NPlusOne.TransactionExamples | query_sheriff/test_query_sheriff/test_utils/test_utils.py:223-233 | BEGIN, COMMIT and ROLLBACK statements are filtered as transactions |
| NPlusOne.BulkInsertExample | query_sheriff/test_query_sheriff/test_utils/test_utils.py:234-241 | the multi-row `INSERT INTO orders (product, price) VALUES (1, 20), (2, 30)` is filtered as a bulk write |
| NPlusOne.Candidates | query_sheriff/inspector/analyzer.py:59-71 | every grouped query contains `SELECT` and `WHERE` as written, is keyed by its simplified text and comes from the log |
| NPlusOne.CandidatesConcat | query_sheriff/inspector/analyzer.py:61-71 | keying a concatenation keys each part: the candidates keep the log's order and multiplicity |
| NPlusOne.CandidatesOne | query_sheriff/inspector/analyzer.py:63-71 | one query is keyed by its simplified text iff its SQL has `SELECT` and `WHERE` |
| NPlusOne.CandidatesCount | query_sheriff/inspector/analyzer.py:61-77 | the keyed list counts a key as often as the log holds `SELECT … WHERE` queries simplifying to it |
| NPlusOne.GroupQueries | query_sheriff/inspector/analyzer.py:73-77 | the groups have pairwise distinct keys and there are no more groups than queries |
| NPlusOne.GroupCounts | query_sheriff/inspector/analyzer.py:73-77 | each group's count is the number of queries with its key, and a key has a group iff some query has it |
| NPlusOne.GroupFirstRaw | query_sheriff/inspector/analyzer.py:76-77 | each group keeps the raw SQL of the first query seen with its key |
| NPlusOne.GroupTotal | query_sheriff/inspector/analyzer.py:73-77 | the group counts add up to the number of grouped queries |
| NPlusOne.DetectRepeatedQueries | query_sheriff/inspector/utils.py:196-224 | one N+1 finding per repeated group, carrying its count (> 1) and nothing else |
| NPlusOne.ReportedIffRepeated | query_sheriff/inspector/utils.py:203-222 | a group is reported iff its count exceeds 1 and its raw SQL has SELECT and WHERE but no JOIN |
| NPlusOne.DetectNPlusOne | query_sheriff/inspector/analyzer.py:51-85 | every N+1 finding has the N+1 type, the SQL of a query of the filtered log that has SELECT and WHERE but no JOIN, and as count the number (> 1) of such queries simplifying to the same text |
| NPlusOne.NPlusOneSound | query_sheriff/inspector/analyzer.py:51-85 | each finding counts the candidates of the filtered log that share its simplified text, and its SQL is that of a logged candidate |
| NPlusOne.NPlusOneReported | query_sheriff/inspector/analyzer.py:51-85 | a simplified text is reported iff more than one candidate of the filtered log has it and the first of them has no JOIN |
| NPlusOne.NPlusOneGroups | query_sheriff/inspector/analyzer.py:51-85 | a group's finding is reported iff it counts more than one query and its raw SQL has no JOIN; its count is the number of filtered queries with SELECT and WHERE whose simplified text is its key |
| NPlusOne.RepeatedWithLimitExample | query_sheriff/test_query_sheriff/test_utils/test_utils.py:191-197 | a group counted 3 whose SQL has LIMIT yields one finding recommending select_related |
| NPlusOne.SingleGroupExample | query_sheriff/test_query_sheriff/test_utils/test_utils.py:199-204 | a group seen once yields nothing |
| Records.QueryRecords | query_sheriff/inspector/analyzer.py:92-93 | the dictionaries of the input list, in order, skipping other entries |
| Records.QueryRecordsConcat | query_sheriff/inspector/analyzer.py:92-93 | reading a concatenation reads each part: the dictionaries keep their order and multiplicity |
| Records.QueryRecordsOne | query_sheriff/inspector/analyzer.py:92-93 | one entry yields its record iff it is a dictionary |
| Records.DefaultConfig | query_sheriff/inspector/analyzer.py:247-437 | the default thresholds: 0.5 s slow, offset 500, 5.0 s lock and transaction, and 100 rows for a small table, the `SMALL_TABLE_THRESHOLD` default of `is_small_table` at utils.py:545 |
| Tables.TableMatches | query_sheriff/inspector/utils.py:321 | every name found follows a FROM or JOIN keyword |
| Tables.Scan | query_sheriff/inspector/utils.py:321 | every capture `re.findall` collects is the capture of a match starting at some position of the scanned range |
| Tables.ScanSkip | query_sheriff/inspector/utils.py:321 | positions where the pattern does not match contribute nothing to the scan |
| Tables.NoKeywordNoTables | query_sheriff/test_query_sheriff/test_utils/test_utils.py:297-300 | a query without FROM or JOIN names no table |
| Tables.ExtractTableNames | query_sheriff/inspector/utils.py:315-328 | the distinct table names after FROM or JOIN, each exactly once |
| Tables.ExtractTableAndColumnNames | query_sheriff/inspector/utils.py:517-535 | the tables as `extract_table_names` finds them, and the distinct columns compared with `=` after WHERE or AND |
| Tables.ExtractSelectClause | query_sheriff/inspector/utils.py:294-312 | absent iff no `SELECT … FROM` is found; otherwise the stripped list of the first one with every parenthesised group removed |
| Tables.RemoveParenGroupsClean | query_sheriff/inspector/utils.py:307 | after the removal no parenthesised group closing on the same line is left |
| Tables.RemoveParenGroupsFixpoint | query_sheriff/inspector/utils.py:307 | text without such groups is unchanged |
| Tables.RemoveParenGroups | query_sheriff/inspector/utils.py:307 | deleting the parenthesised groups never lengthens the clause |
| Tables.SelectAt | query_sheriff/inspector/utils.py:301 | a match at a position starts with SELECT and its group is the text between the whitespace run after SELECT and a whitespace run before FROM, with no such run before FROM inside it (the lazy `.+?`); the group starts right after the whitespace run, except when FROM follows that run directly and no later `\s+FROM` exists: then the regex backtracks into the run and the group is the single whitespace character two before FROM |
| Tables.SelectAtComplete | query_sheriff/inspector/utils.py:301 | whenever SELECT, whitespace, some text and whitespace before FROM occur at a position, the search does match there |
| Tables.SelectPlain | query_sheriff/inspector/utils.py:301 | for `SELECT c FROM…` with `c` free of whitespace at its ends and of any letter F, the group is exactly `c` |
| Tables.SelectClauseExists | query_sheriff/inspector/utils.py:299-308 | the clause is found whenever a `SELECT … FROM` occurs anywhere |
| Tables.SelectClauseExample | query_sheriff/test_query_sheriff/test_utils/test_utils.py:262-265 | `SELECT id, name, age FROM users WHERE id = $1` gives the clause `id, name, age` |
| Distinct.NormalizeColumnName | query_sheriff/inspector/utils.py:408-415 | the normalized name has no dot, no double quote, no upper-case letter and no surrounding whitespace |
| Distinct.NormalizeQualified | query_sheriff/inspector/utils.py:410 | a table prefix is dropped: only the part after the last dot matters |
| Distinct.NormalizeQuoted | query_sheriff/inspector/utils.py:410 | surrounding double quotes do not change the normalized name |
| Distinct.NormalizeIdempotent | query_sheriff/inspector/utils.py:408-415 | normalizing a name that has no `on` left is idempotent |
| Distinct.NormalizeNotIdempotent | query_sheriff/inspector/utils.py:408-415 | without the side condition normalization is not idempotent: `oonn` becomes `on`, which a second pass deletes |
| Distinct.NormalizeExampleDotted | query_sheriff/test_query_sheriff/test_utils/test_utils.py:365-368 | `users.created_at` normalizes to `created_at` |
| Distinct.NormalizeExampleQuoted | query_sheriff/test_query_sheriff/test_utils/test_utils.py:360-363 | `"users"."created_at"` normalizes to `created_at` |
| Distinct.NormalizeExampleOn | query_sheriff/test_query_sheriff/test_utils/test_utils.py:370-373 | `"users"."on_delete"` normalizes to `_delete` |
| Distinct.FilterPrimaryKeys | query_sheriff/inspector/utils.py:418-421 | the kept keys are exactly the given keys outside the catalog field names |
| Distinct.FilterKeysExample | query_sheriff/test_query_sheriff/test_utils/test_utils.py:378-382 | of the keys `constraint_catalog`, `name`, `nspname`, `email`, `domain_catalog` only `name` and `email` are kept |
| Distinct.AllUniqueFields | query_sheriff/inspector/utils.py:434-446 | the key set is the union over the tables of the normalized primary keys and unique fields |
| Distinct.UnionOver | query_sheriff/inspector/utils.py:437-446 | the set accumulated over the table loop holds each table's keys and nothing that is not some table's key |
| Distinct.FirstDistinctOn | query_sheriff/inspector/utils.py:449 | the leftmost `DISTINCT ON (…)` match, or none anywhere |
| Distinct.WithoutDistinct | query_sheriff/inspector/utils.py:448-464 | removing DISTINCT never lengthens the clause |
| Distinct.WithoutLeadingDistinct | query_sheriff/inspector/utils.py:461-464 | for a rest with no `(` and no `D`, a leading DISTINCT is removed and the rest stripped, whatever the keys |
| Distinct.WithoutLeadingDistinctOn | query_sheriff/inspector/utils.py:449-459 | for a word column `c` and a rest with no `D`, a leading `DISTINCT ON (c)` is removed iff `c` normalizes to a key, and then commas are stripped from the ends; otherwise the clause is kept |
| Distinct.IsDistinctUnnecessary | query_sheriff/inspector/utils.py:424-473 | decides the rule: a select clause and tables are given, and every piece left after the DISTINCT is removed normalizes to a key of one of the tables |
| Distinct.DistinctPair | query_sheriff/inspector/utils.py:424-473 | `DISTINCT a, b` is unnecessary iff both columns normalize into the key set |
| Distinct.DistinctOnPair | query_sheriff/inspector/utils.py:449-471 | `DISTINCT ON (c) a, b` with `c` a key is unnecessary iff `a` and `b` are keys |
| Distinct.DistinctExamples | query_sheriff/test_query_sheriff/test_utils/test_utils.py:388-407 | with key `id` and unique `email`: `DISTINCT id, email` and `DISTINCT ON (id) id, email` are unnecessary, `DISTINCT id, name` is not |
| Distinct.KeyPairExample | query_sheriff/test_query_sheriff/test_utils/test_utils.py:388-407 | `DISTINCT id, email` over a users table keyed by `id` with unique `email` is unnecessary |
| Distinct.KeyOnPairExample | query_sheriff/test_query_sheriff/test_utils/test_utils.py:388-407 | `DISTINCT ON (id) id, email` over the same table is unnecessary |
| Distinct.NameExample | query_sheriff/test_query_sheriff/test_utils/test_utils.py:388-407 | `DISTINCT id, name` over the same table is necessary |
| Indexes.PlanUsesIndex | query_sheriff/inspector/utils.py:506-514 | the plan scan answers yes only if some line names an index scan |
| Indexes.PlanUsesIndexFirst | query_sheriff/inspector/utils.py:506-514 | the plan uses an index iff the first line naming either scan names an index scan and no sequential scan |
| Indexes.RemoveQualifiers | query_sheriff/inspector/utils.py:583 | no `word.` prefix is left, and a character that is not such a prefix is kept |
| Indexes.RemoveQualifiersIdempotent | query_sheriff/inspector/utils.py:583 | removing the prefixes twice is removing them once |
| Indexes.CleanIndexColumn | query_sheriff/inspector/utils.py:581-583 | a cleaned column has no double quote and no surrounding whitespace |
| Indexes.ShortInCleaned | query_sheriff/inspector/utils.py:591-594 | the one-character check on the cleaned list holds iff some raw column cleans to at most one character |
| Indexes.GenerateIndexSuggestion | query_sheriff/inspector/utils.py:569-610 | IndexError iff the table list is empty; ValueError iff a cleaned column has at most one character; the unbound `index_sql` error iff there are no columns at all, since the caught IndexError leaves it unset; otherwise a statement ending in `;` |
| Indexes.SuggestionStatement | query_sheriff/inspector/utils.py:597-606 | the statement is `CREATE INDEX idx_<table>_<c1_c2…> ON <table>(<c1, c2…>);` over the unquoted table and cleaned columns |
| Text.SplitJoin | query_sheriff/inspector/utils.py:588 | `sep.join(s.split(sep))` gives `s` back, and no piece of the split holds the separator |
| Indexes.ColumnTextAsList | query_sheriff/inspector/utils.py:586-588 | a comma-separated column string behaves as the list of its pieces |
| Indexes.TableListAsName | query_sheriff/inspector/utils.py:572-576 | a table list behaves as its first element |
| Indexes.ColumnListRoundTrip | query_sheriff/inspector/utils.py:602 | splitting a `", "`-joined list of clean columns on commas and stripping gives the list back |
| Indexes.SingleColumnExample | query_sheriff/test_query_sheriff/test_utils/test_utils.py:485-487 | `users`, `[id]` gives `CREATE INDEX idx_users_id ON users(id);` |
| Indexes.CompositeExample | query_sheriff/test_query_sheriff/test_utils/test_utils.py:489-491 | `users`, `[id, name]` gives `CREATE INDEX idx_users_id_name ON users(id, name);` |
| Indexes.SplitCharactersExample | query_sheriff/test_query_sheriff/test_utils/test_utils.py:493-495 | the column string `i,d` raises ValueError |
| Indexes.ReprRoundTrip | query_sheriff/inspector/utils.py:273 | reading back the body of Python's `repr` of a string gives the string |
| Indexes.TableFindings | query_sheriff/inspector/utils.py:260-289 | for one table: at most one finding, reported iff the table needs an index and its suggestion can be built; ValueError iff it needs one and cannot |
| Indexes.DetectMissingIndexesForClause | query_sheriff/inspector/utils.py:254-292 | succeeds iff no reported table fails its suggestion; at most one finding per table, each for a table that needs an index, with type `Missing Index on <clause>` |
| Indexes.MissingIndexesCover | query_sheriff/inspector/utils.py:254-292 | every table that needs an index is reported |
| Indexes.NothingToReport | query_sheriff/inspector/utils.py:260-289 | small tables, or an empty column list, are never reported |
| Indexes.ConcatFindings | query_sheriff/inspector/utils.py:260-289 | the loop over the tables succeeds iff every table's step does, fails with the error of a failing table, and collects exactly the findings of the tables |
| Joins.JoinMatches | query_sheriff/inspector/utils.py:621-634 | every join found has a table name and two column lists made of the allowed characters |
| Joins.NoJoinKeyword | query_sheriff/test_query_sheriff/test_utils/test_utils.py:515-518 | a query without JOIN has no joins |
| Joins.ExtractJoins | query_sheriff/inspector/utils.py:615-639 | `None` iff nothing matches, else the non-empty list of matches in order |
| Joins.ColumnList | query_sheriff/inspector/utils.py:651-656 | a split side always has at least one piece, each without comma or quote |
| Joins.GetJoinColumns | query_sheriff/inspector/utils.py:642-668 | succeeds iff both sides split into the same number of pieces, giving the stripped lists; otherwise the mismatch ValueError |
| Joins.SingleColumn | query_sheriff/test_query_sheriff/test_utils/test_utils.py:523-527 | a side without comma is a one-column list |
| OrderBy.FirstOrderByLeftmost | query_sheriff/inspector/utils.py:686-689 | the ORDER BY list used is the leftmost match |
| OrderBy.RemoveDirectionsKeep | query_sheriff/inspector/utils.py:699 | a prefix without whitespace passes through the direction removal unchanged, since every match starts with whitespace; the removal carries on with the rest |
| OrderBy.RemoveDirectionsDirection | query_sheriff/inspector/utils.py:699 | whitespace followed by ASC or DESC, in any case, is removed completely |
| OrderBy.ExtractOrderByColumns | query_sheriff/inspector/utils.py:673-713 | ValueError iff somewhere in the text an `ORDER BY` is followed only by whitespace and then `;` or the end; `[]` when no list matches; otherwise the matched list's columns without ASC/DESC |
| Aggregates.AggregateMatches | query_sheriff/inspector/utils.py:721-724 | every captured argument is non-empty and has no closing parenthesis |
| Aggregates.AggregateMatchesSound | query_sheriff/inspector/utils.py:721-724 | every argument `re.findall` collects from a position is the group of a match of the pattern at that position or later |
| Aggregates.AggregateMatchesNext | query_sheriff/inspector/utils.py:724 | when no match starts between the current position and the first match, `re.findall` collects that match's group first and resumes where the match ends |
| Aggregates.NoAggregateName | query_sheriff/inspector/utils.py:721-724 | a query in which none of SUM, AVG, COUNT, MIN or MAX occurs, in any case, has no aggregates |
| Aggregates.ExtractAggregateFunctions | query_sheriff/inspector/utils.py:718-748 | ValueError iff some cleaned argument is empty; otherwise one non-empty cleaned argument per match, in order |
| Aggregates.PlainArgument | query_sheriff/inspector/utils.py:733-737 | an argument without a call is just stripped |
| Aggregates.NestedArgument | query_sheriff/test_query_sheriff/test_utils/test_utils.py:566-569 | the argument of a nested call is the innermost argument |
| Aggregates.BlankArgument | query_sheriff/inspector/utils.py:727-737 | a blank argument cleans to the empty string, so the blank check agrees with the empty check after cleaning |
| Aggregates.BasicAggregatesExample | query_sheriff/test_query_sheriff/test_utils/test_utils.py:561-564 | `SELECT SUM(users.age), COUNT(users.id) FROM users` gives `[users.age, users.id]` |
| Aggregates.NestedAggregatesExample | query_sheriff/test_query_sheriff/test_utils/test_utils.py:566-569 | `SELECT SUM(COUNT(users.id)) FROM users` gives `[users.id]` |
| Aggregates.NoAggregatesExample | query_sheriff/test_query_sheriff/test_utils/test_utils.py:571-574 | `SELECT * FROM users` gives the empty list |
| Patterns.HasSubquery | query_sheriff/inspector/analyzer.py:199 | decides `\(SELECT .* FROM` case-insensitively: an opening parenthesis directly followed by `SELECT ` (one space), then ` FROM` later on the same line |
| Patterns.SubqueryIn | query_sheriff/inspector/analyzer.py:199 | a `(SELECT … FROM` on one line is found wherever it sits |
| Patterns.CartesianJoin | query_sheriff/inspector/analyzer.py:223 | decides the plain-JOIN rule: a JOIN, whitespace, a table word and the optional alias |
| Patterns.CartesianJoinIff | query_sheriff/inspector/analyzer.py:223 | the plain-JOIN rule holds iff some JOIN is followed by whitespace and a word character; the lookahead never rejects |
| Patterns.JoinWordFlagged | query_sheriff/inspector/analyzer.py:223 | `JOIN <word>` is flagged whatever follows it, ON included |
| Patterns.DecimalRoundTrip | query_sheriff/inspector/analyzer.py:364 | `int(str(n)) == n` for the OFFSET digits |
| Patterns.FirstOffset | query_sheriff/inspector/analyzer.py:362 | the leftmost `OFFSET <digits>`, or none anywhere |
| Patterns.OffsetValue | query_sheriff/inspector/analyzer.py:362-364 | the number read is the digits of the leftmost `OFFSET <digits>`, present iff one exists |
| Patterns.OffsetGroupShape | query_sheriff/inspector/analyzer.py:362 | a match of `OFFSET\s+(\d+)` is the keyword, a non-empty run of whitespace and the maximal non-empty run of digits that forms the group |
| Patterns.FirstFit | query_sheriff/inspector/analyzer.py:362 | `re.search` answers the leftmost start position in range where the pattern matches, and none iff it matches nowhere |
| Patterns.FirstFitAt | query_sheriff/inspector/analyzer.py:362 | a matching position with no match before it is what the search returns |
| Patterns.OffsetExample | query_sheriff/inspector/analyzer.py:362-364 | `OFFSET n` after text without the keyword reads `n` |
| Patterns.NonSargable | query_sheriff/inspector/analyzer.py:388 | decides the WHERE-call pattern case-insensitively: WHERE and at least one whitespace character, then, later on the same line, the literal name FUNCTION or EXPRESSION starting a word and directly followed by `(`, and a `)` after it on that line |
| Patterns.FunctionInWhere | query_sheriff/inspector/analyzer.py:388 | a `FUNCTION(…)` call after WHERE, on the same line, is non-sargable |
| Patterns.IsValidSql | query_sheriff/inspector/analyzer.py:573-579 | decides whether the stripped, upper-cased query starts with one of the ten verbs followed by whitespace |
| Patterns.ValidSqlKeyword | query_sheriff/inspector/analyzer.py:573-579 | a query is valid iff, stripped, it starts with one of the ten verbs in any case followed by whitespace |
| Patterns.ValidSqlExample | query_sheriff/test_query_sheriff/test_analyzer/test_analyzer.py:431-435 | SELECT, CREATE and DROP statements are valid |
| Patterns.InvalidSqlExample | query_sheriff/test_query_sheriff/test_analyzer/test_analyzer.py:433 | a statement starting with INVALID is not |
| Suggestions.TemplateIndex | query_sheriff/inspector/suggestions.py:146-148 | the dictionary lookup finds a type's template iff the type is a key |
| Suggestions.Suggest | query_sheriff/inspector/suggestions.py:4-151 | an unknown type gives exactly `No suggestion available.`; a known type gives its template filled with the suggestion |
| Suggestions.RenderShows | query_sheriff/inspector/suggestions.py:5-145 | a rendered template starts with its header and shows its title and the suggestion behind its label |
| Suggestions.SuggestShowsSuggestion | query_sheriff/inspector/suggestions.py:146-148 | a known type's text contains the finding's suggestion |
| Suggestions.SuggestFallback | query_sheriff/inspector/suggestions.py:148 | a type without a template gives the fallback text, whatever the suggestion |
| Suggestions.OrderByKeyMisspelled | query_sheriff/inspector/suggestions.py:38 | the ORDER BY finding type is not the key of the ORDER BY template, so it renders as the fallback |
| Suggestions.KindsWithoutTemplate | query_sheriff/inspector/suggestions.py:5-145 | CROSS JOIN and explicit LOCK findings render as the fallback |
| Suggestions.UnknownKindExample | query_sheriff/test_query_sheriff/test_suggestions/test_suggestions.py:30-40 | an unknown type renders as the fallback |
| Suggestions.NPlusOneTemplateExample | query_sheriff/test_query_sheriff/test_suggestions/test_suggestions.py:4-15 | the N+1 template names the problem in its header |
| Suggestions.SlowQueryAdvice | query_sheriff/inspector/suggestions.py:153-168 | JOIN advice first iff the upper-cased SQL has JOIN; SELECT * advice next iff it has `SELECT *`; the caching sentence always last |
| Suggestions.SlowQueryAdviceJoined | query_sheriff/inspector/suggestions.py:166-168 | the advice is its sentences joined with single spaces |
| Suggestions.DuplicateQueryAdvice | query_sheriff/inspector/suggestions.py:170-179 | the caching sentence iff the count exceeds 1, else the empty string |
| Suggestions.RemovingDistinctAdvice | query_sheriff/inspector/suggestions.py:181-194 | the fixed message with the listed fields, joined by `, `, between its two fixed parts; the fields can be read back from the middle |
| Suggestions.RemovingDistinctText | query_sheriff/inspector/suggestions.py:186-188 | a comma-joined string of clean fields gives the same message as the list of fields |
| Suggestions.SubqueryAdvice | query_sheriff/inspector/suggestions.py:216-240 | JOIN advice iff WHERE … IN (SELECT; otherwise CTE advice iff `(select` occurs more than once; otherwise the default |
| Suggestions.CartesianAdvice | query_sheriff/inspector/suggestions.py:242-257 | CROSS JOIN advice iff the upper-cased SQL has CROSS JOIN, else ON/USING advice |
| Suggestions.AvoidingLocksAdvice | query_sheriff/inspector/suggestions.py:279-286 | the lock message with exactly the formatted time between its fixed parts |
| Suggestions.TransactionAdvice | query_sheriff/inspector/suggestions.py:297-305 | the transaction message with exactly the formatted time between its fixed parts |
| Detectors.Report | query_sheriff/inspector/analyzer.py:290-346 | a one-finding-per-query rule reports exactly the matching queries, one finding each |
| Detectors.ReportConcat | query_sheriff/inspector/analyzer.py:290-346 | a rule over a split log is the rule over each part, in order |
| Detectors.Timed | query_sheriff/inspector/analyzer.py:242-264 | a rule reading `query['time']` raises KeyError iff some query has no time, else reports as usual |
| Detectors.Collect | query_sheriff/inspector/analyzer.py:87-155 | a detector of raising per-query rules fails with the first query's error, else gathers all their findings |
| Detectors.WhereIndexes | query_sheriff/inspector/analyzer.py:94-98 | a query without `WHERE` gives nothing; findings are WHERE missing-index findings of that query |
| Detectors.DetectMissingIndexes | query_sheriff/inspector/analyzer.py:87-99 | fails with the index-suggestion ValueError iff some query's rule fails; every finding is for a query with `WHERE` |
| Detectors.JoinIndexes | query_sheriff/inspector/analyzer.py:108-123 | no joins or no tables give nothing; findings are JOIN missing-index findings of that query |
| Detectors.ScannedClauseIndexes | query_sheriff/inspector/analyzer.py:113-123 | the join rule runs the clause rule on the left key column, and a failure there yields nothing |
| Detectors.DetectJoinWithoutIndex | query_sheriff/inspector/analyzer.py:101-125 | exactly the findings of the per-query join rule, for queries with joins and tables |
| Detectors.OrderByIndexes | query_sheriff/inspector/analyzer.py:132-139 | an `ORDER BY` followed only by whitespace and then `;` or the end, anywhere in the text, raises its ValueError; the only other error is the index suggestion's ValueError; findings are ORDER BY missing-index findings for the query |
| Detectors.DetectInefficientOrderBy | query_sheriff/inspector/analyzer.py:127-140 | any bare ORDER BY makes the detector fail; it succeeds iff every query's rule does |
| Detectors.AggregateIndexes | query_sheriff/inspector/analyzer.py:147-154 | an invalid aggregate raises its ValueError; findings are aggregate missing-index findings |
| Detectors.DetectInefficientAggregates | query_sheriff/inspector/analyzer.py:142-155 | any invalid aggregate makes the detector fail; it succeeds iff every query's rule does |
| Detectors.DetectUnnecessaryDistinct | query_sheriff/inspector/analyzer.py:157-185 | one DISTINCT finding per query whose DISTINCT is unnecessary, naming the selected fields |
| Detectors.DetectSubqueries | query_sheriff/inspector/analyzer.py:187-208 | at most one finding per query: exactly for queries with `(SELECT … FROM`, with the subquery advice |
| Detectors.DetectCartesianProducts | query_sheriff/inspector/analyzer.py:210-240 | a plain-JOIN finding for every `JOIN <word>` query and, independently, a CROSS JOIN finding for every CROSS JOIN query |
| Detectors.DetectInefficientPagination | query_sheriff/inspector/analyzer.py:348-373 | one finding per query with LIMIT and OFFSET whose first OFFSET exceeds the threshold |
| Detectors.DetectNonSargable | query_sheriff/inspector/analyzer.py:375-396 | one finding per query with a FUNCTION or EXPRESSION call in its WHERE clause |
| Detectors.DetectLockingIssues | query_sheriff/inspector/analyzer.py:398-430 | a locking finding for every query slower than the lock threshold (missing time counts as 0) and, independently, one for every query whose upper-cased SQL has LOCK |
| Detectors.DetectOveruseOfTransactions | query_sheriff/inspector/analyzer.py:432-455 | KeyError iff a query has no time; otherwise one finding per query with BEGIN and COMMIT running longer than the threshold |
| Detectors.DetectSlowQueries | query_sheriff/inspector/analyzer.py:242-264 | KeyError iff a query has no time; otherwise one finding per query slower than the threshold, with the slow-query advice |
| Detectors.DuplicateFindings | query_sheriff/inspector/analyzer.py:266-288 | each finding is a duplicate whose count is above 1 and at most the number of occurrences of its SQL |
| Detectors.DetectDuplicateQueries | query_sheriff/inspector/analyzer.py:266-288 | the counting loop computes the duplicate findings |
| Detectors.DuplicateCounts | query_sheriff/inspector/analyzer.py:273-288 | a SQL text occurring k times yields findings with counts 2, 3, …, k in order |
| Detectors.DuplicatePair | query_sheriff/test_query_sheriff/test_analyzer/test_analyzer.py:203-222 | the same query twice gives one duplicate finding with count 2 |
| Detectors.DetectMissingLimit | query_sheriff/inspector/analyzer.py:290-308 | one finding per query containing `SELECT` but not `LIMIT`, case-sensitively |
| Detectors.DetectFullTableScan | query_sheriff/inspector/analyzer.py:310-328 | one finding per query containing `SELECT` but not `WHERE`, case-sensitively |
| Detectors.DetectInefficientSelect | query_sheriff/inspector/analyzer.py:330-346 | one finding per query containing `SELECT *` |
| Analyzer.Analyze | query_sheriff/inspector/analyzer.py:29-49 | succeeds iff none of the raising detectors raises, then returns the concatenation of the seventeen detectors' findings in order; a failure is a ValueError or `KeyError('time')`, the latter only when a query has no time |
| Analyzer.AnalyzeKinds | query_sheriff/inspector/analyzer.py:29-49 | every finding `analyze` returns has one of the nineteen finding types |
| Analyzer.AnalyzeReports | query_sheriff/inspector/analyzer.py:29-49 | each `SELECT *`, missing-LIMIT, full-scan, `JOIN <word>`, long-lock, slow or long-transaction query of the log is reported by `analyze` |
| Analyzer.WrapRecords | query_sheriff/inspector/analyzer.py:559-565 | wrapping records as dictionary entries and reading them back is the identity |
| Analyzer.ManualInputTimed | query_sheriff/inspector/analyzer.py:537-570 | analyzing fetched manual input can fail only with a ValueError, never a KeyError |
| Analyzer.RenderedKinds | query_sheriff/inspector/suggestions.py:5-145 | every finding type except the ORDER BY, CROSS JOIN and explicit LOCK ones has a template |
| Analyzer.UnrenderedKinds | query_sheriff/inspector/suggestions.py:5-148 | the ORDER BY, CROSS JOIN and explicit LOCK findings render as the fallback text |
| Fetcher.FetchFromManualInput | query_sheriff/inspector/analyzer.py:537-570 | exactly the accepted inputs, stripped, each with empty params, time 0.01 and an empty stack trace; every result is valid and already stripped |
| Fetcher.FetchConcat | query_sheriff/inspector/analyzer.py:544-565 | fetching concatenated inputs concatenates the results, so input order is kept |
| Fetcher.BlankDropped | query_sheriff/inspector/analyzer.py:548-551 | a blank input is dropped |
| Fetcher.ManualInputExample | query_sheriff/test_query_sheriff/test_analyzer/test_analyzer.py:425-429 | of `SELECT * FROM users` and `INVALID SQL` only the first is kept |
| DetectorExamples.SelectShapeExample | query_sheriff/test_query_sheriff/test_analyzer/test_analyzer.py:224-279 | `SELECT * FROM users` gives one missing-LIMIT, one full-scan and one `SELECT *` finding |
| DetectorExamples.CartesianExample | query_sheriff/test_query_sheriff/test_analyzer/test_analyzer.py:163-181 | a JOIN without ON and a CROSS JOIN give three findings |
| DetectorExamples.LockingExample | query_sheriff/test_query_sheriff/test_analyzer/test_analyzer.py:318-336 | a LOCK TABLE statement gives one explicit LOCK finding |
| DetectorExamples.TransactionExample | query_sheriff/test_query_sheriff/test_analyzer/test_analyzer.py:338-355 | a 6-second BEGIN … COMMIT gives one transaction finding |
| DetectorExamples.SlowQueryExample | query_sheriff/test_query_sheriff/test_analyzer/test_analyzer.py:183-201 | two queries slower than 0.5 s give two slow findings |
| DetectorExamples.SubqueryExample | query_sheriff/test_query_sheriff/test_analyzer/test_analyzer.py:143-161 | a FROM subquery and an EXISTS subquery give one finding each |
| DetectorExamples.NonSargableExample | query_sheriff/test_query_sheriff/test_analyzer/test_analyzer.py:300-316 | a `FUNCTION(column)` in WHERE gives one finding |
| DetectorExamples.PaginationExample | query_sheriff/test_query_sheriff/test_analyzer/test_analyzer.py:281-298 | LIMIT 10 OFFSET 600 gives one pagination finding |

## Left out

- Database introspection: `is_small_table`, `is_composite_indexed`, `is_column_indexed`, `get_model_from_table`, `get_primary_keys`, `get_unique_fields` and the EXPLAIN call of `is_indexed` run vendor-specific SQL or consult Django's app registry; their answers are the `SchemaFacts` parameter (row estimates, constraints, indexed fields, keys, plan lines).
- `QueryCache` and `ExplainQuery`: a Redis cache, SHA-256 hashing and cursor execution.
- `WriteInefficienciesToFile`, the logger patching and `log_and_raise_error`: file I/O, wall-clock timestamps and global logging state.
- middleware.py and cli.py: the request cycle, execute wrappers, stack traces, click and `django.setup`.
- `QueryFetcher.fetch_from_log_file` and `fetch_from_simulated_request`: file reading and the HTTP test client.
- Parsing `time` strings with `float()` and its ValueError: times are `real`s given with the record.
- Suggestions.AvoidingLocksAdvice: the `.2f` rendering of seconds is the `formatSeconds` parameter of `Config`, because floating-point text formatting is not modelled.
- Suggestions.TransactionAdvice: the `.2f` rendering of seconds is the `formatSeconds` parameter of `Config`, for the same reason.
- Lists.Dedup: the order of `list(set(...))` is that of Python's hash table; the model fixes it to first occurrence.
- Indexes.Repr: non-ASCII and control characters are rendered with Python's escapes only for the ASCII range; the full escape table is not modelled.
- Unicode: `\w`, `\d`, `upper()`, `lower()` and `IGNORECASE` are modelled on ASCII; Unicode letters, digits and case mappings are not.
- Dictionaries without an `sql` key: the source raises KeyError; the model's records always carry SQL.
- Simplify.SimplifyQuery: its contract states only the whitespace normal form of the result. The `$<digits>` pass is characterised for all inputs (`Simplify.DollarRun`, `Simplify.DollarKeep`). The `%s` pass, the two clause removals and the whitespace collapse are stated only in part: what no longer occurs, and what is kept verbatim. The composition of the passes is worked through only on the repository's test query (`SimplifyExamples.SimplifyExample`), not stated for all inputs.
- Joins.JoinMatches: the exact regex backtracking of the join pattern's capture groups (trailing quotes kept in captures) is modelled by a scanner whose contract states only the character classes of the captures.
- Tables.ExtractSelectClause: the nested-subquery case the repository's own test leaves commented out is not singled out.

=== FILE: aggregates.dfy ===
/**
 * `extract_aggregate_functions`: the arguments of the SUM, AVG, COUNT, MIN
 * and MAX calls of a query, with nested calls, closing parentheses and
 * double quotes removed.
 */
module Aggregates {
  import opened Wrappers
  import opened Text
  import opened Records

  const InvalidAggregate := "Aggregate function contains empty or invalid columns."

  /**
   * The length of `(SUM|AVG|COUNT|MIN|MAX)` at `p`, case-insensitively (0 when
   * none fits). The names differ in their first two letters, so at most one
   * alternative can match and their order does not matter.
   */
  function AggregateNameLength(s: string, p: nat): (n: nat)
    ensures n == 0 || n == 3 || n == 5
    ensures n > 0 ==> p + n <= |s|
    ensures n > 0 <==> KeywordAt(s, p, "SUM") || KeywordAt(s, p, "AVG") || KeywordAt(s, p, "COUNT")
                       || KeywordAt(s, p, "MIN") || KeywordAt(s, p, "MAX")
  {
    if KeywordAt(s, p, "SUM") || KeywordAt(s, p, "AVG") || KeywordAt(s, p, "MIN") || KeywordAt(s, p, "MAX") then 3
    else if KeywordAt(s, p, "COUNT") then 5
    else 0
  }

  /**
   * `\s*([^)]+)\s*\)` just after the `(` at `a - 1`: the bounds of the group.
   * `[^)]+` runs to the first `)`. When only whitespace precedes that `)`, the
   * leading `\s*` gives back one character so that the group is not empty;
   * when nothing does, or no `)` follows, there is no match.
   */
  function Argument(s: string, a: nat): (r: Option<(nat, nat)>)
    requires a <= |s|
    ensures r.Some? ==> a <= r.value.0 < r.value.1 < |s| && s[r.value.1] == ')'
    ensures r.Some? ==> forall k | a <= k < r.value.1 :: s[k] != ')'
    ensures r.Some? ==> forall k | a <= k < r.value.0 :: IsSpace(s[k])
    ensures r.None? <==> RunEnd(s, a, NotClose) == |s| || RunEnd(s, a, NotClose) == a
  {
    var c := RunEnd(s, a, NotClose);
    if c == |s| || c == a then None
    else
      var w := SkipSpaces(s, a);
      assert w <= c by {
        assert !IsSpace(s[c]);
      }
      if w < c then Some((w, c)) else Some((c - 1, c))
  }

  /**
   * The aggregate pattern tried at `p`: the bounds of its group and the end
   * of the match. `\s*\(` after the name is forced, as no whitespace
   * character is `(`.
   */
  function AggregateMatch(s: string, p: nat): (r: Option<(nat, nat, nat)>)
    requires p <= |s|
    ensures r.Some? ==> p < r.value.0 < r.value.1 < r.value.2 <= |s| && r.value.2 == r.value.1 + 1
    ensures r.Some? ==> WordBoundary(s, p) && AggregateNameLength(s, p) > 0
    ensures r.Some? ==> Avoids(s[r.value.0..r.value.1], ')')
  {
    if !WordBoundary(s, p) || AggregateNameLength(s, p) == 0 then None
    else
      var o := SkipSpaces(s, p + AggregateNameLength(s, p));
      if o == |s| || s[o] != '(' then None
      else
        match Argument(s, o + 1)
        case None => None
        case Some((a, b)) =>
          var g := s[a..b];
          assert forall k | 0 <= k < |g| :: g[k] == s[a + k];
          Some((a, b, b + 1))
  }

  /** The aggregate pattern matches at `q` and captures `g`. */
  predicate CapturedAt(s: string, q: nat, g: string) {
    q <= |s| && AggregateMatch(s, q).Some?
    && g == s[AggregateMatch(s, q).value.0..AggregateMatch(s, q).value.1]
  }

  /** `re.findall` of the aggregate pattern from `p`: the captured arguments, in order. */
  function AggregateMatches(s: string, p: nat): (r: seq<string>)
    requires p <= |s|
    ensures forall k | 0 <= k < |r| :: |r[k]| > 0 && Avoids(r[k], ')')
    decreases |s| - p
  {
    if p == |s| then []
    else
      match AggregateMatch(s, p)
      case Some((a, b, e)) => [s[a..b]] + AggregateMatches(s, e)
      case None => AggregateMatches(s, p + 1)
  }

  /** Every argument the scan from `p` collects is captured by a match at or after `p`. */
  lemma AggregateMatchesSound(s: string, p: nat, k: nat)
    requires p <= |s| && k < |AggregateMatches(s, p)|
    ensures exists q: nat | p <= q < |s| :: CapturedAt(s, q, AggregateMatches(s, p)[k])
  {
    var q := CapturePosition(s, p, k);
  }

  /** Where the scan from `p` found its `k`-th argument. */
  lemma {:induction false} CapturePosition(s: string, p: nat, k: nat) returns (q: nat)
    requires p <= |s| && k < |AggregateMatches(s, p)|
    ensures p <= q < |s| && CapturedAt(s, q, AggregateMatches(s, p)[k])
    decreases |s| - p
  {
    assert p < |s|;
    if AggregateMatch(s, p).None? {
      ScanMiss(s, p);
      assert AggregateMatches(s, p)[k] == AggregateMatches(s, p + 1)[k];
      q := CapturePosition(s, p + 1, k);
    } else {
      var m := AggregateMatch(s, p).value;
      ScanHit(s, p);
      ConsIndex(s[m.0..m.1], AggregateMatches(s, m.2), AggregateMatches(s, p), k);
      if k == 0 {
        q := p;
      } else {
        q := CapturePosition(s, m.2, k - 1);
      }
    }
  }

  /** No match at `p`: the scan moves on to `p + 1`. */
  lemma ScanMiss(s: string, p: nat)
    requires p < |s| && AggregateMatch(s, p).None?
    ensures AggregateMatches(s, p) == AggregateMatches(s, p + 1)
  {
  }

  /** A match at `p`: the scan collects its group and moves on to its end. */
  lemma ScanHit(s: string, p: nat)
    requires p < |s| && AggregateMatch(s, p).Some?
    ensures AggregateMatches(s, p)
      == [s[AggregateMatch(s, p).value.0..AggregateMatch(s, p).value.1]] + AggregateMatches(s, AggregateMatch(s, p).value.2)
  {
  }

  /** The element at `k` of a sequence that starts with `x`. */
  lemma ConsIndex<T>(x: T, rest: seq<T>, r: seq<T>, k: nat)
    requires r == [x] + rest && k < |r|
    ensures r[k] == if k == 0 then x else rest[k - 1]
  {
  }

  /**
   * The scan from `p` takes the first match at or after `p`, then carries on
   * where that match ends.
   */
  lemma AggregateMatchesNext(s: string, p: nat, q: nat)
    requires p <= q <= |s|
    requires forall m | p <= m < q :: AggregateMatch(s, m).None?
    requires AggregateMatch(s, q).Some?
    ensures AggregateMatches(s, p)
      == [s[AggregateMatch(s, q).value.0..AggregateMatch(s, q).value.1]] + AggregateMatches(s, AggregateMatch(s, q).value.2)
  {
    AggregateMatchesSkip(s, p, q);
  }

  /** The scan collects nothing across positions where no aggregate call starts. */
  lemma {:induction false} AggregateMatchesSkip(s: string, p: nat, q: nat)
    requires p <= q <= |s|
    requires forall m | p <= m < q :: AggregateMatch(s, m).None?
    ensures AggregateMatches(s, p) == AggregateMatches(s, q)
    decreases q - p
  {
    if p < q {
      AggregateMatchesSkip(s, p + 1, q);
    }
  }

  /** The five function names of the pattern, in upper case. */
  predicate AggregateName(n: string) {
    n == "SUM" || n == "AVG" || n == "COUNT" || n == "MIN" || n == "MAX"
  }

  /**
   * The pattern can match at `p` with its `(` at `o` and its group ending at
   * `c`: a name at a word boundary, optional whitespace, `(`, and the group.
   */
  predicate CallShape(s: string, p: nat, o: nat, c: nat) {
    && p <= |s| && WordBoundary(s, p) && AggregateNameLength(s, p) > 0
    && SkipSpaces(s, p + AggregateNameLength(s, p)) == o < |s| && s[o] == '('
    && Argument(s, o + 1) == Some((o + 1, c))
  }

  /** A function name written at `p` after a non-word character starts a match there. */
  lemma NameAt(s: string, p: nat, n: string)
    requires AggregateName(n)
    requires p + |n| <= |s| && s[p..p + |n|] == n
    requires p > 0 ==> !IsWordChar(s[p - 1])
    ensures WordBoundary(s, p) && AggregateNameLength(s, p) == |n|
  {
    KeywordAtSlice(s, p, n);
    if n == "COUNT" {
      NotKeywordByFirst(s, p, "SUM");
      NotKeywordByFirst(s, p, "AVG");
      NotKeywordByFirst(s, p, "MIN");
      NotKeywordByFirst(s, p, "MAX");
    }
    assert s[p] == n[0] && IsWordChar(s[p]);
  }

  /** An argument without `)` that does not start with whitespace, then `)`: the group is exactly the argument. */
  lemma ArgumentIs(s: string, a: nat, g: string)
    requires |g| > 0 && !IsSpace(g[0]) && Avoids(g, ')')
    requires a + |g| < |s| && s[a..a + |g|] == g && s[a + |g|] == ')'
    ensures Argument(s, a) == Some((a, a + |g|))
  {
    var c := a + |g|;
    assert forall m | a <= m < c :: s[m] == g[m - a];
    RunEndTo(s, a, c, NotClose);
    SkipSpacesTo(s, a, a);
  }

  /**
   * A call `n(g)` at `p`, after a non-word character, whose argument has no
   * `)` and does not start with whitespace, has the shape of a match whose
   * group is exactly `g`.
   */
  lemma CallShapeAt(s: string, p: nat, n: string, g: string)
    requires AggregateName(n)
    requires |g| > 0 && !IsSpace(g[0]) && Avoids(g, ')')
    requires p + |n| + |g| + 2 <= |s|
    requires p > 0 ==> !IsWordChar(s[p - 1])
    requires s[p..p + |n|] == n && s[p + |n|] == '('
    requires s[p + |n| + 1..p + |n| + 1 + |g|] == g && s[p + |n| + 1 + |g|] == ')'
    ensures CallShape(s, p, p + |n|, p + |n| + 1 + |g|)
  {
    var o := p + |n|;
    NameAt(s, p, n);
    SkipSpacesTo(s, o, o);
    ArgumentIs(s, o + 1, g);
  }

  /** A call of that shape is where the pattern matches. */
  lemma MatchFromParts(s: string, p: nat, o: nat, c: nat)
    requires CallShape(s, p, o, c)
    ensures AggregateMatch(s, p) == Some((o + 1, c, c + 1))
  {
  }

  /** A call at `p` whose group is `g` puts `g` first in the scan from `p`. */
  lemma ScanStep(s: string, p: nat, o: nat, c: nat, g: string)
    requires CallShape(s, p, o, c) && s[o + 1..c] == g
    ensures AggregateMatches(s, p) == [g] + AggregateMatches(s, c + 1)
  {
    MatchFromParts(s, p, o, c);
    ScanHitAt(s, p, o + 1, c, c + 1);
  }

  /** `ScanHit` with the bounds of the match named. */
  lemma ScanHitAt(s: string, p: nat, a: nat, b: nat, e: nat)
    requires p < |s| && AggregateMatch(s, p) == Some((a, b, e))
    ensures AggregateMatches(s, p) == [s[a..b]] + AggregateMatches(s, e)
  {
    ScanHit(s, p);
  }

  /**
   * No aggregate name can start at `m`: `m` is not at a word boundary, or the
   * character there is not the first letter of a name, or the next one is
   * not its second letter.
   */
  predicate NoCallStart(s: string, m: nat)
    requires m < |s|
  {
    || !WordBoundary(s, m)
    || UpperChar(s[m]) !in "SACM"
    || m + 1 == |s|
    || UpperChar(s[m + 1]) !in "UVOIA"
  }

  /** The scan skips a stretch where no aggregate name can start. */
  lemma NoCallGap(s: string, p: nat, q: nat)
    requires p <= q <= |s|
    requires forall m | p <= m < q :: NoCallStart(s, m)
    ensures AggregateMatches(s, p) == AggregateMatches(s, q)
  {
    forall m | p <= m < q ensures AggregateMatch(s, m).None? {
      assert NoCallStart(s, m);
      if WordBoundary(s, m) {
        NotKeywordByPair(s, m, "SUM");
        NotKeywordByPair(s, m, "AVG");
        NotKeywordByPair(s, m, "COUNT");
        NotKeywordByPair(s, m, "MIN");
        NotKeywordByPair(s, m, "MAX");
      }
    }
    AggregateMatchesSkip(s, p, q);
  }

  /** A query that names no aggregate function has no aggregate arguments. */
  lemma NoAggregateName(s: string)
    requires forall m | 0 <= m <= |s| :: AggregateNameLength(s, m) == 0
    ensures AggregateMatches(s, 0) == []
  {
    AggregateMatchesSkip(s, 0, |s|);
  }

  /**
   * `\b\w+\s*\(\s*` at `p`: the end of a call prefix. The word has to start
   * at `p`, and its greedy run is forced, since a word character can be
   * neither whitespace nor `(`.
   */
  function CallPrefix(t: string, p: nat): (r: Option<nat>)
    requires p <= |t|
    ensures r.Some? ==> p < r.value <= |t| && IsWordChar(t[p]) && WordBoundary(t, p)
    ensures r.Some? ==> exists o | p < o < r.value :: t[o] == '('
  {
    if p < |t| && IsWordChar(t[p]) && WordBoundary(t, p) then
      var o := SkipSpaces(t, RunEnd(t, p, Word));
      if o < |t| && t[o] == '(' then Some(SkipSpaces(t, o + 1)) else None
    else None
  }

  /**
   * `re.sub(r'\b\w+\s*\(\s*', '', t)` from `p`: every call prefix is deleted.
   * The word boundary is judged on the original text, as `re.sub` does.
   * The length bound is a proof aid for the lemmas below; the source makes
   * no such promise.
   */
  function RemoveCallPrefixes(t: string, p: nat): (r: string)
    requires p <= |t|
    ensures |r| <= |t| - p
    decreases |t| - p
  {
    if p == |t| then ""
    else
      match CallPrefix(t, p)
      case Some(m) => RemoveCallPrefixes(t, m)
      case None => [t[p]] + RemoveCallPrefixes(t, p + 1)
  }

  /** One captured argument, cleaned as the source does. */
  function CleanArgument(g: string): (r: string)
    ensures Avoids(r, ')') && Avoids(r, '"')
    ensures |r| > 0 ==> !IsSpace(r[0]) && !IsSpace(r[|r| - 1])
  {
    var noClose := DeleteChar(RemoveCallPrefixes(g, 0), ')');
    DeleteCharAvoids(noClose, '"', ')');
    StripAvoids(DeleteChar(noClose, '"'), ')');
    StripAvoids(DeleteChar(noClose, '"'), '"');
    Strip(DeleteChar(noClose, '"'))
  }

  /** The arguments cleaned one by one. */
  function CleanArguments(gs: seq<string>): (r: seq<string>)
    ensures |r| == |gs|
    ensures forall k | 0 <= k < |r| :: r[k] == CleanArgument(gs[k])
  {
    seq(|gs|, k requires 0 <= k < |gs| => CleanArgument(gs[k]))
  }

  /**
   * `extract_aggregate_functions`: the cleaned argument of every aggregate
   * call, in order; a `ValueError` when an argument is blank or cleans to
   * nothing.
   */
  function ExtractAggregateFunctions(sql: string): (r: Result<seq<string>, Error>)
    ensures r.Err? <==> exists k | 0 <= k < |AggregateMatches(sql, 0)| :: CleanArgument(AggregateMatches(sql, 0)[k]) == ""
    ensures r.Err? ==> r.error == ValueError(InvalidAggregate)
    ensures r.Ok? ==> |r.value| == |AggregateMatches(sql, 0)|
    ensures r.Ok? ==> forall k | 0 <= k < |r.value| :: r.value[k] == CleanArgument(AggregateMatches(sql, 0)[k]) && r.value[k] != ""
  {
    var groups := AggregateMatches(sql, 0);
    if exists k | 0 <= k < |groups| :: Strip(groups[k]) == "" then
      BlankArguments(groups);
      assert groups == AggregateMatches(sql, 0);
      Err(ValueError(InvalidAggregate))
    else
      var cols := CleanArguments(groups);
      if exists k | 0 <= k < |cols| :: cols[k] == "" then Err(ValueError(InvalidAggregate))
      else Ok(cols)
  }

  // ---------------------------------------------------------------------------
  // What the cleaning does to the arguments it is meant for

  /** The blank check of the source is subsumed by the empty check after cleaning. */
  lemma BlankArgument(g: string)
    requires Strip(g) == ""
    ensures CleanArgument(g) == ""
  {
    var ab := StripBounds(g);
    assert forall k | 0 <= k < |g| :: IsSpace(g[k]);
    NoCallInSpaces(g, 0);
    var noClose := DeleteChar(RemoveCallPrefixes(g, 0), ')');
    DeleteCharKeep(g, ')');
    DeleteCharKeep(g, '"');
  }

  /** Some blank argument means some argument cleans to nothing. */
  lemma BlankArguments(gs: seq<string>)
    requires exists k | 0 <= k < |gs| :: Strip(gs[k]) == ""
    ensures exists k | 0 <= k < |gs| :: CleanArgument(gs[k]) == ""
  {
    var k :| 0 <= k < |gs| && Strip(gs[k]) == "";
    BlankArgument(gs[k]);
  }

  /** Whitespace holds no call prefix, so the removal keeps it as it is. */
  lemma {:induction false} NoCallInSpaces(g: string, p: nat)
    requires p <= |g|
    requires forall k | p <= k < |g| :: IsSpace(g[k])
    ensures RemoveCallPrefixes(g, p) == g[p..]
    decreases |g| - p
  {
    if p < |g| {
      assert CallPrefix(g, p).None?;
      NoCallInSpaces(g, p + 1);
      assert g[p..] == [g[p]] + g[p + 1..];
    }
  }

  /** Text without `(` holds no call prefix, so the removal keeps it as it is. */
  lemma {:induction false} NoCallWithoutParen(g: string, p: nat)
    requires p <= |g|
    requires forall k | p <= k < |g| :: g[k] != '('
    ensures RemoveCallPrefixes(g, p) == g[p..]
    decreases |g| - p
  {
    if p < |g| {
      assert CallPrefix(g, p).None?;
      NoCallWithoutParen(g, p + 1);
      assert g[p..] == [g[p]] + g[p + 1..];
    }
  }

  /** A plain column argument, without parentheses or quotes, only loses its surrounding whitespace. */
  lemma PlainArgument(g: string)
    requires Avoids(g, '(') && Avoids(g, ')') && Avoids(g, '"')
    ensures CleanArgument(g) == Strip(g)
  {
    NoCallWithoutParen(g, 0);
    DeleteCharKeep(g, ')');
    DeleteCharKeep(g, '"');
  }

  /**
   * A nested call `f(x` as the capture stops at the first `)`: the function
   * name and its parenthesis are removed and the plain column `x` remains.
   */
  lemma NestedArgument(f: string, x: string)
    requires |f| > 0 && forall k | 0 <= k < |f| :: IsWordChar(f[k])
    requires |x| > 0 && !IsSpace(x[0])
    requires Avoids(x, '(') && Avoids(x, ')') && Avoids(x, '"')
    ensures CleanArgument(f + "(" + x) == Strip(x)
  {
    var g := f + "(" + x;
    assert forall k | 0 <= k < |f| :: g[k] == f[k];
    assert g[|f|] == '(';
    assert RunEnd(g, 0, Word) == |f|;
    assert SkipSpaces(g, |f|) == |f|;
    assert SkipSpaces(g, |f| + 1) == |f| + 1;
    assert CallPrefix(g, 0) == Some(|f| + 1);
    assert g[|f| + 1..] == x;
    NoCallWithoutParen(g, |f| + 1);
    DeleteCharKeep(x, ')');
    DeleteCharKeep(x, '"');
  }

  // ---------------------------------------------------------------------------
  // Scanning text assembled from pieces

  /**
   * No aggregate name can start at `k` of `t`, judged inside `t` alone: the
   * character is not a first letter of a name, or it is preceded by a word
   * character, or followed by a character that is not a second letter.
   */
  predicate NoCallHere(t: string, k: nat)
    requires k < |t|
  {
    || UpperChar(t[k]) !in "SACM"
    || (k > 0 && IsWordChar(t[k - 1]))
    || (k + 1 < |t| && UpperChar(t[k + 1]) !in "UVOIA")
  }

  /** `NoCallHere` at every position of `t` from `k` on. */
  predicate NoCallFrom(t: string, k: nat)
    decreases |t| - k
  {
    k >= |t| || (NoCallHere(t, k) && NoCallFrom(t, k + 1))
  }

  lemma {:induction false} NoCallFromAt(t: string, k: nat, j: nat)
    requires NoCallFrom(t, k) && k <= j < |t|
    ensures NoCallHere(t, j)
    decreases j - k
  {
    if k < j {
      NoCallFromAt(t, k + 1, j);
    }
  }

  /** Where `s[p..q]` has no call start of its own, `s` has none in `[p, q)`. */
  lemma NoCallStarts(s: string, p: nat, q: nat)
    requires p <= q <= |s| && NoCallFrom(s[p..q], 0)
    ensures forall m | p <= m < q :: NoCallStart(s, m)
  {
    var t := s[p..q];
    forall m | p <= m < q ensures NoCallStart(s, m) {
      var k := m - p;
      NoCallFromAt(t, 0, k);
      assert s[m] == t[k];
      if k > 0 {
        assert s[m - 1] == t[k - 1];
      }
      if k + 1 < |t| {
        assert s[m + 1] == t[k + 1];
      }
      if UpperChar(t[k]) in "SACM" {
        assert IsWordChar(t[k]);
      }
    }
  }

  /** The scan skips a stretch of text in which no aggregate name can start. */
  lemma NoCallText(s: string, p: nat, q: nat)
    requires p <= q <= |s| && NoCallFrom(s[p..q], 0)
    ensures AggregateMatches(s, p) == AggregateMatches(s, q)
  {
    NoCallStarts(s, p, q);
    NoCallGap(s, p, q);
  }

  /**
   * No call start in `[p, q)`, then a match at `q` whose group `[o + 1, c)`
   * is `g`: the scan from `p` captures `g` and carries on after the `)`.
   */
  lemma CallStep(s: string, p: nat, q: nat, o: nat, c: nat, g: string)
    requires p <= q <= |s| && forall m | p <= m < q :: NoCallStart(s, m)
    requires CallShape(s, q, o, c) && s[o + 1..c] == g
    ensures AggregateMatches(s, p) == [g] + AggregateMatches(s, c + 1)
  {
    NoCallGap(s, p, q);
    ScanStep(s, q, o, c, g);
  }

  /** Where the pieces of a call written out after `pre` and `t` sit in the text. */
  lemma CallLayout(pre: string, t: string, n: string, g: string, post: string)
    ensures var s := pre + t + n + "(" + g + ")" + post;
      var c := |pre| + |t|;
      && c + |n| + |g| + 2 <= |s|
      && s[|pre|..c] == t && (|t| > 0 ==> s[c - 1] == t[|t| - 1])
      && s[c..c + |n|] == n && s[c + |n|] == '('
      && s[c + |n| + 1..c + |n| + 1 + |g|] == g && s[c + |n| + 1 + |g|] == ')'
  {
    var s := pre + t + n + "(" + g + ")" + post;
    assert s == pre + t + (n + "(" + g + ")" + post);
    Middle(pre, t, n + "(" + g + ")" + post);
    assert s == (pre + t) + n + ("(" + g + ")" + post);
    Middle(pre + t, n, "(" + g + ")" + post);
    assert s == (pre + t + n + "(") + g + (")" + post);
    Middle(pre + t + n + "(", g, ")" + post);
  }

  /** A column reference such as `users.age`: word characters and dots. */
  predicate PlainColumn(g: string) {
    |g| > 0 && forall k | 0 <= k < |g| :: IsWordChar(g[k]) || g[k] == '.'
  }

  /** A plain column is captured as it is and cleans to itself. */
  lemma PlainColumnClean(g: string)
    requires PlainColumn(g)
    ensures !IsSpace(g[0]) && Avoids(g, ')')
    ensures CleanArgument(g) == g
  {
    assert forall k | 0 <= k < |g| :: g[k] != '(' && g[k] != ')' && g[k] != '"' && !IsSpace(g[k]);
    PlainArgument(g);
    StripNoSpaceEnds(g);
  }

  // ---------------------------------------------------------------------------
  // The cases of test_utils.py

  /** Where the pieces of `SELECT SUM(g1), COUNT(g2) FROM users` sit. */
  lemma BasicAggregatesLayout(s: string, g1: string, g2: string)
    requires |g1| == 9 && |g2| == 8
    requires s == "SELECT " + "SUM" + "(" + g1 + ")" + ", " + "COUNT" + "(" + g2 + ")" + " FROM users"
    ensures |s| == 49
    ensures s[0..7] == "SELECT " && s[6] == ' ' && s[7..10] == "SUM" && s[10] == '('
    ensures s[11..20] == g1 && s[20] == ')'
    ensures s[21..23] == ", " && s[22] == ' ' && s[23..28] == "COUNT" && s[28] == '('
    ensures s[29..37] == g2 && s[37] == ')'
    ensures s[38..49] == " FROM users"
  {
    var x1 := "SELECT " + "SUM" + "(" + g1 + ")";
    var tail := ", " + "COUNT" + "(" + g2 + ")" + " FROM users";
    assert s == "" + "SELECT " + "SUM" + "(" + g1 + ")" + tail;
    CallLayout("", "SELECT ", "SUM", g1, tail);
    assert s == x1 + ", " + "COUNT" + "(" + g2 + ")" + " FROM users";
    CallLayout(x1, ", ", "COUNT", g2, " FROM users");
    assert s == (x1 + ", " + "COUNT" + "(" + g2 + ")") + " FROM users" + "";
    Middle(x1 + ", " + "COUNT" + "(" + g2 + ")", " FROM users", "");
  }

  /** When every collected argument cleans to something, the result is the cleaned arguments. */
  lemma ExtractCleaned(s: string, gs: seq<string>, cs: seq<string>)
    requires AggregateMatches(s, 0) == gs && |cs| == |gs|
    requires forall k | 0 <= k < |gs| :: CleanArgument(gs[k]) == cs[k] != ""
    ensures ExtractAggregateFunctions(s) == Ok(cs)
  {
    var r := ExtractAggregateFunctions(s);
    assert r.Ok?;
    assert r.value == cs;
  }

  /** The gaps of the test queries before and between the calls hold no call start. */
  lemma LeadGaps()
    ensures NoCallFrom("SELECT ", 0) && NoCallFrom(", ", 0)
  {
  }

  /** The gaps of the test queries after the last call hold no call start. */
  lemma TailGaps()
    ensures NoCallFrom(" FROM users", 0) && NoCallFrom(") FROM users", 0)
  {
    assert NoCallFrom(" FROM users", 8);
    assert NoCallFrom(" FROM users", 4);
    assert NoCallFrom(") FROM users", 8);
    assert NoCallFrom(") FROM users", 4);
  }

  /** The column names of the test queries. */
  lemma TestColumns(age: string, id: string)
    requires age == "users.age" && id == "users.id"
    ensures PlainColumn(age) && PlainColumn(id)
    ensures Avoids(id, '(') && Avoids(id, ')') && Avoids(id, '"')
    ensures forall k | 0 <= k < |"COUNT"| :: IsWordChar("COUNT"[k])
  {
  }

  /** The layout of the basic case, read as gaps without call starts and two call shapes. */
  lemma BasicAggregatesFacts(s: string, g1: string, g2: string)
    requires PlainColumn(g1) && PlainColumn(g2) && |g1| == 9 && |g2| == 8 && |s| == 49
    requires s[0..7] == "SELECT " && s[6] == ' ' && s[7..10] == "SUM" && s[10] == '('
    requires s[11..20] == g1 && s[20] == ')'
    requires s[21..23] == ", " && s[22] == ' ' && s[23..28] == "COUNT" && s[28] == '('
    requires s[29..37] == g2 && s[37] == ')'
    requires s[38..49] == " FROM users"
    ensures forall m | 0 <= m < 7 :: NoCallStart(s, m)
    ensures CallShape(s, 7, 10, 20)
    ensures forall m | 21 <= m < 23 :: NoCallStart(s, m)
    ensures CallShape(s, 23, 28, 37)
    ensures forall m | 38 <= m < 49 :: NoCallStart(s, m)
  {
    LeadGaps();
    TailGaps();
    PlainColumnClean(g1);
    PlainColumnClean(g2);
    NoCallStarts(s, 0, 7);
    CallShapeAt(s, 7, "SUM", g1);
    NoCallStarts(s, 21, 23);
    CallShapeAt(s, 23, "COUNT", g2);
    NoCallStarts(s, 38, 49);
  }

  /** The scan of `SELECT SUM(g1), COUNT(g2) FROM users` collects both columns, in order. */
  lemma BasicAggregatesScan(s: string, g1: string, g2: string)
    requires |s| == 49
    requires forall m | 0 <= m < 7 :: NoCallStart(s, m)
    requires CallShape(s, 7, 10, 20) && s[11..20] == g1
    requires forall m | 21 <= m < 23 :: NoCallStart(s, m)
    requires CallShape(s, 23, 28, 37) && s[29..37] == g2
    requires forall m | 38 <= m < 49 :: NoCallStart(s, m)
    ensures AggregateMatches(s, 0) == [g1, g2]
  {
    CallStep(s, 0, 7, 10, 20, g1);
    CallStep(s, 21, 23, 28, 37, g2);
    NoCallGap(s, 38, 49);
  }

  /** `SELECT SUM(users.age), COUNT(users.id) FROM users` gives both columns, in order. */
  lemma BasicAggregatesExample(s: string, g1: string, g2: string)
    requires g1 == "users.age" && g2 == "users.id"
    requires s == "SELECT " + "SUM" + "(" + g1 + ")" + ", " + "COUNT" + "(" + g2 + ")" + " FROM users"
    ensures ExtractAggregateFunctions(s) == Ok([g1, g2])
  {
    BasicAggregatesLayout(s, g1, g2);
    TestColumns(g1, g2);
    BasicAggregatesFromLayout(s, g1, g2);
  }

  /** Two plain columns laid out as in the basic case come back as they are, in order. */
  lemma BasicAggregatesFromLayout(s: string, g1: string, g2: string)
    requires PlainColumn(g1) && PlainColumn(g2) && |g1| == 9 && |g2| == 8 && |s| == 49
    requires s[0..7] == "SELECT " && s[6] == ' ' && s[7..10] == "SUM" && s[10] == '('
    requires s[11..20] == g1 && s[20] == ')'
    requires s[21..23] == ", " && s[22] == ' ' && s[23..28] == "COUNT" && s[28] == '('
    requires s[29..37] == g2 && s[37] == ')'
    requires s[38..49] == " FROM users"
    ensures ExtractAggregateFunctions(s) == Ok([g1, g2])
  {
    BasicAggregatesFacts(s, g1, g2);
    BasicAggregatesResult(s, g1, g2);
  }

  /** The basic case from the facts of its layout. */
  lemma BasicAggregatesResult(s: string, g1: string, g2: string)
    requires PlainColumn(g1) && PlainColumn(g2) && |s| == 49
    requires forall m | 0 <= m < 7 :: NoCallStart(s, m)
    requires CallShape(s, 7, 10, 20) && s[11..20] == g1
    requires forall m | 21 <= m < 23 :: NoCallStart(s, m)
    requires CallShape(s, 23, 28, 37) && s[29..37] == g2
    requires forall m | 38 <= m < 49 :: NoCallStart(s, m)
    ensures ExtractAggregateFunctions(s) == Ok([g1, g2])
  {
    BasicAggregatesScan(s, g1, g2);
    PlainColumnsClean(s, g1, g2);
  }

  /** Two collected plain columns come back as they are, in order. */
  lemma PlainColumnsClean(s: string, g1: string, g2: string)
    requires PlainColumn(g1) && PlainColumn(g2) && AggregateMatches(s, 0) == [g1, g2]
    ensures ExtractAggregateFunctions(s) == Ok([g1, g2])
  {
    PlainColumnClean(g1);
    PlainColumnClean(g2);
    var gs := [g1, g2];
    forall k | 0 <= k < |gs| ensures CleanArgument(gs[k]) == gs[k] != "" {
      assert gs[k] == if k == 0 then g1 else g2;
    }
    ExtractCleaned(s, gs, gs);
  }

  /** Where the pieces of `SELECT SUM(g) FROM users` with a stray `)` sit. */
  lemma NestedAggregatesLayout(s: string, g: string)
    requires |g| == 14
    requires s == "SELECT " + "SUM" + "(" + g + ")" + ") FROM users"
    ensures |s| == 38
    ensures s[0..7] == "SELECT " && s[6] == ' ' && s[7..10] == "SUM" && s[10] == '('
    ensures s[11..25] == g && s[25] == ')'
    ensures s[26..38] == ") FROM users"
  {
    var x := "SELECT " + "SUM" + "(" + g + ")";
    assert s == "" + "SELECT " + "SUM" + "(" + g + ")" + ") FROM users";
    CallLayout("", "SELECT ", "SUM", g, ") FROM users");
    assert s == x + ") FROM users" + "";
    Middle(x, ") FROM users", "");
  }

  /** The layout of the nested case, read as gaps without call starts and one call shape. */
  lemma NestedAggregatesFacts(s: string, g: string)
    requires |g| == 14 && |s| == 38 && !IsSpace(g[0]) && Avoids(g, ')')
    requires s[0..7] == "SELECT " && s[6] == ' ' && s[7..10] == "SUM" && s[10] == '('
    requires s[11..25] == g && s[25] == ')'
    requires s[26..38] == ") FROM users"
    ensures forall m | 0 <= m < 7 :: NoCallStart(s, m)
    ensures CallShape(s, 7, 10, 25)
    ensures forall m | 26 <= m < 38 :: NoCallStart(s, m)
  {
    LeadGaps();
    TailGaps();
    NoCallStarts(s, 0, 7);
    CallShapeAt(s, 7, "SUM", g);
    NoCallStarts(s, 26, 38);
  }

  /** The scan of `SELECT SUM(g)) FROM users` collects `g` alone. */
  lemma NestedAggregatesScan(s: string, g: string)
    requires |s| == 38
    requires forall m | 0 <= m < 7 :: NoCallStart(s, m)
    requires CallShape(s, 7, 10, 25) && s[11..25] == g
    requires forall m | 26 <= m < 38 :: NoCallStart(s, m)
    ensures AggregateMatches(s, 0) == [g]
  {
    CallStep(s, 0, 7, 10, 25, g);
    NoCallGap(s, 26, 38);
  }

  /** A single collected nested call `f(x`, with a plain column `x`, gives `x`. */
  lemma NestedClean(s: string, f: string, x: string)
    requires |f| > 0 && forall k | 0 <= k < |f| :: IsWordChar(f[k])
    requires PlainColumn(x) && Avoids(x, '(') && Avoids(x, ')') && Avoids(x, '"')
    requires AggregateMatches(s, 0) == [f + "(" + x]
    ensures ExtractAggregateFunctions(s) == Ok([x])
  {
    PlainColumnClean(x);
    NestedArgument(f, x);
    ExtractCleaned(s, [f + "(" + x], [x]);
  }

  /**
   * `SELECT SUM(COUNT(users.id)) FROM users` gives `users.id`: the capture
   * stops at the first `)`, and cleaning removes `COUNT(`.
   */
  lemma NestedAggregatesExample(s: string, g: string, x: string)
    requires x == "users.id" && g == "COUNT(" + x
    requires s == "SELECT " + "SUM" + "(" + g + ")" + ") FROM users"
    ensures ExtractAggregateFunctions(s) == Ok([x])
  {
    NestedAggregatesLayout(s, g);
    TestColumns("users.age", x);
    assert g[0] == 'C';
    AvoidsConcat("COUNT(", x, ')');
    NestedAggregatesFacts(s, g);
    NestedAggregatesScan(s, g);
    assert g == "COUNT" + "(" + x;
    NestedClean(s, "COUNT", x);
  }

  /** `SELECT * FROM users` names no aggregate function and gives nothing. */
  lemma NoAggregatesExample(s: string)
    requires s == "SELECT * FROM users"
    ensures ExtractAggregateFunctions(s) == Ok([])
  {
    NoCallsInTable();
    assert s[0..|s|] == s;
    NoCallText(s, 0, |s|);
  }

  /** `SELECT * FROM users` holds no call start. */
  lemma NoCallsInTable()
    ensures NoCallFrom("SELECT * FROM users", 0)
  {
    NoCallsInTableFrom();
    assert NoCallFrom("SELECT * FROM users", 5);
  }

  /** `SELECT * FROM users` holds no call start from its `FROM` on. */
  lemma NoCallsInTableFrom()
    ensures NoCallFrom("SELECT * FROM users", 9)
  {
    assert NoCallFrom("SELECT * FROM users", 14);
  }
}

=== FILE: analyzer.dfy ===
/**
 * `QueryAnalyzer.analyze`: every detector run over the same captured
 * queries, their findings concatenated in a fixed order. A detector that
 * raises ends the analysis with its exception.
 */
module Analyzer {
  import opened Wrappers
  import opened Records
  import opened Detectors
  import NPlusOne
  import Suggestions
  import Fetcher

  /** The finding types the analyzer can report, in the order of the detector calls. */
  const FindingKinds: seq<string> := [
      NPlusOne.NPlusOneKind,
      MissingWhereIndexKind,
      MissingJoinIndexKind,
      MissingOrderByIndexKind,
      MissingAggregateIndexKind,
      DistinctKind,
      SubqueryKind,
      CartesianKind,
      CrossJoinKind,
      PaginationKind,
      NonSargableKind,
      LockingKind,
      ExplicitLockKind,
      TransactionKind,
      SlowKind,
      DuplicateKind,
      FullTableScanKind,
      MissingLimitKind,
      SelectStarKind]

  /** Every query of the log carries a time, so the timed detectors cannot raise. */
  predicate AllTimed(qs: seq<QueryRecord>) {
    forall q | q in qs :: q.time.Some?
  }

  /** None of the detectors that can raise does: the index rules succeed and every query has a time. */
  predicate Succeeds(ctx: Context, qs: seq<QueryRecord>) {
    && DetectMissingIndexes(ctx, qs).Ok?
    && DetectInefficientOrderBy(ctx, qs).Ok?
    && DetectInefficientAggregates(ctx, qs).Ok?
    && AllTimed(qs)
  }

  /**
   * The findings of every detector, concatenated in the order `analyze`
   * calls them, for a log on which no detector raises. The N+1 detector
   * sees the raw entries, the others the dictionaries among them.
   */
  function Findings(ctx: Context, entries: seq<Entry>): (r: seq<Finding>)
    requires Succeeds(ctx, QueryRecords(entries))
    ensures forall q | q in QueryRecords(entries) && SelectStar(ctx, q) :: SelectStarFinding(ctx, q) in r
  {
    var qs := QueryRecords(entries);
    NPlusOne.DetectNPlusOne(entries)
      + DetectMissingIndexes(ctx, qs).value
      + DetectJoinWithoutIndex(ctx, qs)
      + DetectInefficientOrderBy(ctx, qs).value
      + DetectInefficientAggregates(ctx, qs).value
      + DetectUnnecessaryDistinct(ctx, qs)
      + DetectSubqueries(ctx, qs)
      + DetectCartesianProducts(ctx, qs)
      + DetectInefficientPagination(ctx, qs)
      + DetectNonSargable(ctx, qs)
      + DetectLockingIssues(ctx, qs)
      + DetectOveruseOfTransactions(ctx, qs).value
      + DetectSlowQueries(ctx, qs).value
      + DuplicateFindings(qs)
      + DetectFullTableScan(ctx, qs)
      + DetectMissingLimit(ctx, qs)
      + DetectInefficientSelect(ctx, qs)
  }

  /**
   * `analyze`. The detectors that can raise are, in call order, the WHERE,
   * ORDER BY and aggregate index rules (`ValueError`) and the transaction
   * and slow-query rules (`KeyError('time')`); the first to raise ends the
   * analysis.
   */
  function Analyze(ctx: Context, entries: seq<Entry>): (r: Result<seq<Finding>, Error>)
    ensures r.Ok? <==> Succeeds(ctx, QueryRecords(entries))
    ensures r.Ok? ==> r.value == Findings(ctx, entries)
    ensures DetectMissingIndexes(ctx, QueryRecords(entries)).Err? ==> r == DetectMissingIndexes(ctx, QueryRecords(entries))
    ensures r.Err? ==> r.error.ValueError? || r.error == KeyError("time")
    ensures r.Err? && r.error.KeyError? ==> !AllTimed(QueryRecords(entries))
  {
    var qs := QueryRecords(entries);
    var _ :- DetectMissingIndexes(ctx, qs);
    var _ :- DetectInefficientOrderBy(ctx, qs);
    var _ :- DetectInefficientAggregates(ctx, qs);
    // The slow-query rule, called later, raises for exactly the logs this one raises for.
    var _ :- DetectOveruseOfTransactions(ctx, qs);
    Ok(Findings(ctx, entries))
  }

  /** Every finding of `fs` has one of the detector types. */
  predicate Typed(fs: seq<Finding>) {
    forall f | f in fs :: f.kind in FindingKinds
  }

  lemma KindTyped(fs: seq<Finding>, kind: string)
    requires forall f | f in fs :: f.kind == kind
    requires kind in FindingKinds
    ensures Typed(fs)
  {
  }

  lemma TypedConcat(xs: seq<Finding>, ys: seq<Finding>)
    requires Typed(xs) && Typed(ys)
    ensures Typed(xs + ys)
  {
  }

  /** The type constants of the detectors are all listed. */
  lemma KindsListed()
    ensures NPlusOne.NPlusOneKind in FindingKinds
    ensures MissingWhereIndexKind in FindingKinds && MissingJoinIndexKind in FindingKinds
    ensures MissingOrderByIndexKind in FindingKinds && MissingAggregateIndexKind in FindingKinds
    ensures DistinctKind in FindingKinds && SubqueryKind in FindingKinds
    ensures CartesianKind in FindingKinds && CrossJoinKind in FindingKinds
    ensures PaginationKind in FindingKinds && NonSargableKind in FindingKinds
    ensures LockingKind in FindingKinds && ExplicitLockKind in FindingKinds
    ensures TransactionKind in FindingKinds && SlowKind in FindingKinds && DuplicateKind in FindingKinds
    ensures FullTableScanKind in FindingKinds && MissingLimitKind in FindingKinds && SelectStarKind in FindingKinds
  {
    assert FindingKinds[0] == NPlusOne.NPlusOneKind;
    assert FindingKinds[1] == MissingWhereIndexKind && FindingKinds[2] == MissingJoinIndexKind;
    assert FindingKinds[3] == MissingOrderByIndexKind && FindingKinds[4] == MissingAggregateIndexKind;
  }

  /** The findings of the index rules have the missing-index types. */
  lemma IndexRulesTyped(ctx: Context, qs: seq<QueryRecord>)
    ensures DetectMissingIndexes(ctx, qs).Ok? ==> Typed(DetectMissingIndexes(ctx, qs).value)
    ensures Typed(DetectJoinWithoutIndex(ctx, qs))
    ensures DetectInefficientOrderBy(ctx, qs).Ok? ==> Typed(DetectInefficientOrderBy(ctx, qs).value)
    ensures DetectInefficientAggregates(ctx, qs).Ok? ==> Typed(DetectInefficientAggregates(ctx, qs).value)
  {
    KindsListed();
    if DetectMissingIndexes(ctx, qs).Ok? {
      KindTyped(DetectMissingIndexes(ctx, qs).value, MissingWhereIndexKind);
    }
    KindTyped(DetectJoinWithoutIndex(ctx, qs), MissingJoinIndexKind);
    if DetectInefficientOrderBy(ctx, qs).Ok? {
      KindTyped(DetectInefficientOrderBy(ctx, qs).value, MissingOrderByIndexKind);
    }
    if DetectInefficientAggregates(ctx, qs).Ok? {
      KindTyped(DetectInefficientAggregates(ctx, qs).value, MissingAggregateIndexKind);
    }
  }

  /** The findings of the DISTINCT, subquery and Cartesian rules have their rule's type. */
  lemma ClauseRulesTyped(ctx: Context, qs: seq<QueryRecord>)
    ensures Typed(DetectUnnecessaryDistinct(ctx, qs)) && Typed(DetectSubqueries(ctx, qs))
    ensures Typed(DetectCartesianProducts(ctx, qs))
  {
    KindsListed();
    KindTyped(DetectUnnecessaryDistinct(ctx, qs), DistinctKind);
    KindTyped(DetectSubqueries(ctx, qs), SubqueryKind);
  }

  /** The findings of the pagination, sargability and locking rules have their rule's type. */
  lemma PatternRulesTyped(ctx: Context, qs: seq<QueryRecord>)
    ensures Typed(DetectInefficientPagination(ctx, qs)) && Typed(DetectNonSargable(ctx, qs))
    ensures Typed(DetectLockingIssues(ctx, qs))
  {
    KindsListed();
    KindTyped(DetectInefficientPagination(ctx, qs), PaginationKind);
    KindTyped(DetectNonSargable(ctx, qs), NonSargableKind);
  }

  /** The findings of the SELECT-shape rules have their rule's type. */
  lemma ShapeRulesTyped(ctx: Context, qs: seq<QueryRecord>)
    ensures Typed(DetectFullTableScan(ctx, qs)) && Typed(DetectMissingLimit(ctx, qs)) && Typed(DetectInefficientSelect(ctx, qs))
  {
    KindsListed();
    KindTyped(DetectFullTableScan(ctx, qs), FullTableScanKind);
    KindTyped(DetectMissingLimit(ctx, qs), MissingLimitKind);
    KindTyped(DetectInefficientSelect(ctx, qs), SelectStarKind);
  }

  /** The findings of the timed rules, the duplicate rule and the N+1 rule have their rule's type. */
  lemma CountingRulesTyped(ctx: Context, entries: seq<Entry>, qs: seq<QueryRecord>)
    ensures Typed(NPlusOne.DetectNPlusOne(entries)) && Typed(DuplicateFindings(qs))
    ensures DetectOveruseOfTransactions(ctx, qs).Ok? ==> Typed(DetectOveruseOfTransactions(ctx, qs).value)
    ensures DetectSlowQueries(ctx, qs).Ok? ==> Typed(DetectSlowQueries(ctx, qs).value)
  {
    KindsListed();
    KindTyped(NPlusOne.DetectNPlusOne(entries), NPlusOne.NPlusOneKind);
    KindTyped(DuplicateFindings(qs), DuplicateKind);
    if DetectOveruseOfTransactions(ctx, qs).Ok? {
      KindTyped(DetectOveruseOfTransactions(ctx, qs).value, TransactionKind);
    }
    if DetectSlowQueries(ctx, qs).Ok? {
      KindTyped(DetectSlowQueries(ctx, qs).value, SlowKind);
    }
  }

  /** Every finding the analyzer reports has one of the detector types. */
  lemma AnalyzeKinds(ctx: Context, entries: seq<Entry>)
    ensures Analyze(ctx, entries).Ok? ==> forall f | f in Analyze(ctx, entries).value :: f.kind in FindingKinds
  {
    if Analyze(ctx, entries).Ok? {
      FindingsTyped(ctx, entries);
    }
  }

  lemma FindingsTyped(ctx: Context, entries: seq<Entry>)
    requires Succeeds(ctx, QueryRecords(entries))
    ensures Typed(Findings(ctx, entries))
  {
    var qs := QueryRecords(entries);
    IndexRulesTyped(ctx, qs);
    ClauseRulesTyped(ctx, qs);
    PatternRulesTyped(ctx, qs);
    ShapeRulesTyped(ctx, qs);
    CountingRulesTyped(ctx, entries, qs);
    var r := NPlusOne.DetectNPlusOne(entries);
    TypedConcat(r, DetectMissingIndexes(ctx, qs).value);
    r := r + DetectMissingIndexes(ctx, qs).value;
    TypedConcat(r, DetectJoinWithoutIndex(ctx, qs));
    r := r + DetectJoinWithoutIndex(ctx, qs);
    TypedConcat(r, DetectInefficientOrderBy(ctx, qs).value);
    r := r + DetectInefficientOrderBy(ctx, qs).value;
    TypedConcat(r, DetectInefficientAggregates(ctx, qs).value);
    r := r + DetectInefficientAggregates(ctx, qs).value;
    TypedConcat(r, DetectUnnecessaryDistinct(ctx, qs));
    r := r + DetectUnnecessaryDistinct(ctx, qs);
    TypedConcat(r, DetectSubqueries(ctx, qs));
    r := r + DetectSubqueries(ctx, qs);
    TypedConcat(r, DetectCartesianProducts(ctx, qs));
    r := r + DetectCartesianProducts(ctx, qs);
    TypedConcat(r, DetectInefficientPagination(ctx, qs));
    r := r + DetectInefficientPagination(ctx, qs);
    TypedConcat(r, DetectNonSargable(ctx, qs));
    r := r + DetectNonSargable(ctx, qs);
    TypedConcat(r, DetectLockingIssues(ctx, qs));
    r := r + DetectLockingIssues(ctx, qs);
    TypedConcat(r, DetectOveruseOfTransactions(ctx, qs).value);
    r := r + DetectOveruseOfTransactions(ctx, qs).value;
    TypedConcat(r, DetectSlowQueries(ctx, qs).value);
    r := r + DetectSlowQueries(ctx, qs).value;
    TypedConcat(r, DuplicateFindings(qs));
    r := r + DuplicateFindings(qs);
    TypedConcat(r, DetectFullTableScan(ctx, qs));
    r := r + DetectFullTableScan(ctx, qs);
    TypedConcat(r, DetectMissingLimit(ctx, qs));
    r := r + DetectMissingLimit(ctx, qs);
    TypedConcat(r, DetectInefficientSelect(ctx, qs));
  }

  /**
   * A successful analysis reports every query each detector flags: the
   * shape rules, the Cartesian and locking rules and the timed rules.
   */
  lemma AnalyzeReports(ctx: Context, entries: seq<Entry>, q: QueryRecord)
    requires Query(q) in entries
    requires Analyze(ctx, entries).Ok?
    ensures SelectStar(ctx, q) ==> SelectStarFinding(ctx, q) in Analyze(ctx, entries).value
    ensures MissingLimit(ctx, q) ==> MissingLimitFinding(ctx, q) in Analyze(ctx, entries).value
    ensures FullTableScan(ctx, q) ==> FullTableScanFinding(ctx, q) in Analyze(ctx, entries).value
    ensures Patterns.CartesianJoin(q.sql) ==> PlainJoinFinding(ctx, q) in Analyze(ctx, entries).value
    ensures LongLock(ctx, q) ==> LockingFinding(ctx, q) in Analyze(ctx, entries).value
    ensures SlowRun(ctx, q) ==> SlowFinding(ctx, q) in Analyze(ctx, entries).value
    ensures LongTransaction(ctx, q) ==> TransactionFinding(ctx, q) in Analyze(ctx, entries).value
  {
  }

  /** The entries of a log of dictionaries. */
  function Wrap(qs: seq<QueryRecord>): (r: seq<Entry>)
    ensures |r| == |qs|
    ensures forall i | 0 <= i < |qs| :: r[i] == Query(qs[i])
  {
    seq(|qs|, i requires 0 <= i < |qs| => Query(qs[i]))
  }

  /** The detectors see exactly the records a log of dictionaries was built from. */
  lemma {:induction false} WrapRecords(qs: seq<QueryRecord>)
    ensures QueryRecords(Wrap(qs)) == qs
  {
    if |qs| > 0 {
      assert Wrap(qs)[1..] == Wrap(qs[1..]);
      WrapRecords(qs[1..]);
    }
  }

  /**
   * The queries typed on the command line all carry a time, so analysing
   * them can only fail with a `ValueError` from the index rules.
   */
  lemma ManualInputTimed(ctx: Context, inputs: seq<string>)
    ensures Analyze(ctx, Wrap(Fetcher.FetchFromManualInput(inputs))).Err? ==>
      Analyze(ctx, Wrap(Fetcher.FetchFromManualInput(inputs))).error.ValueError?
  {
    WrapRecords(Fetcher.FetchFromManualInput(inputs));
  }

  /** Sixteen of the nineteen finding types have a template. */
  lemma RenderedKinds()
    ensures forall i | 0 <= i < |FindingKinds| && i != 3 && i != 8 && i != 12 :: FindingKinds[i] in Suggestions.TemplateKinds
  {
    var t := Suggestions.TemplateKinds;
    assert FindingKinds[1] == t[1] && FindingKinds[2] == t[2] && FindingKinds[4] == t[4];
  }

  /**
   * The other three render as the fallback text: the ORDER BY missing-index
   * type is spelt with an upper-case `Index` while its template key has a
   * lower-case one, and the CROSS JOIN and explicit LOCK types have no
   * template at all.
   */
  lemma UnrenderedKinds(s: Option<string>)
    ensures Suggestions.Suggest(MissingOrderByIndexKind, s) == Suggestions.NoSuggestion
    ensures Suggestions.Suggest(CrossJoinKind, s) == Suggestions.NoSuggestion
    ensures Suggestions.Suggest(ExplicitLockKind, s) == Suggestions.NoSuggestion
  {
    assert MissingOrderByIndexKind == "Missing Index on ORDER BY";
    Suggestions.OrderByKeyMisspelled(MissingOrderByIndexKind, s);
    Suggestions.KindsWithoutTemplate(CrossJoinKind, ExplicitLockKind, s);
  }
}

=== FILE: detectors.dfy ===
/**
 * The seventeen `detect_*` methods of `QueryAnalyzer`. Each walks the
 * captured queries in order, skipping entries that are not dictionaries,
 * and reports its findings in query order. The settings and the database
 * facts every detector may consult travel together as a `Context`.
 */
module Detectors {
  import opened Wrappers
  import opened Text
  import opened Records
  import opened Patterns
  import Tables
  import Joins
  import OrderBy
  import Aggregates
  import Distinct
  import Indexes
  import Suggestions

  /** What the detectors read besides the queries: the database facts and the settings. */
  datatype Context = Context(facts: SchemaFacts, cfg: Config)

  /** A test a detector applies to one query. */
  type Rule = (Context, QueryRecord) -> bool

  /**
   * How many of `qs` the rule flags. The bound `n <= |qs|` is a proof aid for
   * the counting lemmas below; the source makes no such promise.
   */
  function Flagged(ctx: Context, qs: seq<QueryRecord>, rule: Rule): (n: nat)
    ensures n <= |qs|
  {
    if |qs| == 0 then 0
    else (if rule(ctx, qs[0]) then 1 else 0) + Flagged(ctx, qs[1..], rule)
  }

  // ---------------------------------------------------------------------------
  // The loop shapes shared by the detectors

  /** One finding for every query the rule flags, in query order. */
  function Report(ctx: Context, qs: seq<QueryRecord>, rule: Rule, finding: (Context, QueryRecord) -> Finding): (r: seq<Finding>)
    ensures |r| == Flagged(ctx, qs, rule)
    ensures forall f | f in r :: exists q | q in qs :: rule(ctx, q) && f == finding(ctx, q)
    ensures forall q | q in qs && rule(ctx, q) :: finding(ctx, q) in r
  {
    if |qs| == 0 then []
    else
      var rest := Report(ctx, qs[1..], rule, finding);
      assert forall q | q in qs[1..] :: q in qs;
      assert forall q | q in qs :: q == qs[0] || q in qs[1..];
      (if rule(ctx, qs[0]) then [finding(ctx, qs[0])] else []) + rest
  }

  /** Reporting over a split log is reporting over each part: findings follow the queries' order. */
  lemma {:induction false} ReportConcat(ctx: Context, xs: seq<QueryRecord>, ys: seq<QueryRecord>, rule: Rule, finding: (Context, QueryRecord) -> Finding)
    ensures Report(ctx, xs + ys, rule, finding) == Report(ctx, xs, rule, finding) + Report(ctx, ys, rule, finding)
    decreases |xs|
  {
    if |xs| > 0 {
      assert (xs + ys)[1..] == xs[1..] + ys;
      ReportConcat(ctx, xs[1..], ys, rule, finding);
    } else {
      assert xs + ys == ys;
    }
  }

  /** Two independent tests per query; a query both flag yields the first finding, then the second. */
  function Report2(ctx: Context, qs: seq<QueryRecord>, ruleA: Rule, findingA: (Context, QueryRecord) -> Finding, ruleB: Rule, findingB: (Context, QueryRecord) -> Finding): (r: seq<Finding>)
    ensures |r| == Flagged(ctx, qs, ruleA) + Flagged(ctx, qs, ruleB)
    ensures forall f | f in r :: exists q | q in qs :: (ruleA(ctx, q) && f == findingA(ctx, q)) || (ruleB(ctx, q) && f == findingB(ctx, q))
    ensures forall q | q in qs && ruleA(ctx, q) :: findingA(ctx, q) in r
    ensures forall q | q in qs && ruleB(ctx, q) :: findingB(ctx, q) in r
  {
    if |qs| == 0 then []
    else
      var rest := Report2(ctx, qs[1..], ruleA, findingA, ruleB, findingB);
      assert forall q | q in qs[1..] :: q in qs;
      assert forall q | q in qs :: q == qs[0] || q in qs[1..];
      (if ruleA(ctx, qs[0]) then [findingA(ctx, qs[0])] else [])
        + (if ruleB(ctx, qs[0]) then [findingB(ctx, qs[0])] else [])
        + rest
  }

  /**
   * A detector that reads `query['time']` of every query before testing it:
   * the first query without a time raises `KeyError('time')`.
   */
  function Timed(ctx: Context, qs: seq<QueryRecord>, rule: Rule, finding: (Context, QueryRecord) -> Finding): (r: Result<seq<Finding>, Error>)
    ensures r.Err? <==> exists q | q in qs :: q.time.None?
    ensures r.Err? ==> r.error == KeyError("time")
    ensures r.Ok? ==> r.value == Report(ctx, qs, rule, finding)
  {
    if |qs| == 0 then Ok([])
    else if qs[0].time.None? then Err(KeyError("time"))
    else
      var rest :- Timed(ctx, qs[1..], rule, finding);
      assert forall q | q in qs[1..] :: q in qs;
      assert forall q | q in qs :: q == qs[0] || q in qs[1..];
      Ok((if rule(ctx, qs[0]) then [finding(ctx, qs[0])] else []) + rest)
  }

  /** The findings of every query in order, when finding them for a query cannot fail. */
  function Gather(ctx: Context, qs: seq<QueryRecord>, each: (Context, QueryRecord) -> seq<Finding>): (r: seq<Finding>)
    ensures forall f | f in r :: exists q | q in qs :: f in each(ctx, q)
    ensures forall q, f | q in qs && f in each(ctx, q) :: f in r
  {
    if |qs| == 0 then []
    else
      var rest := Gather(ctx, qs[1..], each);
      assert forall q | q in qs[1..] :: q in qs;
      assert forall q | q in qs :: q == qs[0] || q in qs[1..];
      each(ctx, qs[0]) + rest
  }

  /** The findings of every query in order; the first query whose findings raise stops the loop. */
  function Collect(ctx: Context, qs: seq<QueryRecord>, each: (Context, QueryRecord) -> Result<seq<Finding>, Error>): (r: Result<seq<Finding>, Error>)
    ensures r.Ok? <==> forall q | q in qs :: each(ctx, q).Ok?
    ensures r.Err? ==> exists i | 0 <= i < |qs| :: each(ctx, qs[i]) == Err(r.error) && forall j | 0 <= j < i :: each(ctx, qs[j]).Ok?
    ensures r.Ok? ==> forall f | f in r.value :: exists q | q in qs :: each(ctx, q).Ok? && f in each(ctx, q).value
    ensures r.Ok? ==> forall q, f | q in qs && each(ctx, q).Ok? && f in each(ctx, q).value :: f in r.value
  {
    if |qs| == 0 then Ok([])
    else
      var head := each(ctx, qs[0]);
      if head.Err? then
        assert each(ctx, qs[0]) == Err(head.error);
        Err(head.error)
      else
        var rest := Collect(ctx, qs[1..], each);
        assert forall q | q in qs[1..] :: q in qs;
        assert forall q | q in qs :: q == qs[0] || q in qs[1..];
        if rest.Err? then
          var i :| 0 <= i < |qs[1..]| && each(ctx, qs[1..][i]) == Err(rest.error) && forall j | 0 <= j < i :: each(ctx, qs[1..][j]).Ok?;
          assert each(ctx, qs[i + 1]) == Err(rest.error);
          assert forall j | 1 <= j < i + 1 :: each(ctx, qs[j]).Ok? by {
            forall j | 1 <= j < i + 1 ensures each(ctx, qs[j]).Ok? {
              assert qs[j] == qs[1..][j - 1];
            }
          }
          Err(rest.error)
        else
          Ok(head.value + rest.value)
  }

  // ---------------------------------------------------------------------------
  // The finding types

  const MissingWhereIndexKind: string := Indexes.MissingIndexKind("WHERE")
  const MissingJoinIndexKind: string := Indexes.MissingIndexKind("JOIN")
  const MissingOrderByIndexKind: string := Indexes.MissingIndexKind("ORDER BY")
  const MissingAggregateIndexKind: string := Indexes.MissingIndexKind("AGGREGATE")
  const DistinctKind: string := "Unnecessary DISTINCT"
  const SubqueryKind: string := "Overuse of Subqueries"
  const CartesianKind: string := "Cartesian Product in JOIN"
  const CrossJoinKind: string := "Cartesian Product in CROSS JOIN"
  const SlowKind: string := "Slow Query"
  const DuplicateKind: string := "Duplicate Query"
  const MissingLimitKind: string := "Missing LIMIT"
  const FullTableScanKind: string := "Full Table Scan"
  const SelectStarKind: string := "Inefficient SELECT *"
  const PaginationKind: string := "Inefficient Pagination"
  const NonSargableKind: string := "Non-Sargable Query"
  const LockingKind: string := "Locking Issue"
  const ExplicitLockKind: string := "Explicit LOCK Statement"
  const TransactionKind: string := "Overuse of Transactions"

  // ---------------------------------------------------------------------------
  // `detect_missing_indexes`

  /** The loop body: a query mentioning WHERE (case-sensitively) is checked against its tables and columns. */
  function WhereIndexes(ctx: Context, q: QueryRecord): (r: Result<seq<Finding>, Error>)
    ensures !Contains(q.sql, "WHERE") ==> r == Ok([])
    ensures r.Ok? ==> forall f | f in r.value :: f.kind == MissingWhereIndexKind && f.query == q.sql
    ensures r.Err? ==> r.error == ValueError(Indexes.SplitIntoCharacters)
  {
    if Contains(q.sql, "WHERE") then
      var names := Tables.ExtractTableAndColumnNames(q.sql);
      Indexes.DetectMissingIndexesForClause(ctx.facts, ctx.cfg, q, names.0, names.1, "WHERE")
    else Ok([])
  }

  /** `detect_missing_indexes`: the WHERE rule of every query, in order; a failed suggestion escapes. */
  function DetectMissingIndexes(ctx: Context, qs: seq<QueryRecord>): (r: Result<seq<Finding>, Error>)
    ensures r.Ok? <==> forall q | q in qs :: WhereIndexes(ctx, q).Ok?
    ensures r.Err? ==> r.error == ValueError(Indexes.SplitIntoCharacters)
    ensures r.Ok? ==> forall f | f in r.value :: f.kind == MissingWhereIndexKind && exists q | q in qs :: f.query == q.sql && Contains(q.sql, "WHERE")
  {
    Collect(ctx, qs, WhereIndexes)
  }

  // ---------------------------------------------------------------------------
  // `detect_join_without_index`

  /**
   * The findings for one JOIN clause: none when its column lists do not
   * pair up, and none when generating the suggestion raises, since the
   * detector catches every exception per clause.
   */
  function ClauseIndexes(ctx: Context, q: QueryRecord, tables: seq<string>, c: Joins.JoinClause): (r: seq<Finding>)
    ensures forall f | f in r :: f.kind == MissingJoinIndexKind && f.query == q.sql
    ensures Joins.GetJoinColumns(c).Err? ==> r == []
  {
    match Joins.GetJoinColumns(c)
    case Err(_) => []
    case Ok((fk, refs)) =>
      if |fk| == 0 || |refs| == 0 then []
      else
        match Indexes.DetectMissingIndexesForClause(ctx.facts, ctx.cfg, q, tables, fk, "JOIN")
        case Err(_) => []
        case Ok(fs) => fs
  }

  /** The findings of the clauses in order. */
  function ClausesIndexes(ctx: Context, q: QueryRecord, tables: seq<string>, cs: seq<Joins.JoinClause>): (r: seq<Finding>)
    ensures forall f | f in r :: f.kind == MissingJoinIndexKind && f.query == q.sql
    ensures forall c, f | c in cs && f in ClauseIndexes(ctx, q, tables, c) :: f in r
  {
    if |cs| == 0 then []
    else
      assert forall c | c in cs :: c == cs[0] || c in cs[1..];
      ClauseIndexes(ctx, q, tables, cs[0]) + ClausesIndexes(ctx, q, tables, cs[1..])
  }

  /** The loop body: queries without a JOIN clause or without a table are skipped. */
  function JoinIndexes(ctx: Context, q: QueryRecord): (r: seq<Finding>)
    ensures forall f | f in r :: f.kind == MissingJoinIndexKind && f.query == q.sql
    ensures Joins.ExtractJoins(q.sql).None? || Tables.ExtractTableAndColumnNames(q.sql).0 == [] ==> r == []
  {
    var joins := Joins.ExtractJoins(q.sql);
    var tables := Tables.ExtractTableAndColumnNames(q.sql).0;
    if joins.None? || |tables| == 0 then []
    else ClausesIndexes(ctx, q, tables, joins.value)
  }

  /**
   * A clause the JOIN scanner found is checked on its single foreign-key
   * column, the unquoted left side of its condition.
   */
  lemma ScannedClauseIndexes(ctx: Context, q: QueryRecord, tables: seq<string>, c: Joins.JoinClause)
    requires c in Joins.JoinMatches(q.sql, 0)
    ensures Indexes.DetectMissingIndexesForClause(ctx.facts, ctx.cfg, q, tables, [Unquote(c.left)], "JOIN").Ok? ==>
      ClauseIndexes(ctx, q, tables, c) == Indexes.DetectMissingIndexesForClause(ctx.facts, ctx.cfg, q, tables, [Unquote(c.left)], "JOIN").value
    ensures Indexes.DetectMissingIndexesForClause(ctx.facts, ctx.cfg, q, tables, [Unquote(c.left)], "JOIN").Err? ==>
      ClauseIndexes(ctx, q, tables, c) == []
  {
    Joins.ScannedClauseColumns(q.sql, c);
  }

  /** `detect_join_without_index`: never raises; every finding names a query with a JOIN clause and a table. */
  function DetectJoinWithoutIndex(ctx: Context, qs: seq<QueryRecord>): (r: seq<Finding>)
    ensures forall f | f in r :: f.kind == MissingJoinIndexKind
    ensures forall f | f in r :: exists q | q in qs :: f.query == q.sql && Joins.ExtractJoins(q.sql).Some? && Tables.ExtractTableAndColumnNames(q.sql).0 != []
    ensures forall q, f | q in qs && f in JoinIndexes(ctx, q) :: f in r
  {
    Gather(ctx, qs, JoinIndexes)
  }

  // ---------------------------------------------------------------------------
  // `detect_inefficient_order_by` and `detect_inefficient_aggregates`

  /** The loop body of the ORDER BY rule: a malformed ORDER BY raises, and is not caught. */
  function OrderByIndexes(ctx: Context, q: QueryRecord): (r: Result<seq<Finding>, Error>)
    ensures OrderBy.BareOrderBy(q.sql) ==> r == Err(ValueError(OrderBy.InvalidOrderBy))
    ensures r.Err? ==> r.error == ValueError(OrderBy.InvalidOrderBy) || r.error == ValueError(Indexes.SplitIntoCharacters)
    ensures r.Ok? ==> forall f | f in r.value :: f.kind == MissingOrderByIndexKind && f.query == q.sql
    ensures Tables.ExtractTableNames(q.sql) == [] ==> r.Ok? || OrderBy.BareOrderBy(q.sql)
  {
    var tables := Tables.ExtractTableNames(q.sql);
    var columns :- OrderBy.ExtractOrderByColumns(q.sql);
    if |columns| > 0 && |tables| > 0 then
      Indexes.DetectMissingIndexesForClause(ctx.facts, ctx.cfg, q, tables, columns, "ORDER BY")
    else Ok([])
  }

  /** `detect_inefficient_order_by`: the first query with a bare ORDER BY (or an unbuildable suggestion) raises. */
  function DetectInefficientOrderBy(ctx: Context, qs: seq<QueryRecord>): (r: Result<seq<Finding>, Error>)
    ensures (exists q | q in qs :: OrderBy.BareOrderBy(q.sql)) ==> r.Err?
    ensures r.Ok? <==> forall q | q in qs :: OrderByIndexes(ctx, q).Ok?
    ensures r.Ok? ==> forall f | f in r.value :: f.kind == MissingOrderByIndexKind && exists q | q in qs :: f.query == q.sql
  {
    Collect(ctx, qs, OrderByIndexes)
  }

  /** The loop body of the aggregate rule: an empty aggregate argument raises, and is not caught. */
  function AggregateIndexes(ctx: Context, q: QueryRecord): (r: Result<seq<Finding>, Error>)
    ensures Aggregates.ExtractAggregateFunctions(q.sql).Err? ==> r == Err(ValueError(Aggregates.InvalidAggregate))
    ensures r.Err? ==> r.error == ValueError(Aggregates.InvalidAggregate) || r.error == ValueError(Indexes.SplitIntoCharacters)
    ensures r.Ok? ==> forall f | f in r.value :: f.kind == MissingAggregateIndexKind && f.query == q.sql
  {
    var tables := Tables.ExtractTableNames(q.sql);
    var columns :- Aggregates.ExtractAggregateFunctions(q.sql);
    if |columns| > 0 && |tables| > 0 then
      Indexes.DetectMissingIndexesForClause(ctx.facts, ctx.cfg, q, tables, columns, "AGGREGATE")
    else Ok([])
  }

  /** `detect_inefficient_aggregates` */
  function DetectInefficientAggregates(ctx: Context, qs: seq<QueryRecord>): (r: Result<seq<Finding>, Error>)
    ensures (exists q | q in qs :: Aggregates.ExtractAggregateFunctions(q.sql).Err?) ==> r.Err?
    ensures r.Ok? <==> forall q | q in qs :: AggregateIndexes(ctx, q).Ok?
    ensures r.Ok? ==> forall f | f in r.value :: f.kind == MissingAggregateIndexKind && exists q | q in qs :: f.query == q.sql
  {
    Collect(ctx, qs, AggregateIndexes)
  }

  // ---------------------------------------------------------------------------
  // `detect_unnecessary_distinct`

  /**
   * DISTINCT in the upper-cased query, a non-empty SELECT clause, at least
   * one table, and every selected column a key of those tables.
   */
  predicate UnnecessaryDistinct(ctx: Context, q: QueryRecord) {
    && Contains(Upper(q.sql), "DISTINCT")
    && var clause := Tables.ExtractSelectClause(q.sql);
       var tables := Tables.ExtractTableNames(q.sql);
       && clause.Some? && clause.value != "" && |tables| > 0
       && Distinct.IsDistinctUnnecessary(clause.value, tables, ctx.facts)
  }

  function DistinctFinding(ctx: Context, q: QueryRecord): Finding {
    var clause := Tables.ExtractSelectClause(q.sql).GetOr("");
    Plain(DistinctKind, q.sql, Suggestions.RemovingDistinctAdvice(Indexes.ColumnText(clause)))
  }

  /** `detect_unnecessary_distinct` */
  function DetectUnnecessaryDistinct(ctx: Context, qs: seq<QueryRecord>): (r: seq<Finding>)
    ensures |r| == Flagged(ctx, qs, UnnecessaryDistinct)
    ensures forall f | f in r :: f.kind == DistinctKind && StartsWith(f.suggestion, Suggestions.DistinctLead)
    ensures forall f | f in r :: exists q | q in qs :: f.query == q.sql && UnnecessaryDistinct(ctx, q)
    ensures forall q | q in qs && UnnecessaryDistinct(ctx, q) :: DistinctFinding(ctx, q) in r
  {
    Report(ctx, qs, UnnecessaryDistinct, DistinctFinding)
  }

  // ---------------------------------------------------------------------------
  // `detect_innefficient_use_of_subqueries` and `detect_cartesian_product_in_joins`

  predicate Subquery(ctx: Context, q: QueryRecord) {
    HasSubquery(q.sql)
  }

  function SubqueryFinding(ctx: Context, q: QueryRecord): Finding {
    Plain(SubqueryKind, q.sql, Suggestions.SubqueryAdvice(q.sql))
  }

  /** `detect_innefficient_use_of_subqueries`: at most one finding per query, however many subqueries it holds. */
  function DetectSubqueries(ctx: Context, qs: seq<QueryRecord>): (r: seq<Finding>)
    ensures |r| == Flagged(ctx, qs, Subquery) && |r| <= |qs|
    ensures forall f | f in r :: f.kind == SubqueryKind && f.suggestion == Suggestions.SubqueryAdvice(f.query) && HasSubquery(f.query)
    ensures forall f | f in r :: exists q | q in qs :: f.query == q.sql
    ensures forall q | q in qs && HasSubquery(q.sql) :: SubqueryFinding(ctx, q) in r
  {
    Report(ctx, qs, Subquery, SubqueryFinding)
  }

  predicate PlainJoin(ctx: Context, q: QueryRecord) {
    CartesianJoin(q.sql)
  }

  predicate CrossJoin(ctx: Context, q: QueryRecord) {
    Contains(Upper(q.sql), "CROSS JOIN")
  }

  function PlainJoinFinding(ctx: Context, q: QueryRecord): Finding {
    Plain(CartesianKind, q.sql, Suggestions.CartesianAdvice(q.sql))
  }

  function CrossJoinFinding(ctx: Context, q: QueryRecord): Finding {
    Plain(CrossJoinKind, q.sql, Suggestions.CartesianAdvice(q.sql))
  }

  /** `detect_cartesian_product_in_joins`: the plain-JOIN search and the CROSS JOIN test, independently. */
  function DetectCartesianProducts(ctx: Context, qs: seq<QueryRecord>): (r: seq<Finding>)
    ensures |r| == Flagged(ctx, qs, PlainJoin) + Flagged(ctx, qs, CrossJoin)
    ensures forall f | f in r :: f.suggestion == Suggestions.CartesianAdvice(f.query)
    ensures forall f | f in r :: (f.kind == CartesianKind && CartesianJoin(f.query)) || (f.kind == CrossJoinKind && Contains(Upper(f.query), "CROSS JOIN"))
    ensures forall f | f in r :: exists q | q in qs :: f.query == q.sql
    ensures forall q | q in qs && CartesianJoin(q.sql) :: PlainJoinFinding(ctx, q) in r
    ensures forall q | q in qs && Contains(Upper(q.sql), "CROSS JOIN") :: CrossJoinFinding(ctx, q) in r
  {
    Report2(ctx, qs, PlainJoin, PlainJoinFinding, CrossJoin, CrossJoinFinding)
  }

  // ---------------------------------------------------------------------------
  // `detect_inefficient_pagination` and `detect_non_sargable_queries`

  /** LIMIT and OFFSET in the query (case-sensitively), and the first OFFSET value above the threshold. */
  predicate LargeOffset(ctx: Context, q: QueryRecord) {
    && Contains(q.sql, "LIMIT") && Contains(q.sql, "OFFSET")
    && OffsetValue(q.sql).Some? && OffsetValue(q.sql).value > ctx.cfg.offsetThreshold
  }

  function PaginationFinding(ctx: Context, q: QueryRecord): Finding {
    Plain(PaginationKind, q.sql, Suggestions.PaginationAdvice)
  }

  /** `detect_inefficient_pagination` */
  function DetectInefficientPagination(ctx: Context, qs: seq<QueryRecord>): (r: seq<Finding>)
    ensures |r| == Flagged(ctx, qs, LargeOffset)
    ensures forall f | f in r :: f == Plain(PaginationKind, f.query, Suggestions.PaginationAdvice)
    ensures forall f | f in r :: exists q | q in qs :: f.query == q.sql && LargeOffset(ctx, q)
    ensures forall q | q in qs && LargeOffset(ctx, q) :: PaginationFinding(ctx, q) in r
  {
    Report(ctx, qs, LargeOffset, PaginationFinding)
  }

  predicate NonSargableQuery(ctx: Context, q: QueryRecord) {
    NonSargable(q.sql)
  }

  function NonSargableFinding(ctx: Context, q: QueryRecord): Finding {
    Plain(NonSargableKind, q.sql, Suggestions.SargableAdvice)
  }

  /** `detect_non_sargable_queries` */
  function DetectNonSargable(ctx: Context, qs: seq<QueryRecord>): (r: seq<Finding>)
    ensures |r| == Flagged(ctx, qs, NonSargableQuery)
    ensures forall f | f in r :: f == Plain(NonSargableKind, f.query, Suggestions.SargableAdvice) && NonSargable(f.query)
    ensures forall f | f in r :: exists q | q in qs :: f.query == q.sql
    ensures forall q | q in qs && NonSargable(q.sql) :: NonSargableFinding(ctx, q) in r
  {
    Report(ctx, qs, NonSargableQuery, NonSargableFinding)
  }

  // ---------------------------------------------------------------------------
  // `detect_locking_issues`, `detect_overuse_of_transactions` and `detect_slow_queries`

  /** The time the locking rule reads: a missing time counts as 0. */
  function LockTime(q: QueryRecord): real {
    q.time.GetOr(0.0)
  }

  predicate LongLock(ctx: Context, q: QueryRecord) {
    LockTime(q) > ctx.cfg.lockThreshold
  }

  predicate ExplicitLock(ctx: Context, q: QueryRecord) {
    Contains(Upper(q.sql), "LOCK")
  }

  function LockingFinding(ctx: Context, q: QueryRecord): Finding {
    Finding(LockingKind, q.sql, Suggestions.AvoidingLocksAdvice(ctx.cfg.formatSeconds, LockTime(q)), None, None, Some(LockTime(q)), None, None)
  }

  function ExplicitLockFinding(ctx: Context, q: QueryRecord): Finding {
    Plain(ExplicitLockKind, q.sql, Suggestions.LockOptimizationAdvice)
  }

  /** `detect_locking_issues`: a long run and an explicit LOCK are reported independently; it never raises. */
  function DetectLockingIssues(ctx: Context, qs: seq<QueryRecord>): (r: seq<Finding>)
    ensures |r| == Flagged(ctx, qs, LongLock) + Flagged(ctx, qs, ExplicitLock)
    ensures forall f | f in r :: f.kind == LockingKind || f.kind == ExplicitLockKind
    ensures forall f | f in r && f.kind == LockingKind :: f.executionTime.Some? && f.executionTime.value > ctx.cfg.lockThreshold
    ensures forall f | f in r && f.kind == ExplicitLockKind :: Contains(Upper(f.query), "LOCK")
    ensures forall q | q in qs && LockTime(q) > ctx.cfg.lockThreshold :: LockingFinding(ctx, q) in r
    ensures forall q | q in qs && Contains(Upper(q.sql), "LOCK") :: ExplicitLockFinding(ctx, q) in r
  {
    Report2(ctx, qs, LongLock, LockingFinding, ExplicitLock, ExplicitLockFinding)
  }

  /** BEGIN and COMMIT in the upper-cased query, and a run above the transaction threshold. */
  predicate LongTransaction(ctx: Context, q: QueryRecord) {
    && Contains(Upper(q.sql), "BEGIN") && Contains(Upper(q.sql), "COMMIT")
    && q.time.Some? && q.time.value > ctx.cfg.transactionThreshold
  }

  function TransactionFinding(ctx: Context, q: QueryRecord): Finding {
    var t := q.time.GetOr(0.0);
    Finding(TransactionKind, q.sql, Suggestions.TransactionAdvice(ctx.cfg.formatSeconds, t), None, None, Some(t), None, None)
  }

  /** `detect_overuse_of_transactions`: any query without a time raises, whatever its text. */
  function DetectOveruseOfTransactions(ctx: Context, qs: seq<QueryRecord>): (r: Result<seq<Finding>, Error>)
    ensures r.Err? <==> exists q | q in qs :: q.time.None?
    ensures r.Err? ==> r.error == KeyError("time")
    ensures r.Ok? ==> |r.value| == Flagged(ctx, qs, LongTransaction)
    ensures r.Ok? ==> forall f | f in r.value :: f.kind == TransactionKind && exists q | q in qs :: f.query == q.sql && LongTransaction(ctx, q) && f.executionTime == q.time
    ensures r.Ok? ==> forall q | q in qs && LongTransaction(ctx, q) :: TransactionFinding(ctx, q) in r.value
  {
    Timed(ctx, qs, LongTransaction, TransactionFinding)
  }

  predicate SlowRun(ctx: Context, q: QueryRecord) {
    q.time.Some? && q.time.value > ctx.cfg.slowQueryThreshold
  }

  function SlowFinding(ctx: Context, q: QueryRecord): Finding {
    Finding(SlowKind, q.sql, Suggestions.SlowQueryAdvice(q.sql), None, q.time, None, None, None)
  }

  /** `detect_slow_queries`: a strict comparison with the threshold; any query without a time raises. */
  function DetectSlowQueries(ctx: Context, qs: seq<QueryRecord>): (r: Result<seq<Finding>, Error>)
    ensures r.Err? <==> exists q | q in qs :: q.time.None?
    ensures r.Err? ==> r.error == KeyError("time")
    ensures r.Ok? ==> |r.value| == Flagged(ctx, qs, SlowRun)
    ensures r.Ok? ==> forall f | f in r.value :: f.kind == SlowKind && f.suggestion == Suggestions.SlowQueryAdvice(f.query)
    ensures r.Ok? ==> forall f | f in r.value :: f.time.Some? && f.time.value > ctx.cfg.slowQueryThreshold && exists q | q in qs :: f.query == q.sql && f.time == q.time
    ensures r.Ok? ==> forall q | q in qs && SlowRun(ctx, q) :: SlowFinding(ctx, q) in r.value
  {
    Timed(ctx, qs, SlowRun, SlowFinding)
  }

  // ---------------------------------------------------------------------------
  // `detect_duplicate_queries`

  /** How many of `qs` have the SQL text `sql`. */
  function Occurrences(qs: seq<QueryRecord>, sql: string): (n: nat)
    ensures n <= |qs|
  {
    if |qs| == 0 then 0
    else Occurrences(qs[..|qs| - 1], sql) + (if qs[|qs| - 1].sql == sql then 1 else 0)
  }

  function DuplicateFinding(sql: string, count: nat): Finding {
    Finding(DuplicateKind, sql, Suggestions.DuplicateQueryAdvice(sql, count), Some(count), None, None, None, None)
  }

  /**
   * The duplicate findings, defined occurrence by occurrence: the query at
   * the end of the log is reported with its running count when that count
   * exceeds one.
   */
  function DuplicateFindings(qs: seq<QueryRecord>): (r: seq<Finding>)
    ensures |r| <= |qs|
    ensures forall f | f in r :: f.kind == DuplicateKind && f.count.Some? && f.count.value > 1
    ensures forall f | f in r :: f.suggestion == Suggestions.DuplicateCachingAdvice && f.count.value <= Occurrences(qs, f.query)
  {
    if |qs| == 0 then []
    else
      var init := qs[..|qs| - 1];
      var sql := qs[|qs| - 1].sql;
      var n := Occurrences(qs, sql);
      var rest := DuplicateFindings(init);
      assert forall s :: Occurrences(init, s) <= Occurrences(qs, s);
      rest + (if n > 1 then [DuplicateFinding(sql, n)] else [])
  }

  /** `detect_duplicate_queries`, with the running counts kept in a map as the source does. */
  method DetectDuplicateQueries(qs: seq<QueryRecord>) returns (r: seq<Finding>)
    ensures r == DuplicateFindings(qs)
  {
    var counts: map<string, nat> := map[];
    r := [];
    for i := 0 to |qs|
      invariant r == DuplicateFindings(qs[..i])
      invariant forall s :: Occurrences(qs[..i], s) == (if s in counts then counts[s] else 0)
    {
      assert qs[..i + 1][..i] == qs[..i];
      var sql := qs[i].sql;
      var n := (if sql in counts then counts[sql] else 0) + 1;
      counts := counts[sql := n];
      if n > 1 {
        r := r + [DuplicateFinding(sql, n)];
      }
    }
    assert qs[..|qs|] == qs;
  }

  /** The counts of the findings about `sql`, in order. */
  function CountsFor(fs: seq<Finding>, sql: string): seq<nat> {
    if |fs| == 0 then []
    else CountsFor(fs[..|fs| - 1], sql) + (if fs[|fs| - 1].query == sql && fs[|fs| - 1].count.Some? then [fs[|fs| - 1].count.value] else [])
  }

  lemma {:induction false} CountsForConcat(xs: seq<Finding>, ys: seq<Finding>, sql: string)
    ensures CountsFor(xs + ys, sql) == CountsFor(xs, sql) + CountsFor(ys, sql)
    decreases |ys|
  {
    if |ys| > 0 {
      assert (xs + ys)[..|xs + ys| - 1] == xs + ys[..|ys| - 1];
      CountsForConcat(xs, ys[..|ys| - 1], sql);
    } else {
      assert xs + ys == xs;
    }
  }

  /** `[lo, lo + 1, ..., hi - 1]` */
  function Range(lo: nat, hi: nat): (r: seq<nat>)
    ensures |r| == if lo < hi then hi - lo else 0
    decreases hi
  {
    if hi <= lo then [] else Range(lo, hi - 1) + [hi - 1]
  }

  /**
   * A query text occurring k times is reported k - 1 times, at its 2nd to
   * k-th occurrence, with the counts 2, ..., k.
   */
  lemma {:induction false} DuplicateCounts(qs: seq<QueryRecord>, sql: string)
    ensures CountsFor(DuplicateFindings(qs), sql) == Range(2, Occurrences(qs, sql) + 1)
  {
    if |qs| > 0 {
      var init := qs[..|qs| - 1];
      var last := qs[|qs| - 1].sql;
      var n := Occurrences(qs, last);
      var tail: seq<Finding> := if n > 1 then [DuplicateFinding(last, n)] else [];
      DuplicateCounts(init, sql);
      CountsForConcat(DuplicateFindings(init), tail, sql);
      assert CountsFor(tail, sql) == if n > 1 && last == sql then [n] else [] by {
        if n > 1 {
          assert tail[..0] == [];
        }
      }
    }
  }

  /** Two runs of the same query give a single finding with count 2. */
  lemma DuplicatePair(q: QueryRecord)
    ensures DuplicateFindings([q, q]) == [DuplicateFinding(q.sql, 2)]
  {
    assert [q, q][..1] == [q];
    assert [q][..0] == [];
  }

  // ---------------------------------------------------------------------------
  // `detect_missing_limit`, `detect_full_table_scan` and `detect_inefficient_select`

  predicate MissingLimit(ctx: Context, q: QueryRecord) {
    Contains(q.sql, "SELECT") && !Contains(q.sql, "LIMIT")
  }

  function MissingLimitFinding(ctx: Context, q: QueryRecord): Finding {
    Plain(MissingLimitKind, q.sql, Suggestions.LimitAdvice)
  }

  /** `detect_missing_limit`: case-sensitive tests, one finding per query. */
  function DetectMissingLimit(ctx: Context, qs: seq<QueryRecord>): (r: seq<Finding>)
    ensures |r| == Flagged(ctx, qs, MissingLimit)
    ensures forall f | f in r :: f == Plain(MissingLimitKind, f.query, Suggestions.LimitAdvice)
    ensures forall f | f in r :: Contains(f.query, "SELECT") && !Contains(f.query, "LIMIT") && exists q | q in qs :: f.query == q.sql
    ensures forall q | q in qs && Contains(q.sql, "SELECT") && !Contains(q.sql, "LIMIT") :: MissingLimitFinding(ctx, q) in r
  {
    Report(ctx, qs, MissingLimit, MissingLimitFinding)
  }

  predicate FullTableScan(ctx: Context, q: QueryRecord) {
    Contains(q.sql, "SELECT") && !Contains(q.sql, "WHERE")
  }

  function FullTableScanFinding(ctx: Context, q: QueryRecord): Finding {
    Plain(FullTableScanKind, q.sql, Suggestions.WhereAdvice)
  }

  /** `detect_full_table_scan` */
  function DetectFullTableScan(ctx: Context, qs: seq<QueryRecord>): (r: seq<Finding>)
    ensures |r| == Flagged(ctx, qs, FullTableScan)
    ensures forall f | f in r :: f == Plain(FullTableScanKind, f.query, Suggestions.WhereAdvice)
    ensures forall f | f in r :: Contains(f.query, "SELECT") && !Contains(f.query, "WHERE") && exists q | q in qs :: f.query == q.sql
    ensures forall q | q in qs && Contains(q.sql, "SELECT") && !Contains(q.sql, "WHERE") :: FullTableScanFinding(ctx, q) in r
  {
    Report(ctx, qs, FullTableScan, FullTableScanFinding)
  }

  predicate SelectStar(ctx: Context, q: QueryRecord) {
    Contains(q.sql, "SELECT *")
  }

  function SelectStarFinding(ctx: Context, q: QueryRecord): Finding {
    Plain(SelectStarKind, q.sql, Suggestions.SpecificColumnsAdvice)
  }

  /** `detect_inefficient_select` */
  function DetectInefficientSelect(ctx: Context, qs: seq<QueryRecord>): (r: seq<Finding>)
    ensures |r| == Flagged(ctx, qs, SelectStar)
    ensures forall f | f in r :: f == Plain(SelectStarKind, f.query, Suggestions.SpecificColumnsAdvice)
    ensures forall f | f in r :: Contains(f.query, "SELECT *") && exists q | q in qs :: f.query == q.sql
    ensures forall q | q in qs && Contains(q.sql, "SELECT *") :: SelectStarFinding(ctx, q) in r
  {
    Report(ctx, qs, SelectStar, SelectStarFinding)
  }
}

=== FILE: distinct.dfy ===
/**
 * `normalize_column_name`, `filter_primary_keys` and `is_distinct_unnecessary`:
 * whether the columns a DISTINCT query selects are already keys of its tables.
 */
module Distinct {
  import opened Wrappers
  import opened Text
  import opened Records
  import Aggregates

  /**
   * Catalogue columns that are never treated as meaningful primary keys,
   * written as the union of two displays so that the verifier can decide
   * membership in it.
   */
  const IrrelevantFields: set<string> := {
    "oid", "chunk_id", "last_value", "attrelid", "inhrelid", "indexrelid", "classid",
    "objoid", "srrelid", "ev_class", "mapcfg", "proname", "stxoid", "roleid",
    "starelid", "rolname", "partrelid", "conrelid", "subid", "contypid", "amopfamily",
    "tgconstraint", "reltablespace", "stxrelid", "stxname", "pubname", "local_id"
  } + {
    "collname", "prrelid", "typname", "foreign_server_catalog", "sequence_catalog",
    "implementation_info_id", "constraint_catalog", "nspname", "domain_catalog",
    "view_catalog", "user_defined_type_catalog", "table_catalog", "function_id",
    "dbid", "wal_records", "pid", "session_key", "expire_date", "feature_id", "line_number"
  }

  /** The name with everything up to its last dot and its quotes removed, lower-cased and stripped. */
  function BareName(name: string): (n: string)
    ensures Avoids(n, '.') && Avoids(n, '"') && NoUpper(n)
    ensures |n| > 0 ==> !IsSpace(n[0]) && !IsSpace(n[|n| - 1])
  {
    var last := LastPiece(name, '.');
    SplitAvoids(name, '.', '.');
    NormalizeClean(last);
    Strip(Lower(DeleteChar(last, '"')))
  }

  /** Every `on` removed and the rest stripped again, when the name holds one. */
  function DropOn(n: string): (r: string)
    requires Avoids(n, '.') && Avoids(n, '"') && NoUpper(n)
    ensures Avoids(r, '.') && Avoids(r, '"') && NoUpper(r)
    ensures |r| > 0 ==> !IsSpace(r[0]) && !IsSpace(r[|r| - 1])
    ensures !Contains(n, "on") ==> r == Strip(n)
  {
    if Contains(n, "on") then
      ReplaceClean(n, "on");
      StripClean(Replace(n, "on", ""));
      Strip(Replace(n, "on", ""))
    else
      StripClean(n);
      Strip(n)
  }

  /**
   * `normalize_column_name`: the part after the last dot, without double
   * quotes, lower-cased and stripped; then, when it contains `on`, every
   * non-overlapping `on` is deleted and the rest stripped again.
   */
  function NormalizeColumnName(name: string): (r: string)
    ensures Avoids(r, '.') && Avoids(r, '"') && NoUpper(r)
    ensures |r| > 0 ==> !IsSpace(r[0]) && !IsSpace(r[|r| - 1])
  {
    DropOn(BareName(name))
  }

  /** The first stage of the normalization keeps dots and quotes out and leaves no capital. */
  lemma NormalizeClean(last: string)
    requires Avoids(last, '.')
    ensures var n := Strip(Lower(DeleteChar(last, '"')));
      Avoids(n, '.') && Avoids(n, '"') && NoUpper(n)
  {
    DeleteCharAvoids(last, '"', '.');
    StripClean(Lower(DeleteChar(last, '"')));
  }

  /** Stripping keeps dots, quotes and capitals out. */
  lemma StripClean(s: string)
    ensures Avoids(s, '.') ==> Avoids(Strip(s), '.')
    ensures Avoids(s, '"') ==> Avoids(Strip(s), '"')
    ensures NoUpper(s) ==> NoUpper(Strip(s))
  {
    var ab := StripBounds(s);
    assert forall k | 0 <= k < ab.1 - ab.0 :: Strip(s)[k] == s[ab.0 + k];
  }

  /** Deleting a pattern keeps dots, quotes and capitals out. */
  lemma {:induction false} ReplaceClean(s: string, pat: string)
    requires |pat| > 0
    ensures Avoids(s, '.') ==> Avoids(Replace(s, pat, ""), '.')
    ensures Avoids(s, '"') ==> Avoids(Replace(s, pat, ""), '"')
    ensures NoUpper(s) ==> NoUpper(Replace(s, pat, ""))
    decreases |s|
  {
    if |s| >= |pat| {
      if s[..|pat|] == pat {
        ReplaceClean(s[|pat|..], pat);
        assert Replace(s, pat, "") == Replace(s[|pat|..], pat, "");
      } else {
        ReplaceClean(s[1..], pat);
        var r := Replace(s[1..], pat, "");
        assert Replace(s, pat, "") == [s[0]] + r;
      }
    }
  }

  /** The last piece of a dotted name ignores everything before the last dot. */
  lemma {:induction false} LastPieceAfter(x: string, y: string)
    ensures |Split(x + "." + y, '.')| >= 2
    ensures LastPiece(x + "." + y, '.') == LastPiece(y, '.')
    decreases |x|
  {
    var t := x + "." + y;
    if |x| == 0 {
      assert t[0] == '.' && t[1..] == y;
    } else {
      LastPieceAfter(x[1..], y);
      assert t[0] == x[0] && t[1..] == x[1..] + "." + y;
    }
  }

  /** A qualified name normalizes like its column part alone. */
  lemma NormalizeQualified(table: string, column: string)
    ensures NormalizeColumnName(table + "." + column) == NormalizeColumnName(LastPiece(column, '.'))
  {
    LastPieceAfter(table, column);
    SplitAvoids(column, '.', '.');
    SplitWithoutSep(LastPiece(column, '.'), '.');
  }

  /** A name already in normal form: no dot, quote or capital, and no surrounding whitespace. */
  predicate Plain(x: string) {
    Avoids(x, '.') && Avoids(x, '"') && NoUpper(x) && (|x| > 0 ==> !IsSpace(x[0]) && !IsSpace(x[|x| - 1]))
  }

  /** A plain name without `on` is its own normal form. */
  lemma NormalizePlain(x: string)
    requires Plain(x) && !Contains(x, "on")
    ensures NormalizeColumnName(x) == x
  {
    BarePlain(x);
    StripNoSpaceEnds(x);
  }

  /** A plain name is its own bare name. */
  lemma BarePlain(x: string)
    requires Plain(x)
    ensures BareName(x) == x
  {
    SplitWithoutSep(x, '.');
    DeleteCharKeep(x, '"');
    LowerKeep(x);
    StripNoSpaceEnds(x);
  }

  /** A plain name holding `on` loses every `on`, and then its surrounding whitespace. */
  lemma NormalizePlainOn(x: string)
    requires Plain(x) && Contains(x, "on")
    ensures NormalizeColumnName(x) == Strip(Replace(x, "on", ""))
  {
    BarePlain(x);
  }

  /** Normalizing twice is normalizing once, unless the first result still holds an `on`. */
  lemma NormalizeIdempotent(name: string)
    requires !Contains(NormalizeColumnName(name), "on")
    ensures NormalizeColumnName(NormalizeColumnName(name)) == NormalizeColumnName(name)
  {
    NormalizePlain(NormalizeColumnName(name));
  }

  /** Double quotes around an undotted name make no difference. */
  lemma NormalizeQuoted(x: string)
    requires Avoids(x, '.') && Avoids(x, '"')
    ensures NormalizeColumnName(['"'] + x + ['"']) == NormalizeColumnName(x)
  {
    var q := ['"'] + x + ['"'];
    assert Avoids(q, '.') by {
      assert forall k | 1 <= k < |q| - 1 :: q[k] == x[k - 1];
    }
    SplitWithoutSep(q, '.');
    SplitWithoutSep(x, '.');
    DeleteCharQuoted(x, '"');
    DeleteCharKeep(x, '"');
  }

  /** A qualified name normalizes like its column alone. */
  lemma NormalizeExampleDotted(t: string, c: string)
    requires t == "users" && c == "created_at"
    ensures NormalizeColumnName(t + "." + c) == c
  {
    AbsentByFirst(c, "on");
    assert Plain(c);
    NormalizePlain(c);
    NormalizeQualified(t, c);
    SplitWithoutSep(c, '.');
  }

  /** A quoted column of a quoted or unquoted table normalizes like the bare column. */
  lemma NormalizeQuotedQualified(t: string, x: string)
    requires Avoids(x, '.') && Avoids(x, '"')
    ensures NormalizeColumnName(t + ".\"" + x + "\"") == NormalizeColumnName(x)
  {
    var q := ['"'] + x + ['"'];
    assert Avoids(q, '.') by {
      assert forall k | 1 <= k < |q| - 1 :: q[k] == x[k - 1];
    }
    assert t + ".\"" + x + "\"" == t + "." + q;
    NormalizeQualified(t, q);
    SplitWithoutSep(q, '.');
    NormalizeQuoted(x);
  }

  /** A plain name that starts with its only `on` loses that prefix. */
  lemma NormalizeLeadingOn(y: string)
    requires Plain(y) && !Contains(y, "on") && |y| > 0
    ensures NormalizeColumnName("on" + y) == y
  {
    var o := "on" + y;
    assert MatchAt(o, 0, "on");
    assert o[..2] == "on" && o[2..] == y;
    assert forall k | 2 <= k < |o| :: o[k] == y[k - 2];
    assert Plain(o);
    NormalizePlainOn(o);
    ReplaceAbsent(y, "on", "");
    assert Replace(o, "on", "") == y;
    StripNoSpaceEnds(y);
  }

  /** Quotes around the table and the column make no difference. */
  lemma NormalizeExampleQuoted(t: string, c: string)
    requires t == "\"users\"" && c == "created_at"
    ensures NormalizeColumnName(t + ".\"" + c + "\"") == c
  {
    AbsentByFirst(c, "on");
    assert Plain(c);
    NormalizePlain(c);
    NormalizeQuotedQualified(t, c);
  }

  lemma PlainDelete(y: string)
    requires y == "_delete"
    ensures Plain(y) && !Contains(y, "on") && |y| > 0
  {
    AbsentByFirst(y, "on");
  }

  /** The `on` of a name is removed wherever it stands. */
  lemma NormalizeExampleOn(t: string, o: string, y: string)
    requires t == "\"users\"" && o == "on_delete" && y == "_delete"
    ensures NormalizeColumnName(t + ".\"" + o + "\"") == y
  {
    PlainDelete(y);
    assert o == "on" + y;
    NormalizeLeadingOn(y);
    assert Avoids(o, '.') && Avoids(o, '"');
    NormalizeQuotedQualified(t, o);
  }

  /** `filter_primary_keys`: the keys that are not catalogue columns. */
  function FilterPrimaryKeys(keys: seq<string>): (r: set<string>)
    ensures r !! IrrelevantFields
    ensures forall k | k in keys && k !in IrrelevantFields :: k in r
    ensures forall k | k in r :: k in keys
  {
    set k | k in keys && k !in IrrelevantFields
  }

  /** The primary keys of a table, `[]` for a table the database does not know. */
  function PrimaryKeys(facts: SchemaFacts, table: string): seq<string> {
    if table in facts.primaryKeys then facts.primaryKeys[table] else []
  }

  /** The unique fields of a table, `[]` for a table the database does not know. */
  function UniqueFields(facts: SchemaFacts, table: string): seq<string> {
    if table in facts.uniqueFields then facts.uniqueFields[table] else []
  }

  /** The normalized meaningful primary keys and unique fields of one table. */
  function TableKeys(facts: SchemaFacts, table: string): (r: set<string>)
    ensures forall k | k in FilterPrimaryKeys(PrimaryKeys(facts, table)) :: NormalizeColumnName(k) in r
    ensures forall u | u in UniqueFields(facts, table) :: NormalizeColumnName(u) in r
  {
    NormalizeEach(FilterPrimaryKeys(PrimaryKeys(facts, table))) + NormalizeListed(UniqueFields(facts, table))
  }

  /** The normal forms of a list of names: those of its set of elements. */
  function NormalizeListed(names: seq<string>): (r: set<string>)
    ensures forall k | k in names :: NormalizeColumnName(k) in r
  {
    NormalizeEach(set k | k in names)
  }

  /** One listed name has one normal form. */
  lemma NormalizeListedOne(names: seq<string>, u: string)
    requires names == [u]
    ensures NormalizeListed(names) == {NormalizeColumnName(u)}
  {
  }

  /** The normal forms of a set of names. */
  function NormalizeEach(names: set<string>): (r: set<string>)
    ensures forall k | k in names :: NormalizeColumnName(k) in r
  {
    set k | k in names :: NormalizeColumnName(k)
  }

  /** One name has one normal form. */
  lemma NormalizeOne(names: set<string>, p: string)
    requires names == {p}
    ensures NormalizeEach(names) == {NormalizeColumnName(p)}
  {
  }

  /** `all_unique_fields`: the keys of every table involved. */
  function AllUniqueFields(facts: SchemaFacts, tables: seq<string>): (r: set<string>)
    ensures forall i | 0 <= i < |tables| :: TableKeys(facts, tables[i]) <= r
    ensures forall x | x in r :: exists i | 0 <= i < |tables| :: x in TableKeys(facts, tables[i])
  {
    var keysOf := (t: string) => TableKeys(facts, t);
    assert forall t :: keysOf(t) == TableKeys(facts, t);
    UnionOver(keysOf, tables)
  }

  /** The union of the key sets of the tables, in any order. */
  function UnionOver(keysOf: string -> set<string>, tables: seq<string>): (r: set<string>)
    ensures forall i | 0 <= i < |tables| :: keysOf(tables[i]) <= r
    ensures forall x | x in r :: exists i | 0 <= i < |tables| :: x in keysOf(tables[i])
    decreases |tables|
  {
    if |tables| == 0 then {}
    else
      var rest := UnionOver(keysOf, tables[1..]);
      assert forall i | 1 <= i < |tables| :: tables[i] == tables[1..][i - 1];
      keysOf(tables[0]) + rest
  }

  /**
   * `\bDISTINCT\s+ON\s*\(\s*([^\)]+)\s*\)` at `p`, case-insensitively: the
   * bounds of the group and the end of the match.
   */
  function DistinctOnAt(s: string, p: nat): (r: Option<(nat, nat, nat)>)
    requires p <= |s|
    ensures r.Some? ==> p + 8 < r.value.0 < r.value.1 < r.value.2 <= |s|
    ensures r.Some? ==> WordBoundary(s, p) && KeywordAt(s, p, "DISTINCT")
  {
    if !WordBoundary(s, p) || !KeywordAt(s, p, "DISTINCT") then None
    else
      var w := SkipSpaces(s, p + 8);
      if w == p + 8 || !KeywordAt(s, w, "ON") then None
      else
        var o := SkipSpaces(s, w + 2);
        if o == |s| || s[o] != '(' then None
        else
          match Aggregates.Argument(s, o + 1)
          case None => None
          case Some((a, b)) => Some((a, b, b + 1))
  }

  /** `re.search` of the DISTINCT ON pattern from `p`: where the leftmost match starts. */
  function FirstDistinctOn(s: string, p: nat): (r: Option<nat>)
    requires p <= |s|
    ensures r.Some? ==> p <= r.value <= |s| && DistinctOnAt(s, r.value).Some?
    ensures r.None? ==> forall q | p <= q <= |s| :: DistinctOnAt(s, q).None?
    decreases |s| - p
  {
    if DistinctOnAt(s, p).Some? then Some(p)
    else if p == |s| then None
    else FirstDistinctOn(s, p + 1)
  }

  /** `\bDISTINCT\b` at `p`, case-insensitively. */
  predicate DistinctWordAt(s: string, p: nat) {
    WordBoundary(s, p) && KeywordAt(s, p, "DISTINCT") && WordBoundary(s, p + 8)
  }

  /** `re.search` of the bare DISTINCT pattern from `p`: where the leftmost match starts. */
  function FirstDistinctWord(s: string, p: nat): (r: Option<nat>)
    requires p <= |s|
    ensures r.Some? ==> p <= r.value && r.value + 8 <= |s| && DistinctWordAt(s, r.value)
    ensures r.None? ==> forall q | p <= q <= |s| :: !DistinctWordAt(s, q)
    decreases |s| - p
  {
    if DistinctWordAt(s, p) then Some(p)
    else if p == |s| then None
    else FirstDistinctWord(s, p + 1)
  }

  /**
   * The select clause with its DISTINCT removed: a DISTINCT ON part (every
   * occurrence of its text) only when its column is a key, then commas
   * stripped from both ends; otherwise every occurrence of the DISTINCT word,
   * spelled as it was matched, then whitespace stripped.
   */
  function WithoutDistinct(sel: string, keys: set<string>): (r: string)
    ensures |r| <= |sel|
  {
    match FirstDistinctOn(sel, 0)
    case Some(p) =>
      var m := DistinctOnAt(sel, p).value;
      if NormalizeColumnName(Strip(sel[m.0..m.1])) in keys then
        ReplaceShorter(sel, sel[p..m.2]);
        StripChar(Replace(sel, sel[p..m.2], ""), ',')
      else sel
    case None =>
      match FirstDistinctWord(sel, 0)
      case Some(p) =>
        ReplaceShorter(sel, sel[p..p + 8]);
        Strip(Replace(sel, sel[p..p + 8], ""))
      case None => sel
  }

  /** Deleting a pattern never lengthens the text. */
  lemma {:induction false} ReplaceShorter(s: string, pat: string)
    requires |pat| > 0
    ensures |Replace(s, pat, "")| <= |s|
    decreases |s|
  {
    if |s| >= |pat| {
      if s[..|pat|] == pat {
        ReplaceShorter(s[|pat|..], pat);
      } else {
        ReplaceShorter(s[1..], pat);
      }
    }
  }

  /** Every non-empty piece is mapped by `f` to one of the keys: `all(f(c) in keys for c in pieces if c)`. */
  predicate PiecesMapInto(pieces: seq<string>, f: string -> string, keys: set<string>) {
    forall i | 0 <= i < |pieces| && pieces[i] != "" :: f(pieces[i]) in keys
  }

  /**
   * `is_distinct_unnecessary`: false without a select clause or tables;
   * otherwise whether every non-empty comma-separated piece left after the
   * DISTINCT is removed normalizes to a key of one of the tables.
   */
  predicate IsDistinctUnnecessary(sel: string, tables: seq<string>, facts: SchemaFacts)
  {
    && sel != "" && tables != []
    && var keys := AllUniqueFields(facts, tables);
       ColumnsAreKeys(WithoutDistinct(sel, keys), keys)
  }

  /** Every non-empty comma-separated piece of the clause normalizes to a key. */
  predicate ColumnsAreKeys(clause: string, keys: set<string>) {
    PiecesMapInto(Split(clause, ','), NormalizeColumnName, keys)
  }

  // ---------------------------------------------------------------------------
  // The clause shapes the check is written for

  /** Without an opening parenthesis there is no DISTINCT ON. */
  lemma {:induction false} NoDistinctOnWithoutParen(s: string, p: nat)
    requires p <= |s| && Avoids(s, '(')
    ensures FirstDistinctOn(s, p).None?
    decreases |s| - p
  {
    assert DistinctOnAt(s, p).None?;
    if p < |s| {
      NoDistinctOnWithoutParen(s, p + 1);
    }
  }

  /** A plain column list after DISTINCT: the word is removed and the rest stripped, whatever the keys. */
  lemma WithoutLeadingDistinct(rest: string, keys: set<string>)
    requires |rest| > 0 && !IsWordChar(rest[0])
    requires Avoids(rest, '(') && Avoids(rest, 'D')
    ensures WithoutDistinct("DISTINCT" + rest, keys) == Strip(rest)
  {
    LeadingDistinctWord(rest);
  }

  /** The scans over `DISTINCT` followed by a plain column list. */
  lemma LeadingDistinctWord(rest: string)
    requires |rest| > 0 && !IsWordChar(rest[0])
    requires Avoids(rest, '(') && Avoids(rest, 'D')
    ensures var sel := "DISTINCT" + rest;
      FirstDistinctOn(sel, 0).None? && FirstDistinctWord(sel, 0) == Some(0) && Replace(sel, sel[0..8], "") == rest
  {
    var sel := "DISTINCT" + rest;
    assert forall k | 0 <= k < 8 :: sel[k] == "DISTINCT"[k];
    assert forall k | 8 <= k < |sel| :: sel[k] == rest[k - 8];
    NoDistinctOnWithoutParen(sel, 0);
    assert DistinctWordAt(sel, 0);
    assert sel[0..8] == "DISTINCT" && sel[8..] == rest;
    AbsentByFirst(rest, "DISTINCT");
    ReplaceAbsent(rest, "DISTINCT", "");
  }

  /**
   * `DISTINCT ON (col)` before a column list: the part is removed, and commas
   * stripped, exactly when the column is a key.
   */
  lemma WithoutLeadingDistinctOn(col: string, rest: string, keys: set<string>)
    requires |col| > 0 && forall k | 0 <= k < |col| :: IsWordChar(col[k])
    requires Avoids(rest, 'D')
    ensures NormalizeColumnName(col) in keys ==>
      WithoutDistinct("DISTINCT ON (" + col + ")" + rest, keys) == StripChar(rest, ',')
    ensures NormalizeColumnName(col) !in keys ==>
      WithoutDistinct("DISTINCT ON (" + col + ")" + rest, keys) == "DISTINCT ON (" + col + ")" + rest
  {
    LeadingDistinctOn(col, rest);
    StripNoSpace(col);
  }

  /** The scan over `DISTINCT ON (col)` followed by a column list. */
  lemma LeadingDistinctOn(col: string, rest: string)
    requires |col| > 0 && forall k | 0 <= k < |col| :: IsWordChar(col[k])
    requires Avoids(rest, 'D')
    ensures var sel := "DISTINCT ON (" + col + ")" + rest; var n := |col|;
      && FirstDistinctOn(sel, 0) == Some(0)
      && DistinctOnAt(sel, 0) == Some((13, 13 + n, 14 + n))
      && sel[13..13 + n] == col
      && Replace(sel, sel[0..14 + n], "") == rest
  {
    var head := "DISTINCT ON (" + col + ")";
    var sel := head + rest;
    var n := |col|;
    assert forall k | 0 <= k < 13 :: sel[k] == "DISTINCT ON ("[k];
    assert forall k | 13 <= k < 13 + n :: sel[k] == col[k - 13];
    assert sel[13 + n] == ')';
    assert SkipSpaces(sel, 8) == 9;
    assert KeywordAt(sel, 9, "ON");
    assert SkipSpaces(sel, 11) == 12;
    assert RunEnd(sel, 13, NotClose) == 13 + n;
    assert SkipSpaces(sel, 13) == 13;
    assert DistinctOnAt(sel, 0) == Some((13, 13 + n, 14 + n));
    assert sel[13..13 + n] == col;
    assert sel[0..14 + n] == head && sel[14 + n..] == rest;
    AbsentByFirst(rest, head);
    ReplaceAbsent(rest, head, "");
  }

  /** A name without dots, quotes or capitals whose stripped form holds no `on` normalizes to that stripped form. */
  lemma NormalizeSimple(x: string)
    requires Avoids(x, '.') && Avoids(x, '"') && NoUpper(x) && !Contains(Strip(x), "on")
    ensures NormalizeColumnName(x) == Strip(x)
  {
    SplitWithoutSep(x, '.');
    DeleteCharKeep(x, '"');
    LowerKeep(x);
    StripNoSpaceEnds(Strip(x));
  }

  /** The table of the examples below: primary key `id`, unique field `email`. */
  predicate UsersFacts(facts: SchemaFacts) {
    facts.primaryKeys == map["users" := ["id"]] && facts.uniqueFields == map["users" := ["email"]]
  }

  /** The keys of that table. */
  lemma UsersKeys(facts: SchemaFacts, tables: seq<string>, i: string, e: string)
    requires UsersFacts(facts) && tables == ["users"] && i == "id" && e == "email"
    ensures AllUniqueFields(facts, tables) == {i, e}
  {
    UsersTableKeys(facts, tables[0], i, e);
    SingleTableKeys(facts, tables);
  }

  /** One table contributes exactly its own keys. */
  lemma SingleTableKeys(facts: SchemaFacts, tables: seq<string>)
    requires |tables| == 1
    ensures AllUniqueFields(facts, tables) == TableKeys(facts, tables[0])
  {
    assert AllUniqueFields(facts, tables[1..]) == {};
  }

  /** The keys of the example table: its primary key and its unique field. */
  lemma UsersTableKeys(facts: SchemaFacts, t: string, i: string, e: string)
    requires UsersFacts(facts) && t == "users" && i == "id" && e == "email"
    ensures TableKeys(facts, t) == {i, e}
  {
    assert PrimaryKeys(facts, t) == [i];
    assert UniqueFields(facts, t) == [e];
    KeyId(i);
    PlainName(e);
    OneKeyEach(facts, t, i, e);
  }

  /** A table with one meaningful primary key and one unique field has exactly their normal forms as keys. */
  lemma OneKeyEach(facts: SchemaFacts, t: string, p: string, u: string)
    requires PrimaryKeys(facts, t) == [p] && UniqueFields(facts, t) == [u] && p !in IrrelevantFields
    ensures TableKeys(facts, t) == {NormalizeColumnName(p), NormalizeColumnName(u)}
  {
    var pk := FilterPrimaryKeys([p]);
    assert pk == {p};
    NormalizeOne(pk, p);
    NormalizeListedOne(UniqueFields(facts, t), u);
  }

  /** `id` is a meaningful primary key and already normal. */
  lemma KeyId(i: string)
    requires i == "id"
    ensures FilterPrimaryKeys([i]) == {i} && NormalizeColumnName(i) == i
  {
    assert i !in IrrelevantFields;
    PlainName(i);
  }

  /** The example column names are already normal. */
  lemma PlainName(x: string)
    requires x == "id" || x == "email" || x == "name"
    ensures NormalizeColumnName(x) == x
  {
    AbsentByFirst(x, "on");
    assert Plain(x);
    NormalizePlain(x);
  }

  /**
   * Normalization is not idempotent: deleting the `on` in the middle of
   * `oonn` joins the outer letters into a new `on`, which a second pass deletes.
   */
  lemma NormalizeNotIdempotent(s: string, t: string)
    requires s == "oonn" && t == "on"
    ensures NormalizeColumnName(s) == t
    ensures NormalizeColumnName(NormalizeColumnName(s)) == ""
  {
    OonnPlain(s, t);
    OonnReplace(s, t);
    NormalizePlainOn(s);
    NormalizePlainOn(t);
    StripNoSpaceEnds(t);
  }

  /** Both names are already plain, and both hold an `on`. */
  lemma OonnPlain(s: string, t: string)
    requires s == "oonn" && t == "on"
    ensures Plain(s) && Plain(t) && Contains(s, "on") && Contains(t, "on")
  {
    assert MatchAt(s, 1, "on") && MatchAt(t, 0, "on");
  }

  /** The deletions: `oonn` loses its middle `on`, and `on` loses itself. */
  lemma OonnReplace(s: string, t: string)
    requires s == "oonn" && t == "on"
    ensures Replace(s, "on", "") == t && Replace(t, "on", "") == ""
  {
    assert Replace(s[3..], "on", "") == "n";
    assert Replace(s[1..], "on", "") == "n";
  }

  /** The catalogue columns are dropped from a list of keys and the meaningful ones kept. */
  lemma FilterKeysExample(keys: seq<string>)
    requires keys == ["constraint_catalog", "name", "nspname", "email", "domain_catalog"]
    ensures FilterPrimaryKeys(keys) == {"name", "email"}
  {
    var r := FilterPrimaryKeys(keys);
    KeptField(keys[1]);
    KeptField(keys[3]);
    DroppedFields(keys[0], keys[2], keys[4]);
    assert keys[1] in r && keys[3] in r;
    forall k | k in r
      ensures k == keys[1] || k == keys[3]
    {
      assert k in keys && k != keys[0] && k != keys[2] && k != keys[4];
    }
  }

  /** One example column is not an irrelevant field. */
  lemma KeptField(a: string)
    requires a == "name" || a == "email"
    ensures a !in IrrelevantFields
  {
  }

  /** Three of the catalogue columns are among the irrelevant fields. */
  lemma DroppedFields(a: string, b: string, c: string)
    requires a == "constraint_catalog" && b == "nspname" && c == "domain_catalog"
    ensures a in IrrelevantFields && b in IrrelevantFields && c in IrrelevantFields
  {
  }

  /** A simple selected column: a normal name without `on`, commas or parentheses. */
  predicate Column(a: string) {
    |a| > 0 && Plain(a) && !Contains(a, "on") && Avoids(a, ',') && Avoids(a, '(')
  }

  /** A simple column preceded by a space normalizes to the column. */
  lemma NormalizeSpaced(b: string)
    requires Column(b)
    ensures NormalizeColumnName(" " + b) == b
  {
    var x := " " + b;
    assert forall k | 1 <= k < |x| :: x[k] == b[k - 1];
    StripIs(x, 1, |x|);
    assert x[1..] == b;
    assert Strip(x) == b;
    assert Avoids(x, '.') && Avoids(x, '"') && NoUpper(x);
    NormalizeSimple(x);
  }

  /** `x, y` splits at its comma into `x` and ` y`. */
  lemma SplitPair(x: string, y: string)
    requires Avoids(x, ',') && Avoids(y, ',')
    ensures Split(x + ", " + y, ',') == [x, " " + y]
  {
    var t := " " + y;
    assert Avoids(t, ',') by {
      assert forall k | 1 <= k < |t| :: t[k] == y[k - 1];
    }
    assert x + ", " + y == x + [','] + t;
    SplitHead(x, t, ',');
    SplitWithoutSep(t, ',');
  }

  /** The DISTINCT before two simple columns is removed with the space after it. */
  lemma PairWithoutDistinct(a: string, b: string, keys: set<string>)
    requires Column(a) && Column(b)
    ensures WithoutDistinct("DISTINCT " + a + ", " + b, keys) == a + ", " + b
  {
    var rest := " " + (a + ", " + b);
    assert "DISTINCT " + a + ", " + b == "DISTINCT" + rest;
    PairRest(a, b);
    WithoutLeadingDistinct(rest, keys);
  }

  /** The text after `DISTINCT`: a space, then a pair free of `D` and `(` that strips to itself. */
  lemma PairRest(a: string, b: string)
    requires Column(a) && Column(b)
    ensures var rest := " " + (a + ", " + b);
      !IsWordChar(rest[0]) && Avoids(rest, '(') && Avoids(rest, 'D') && Strip(rest) == a + ", " + b
  {
    var body := a + ", " + b;
    var rest := " " + body;
    assert Avoids(body, '(') && Avoids(body, 'D') by {
      assert Avoids(a, 'D') && Avoids(b, 'D');
      AvoidsConcat(a, ", ", '(');
      AvoidsConcat(a + ", ", b, '(');
      AvoidsConcat(a, ", ", 'D');
      AvoidsConcat(a + ", ", b, 'D');
    }
    AvoidsConcat(" ", body, '(');
    AvoidsConcat(" ", body, 'D');
    assert Strip(rest) == body by {
      assert body[0] == a[0] && body[|body| - 1] == b[|b| - 1];
      StripIs(rest, 1, |rest|);
      assert rest[1..] == body;
    }
  }

  /** `x, y` has its columns among the keys exactly when both pieces normalize into them. */
  lemma PiecePairKeys(x: string, y: string, keys: set<string>)
    requires |x| > 0 && Avoids(x, ',') && Avoids(y, ',')
    ensures ColumnsAreKeys(x + ", " + y, keys) <==>
      NormalizeColumnName(x) in keys && NormalizeColumnName(" " + y) in keys
  {
    SplitPair(x, y);
    var pieces := Split(x + ", " + y, ',');
    assert pieces[0] == x && pieces[1] == " " + y;
  }

  /** Two simple columns are keys exactly when both are. */
  lemma PairKeys(a: string, b: string, keys: set<string>)
    requires Column(a) && Column(b)
    ensures ColumnsAreKeys(a + ", " + b, keys) <==> a in keys && b in keys
  {
    PiecePairKeys(a, b, keys);
    NormalizePlain(a);
    NormalizeSpaced(b);
  }

  /**
   * `DISTINCT a, b` over simple columns is unnecessary exactly when there is a
   * table and both columns are among its keys.
   */
  lemma DistinctPair(a: string, b: string, tables: seq<string>, facts: SchemaFacts)
    requires Column(a) && Column(b)
    ensures var keys := AllUniqueFields(facts, tables);
      IsDistinctUnnecessary("DISTINCT " + a + ", " + b, tables, facts) <==> tables != [] && a in keys && b in keys
  {
    var keys := AllUniqueFields(facts, tables);
    PairWithoutDistinct(a, b, keys);
    PairKeys(a, b, keys);
  }

  /** A DISTINCT ON whose column is a key is removed, leaving the space before the columns. */
  lemma OnPairWithoutDistinct(c: string, a: string, b: string, keys: set<string>)
    requires |c| > 0 && forall k | 0 <= k < |c| :: IsWordChar(c[k])
    requires Column(a) && Column(b) && NormalizeColumnName(c) in keys
    ensures WithoutDistinct("DISTINCT ON (" + c + ") " + a + ", " + b, keys) == " " + a + ", " + b
  {
    var rest := " " + a + ", " + b;
    assert "DISTINCT ON (" + c + ") " + a + ", " + b == "DISTINCT ON (" + c + ")" + rest;
    SpacedPair(a, b);
    WithoutLeadingDistinctOn(c, rest, keys);
  }

  /** ` a, b` holds no `D` and has no comma to strip at its ends. */
  lemma SpacedPair(a: string, b: string)
    requires Column(a) && Column(b)
    ensures var rest := " " + a + ", " + b; Avoids(rest, 'D') && StripChar(rest, ',') == rest
  {
    var sa := " " + a;
    var rest := sa + ", " + b;
    assert Avoids(a, 'D') && Avoids(b, 'D');
    AvoidsConcat(" ", a, 'D');
    AvoidsConcat(sa, ", ", 'D');
    AvoidsConcat(sa + ", ", b, 'D');
    assert rest[0] == ' ' && rest[|rest| - 1] == b[|b| - 1];
  }

  /** Two simple columns, each after a space, are keys exactly when both are. */
  lemma SpacedPairKeys(a: string, b: string, keys: set<string>)
    requires Column(a) && Column(b)
    ensures ColumnsAreKeys(" " + a + ", " + b, keys) <==> a in keys && b in keys
  {
    var sa := " " + a;
    AvoidsConcat(" ", a, ',');
    PiecePairKeys(sa, b, keys);
    NormalizeSpaced(a);
    NormalizeSpaced(b);
  }

  /**
   * `DISTINCT ON (c) a, b` over simple columns, with `c` a key: unnecessary
   * exactly when there is a table and both selected columns are keys too.
   */
  lemma DistinctOnPair(c: string, a: string, b: string, tables: seq<string>, facts: SchemaFacts)
    requires |c| > 0 && forall k | 0 <= k < |c| :: IsWordChar(c[k])
    requires Column(a) && Column(b)
    requires NormalizeColumnName(c) in AllUniqueFields(facts, tables)
    ensures var keys := AllUniqueFields(facts, tables);
      IsDistinctUnnecessary("DISTINCT ON (" + c + ") " + a + ", " + b, tables, facts) <==> tables != [] && a in keys && b in keys
  {
    var keys := AllUniqueFields(facts, tables);
    OnPairWithoutDistinct(c, a, b, keys);
    SpacedPairKeys(a, b, keys);
    assert " " + a + ", " + b == (" " + a) + ", " + b;
  }

  /** The three cases of the `users` table with key `id` and unique field `email`. */
  lemma DistinctExamples(facts: SchemaFacts, tables: seq<string>, i: string, e: string, n: string)
    requires UsersFacts(facts) && tables == ["users"] && i == "id" && e == "email" && n == "name"
    ensures IsDistinctUnnecessary("DISTINCT " + i + ", " + e, tables, facts)
    ensures IsDistinctUnnecessary("DISTINCT ON (" + i + ") " + i + ", " + e, tables, facts)
    ensures !IsDistinctUnnecessary("DISTINCT " + i + ", " + n, tables, facts)
  {
    KeyPairExample(facts, tables, i, e);
    KeyOnPairExample(facts, tables, i, e);
    NameExample(facts, tables, i, e, n);
  }

  /** `DISTINCT id, email`: both columns are keys. */
  lemma KeyPairExample(facts: SchemaFacts, tables: seq<string>, i: string, e: string)
    requires UsersFacts(facts) && tables == ["users"] && i == "id" && e == "email"
    ensures IsDistinctUnnecessary("DISTINCT " + i + ", " + e, tables, facts)
  {
    UsersKeys(facts, tables, i, e);
    ExampleColumns(i, e, "name");
    DistinctPair(i, e, tables, facts);
  }

  /** `DISTINCT ON (id) id, email`: the ON column and both selected columns are keys. */
  lemma KeyOnPairExample(facts: SchemaFacts, tables: seq<string>, i: string, e: string)
    requires UsersFacts(facts) && tables == ["users"] && i == "id" && e == "email"
    ensures IsDistinctUnnecessary("DISTINCT ON (" + i + ") " + i + ", " + e, tables, facts)
  {
    UsersKeys(facts, tables, i, e);
    ExampleColumns(i, e, "name");
    PlainName(i);
    DistinctOnPair(i, i, e, tables, facts);
  }

  /** `DISTINCT id, name`: `name` is not a key. */
  lemma NameExample(facts: SchemaFacts, tables: seq<string>, i: string, e: string, n: string)
    requires UsersFacts(facts) && tables == ["users"] && i == "id" && e == "email" && n == "name"
    ensures !IsDistinctUnnecessary("DISTINCT " + i + ", " + n, tables, facts)
  {
    UsersKeys(facts, tables, i, e);
    ExampleColumns(i, e, n);
    DistinctPair(i, n, tables, facts);
  }

  /** The example names are simple columns, and `name` is neither of the keys. */
  lemma ExampleColumns(i: string, e: string, n: string)
    requires i == "id" && e == "email" && n == "name"
    ensures Column(i) && Column(e) && Column(n) && n != i && n != e
    ensures forall k | 0 <= k < |i| :: IsWordChar(i[k])
  {
    AbsentByFirst(i, "on");
    AbsentByFirst(e, "on");
    AbsentByFirst(n, "on");
  }
}

=== FILE: examples_detect.dfy ===
/**
 * The detector examples of `test_analyzer.py`, stated over the model. Each
 * query text is written in pieces so that the facts the detector reads
 * about it stay small.
 */
module DetectorExamples {
  import opened Wrappers
  import opened Text
  import opened Records
  import opened Patterns
  import opened Detectors

  /** An upper-case keyword whose first two letters never occur side by side, ignoring case, is absent from the upper-cased text. */
  lemma AbsentIgnoringCase(s: string, kw: string)
    requires |kw| >= 2
    requires forall k | 0 <= k < |s| - 1 :: !(UpperChar(s[k]) == kw[0] && UpperChar(s[k + 1]) == kw[1])
    ensures !Contains(Upper(s), kw)
  {
    forall i | 0 <= i <= |s| ensures !MatchAt(Upper(s), i, kw) {
      KeywordAtUpper(s, i, kw);
      if i + |kw| <= |s| {
        assert !(UpperChar(s[i]) == kw[0] && UpperChar(s[i + 1]) == kw[1]);
      }
    }
  }

  /** A keyword found ignoring case is contained in the upper-cased text. */
  lemma PresentIgnoringCase(s: string, i: nat, kw: string)
    requires KeywordAt(s, i, kw)
    ensures Contains(Upper(s), kw)
  {
    KeywordAtUpper(s, i, kw);
  }

  /** A rule applied to a single query. */
  lemma ReportSingle(ctx: Context, q: QueryRecord, rule: Rule, finding: (Context, QueryRecord) -> Finding)
    ensures Report(ctx, [q], rule, finding) == if rule(ctx, q) then [finding(ctx, q)] else []
  {
    assert [q][1..] == [];
  }

  /** A rule applied to two queries. */
  lemma ReportPair(ctx: Context, q1: QueryRecord, q2: QueryRecord, rule: Rule, finding: (Context, QueryRecord) -> Finding)
    ensures Report(ctx, [q1, q2], rule, finding) ==
      (if rule(ctx, q1) then [finding(ctx, q1)] else []) + (if rule(ctx, q2) then [finding(ctx, q2)] else [])
  {
    ReportConcat(ctx, [q1], [q2], rule, finding);
    assert [q1] + [q2] == [q1, q2];
    ReportSingle(ctx, q1, rule, finding);
    ReportSingle(ctx, q2, rule, finding);
  }

  /** Two queries that both break a rule give one finding each, in order. */
  lemma ReportBoth(ctx: Context, q1: QueryRecord, q2: QueryRecord, rule: Rule, finding: (Context, QueryRecord) -> Finding)
    requires rule(ctx, q1) && rule(ctx, q2)
    ensures Report(ctx, [q1, q2], rule, finding) == [finding(ctx, q1), finding(ctx, q2)]
  {
    ReportPair(ctx, q1, q2, rule, finding);
    assert [finding(ctx, q1)] + [finding(ctx, q2)] == [finding(ctx, q1), finding(ctx, q2)];
  }

  /** Two rules applied to two queries. */
  lemma Report2Pair(ctx: Context, q1: QueryRecord, q2: QueryRecord, ruleA: Rule, findingA: (Context, QueryRecord) -> Finding, ruleB: Rule, findingB: (Context, QueryRecord) -> Finding)
    ensures Report2(ctx, [q1, q2], ruleA, findingA, ruleB, findingB) ==
      (if ruleA(ctx, q1) then [findingA(ctx, q1)] else []) + (if ruleB(ctx, q1) then [findingB(ctx, q1)] else [])
      + (if ruleA(ctx, q2) then [findingA(ctx, q2)] else []) + (if ruleB(ctx, q2) then [findingB(ctx, q2)] else [])
  {
    assert [q1, q2][1..] == [q2];
    assert [q2][1..] == [];
  }

  /** Two rules over two queries where the first query breaks only the first rule and the second breaks both. */
  lemma Report2FirstThenBoth(ctx: Context, q1: QueryRecord, q2: QueryRecord, ruleA: Rule, findingA: (Context, QueryRecord) -> Finding, ruleB: Rule, findingB: (Context, QueryRecord) -> Finding)
    requires ruleA(ctx, q1) && !ruleB(ctx, q1) && ruleA(ctx, q2) && ruleB(ctx, q2)
    ensures Report2(ctx, [q1, q2], ruleA, findingA, ruleB, findingB) == [findingA(ctx, q1), findingA(ctx, q2), findingB(ctx, q2)]
  {
    Report2Pair(ctx, q1, q2, ruleA, findingA, ruleB, findingB);
    assert [findingA(ctx, q1)] + [] + [findingA(ctx, q2)] + [findingB(ctx, q2)] == [findingA(ctx, q1), findingA(ctx, q2), findingB(ctx, q2)];
  }

  /** Two rules over two queries where only the second query breaks only the second rule. */
  lemma Report2OnlyLast(ctx: Context, q1: QueryRecord, q2: QueryRecord, ruleA: Rule, findingA: (Context, QueryRecord) -> Finding, ruleB: Rule, findingB: (Context, QueryRecord) -> Finding)
    requires !ruleA(ctx, q1) && !ruleB(ctx, q1) && !ruleA(ctx, q2) && ruleB(ctx, q2)
    ensures Report2(ctx, [q1, q2], ruleA, findingA, ruleB, findingB) == [findingB(ctx, q2)]
  {
    Report2Pair(ctx, q1, q2, ruleA, findingA, ruleB, findingB);
    assert [] + [] + [] + [findingB(ctx, q2)] == [findingB(ctx, q2)];
  }

  /** `SELECT * FROM users` lacks a LIMIT and a WHERE clause and selects every column: each shape rule reports it once. */
  lemma SelectShapeExample(ctx: Context, q: QueryRecord, head: string, tail: string)
    requires head == "SELECT *" && tail == " FROM users" && q.sql == head + tail
    ensures DetectMissingLimit(ctx, [q]) == [MissingLimitFinding(ctx, q)]
    ensures DetectFullTableScan(ctx, [q]) == [FullTableScanFinding(ctx, q)]
    ensures DetectInefficientSelect(ctx, [q]) == [SelectStarFinding(ctx, q)]
  {
    var s := q.sql;
    assert s[0..8] == head;
    assert MatchAt(s, 0, "SELECT *") && MatchAt(s, 0, "SELECT");
    AbsentByPair(s, "LIMIT");
    AbsentByFirst(s, "WHERE");
    assert [q][1..] == [];
  }

  /** An upper-case text found as it is, is found in the upper-cased text. */
  lemma PresentAsIs(s: string, i: nat, kw: string)
    requires MatchAt(s, i, kw)
    requires forall k | 0 <= k < |kw| :: UpperChar(kw[k]) == kw[k]
    ensures Contains(Upper(s), kw)
  {
    forall k | 0 <= k < |kw| ensures UpperChar(s[i + k]) == kw[k] {
      assert s[i..i + |kw|][k] == kw[k];
    }
    PresentIgnoringCase(s, i, kw);
  }

  /** The first query of the Cartesian example has no CROSS JOIN. */
  lemma NoCrossJoin(a: string, t: string, s: string)
    requires a == "SELECT * FROM users " && t == "orders" && s == a + "JOIN " + t
    ensures !Contains(Upper(s), "CROSS JOIN")
  {
    var kw := "CROSS JOIN";
    assert forall k | 0 <= k < 15 :: !(UpperChar(s[k]) == kw[0] && UpperChar(s[k + 1]) == kw[1]);
    assert forall k | 15 <= k < |s| - 1 :: !(UpperChar(s[k]) == kw[0] && UpperChar(s[k + 1]) == kw[1]);
    AbsentIgnoringCase(s, kw);
  }

  /** The second query of the Cartesian example has one. */
  lemma CrossJoinAt(a: string, cross: string, s: string)
    requires a == "SELECT * FROM users " && cross == "CROSS " && s == a + cross + "JOIN " + "orders"
    ensures Contains(Upper(s), "CROSS JOIN")
  {
    assert s[20..30] == "CROSS JOIN";
    PresentAsIs(s, 20, "CROSS JOIN");
  }

  /** A JOIN keyword followed by a table name, as in both queries of the Cartesian example. */
  lemma JoinWord(a: string, t: string, s: string)
    requires t == "orders" && s == a + "JOIN " + t
    ensures CartesianJoin(s)
  {
    JoinWordFlagged(a, t, "");
    assert a + "JOIN " + t + "" == s;
  }

  /**
   * A plain JOIN without a condition is reported once, and a CROSS JOIN
   * twice: its JOIN keyword is followed by a table name as well, so both
   * rules flag it.
   */
  lemma CartesianExample(ctx: Context, q1: QueryRecord, q2: QueryRecord, a: string, cross: string, t: string)
    requires a == "SELECT * FROM users " && cross == "CROSS " && t == "orders"
    requires q1.sql == a + "JOIN " + t && q2.sql == a + cross + "JOIN " + t
    ensures DetectCartesianProducts(ctx, [q1, q2]) == [PlainJoinFinding(ctx, q1), PlainJoinFinding(ctx, q2), CrossJoinFinding(ctx, q2)]
  {
    JoinWord(a, t, q1.sql);
    JoinWord(a + cross, t, q2.sql);
    NoCrossJoin(a, t, q1.sql);
    CrossJoinAt(a, cross, q2.sql);
    assert PlainJoin(ctx, q1) && !CrossJoin(ctx, q1) && PlainJoin(ctx, q2) && CrossJoin(ctx, q2);
    Report2FirstThenBoth(ctx, q1, q2, PlainJoin, PlainJoinFinding, CrossJoin, CrossJoinFinding);
  }

  /**
   * Of a query without a time and an explicit LOCK statement without a
   * time, only the LOCK statement is reported: a missing time counts as 0.
   */
  lemma LockingExample(ctx: Context, q1: QueryRecord, q2: QueryRecord, lock: string)
    requires ctx.cfg.lockThreshold == 5.0
    requires q1.sql == "SELECT * FROM orders" && q1.time.None?
    requires lock == "LOCK" && q2.sql == lock + " TABLE users IN ACCESS EXCLUSIVE MODE" && q2.time.None?
    ensures DetectLockingIssues(ctx, [q1, q2]) == [ExplicitLockFinding(ctx, q2)]
  {
    LockTexts(q1.sql, q2.sql, lock);
    assert !LongLock(ctx, q1) && !ExplicitLock(ctx, q1) && !LongLock(ctx, q2) && ExplicitLock(ctx, q2);
    Report2OnlyLast(ctx, q1, q2, LongLock, LockingFinding, ExplicitLock, ExplicitLockFinding);
  }

  /** The plain query holds no LOCK, ignoring case; the LOCK statement does. */
  lemma LockTexts(s1: string, s2: string, lock: string)
    requires s1 == "SELECT * FROM orders"
    requires lock == "LOCK" && s2 == lock + " TABLE users IN ACCESS EXCLUSIVE MODE"
    ensures !Contains(Upper(s1), lock) && Contains(Upper(s2), lock)
  {
    AbsentIgnoringCase(s1, lock);
    assert forall k | 0 <= k < 4 :: UpperChar(s2[k]) == lock[k];
    PresentIgnoringCase(s2, 0, lock);
  }

  /** A transaction block running 6 seconds against a threshold of 5 is reported once. */
  lemma TransactionExample(ctx: Context, q: QueryRecord, begin: string, body: string, commit: string)
    requires ctx.cfg.transactionThreshold == 5.0
    requires begin == "BEGIN" && body == "; SELECT * FROM users; " && commit == "COMMIT;"
    requires q.sql == begin + body + commit && q.time == Some(6.0)
    ensures DetectOveruseOfTransactions(ctx, [q]) == Ok([TransactionFinding(ctx, q)])
  {
    assert forall k | 0 <= k < 5 :: UpperChar(q.sql[k]) == begin[k];
    PresentIgnoringCase(q.sql, 0, "BEGIN");
    assert forall k | 0 <= k < 6 :: UpperChar(q.sql[28 + k]) == commit[k];
    PresentIgnoringCase(q.sql, 28, "COMMIT");
    assert LongTransaction(ctx, q);
    ReportSingle(ctx, q, LongTransaction, TransactionFinding);
  }

  /** Runs of 1.0 and 0.6 seconds against a threshold of 0.5 are both slow, in order. */
  lemma SlowQueryExample(ctx: Context, q1: QueryRecord, q2: QueryRecord)
    requires ctx.cfg.slowQueryThreshold == 0.5
    requires q1.time == Some(1.0) && q2.time == Some(0.6)
    ensures DetectSlowQueries(ctx, [q1, q2]) == Ok([SlowFinding(ctx, q1), SlowFinding(ctx, q2)])
  {
    assert SlowRun(ctx, q1) && SlowRun(ctx, q2);
    ReportBoth(ctx, q1, q2, SlowRun, SlowFinding);
  }

  /** Two queries each holding a subquery are reported, one finding each, in order. */
  lemma SubqueryPair(ctx: Context, q1: QueryRecord, q2: QueryRecord)
    requires HasSubquery(q1.sql) && HasSubquery(q2.sql)
    ensures DetectSubqueries(ctx, [q1, q2]) == [SubqueryFinding(ctx, q1), SubqueryFinding(ctx, q2)]
  {
    assert Subquery(ctx, q1) && Subquery(ctx, q2);
    ReportBoth(ctx, q1, q2, Subquery, SubqueryFinding);
  }

  /** Both subquery examples are reported, one finding each. */
  lemma SubqueryExample(ctx: Context, q1: QueryRecord, q2: QueryRecord, a1: string, a2: string, x: string, b1: string, b2: string)
    requires a1 == "SELECT * FROM " && b1 == " orders) AS subquery"
    requires a2 == "SELECT * FROM users WHERE EXISTS " && b2 == " orders WHERE user_id = users.id)"
    requires x == "id"
    requires q1.sql == a1 + "(SELECT " + x + " FROM" + b1 && q2.sql == a2 + "(SELECT " + x + " FROM" + b2
    ensures DetectSubqueries(ctx, [q1, q2]) == [SubqueryFinding(ctx, q1), SubqueryFinding(ctx, q2)]
  {
    assert Avoids(x, '\n');
    SubqueryIn(a1, x, b1);
    SubqueryIn(a2, x, b2);
    SubqueryPair(ctx, q1, q2);
  }

  /** A function call on the left of a WHERE comparison is reported. */
  lemma NonSargableExample(ctx: Context, q: QueryRecord, a: string, x: string, b: string)
    requires a == "SELECT * FROM users " && x == "column" && b == " = 1"
    requires q.sql == a + "WHERE " + "FUNCTION(" + x + ")" + b
    ensures DetectNonSargable(ctx, [q]) == [NonSargableFinding(ctx, q)]
  {
    assert NonSargableQuery(ctx, q) by { FunctionInWhere(a, x, b); }
    ReportSingle(ctx, q, NonSargableQuery, NonSargableFinding);
  }

  /** No keyword starts in `[lo, hi)` when no two letters there spell its first two, ignoring case. */
  lemma NoKeywordByPair(s: string, lo: nat, hi: nat, kw: string)
    requires |kw| >= 2 && hi < |s|
    requires forall m | lo <= m < hi :: !(UpperChar(s[m]) == kw[0] && UpperChar(s[m + 1]) == kw[1])
    ensures forall m | lo <= m < hi :: !KeywordAt(s, m, kw)
  {
    forall m | lo <= m < hi ensures !KeywordAt(s, m, kw) {
      assert !(UpperChar(s[m]) == kw[0] && UpperChar(s[m + 1]) == kw[1]);
    }
  }

  /** The text of the pagination example has LIMIT and OFFSET, and no OFFSET keyword before the real one. */
  lemma PaginationText(a: string, d: string, s: string)
    requires a == "SELECT * FROM users LIMIT 10 " && d == "600" && s == a + "OFFSET " + d
    ensures Contains(s, "LIMIT") && Contains(s, "OFFSET")
    ensures forall m | 0 <= m < |a| :: !KeywordAt(s, m, "OFFSET")
  {
    assert s[20..25] == "LIMIT" && s[29..35] == "OFFSET";
    assert MatchAt(s, 20, "LIMIT") && MatchAt(s, 29, "OFFSET");
    NoKeywordByPair(s, 0, |a|, "OFFSET");
  }

  /** An OFFSET of 600 against a threshold of 500 is reported. */
  lemma PaginationExample(ctx: Context, q: QueryRecord, a: string, d: string)
    requires ctx.cfg.offsetThreshold == 500
    requires a == "SELECT * FROM users LIMIT 10 " && d == "600" && q.sql == a + "OFFSET " + d
    ensures DetectInefficientPagination(ctx, [q]) == [PaginationFinding(ctx, q)]
  {
    assert Decimal(600) == d;
    PaginationText(a, d, q.sql);
    assert q.sql == a + "OFFSET " + Decimal(600) + "";
    OffsetExample(a, 600, "");
    ReportSingle(ctx, q, LargeOffset, PaginationFinding);
  }
}

=== FILE: fetcher.dfy ===
/**
 * `QueryFetcher.fetch_from_manual_input`: the queries typed on the command
 * line, stripped, filtered by the verb check and wrapped as query records.
 */
module Fetcher {
  import opened Wrappers
  import opened Text
  import opened Records
  import opened Patterns
  import opened Lists

  /** The dictionary built around an accepted query: no parameters, a time of 0.01 seconds, no stack trace. */
  function ManualRecord(sql: string): (q: QueryRecord)
    ensures q.sql == sql && q.params == [] && q.time == Some(0.01) && q.stackTrace == []
  {
    QueryRecord(sql, [], Some(0.01), [])
  }

  /** An input the fetcher keeps: not blank once stripped, and passing the verb check. */
  predicate Accepted(input: string) {
    Strip(input) != "" && IsValidSql(Strip(input))
  }

  /** Stripping twice is stripping once. */
  lemma StripIdempotent(s: string)
    ensures Strip(Strip(s)) == Strip(s)
  {
    StripNoSpaceEnds(Strip(s));
  }

  /** The record built for one accepted input: its stripped text. */
  function ManualFromInput(input: string): (q: QueryRecord)
    ensures q == ManualRecord(Strip(input))
  {
    ManualRecord(Strip(input))
  }

  /** `fetch_from_manual_input`: the accepted inputs, stripped and wrapped, in input order. */
  function FetchFromManualInput(inputs: seq<string>): (r: seq<QueryRecord>)
    ensures |r| <= |inputs|
    ensures forall q | q in r :: q.params == [] && q.time == Some(0.01) && q.stackTrace == []
    ensures forall q | q in r :: IsValidSql(q.sql) && Strip(q.sql) == q.sql
    ensures forall q | q in r :: exists s | s in inputs :: Accepted(s) && q.sql == Strip(s)
    ensures forall s | s in inputs && Accepted(s) :: ManualRecord(Strip(s)) in r
  {
    forall s | s in inputs {
      StripIdempotent(s);
    }
    FilterMap(Accepted, ManualFromInput, inputs)
  }

  /** Fetching a split input is fetching each part: the records keep the order of the inputs. */
  lemma FetchConcat(xs: seq<string>, ys: seq<string>)
    ensures FetchFromManualInput(xs + ys) == FetchFromManualInput(xs) + FetchFromManualInput(ys)
  {
    FilterMapConcat(Accepted, ManualFromInput, xs, ys);
  }

  /** Blank inputs are dropped; the blank check is also implied by the verb check. */
  lemma BlankDropped(s: string)
    requires Strip(s) == ""
    ensures FetchFromManualInput([s]) == []
    ensures !Accepted(s)
  {
    assert [s][1..] == [];
  }

  /**
   * The manual-input example: of a SELECT statement and a statement starting
   * with INVALID, only the first is kept, as it was typed.
   */
  lemma ManualInputExample(verb: string, rest: string, invalid: string)
    requires verb == "SELECT" && rest == " * FROM users" && invalid == "INVALID SQL"
    ensures FetchFromManualInput([verb + rest, invalid]) == [ManualRecord(verb + rest)]
  {
    var sql := verb + rest;
    assert sql[0] == 'S' && sql[|sql| - 1] == 's';
    StripTrimmed(sql);
    StripTrimmed(invalid);
    ValidSqlExample(0, verb, rest);
    InvalidSqlExample(invalid);
    assert Accepted(sql) && !Accepted(invalid);
    FilterMapPair(Accepted, ManualFromInput, sql, invalid);
  }
}

=== FILE: indexes.dfy ===
/**
 * The missing-index rule: the database facts it consults (`is_small_table`,
 * `is_composite_indexed`, `is_column_indexed`, the plan scan of `is_indexed`),
 * the `CREATE INDEX` text of `generate_index_suggestion`, and
 * `detect_missing_indexes_for_clause`, which combines them table by table.
 */
module Indexes {
  import opened Wrappers
  import opened Text
  import opened Records

  // ---------------------------------------------------------------------------
  // Database facts

  /** `is_small_table`: the planner estimates fewer rows than the threshold; an unknown table is not small. */
  predicate IsSmallTable(facts: SchemaFacts, cfg: Config, table: string) {
    table in facts.rowEstimate && facts.rowEstimate[table] < cfg.smallTableThreshold
  }

  /** The constraints and indexes of a table, none for a table the database does not know. */
  function Constraints(facts: SchemaFacts, table: string): seq<Constraint> {
    if table in facts.constraints then facts.constraints[table] else []
  }

  /** `set(a) == set(b)` */
  predicate SameColumnSet(a: seq<string>, b: seq<string>) {
    (set x | x in a) == (set x | x in b)
  }

  /** `is_composite_indexed`: some index covers exactly the given column set, in any order. */
  predicate IsCompositeIndexed(facts: SchemaFacts, table: string, columns: seq<string>) {
    exists c | c in Constraints(facts, table) :: c.isIndex && SameColumnSet(columns, c.columns)
  }

  /** `is_column_indexed(table, [column])`: the model of the table declares the field with `db_index=True`. */
  predicate IsColumnIndexed(facts: SchemaFacts, table: string, column: string) {
    table in facts.indexedFields && column in facts.indexedFields[table]
  }

  const SeqScan: string := "Seq Scan"
  const IndexScan: string := "Index Scan"

  /** A plan line that settles the question: it names a sequential or an index scan. */
  predicate Decisive(line: string) {
    Contains(line, SeqScan) || Contains(line, IndexScan)
  }

  /**
   * The loop of `is_indexed` over the plan lines: a sequential scan answers
   * no and an index scan yes, whichever comes first; a line naming both is
   * read as a sequential scan.
   */
  function PlanUsesIndex(lines: seq<string>): (r: bool)
    ensures r ==> exists i | 0 <= i < |lines| :: Contains(lines[i], IndexScan)
    decreases |lines|
  {
    if |lines| == 0 then false
    else if Contains(lines[0], SeqScan) then false
    else if Contains(lines[0], IndexScan) then true
    else PlanUsesIndex(lines[1..])
  }

  /** The plan uses an index iff its first decisive line names an index scan and no sequential scan. */
  lemma {:induction false} PlanUsesIndexFirst(lines: seq<string>)
    ensures PlanUsesIndex(lines) <==>
      exists i | 0 <= i < |lines| ::
        && Contains(lines[i], IndexScan) && !Contains(lines[i], SeqScan)
        && forall j | 0 <= j < i :: !Decisive(lines[j])
    decreases |lines|
  {
    if |lines| > 0 && !Decisive(lines[0]) {
      var rest := lines[1..];
      PlanUsesIndexFirst(rest);
      if PlanUsesIndex(lines) {
        var i :| 0 <= i < |rest| && Contains(rest[i], IndexScan) && !Contains(rest[i], SeqScan)
                 && forall j | 0 <= j < i :: !Decisive(rest[j]);
        assert forall j | 0 <= j < i + 1 :: !Decisive(lines[j]) by {
          forall j | 0 <= j < i + 1 ensures !Decisive(lines[j]) {
            if j > 0 { assert lines[j] == rest[j - 1]; }
          }
        }
        assert lines[i + 1] == rest[i];
      } else {
        forall i | 0 <= i < |lines| && Contains(lines[i], IndexScan) && !Contains(lines[i], SeqScan)
          ensures exists j | 0 <= j < i :: Decisive(lines[j])
        {
          if i > 0 {
            assert rest[i - 1] == lines[i];
            var j :| 0 <= j < i - 1 && Decisive(rest[j]);
            assert lines[j + 1] == rest[j];
          }
        }
      }
    }
  }

  /**
   * `is_indexed`: runs `EXPLAIN` on the query's SQL and scans the first column
   * of each output row; no plan at all counts as no index.
   */
  predicate IsIndexed(facts: SchemaFacts, sql: string) {
    sql in facts.plans && PlanUsesIndex(facts.plans[sql])
  }

  // ---------------------------------------------------------------------------
  // The `CREATE INDEX` suggestion

  /** A word character is never directly followed by a dot: no `alias.` prefix is left. */
  predicate Unqualified(s: string) {
    forall k | 0 <= k < |s| - 1 :: IsWordChar(s[k]) ==> s[k + 1] != '.'
  }

  /** The character at `p` survives the prefix removal: it is not the start of a word run that a dot ends. */
  predicate KeptAt(s: string, p: nat)
    requires p < |s|
  {
    var e := RunEnd(s, p, Word);
    !IsWordChar(s[p]) || e == |s| || s[e] != '.'
  }

  /**
   * `re.sub(r'[A-Za-z0-9_]+\.', '', s)` from `p`. At a word character the
   * greedy run either ends on a dot, and run and dot are deleted, or it does
   * not, and no shorter run can end on a dot either, so the character stays.
   */
  function RemoveQualifiers(s: string, p: nat): (r: string)
    requires p <= |s|
    ensures |r| <= |s| - p
    ensures Unqualified(r)
    ensures p < |s| && KeptAt(s, p) ==> |r| > 0 && r[0] == s[p]
    decreases |s| - p
  {
    if p == |s| then ""
    else if IsWordChar(s[p]) && RunEnd(s, p, Word) < |s| && s[RunEnd(s, p, Word)] == '.' then
      RemoveQualifiers(s, RunEnd(s, p, Word) + 1)
    else
      var rest := RemoveQualifiers(s, p + 1);
      assert |rest| > 0 && IsWordChar(s[p]) ==> rest[0] != '.' by {
        if |rest| > 0 && IsWordChar(s[p]) {
          var e := RunEnd(s, p, Word);
          if p + 1 < e {
            assert RunEnd(s, p + 1, Word) == e;
          }
        }
      }
      [s[p]] + rest
  }

  /** Text with no `alias.` prefix left is kept as it is. */
  lemma {:induction false} RemoveQualifiersKeep(s: string, p: nat)
    requires p <= |s| && Unqualified(s)
    ensures RemoveQualifiers(s, p) == s[p..]
    decreases |s| - p
  {
    if p < |s| {
      var e := RunEnd(s, p, Word);
      if IsWordChar(s[p]) && e < |s| {
        assert IsWordChar(s[e - 1]);
      }
      RemoveQualifiersKeep(s, p + 1);
      assert s[p..] == [s[p]] + s[p + 1..];
    }
  }

  /** Removing the prefixes twice removes nothing more. */
  lemma RemoveQualifiersIdempotent(s: string)
    ensures RemoveQualifiers(RemoveQualifiers(s, 0), 0) == RemoveQualifiers(s, 0)
  {
    var r := RemoveQualifiers(s, 0);
    RemoveQualifiersKeep(r, 0);
  }

  /** `clean_column_name`: prefixes removed, then quotes, then surrounding whitespace. */
  function CleanIndexColumn(column: string): (r: string)
    ensures Avoids(r, '"')
    ensures |r| <= |column|
    ensures |r| > 0 ==> !IsSpace(r[0]) && !IsSpace(r[|r| - 1])
  {
    Unquote(RemoveQualifiers(column, 0))
  }

  /** A plain column name, free of dots, quotes and surrounding whitespace, is its own clean form. */
  lemma CleanPlainColumn(column: string)
    requires Avoids(column, '.') && Avoids(column, '"')
    requires |column| > 0 ==> !IsSpace(column[0]) && !IsSpace(column[|column| - 1])
    ensures CleanIndexColumn(column) == column
  {
    RemoveQualifiersKeep(column, 0);
    DeleteCharKeep(column, '"');
    StripNoSpaceEnds(column);
  }

  function CleanIndexColumns(columns: seq<string>): (r: seq<string>)
    ensures |r| == |columns|
    ensures forall k | 0 <= k < |r| :: r[k] == CleanIndexColumn(columns[k])
  {
    seq(|columns|, k requires 0 <= k < |columns| => CleanIndexColumn(columns[k]))
  }

  /** The table argument: a name, or a list whose first element is the target. */
  datatype TableArg = OneTable(name: string) | TableList(names: seq<string>)

  /** The columns argument: a comma-separated string, or a list. */
  datatype ColumnsArg = ColumnText(text: string) | Columns(items: seq<string>)

  const SplitIntoCharacters: string := "Column names appear to be split into individual characters."

  /** The statement text for a clean table and clean columns. */
  function IndexStatement(table: string, columns: seq<string>): string {
    "CREATE INDEX idx_" + table + "_" + Join(columns, "_") + " ON " + table + "(" + Join(columns, ", ") + ");"
  }

  /** The columns a columns argument lists, before cleaning. */
  function ColumnPieces(columns: ColumnsArg): (r: seq<string>)
    ensures columns.ColumnText? ==> |r| >= 1
  {
    match columns
    case ColumnText(text) => Split(text, ',')
    case Columns(items) => items
  }

  /** Some column is at most one character long. */
  predicate ShortIn(cleaned: seq<string>) {
    exists k | 0 <= k < |cleaned| :: |cleaned[k]| <= 1
  }

  /** Some cleaned column is at most one character long. */
  predicate HasShortColumn(columns: seq<string>) {
    exists k | 0 <= k < |columns| :: |CleanIndexColumn(columns[k])| <= 1
  }

  /** The check on the cleaned list is the check on the raw columns. */
  lemma ShortInCleaned(columns: seq<string>)
    ensures ShortIn(CleanIndexColumns(columns)) <==> HasShortColumn(columns)
  {
    var cleaned := CleanIndexColumns(columns);
    if ShortIn(cleaned) {
      var k :| 0 <= k < |cleaned| && |cleaned[k]| <= 1;
      assert |CleanIndexColumn(columns[k])| <= 1;
    }
    if HasShortColumn(columns) {
      var k :| 0 <= k < |columns| && |CleanIndexColumn(columns[k])| <= 1;
      assert |cleaned[k]| <= 1;
    }
  }

  /**
   * `generate_index_suggestion`. An empty table list raises `IndexError`; a
   * cleaned column of at most one character raises `ValueError`; an empty
   * column list makes the `try` block fail on `clean_columns[0]`, which is
   * logged, and the final `return index_sql` then raises `UnboundLocalError`.
   */
  function GenerateIndexSuggestion(table: TableArg, columns: ColumnsArg): (r: Result<string, Error>)
    ensures table == TableList([]) <==> r.Err? && r.error.IndexError?
    ensures r.Err? && r.error.ValueError? <==> table != TableList([]) && HasShortColumn(ColumnPieces(columns))
    ensures r.Err? && r.error.UnboundLocalError? <==> table != TableList([]) && ColumnPieces(columns) == []
    ensures r.Ok? ==> |r.value| > 0 && r.value[|r.value| - 1] == ';'
  {
    if table.TableList? && |table.names| == 0 then Err(IndexError("list index out of range"))
    else
      var t := Unquote(if table.OneTable? then table.name else table.names[0]);
      var pieces := ColumnPieces(columns);
      var cleaned := CleanIndexColumns(pieces);
      ShortInCleaned(pieces);
      if ShortIn(cleaned) then Err(ValueError(SplitIntoCharacters))
      else if |cleaned| > 1 then
        var head := "CREATE INDEX idx_" + t + "_" + Join(cleaned, "_") + " ON " + t + "(" + Join(cleaned, ", ");
        ClosedStatement(head);
        Ok(head + ");")
      else if |cleaned| == 1 then
        var head := "CREATE INDEX idx_" + t + "_" + cleaned[0] + " ON " + t + "(" + cleaned[0];
        ClosedStatement(head);
        Ok(head + ");")
      else Err(UnboundLocalError("index_sql"))
  }

  /** A statement closed by `);` ends with the semicolon. */
  lemma ClosedStatement(head: string)
    ensures |head + ");"| > 0 && (head + ");")[|head + ");"| - 1] == ';'
  {
  }

  /**
   * Whatever shape the arguments take, a suggestion is the statement for the
   * unquoted target table and the cleaned columns, single or composite.
   */
  lemma SuggestionStatement(table: TableArg, columns: ColumnsArg)
    requires GenerateIndexSuggestion(table, columns).Ok?
    ensures table.OneTable? || |table.names| > 0
    ensures GenerateIndexSuggestion(table, columns).value ==
      IndexStatement(Unquote(if table.OneTable? then table.name else table.names[0]), CleanIndexColumns(ColumnPieces(columns)))
  {
  }

  /** A comma-separated string suggests the same index as the list of its pieces. */
  lemma ColumnTextAsList(table: TableArg, text: string)
    ensures GenerateIndexSuggestion(table, ColumnText(text)) == GenerateIndexSuggestion(table, Columns(Split(text, ',')))
  {
  }

  /** A table list suggests the same index as its first table alone. */
  lemma TableListAsName(names: seq<string>, columns: ColumnsArg)
    requires |names| > 0
    ensures GenerateIndexSuggestion(TableList(names), columns) == GenerateIndexSuggestion(OneTable(names[0]), columns)
  {
  }

  /** Strips each piece, as `[c.strip() for c in pieces]`. */
  function StripPieces(pieces: seq<string>): (r: seq<string>)
    ensures |r| == |pieces|
    ensures forall k | 0 <= k < |r| :: r[k] == Strip(pieces[k])
  {
    seq(|pieces|, k requires 0 <= k < |pieces| => Strip(pieces[k]))
  }

  /** A clean column: non-empty, no comma, no whitespace at either end. */
  predicate CleanListed(c: string) {
    |c| > 0 && Avoids(c, ',') && !IsSpace(c[0]) && !IsSpace(c[|c| - 1])
  }

  /**
   * The parenthesised column list of the statement reads back as the columns:
   * split on commas and stripped, `", ".join(cs)` gives `cs` again.
   */
  lemma {:induction false} ColumnListRoundTrip(cs: seq<string>)
    requires |cs| > 0
    requires forall k | 0 <= k < |cs| :: CleanListed(cs[k])
    ensures StripPieces(Split(Join(cs, ", "), ',')) == cs
    decreases |cs|
  {
    if |cs| == 1 {
      SplitWithoutSep(cs[0], ',');
      StripNoSpaceEnds(cs[0]);
    } else {
      var rest := cs[1..];
      ColumnListRoundTrip(rest);
      var tail := Join(rest, ", ");
      var pieces := JoinedPieces(cs[0], rest, tail);
      StripNoSpaceEnds(cs[0]);
      LeadingSpaceSplit(tail);
      StripPiecesCons(cs[0], Split(" " + tail, ','));
      StripPiecesPadded(Split(tail, ','));
      assert cs == [cs[0]] + rest;
    }
  }

  /** Splitting `x, ...` on commas gives `x` and the pieces of the rest with one more leading space. */
  lemma JoinedPieces(x: string, rest: seq<string>, tail: string) returns (pieces: seq<string>)
    requires |rest| > 0 && Avoids(x, ',') && tail == Join(rest, ", ")
    ensures pieces == Split(Join([x] + rest, ", "), ',')
    ensures pieces == [x] + Split(" " + tail, ',')
  {
    var cs := [x] + rest;
    assert cs[1..] == rest;
    assert Join(cs, ", ") == x + [','] + (" " + tail);
    SplitHead(x, " " + tail, ',');
    pieces := Split(Join(cs, ", "), ',');
  }

  lemma StripPiecesCons(x: string, ys: seq<string>)
    ensures StripPieces([x] + ys) == [Strip(x)] + StripPieces(ys)
  {
  }

  /** One more leading space on the first piece changes none of the stripped pieces. */
  lemma StripPiecesPadded(ps: seq<string>)
    requires |ps| > 0
    ensures StripPieces([" " + ps[0]] + ps[1..]) == StripPieces(ps)
  {
    StripLeadingSpace(ps[0]);
    var qs := [" " + ps[0]] + ps[1..];
    var a, b := StripPieces(qs), StripPieces(ps);
    forall k | 0 <= k < |ps| ensures a[k] == b[k] {
      if k > 0 {
        assert qs[k] == ps[k];
      }
    }
  }

  /** A space in front only widens the first piece of a split. */
  lemma LeadingSpaceSplit(t: string)
    ensures Split(" " + t, ',') == [" " + Split(t, ',')[0]] + Split(t, ',')[1..]
  {
    var s := " " + t;
    assert s[1..] == t;
  }

  /** A leading space moves the first non-space one place on. */
  lemma SkipSpacesCons(x: string)
    ensures SkipSpaces(" " + x, 0) == SkipSpaces(x, 0) + 1
  {
    var s := " " + x;
    var a := SkipSpaces(x, 0);
    assert forall k | 1 <= k <= |x| :: s[k] == x[k - 1];
    SkipSpacesTo(s, 0, a + 1);
  }

  /** A leading space moves the end of the trimmed text one place on. */
  lemma SkipSpacesBackCons(x: string, a: nat)
    requires a <= |x|
    ensures SkipSpacesBack(" " + x, a + 1, |x| + 1) == SkipSpacesBack(x, a, |x|) + 1
  {
    var s := " " + x;
    var b := SkipSpacesBack(x, a, |x|);
    assert forall k | 1 <= k <= |x| :: s[k] == x[k - 1];
    SkipSpacesBackTo(s, a + 1, b + 1, |s|);
  }

  /** A slice of the text behind a leading space is the matching slice of the text. */
  lemma SliceCons(x: string, a: nat, b: nat)
    requires a <= b <= |x|
    ensures (" " + x)[a + 1..b + 1] == x[a..b]
  {
    assert forall k | a <= k < b :: (" " + x)[k + 1] == x[k];
  }

  /** Stripping ignores one more leading space. */
  lemma StripLeadingSpace(x: string)
    ensures Strip(" " + x) == Strip(x)
  {
    var a := SkipSpaces(x, 0);
    var b := SkipSpacesBack(x, a, |x|);
    assert StripBounds(" " + x) == (a + 1, b + 1) by {
      SkipSpacesCons(x);
      SkipSpacesBackCons(x, a);
    }
    StripShifted(x, a, b);
  }

  /** Bounds shifted by the leading space keep the same text. */
  lemma StripShifted(x: string, a: nat, b: nat)
    requires StripBounds(x) == (a, b) && StripBounds(" " + x) == (a + 1, b + 1)
    ensures Strip(" " + x) == Strip(x)
  {
    SliceCons(x, a, b);
  }

  /** A column name without dots, quotes or surrounding whitespace, longer than one character. */
  predicate PlainColumn(c: string) {
    |c| > 1 && Avoids(c, '.') && Avoids(c, '"') && !IsSpace(c[0]) && !IsSpace(c[|c| - 1])
  }

  /** Plain names give the statement for exactly those names. */
  lemma PlainSuggestion(t: string, cs: seq<string>)
    requires Avoids(t, '"') && |t| > 0 && !IsSpace(t[0]) && !IsSpace(t[|t| - 1])
    requires |cs| > 0 && forall k | 0 <= k < |cs| :: PlainColumn(cs[k])
    ensures GenerateIndexSuggestion(OneTable(t), Columns(cs)) == Ok(IndexStatement(t, cs))
  {
    forall k | 0 <= k < |cs| ensures CleanIndexColumn(cs[k]) == cs[k] {
      CleanPlainColumn(cs[k]);
    }
    assert CleanIndexColumns(cs) == cs;
    PlainTable(t);
    SuggestionStatement(OneTable(t), Columns(cs));
  }

  /** The single-column example of `test_utils.py`. */
  lemma SingleColumnExample(t: string, c: string, stmt: string)
    requires t == "users" && c == "id" && stmt == "CREATE INDEX idx_users_id ON users(id);"
    ensures GenerateIndexSuggestion(OneTable(t), Columns([c])) == Ok(stmt)
  {
    PlainUsers(t);
    PlainId(c);
    PlainSuggestion(t, [c]);
    SingleStatement(t, c, stmt);
  }

  lemma SingleStatement(t: string, c: string, stmt: string)
    requires t == "users" && c == "id" && stmt == "CREATE INDEX idx_users_id ON users(id);"
    ensures IndexStatement(t, [c]) == stmt
  {
  }

  lemma PlainUsers(t: string)
    requires t == "users"
    ensures Avoids(t, '"') && |t| > 0 && !IsSpace(t[0]) && !IsSpace(t[|t| - 1])
  {
  }

  lemma PlainId(c: string)
    requires c == "id"
    ensures PlainColumn(c)
  {
  }

  /** The composite example of `test_utils.py`. */
  lemma CompositeExample(t: string, c: string, d: string, stmt: string)
    requires t == "users" && c == "id" && d == "name"
    requires stmt == "CREATE INDEX idx_users_id_name ON users(id, name);"
    ensures GenerateIndexSuggestion(OneTable(t), Columns([c, d])) == Ok(stmt)
  {
    PlainUsers(t);
    PlainId(c);
    PlainColumnName(d);
    PlainSuggestion(t, [c, d]);
    CompositeStatement(t, c, d, stmt);
  }

  lemma CompositeStatement(t: string, c: string, d: string, stmt: string)
    requires t == "users" && c == "id" && d == "name"
    requires stmt == "CREATE INDEX idx_users_id_name ON users(id, name);"
    ensures IndexStatement(t, [c, d]) == stmt
  {
    TwoColumnStatement(t, c, d);
    var head := "CREATE INDEX idx_" + t + "_" + c + "_" + d;
    var tail := " ON " + t + "(" + c + ", " + d + ");";
    CompositeHead(t, c, d, head);
    CompositeTail(t, c, d, tail);
    CompositeWhole(head, tail, stmt);
  }

  lemma CompositeHead(t: string, c: string, d: string, head: string)
    requires t == "users" && c == "id" && d == "name" && head == "CREATE INDEX idx_" + t + "_" + c + "_" + d
    ensures head == "CREATE INDEX idx_users_id_name"
  {
  }

  lemma CompositeTail(t: string, c: string, d: string, tail: string)
    requires t == "users" && c == "id" && d == "name" && tail == " ON " + t + "(" + c + ", " + d + ");"
    ensures tail == " ON users(id, name);"
  {
  }

  lemma CompositeWhole(head: string, tail: string, stmt: string)
    requires head == "CREATE INDEX idx_users_id_name" && tail == " ON users(id, name);"
    requires stmt == "CREATE INDEX idx_users_id_name ON users(id, name);"
    ensures head + tail == stmt
  {
  }

  lemma TwoColumnStatement(t: string, c: string, d: string)
    ensures IndexStatement(t, [c, d]) == ("CREATE INDEX idx_" + t + "_" + c + "_" + d) + (" ON " + t + "(" + c + ", " + d + ");")
  {
    assert Join([c, d], "_") == c + "_" + d;
    assert Join([c, d], ", ") == c + ", " + d;
  }

  lemma PlainColumnName(d: string)
    requires d == "name"
    ensures PlainColumn(d)
  {
  }

  /** A string of single letters is rejected, as in `test_utils.py`. */
  lemma SplitCharactersExample(t: string, text: string)
    requires t == "users" && text == "i,d"
    ensures GenerateIndexSuggestion(OneTable(t), ColumnText(text)) == Err(ValueError(SplitIntoCharacters))
  {
    var i, d := "i", "d";
    SplitLetters(text, i, d);
    CleanPlainColumn(i);
    assert Split(text, ',')[0] == i;
  }

  lemma SplitLetters(text: string, i: string, d: string)
    requires text == "i,d" && i == "i" && d == "d"
    ensures Split(text, ',') == [i, d]
  {
    assert text == i + [','] + d;
    SplitHead(i, d, ',');
    SplitWithoutSep(d, ',');
  }

  /** A table name without quotes or surrounding whitespace is used as it is. */
  lemma PlainTable(t: string)
    requires Avoids(t, '"') && |t| > 0 && !IsSpace(t[0]) && !IsSpace(t[|t| - 1])
    ensures Unquote(t) == t
  {
    DeleteCharKeep(t, '"');
    StripNoSpaceEnds(t);
  }

  // ---------------------------------------------------------------------------
  // `repr` of a column list, as the f-string `{columns}` renders it

  function HexDigit(n: nat): char
    requires n < 16
  {
    if n < 10 then ('0' as int + n) as char else ('a' as int + n - 10) as char
  }

  function HexValue(c: char): nat {
    if '0' <= c <= '9' then c as int - '0' as int
    else if 'a' <= c <= 'f' then c as int - 'a' as int + 10
    else 0
  }

  /**
   * One character of a string inside its `repr` quotes: the quote and the
   * backslash escaped, tab, newline and carriage return by name, the other
   * ASCII control characters as `\xhh`.
   */
  function ReprChar(c: char, quote: char): (r: string)
    ensures |r| > 0
  {
    if c == quote || c == '\\' then ['\\', c]
    else if c == '\t' then "\\t"
    else if c == '\n' then "\\n"
    else if c == '\r' then "\\r"
    else if c < ' ' || c == '\U{7F}' then "\\x" + [HexDigit(c as int / 16), HexDigit(c as int % 16)]
    else [c]
  }

  function ReprBody(s: string, quote: char): string
    decreases |s|
  {
    if |s| == 0 then "" else ReprChar(s[0], quote) + ReprBody(s[1..], quote)
  }

  /** The quote `repr` picks: double quotes when the text holds a single quote and no double quote. */
  function ReprQuote(s: string): (q: char)
    ensures q == '\'' || q == '"'
  {
    if '\'' in s && '"' !in s then '"' else '\''
  }

  /** Python's `repr` of a string. */
  function Repr(s: string): (r: string)
    ensures |r| >= |s| + 2
    ensures r[0] == ReprQuote(s) && r[|r| - 1] == ReprQuote(s)
  {
    ReprBodyLength(s, ReprQuote(s));
    [ReprQuote(s)] + ReprBody(s, ReprQuote(s)) + [ReprQuote(s)]
  }

  lemma {:induction false} ReprBodyLength(s: string, quote: char)
    ensures |ReprBody(s, quote)| >= |s|
    decreases |s|
  {
    if |s| > 0 {
      ReprBodyLength(s[1..], quote);
    }
  }

  /** Reads the escapes of a `repr` body back. */
  function Unescape(r: string): string
    decreases |r|
  {
    if |r| == 0 then ""
    else if r[0] == '\\' && |r| >= 4 && r[1] == 'x' then [(16 * HexValue(r[2]) + HexValue(r[3])) as char] + Unescape(r[4..])
    else if r[0] == '\\' && |r| >= 2 then
      [if r[1] == 't' then '\t' else if r[1] == 'n' then '\n' else if r[1] == 'r' then '\r' else r[1]] + Unescape(r[2..])
    else [r[0]] + Unescape(r[1..])
  }

  /** One escaped character reads back as itself. */
  lemma UnescapeChar(c: char, quote: char, rest: string)
    requires quote == '\'' || quote == '"'
    ensures Unescape(ReprChar(c, quote) + rest) == [c] + Unescape(rest)
  {
    var e := ReprChar(c, quote);
    var r := e + rest;
    if c == quote || c == '\\' || c == '\t' || c == '\n' || c == '\r' {
      assert r[2..] == rest;
    } else if c < ' ' || c == '\U{7F}' {
      assert HexValue(HexDigit(c as int / 16)) == c as int / 16;
      assert HexValue(HexDigit(c as int % 16)) == c as int % 16;
      assert r[4..] == rest;
    } else {
      assert r[1..] == rest;
    }
  }

  /** The body of a `repr` determines the string: unescaping gives it back. */
  lemma {:induction false} ReprRoundTrip(s: string, quote: char)
    requires quote == '\'' || quote == '"'
    ensures Unescape(ReprBody(s, quote)) == s
    decreases |s|
  {
    if |s| > 0 {
      ReprRoundTrip(s[1..], quote);
      UnescapeChar(s[0], quote, ReprBody(s[1..], quote));
      assert s == [s[0]] + s[1..];
    }
  }

  /** A character `repr` shows as it is. */
  predicate PlainReprChar(c: char) {
    c != '\'' && c != '"' && c != '\\' && ' ' <= c && c != '\U{7F}'
  }

  /** A text of plain characters shows between single quotes, unchanged. */
  lemma {:induction false} ReprPlain(s: string)
    requires forall k | 0 <= k < |s| :: PlainReprChar(s[k])
    ensures Repr(s) == "'" + s + "'"
    decreases |s|
  {
    ReprBodyPlain(s, '\'');
  }

  lemma {:induction false} ReprBodyPlain(s: string, quote: char)
    requires forall k | 0 <= k < |s| :: PlainReprChar(s[k])
    requires quote == '\''
    ensures ReprBody(s, quote) == s
    decreases |s|
  {
    if |s| > 0 {
      ReprBodyPlain(s[1..], quote);
      assert s == [s[0]] + s[1..];
    }
  }

  function Reprs(xs: seq<string>): (r: seq<string>)
    ensures |r| == |xs|
    ensures forall k | 0 <= k < |r| :: r[k] == Repr(xs[k])
  {
    seq(|xs|, k requires 0 <= k < |xs| => Repr(xs[k]))
  }

  /** Python's `repr` of a list of strings, `['a', 'b']`. */
  function ListRepr(xs: seq<string>): string {
    "[" + Join(Reprs(xs), ", ") + "]"
  }

  // ---------------------------------------------------------------------------
  // `detect_missing_indexes_for_clause`

  function MissingIndexKind(clause: string): string {
    "Missing Index on " + clause
  }

  /**
   * The condition under which the rule reports a table: it is not small and
   * either several columns lack a composite index covering exactly them, or
   * the single column is neither declared indexed nor used by an index scan.
   */
  predicate NeedsIndex(facts: SchemaFacts, cfg: Config, sql: string, table: string, columns: seq<string>) {
    && !IsSmallTable(facts, cfg, table)
    && (|columns| > 1 ==> !IsCompositeIndexed(facts, table, columns))
    && (|columns| == 1 ==> !IsColumnIndexed(facts, table, columns[0]) && !IsIndexed(facts, sql))
    && |columns| > 0
  }

  /** The finding the rule builds for one table and its suggestion statement. */
  predicate ReportsTable(f: Finding, q: QueryRecord, table: string, columns: seq<string>, clause: string) {
    && f.kind == MissingIndexKind(clause)
    && f.query == q.sql
    && f.table == Some(table)
    && f.columns == Some(columns)
    && EndsWith(f.suggestion, IndexStatement(Unquote(table), CleanIndexColumns(columns)))
  }

  /** The loop body for one table. */
  function TableFindings(facts: SchemaFacts, cfg: Config, q: QueryRecord, table: string, columns: seq<string>, clause: string): (r: Result<seq<Finding>, Error>)
    ensures r.Ok? ==> |r.value| <= 1
    ensures r.Ok? && |r.value| == 1 <==> NeedsIndex(facts, cfg, q.sql, table, columns) && !HasShortColumn(columns)
    ensures r.Err? <==> NeedsIndex(facts, cfg, q.sql, table, columns) && HasShortColumn(columns)
    ensures r.Err? ==> r.error == ValueError(SplitIntoCharacters)
    ensures r.Ok? && |r.value| == 1 ==> ReportsTable(r.value[0], q, table, columns, clause)
  {
    if IsSmallTable(facts, cfg, table) then Ok([])
    else if |columns| > 1 then
      if IsCompositeIndexed(facts, table, columns) then Ok([])
      else
        var stmt :- GenerateIndexSuggestion(OneTable(table), Columns(columns));
        SuggestionStatement(OneTable(table), Columns(columns));
        var text := "Columns " + ListRepr(columns) + " involved in " + clause + " lack a composite index.\n";
        EndsWithConcat(text, stmt);
        Ok([Finding(MissingIndexKind(clause), q.sql, text + stmt, None, None, None, Some(table), Some(columns))])
    else if |columns| == 0 then Ok([])
    else if IsColumnIndexed(facts, table, columns[0]) || IsIndexed(facts, q.sql) then Ok([])
    else
      var column := columns[0];
      assert columns == [column];
      var stmt :- GenerateIndexSuggestion(OneTable(table), Columns([column]));
      SuggestionStatement(OneTable(table), Columns(columns));
      var text := "Column " + column + " involved in " + clause + " lacks an index.\n";
      EndsWithConcat(text, stmt);
      Ok([Finding(MissingIndexKind(clause), q.sql, text + stmt, None, None, None, Some(table), Some([column]))])
  }

  /** The rule cannot build the suggestion for a table it has to report. */
  predicate TableFails(facts: SchemaFacts, cfg: Config, sql: string, table: string, columns: seq<string>) {
    NeedsIndex(facts, cfg, sql, table, columns) && HasShortColumn(columns)
  }

  /**
   * The loop over the tables: the findings of each table in order; the first
   * table whose findings cannot be built stops the loop with its error.
   */
  function ConcatFindings(step: string -> Result<seq<Finding>, Error>, tables: seq<string>): (r: Result<seq<Finding>, Error>)
    ensures r.Ok? <==> forall i | 0 <= i < |tables| :: step(tables[i]).Ok?
    ensures r.Err? ==> exists i | 0 <= i < |tables| :: step(tables[i]).Err? && r.error == step(tables[i]).error
    ensures r.Ok? ==> forall f | f in r.value :: exists i | 0 <= i < |tables| :: step(tables[i]).Ok? && f in step(tables[i]).value
    ensures r.Ok? ==> forall i, f | 0 <= i < |tables| && step(tables[i]).Ok? && f in step(tables[i]).value :: f in r.value
    ensures r.Ok? && (forall i | 0 <= i < |tables| :: |step(tables[i]).value| <= 1) ==> |r.value| <= |tables|
    ensures (forall i | 0 <= i < |tables| :: step(tables[i]) == Ok([])) ==> r == Ok([])
    decreases |tables|
  {
    if |tables| == 0 then Ok([])
    else
      var rest := ConcatFindings(step, tables[1..]);
      assert forall i | 1 <= i < |tables| :: tables[i] == tables[1..][i - 1];
      match step(tables[0])
      case Err(e) => Err(e)
      case Ok(head) =>
        match rest
        case Err(e) => Err(e)
        case Ok(tail) => Ok(head + tail)
  }

  /** The loop body of the rule, for each table. */
  function ClauseFindings(facts: SchemaFacts, cfg: Config, q: QueryRecord, columns: seq<string>, clause: string): (step: string -> Result<seq<Finding>, Error>)
    ensures forall t :: step(t) == TableFindings(facts, cfg, q, t, columns, clause)
  {
    (t: string) => TableFindings(facts, cfg, q, t, columns, clause)
  }

  /**
   * `detect_missing_indexes_for_clause`: the findings of every table in
   * order; the first table whose suggestion cannot be generated raises.
   */
  function DetectMissingIndexesForClause(facts: SchemaFacts, cfg: Config, q: QueryRecord, tables: seq<string>, columns: seq<string>, clause: string): (r: Result<seq<Finding>, Error>)
    ensures r.Ok? <==> forall i | 0 <= i < |tables| :: !TableFails(facts, cfg, q.sql, tables[i], columns)
    ensures r.Err? ==> r.error == ValueError(SplitIntoCharacters)
    ensures r.Ok? ==> |r.value| <= |tables|
    ensures r.Ok? ==> forall f | f in r.value :: exists t | t in tables :: ReportsTable(f, q, t, columns, clause) && NeedsIndex(facts, cfg, q.sql, t, columns)
  {
    var step := ClauseFindings(facts, cfg, q, columns, clause);
    var r := ConcatFindings(step, tables);
    assert forall t :: step(t).Ok? <==> !TableFails(facts, cfg, q.sql, t, columns);
    assert forall t :: step(t).Err? ==> step(t).error == ValueError(SplitIntoCharacters);
    assert forall t :: step(t).Ok? ==> |step(t).value| <= 1;
    assert r.Ok? ==> forall f | f in r.value :: exists t | t in tables :: ReportsTable(f, q, t, columns, clause) && NeedsIndex(facts, cfg, q.sql, t, columns) by {
      if r.Ok? {
        forall f | f in r.value
          ensures exists t | t in tables :: ReportsTable(f, q, t, columns, clause) && NeedsIndex(facts, cfg, q.sql, t, columns)
        {
          var i :| 0 <= i < |tables| && step(tables[i]).Ok? && f in step(tables[i]).value;
          TableFindingReports(facts, cfg, q, tables[i], columns, clause, f);
          assert tables[i] in tables;
        }
      }
    }
    r
  }

  /** A finding of one table reports that table, which needs an index. */
  lemma TableFindingReports(facts: SchemaFacts, cfg: Config, q: QueryRecord, t: string, columns: seq<string>, clause: string, f: Finding)
    requires TableFindings(facts, cfg, q, t, columns, clause).Ok?
    requires f in TableFindings(facts, cfg, q, t, columns, clause).value
    ensures ReportsTable(f, q, t, columns, clause) && NeedsIndex(facts, cfg, q.sql, t, columns)
  {
    var h := TableFindings(facts, cfg, q, t, columns, clause);
    assert |h.value| == 1;
    assert f == h.value[0];
  }

  /** Every table the rule has to report is reported. */
  lemma MissingIndexesCover(facts: SchemaFacts, cfg: Config, q: QueryRecord, tables: seq<string>, columns: seq<string>, clause: string, t: string)
    requires DetectMissingIndexesForClause(facts, cfg, q, tables, columns, clause).Ok?
    requires t in tables && NeedsIndex(facts, cfg, q.sql, t, columns)
    ensures exists f | f in DetectMissingIndexesForClause(facts, cfg, q, tables, columns, clause).value :: f.table == Some(t)
  {
    var step := ClauseFindings(facts, cfg, q, columns, clause);
    var r := DetectMissingIndexesForClause(facts, cfg, q, tables, columns, clause);
    assert r == ConcatFindings(step, tables);
    var i :| 0 <= i < |tables| && tables[i] == t;
    var h := step(tables[i]);
    assert h == TableFindings(facts, cfg, q, t, columns, clause);
    assert h.Ok? && |h.value| == 1;
    assert h.value[0] in r.value;
  }

  /** A small table, or an empty column list, is never reported. */
  lemma NothingToReport(facts: SchemaFacts, cfg: Config, q: QueryRecord, tables: seq<string>, columns: seq<string>, clause: string)
    requires columns == [] || forall t | t in tables :: IsSmallTable(facts, cfg, t)
    ensures DetectMissingIndexesForClause(facts, cfg, q, tables, columns, clause) == Ok([])
  {
    var step := ClauseFindings(facts, cfg, q, columns, clause);
    forall i | 0 <= i < |tables|
      ensures step(tables[i]) == Ok([])
    {
      assert tables[i] in tables;
    }
    assert DetectMissingIndexesForClause(facts, cfg, q, tables, columns, clause) == ConcatFindings(step, tables);
  }
}

=== FILE: joins.dfy ===
/**
 * `extract_joins_from_query` and `get_join_columns`: the JOIN clauses of a
 * query with an `ON (a = b)` condition, and the column lists of one clause.
 */
module Joins {
  import opened Wrappers
  import opened Text
  import opened Records

  /** The three groups of one JOIN match: joined table, left and right side of the `=`. */
  datatype JoinClause = JoinClause(table: string, left: string, right: string)

  /** A non-empty run of class `k`. */
  predicate RunText(t: string, k: CharClass) {
    |t| > 0 && forall m | 0 <= m < |t| :: InClass(t[m], k)
  }

  /**
   * `"?([class]+)"?` at `i`: the bounds of the group. The opening quote is taken
   * when a class character follows it; the class contains `"` itself, so the
   * greedy run swallows any closing quote and the trailing `"?` matches nothing.
   */
  function QuotedRun(s: string, i: nat, k: CharClass): (r: Option<(nat, nat)>)
    requires i <= |s|
    requires InClass('"', k)
    ensures r.Some? ==> i <= r.value.0 < r.value.1 <= |s| && RunText(s[r.value.0..r.value.1], k)
    ensures r.Some? ==> r.value.1 == |s| || !InClass(s[r.value.1], k)
    ensures r.Some? ==> r.value.0 == i || (r.value.0 == i + 1 && s[i] == '"')
    ensures r.None? ==> i == |s| || !InClass(s[i], k)
  {
    if i + 1 < |s| && s[i] == '"' && InClass(s[i + 1], k) then Some((i + 1, RunEnd(s, i + 1, k)))
    else if i < |s| && InClass(s[i], k) then Some((i, RunEnd(s, i, k)))
    else None
  }

  /**
   * `"?([a-zA-Z0-9_".]+)"?\s*=\s*"?([a-zA-Z0-9_".]+)"?\)` at `i`, just inside
   * the parenthesis: both sides of the condition and the end of the match.
   */
  function Condition(s: string, i: nat): (r: Option<(string, string, nat)>)
    requires i <= |s|
    ensures r.Some? ==> i < r.value.2 <= |s| && s[r.value.2 - 1] == ')'
    ensures r.Some? ==> RunText(r.value.0, JoinColumn) && RunText(r.value.1, JoinColumn)
  {
    match QuotedRun(s, i, JoinColumn)
    case None => None
    case Some((a2, b2)) =>
      var e := SkipSpaces(s, b2);
      if e == |s| || s[e] != '=' then None
      else
        match QuotedRun(s, SkipSpaces(s, e + 1), JoinColumn)
        case None => None
        case Some((a3, b3)) =>
          if b3 == |s| || s[b3] != ')' then None
          else Some((s[a2..b2], s[a3..b3], b3 + 1))
  }

  /**
   * The rest of the pattern after `JOIN` at `j`:
   * `\s+"?([a-zA-Z0-9_"]+)"?\s+ON\s+\(` and the condition. Every step is
   * forced: a shorter whitespace or class run leaves a character the next
   * element cannot start with, so the greedy choice is the only one.
   */
  function JoinTail(s: string, j: nat): (r: Option<(JoinClause, nat)>)
    requires j + 4 <= |s|
    ensures r.Some? ==> j + 4 < r.value.1 <= |s|
    ensures r.Some? ==> RunText(r.value.0.table, JoinName)
    ensures r.Some? ==> RunText(r.value.0.left, JoinColumn) && RunText(r.value.0.right, JoinColumn)
  {
    var w := SkipSpaces(s, j + 4);
    if w == j + 4 then None
    else
      match QuotedRun(s, w, JoinName)
      case None => None
      case Some((a1, b1)) =>
        var o := SkipSpaces(s, b1);
        if o == b1 || !KeywordAt(s, o, "ON") then None
        else
          var q := SkipSpaces(s, o + 2);
          if q == o + 2 || q == |s| || s[q] != '(' then None
          else
            match Condition(s, q + 1)
            case None => None
            case Some((left, right, e)) => Some((JoinClause(s[a1..b1], left, right), e))
  }

  /** The length of the optional `(?:INNER|LEFT|RIGHT|FULL|OUTER)` at `p` (0 when absent). */
  function JoinPrefixLength(s: string, p: nat): (n: nat)
    ensures n == 0 || n == 4 || n == 5
    ensures n > 0 ==> p + n <= |s|
  {
    if KeywordAt(s, p, "INNER") then 5
    else if KeywordAt(s, p, "LEFT") then 4
    else if KeywordAt(s, p, "RIGHT") then 5
    else if KeywordAt(s, p, "FULL") then 4
    else if KeywordAt(s, p, "OUTER") then 5
    else 0
  }

  /**
   * The whole pattern tried at `p`, starting with `\b` and the optional join
   * type. When a join type matched but no JOIN follows it, dropping the join
   * type cannot help: JOIN would then have to start on the join type's first
   * letter, which is not `J`.
   */
  function JoinMatch(s: string, p: nat): (r: Option<(JoinClause, nat)>)
    requires p <= |s|
    ensures r.Some? ==> p < r.value.1 <= |s| && WordBoundary(s, p)
    ensures r.Some? ==> RunText(r.value.0.table, JoinName)
    ensures r.Some? ==> RunText(r.value.0.left, JoinColumn) && RunText(r.value.0.right, JoinColumn)
  {
    if !WordBoundary(s, p) then None
    else
      var j := SkipSpaces(s, p + JoinPrefixLength(s, p));
      if KeywordAt(s, j, "JOIN") then JoinTail(s, j) else None
  }

  /** `join_pattern.findall(sql)` from position `p`. */
  function JoinMatches(s: string, p: nat): (r: seq<JoinClause>)
    requires p <= |s|
    ensures forall c | c in r :: RunText(c.table, JoinName) && RunText(c.left, JoinColumn) && RunText(c.right, JoinColumn)
    decreases |s| - p
  {
    if p == |s| then []
    else
      match JoinMatch(s, p)
      case Some((c, e)) => [c] + JoinMatches(s, e)
      case None => JoinMatches(s, p + 1)
  }

  /** The scan collects nothing across positions where no JOIN clause starts. */
  lemma {:induction false} JoinMatchesSkip(s: string, p: nat, q: nat)
    requires p <= q <= |s|
    requires forall m | p <= m < q :: JoinMatch(s, m).None?
    ensures JoinMatches(s, p) == JoinMatches(s, q)
    decreases q - p
  {
    if p < q {
      JoinMatchesSkip(s, p + 1, q);
    }
  }

  /** A query without the JOIN keyword has no JOIN clause. */
  lemma NoJoinKeyword(s: string)
    requires forall m | 0 <= m <= |s| :: !KeywordAt(s, m, "JOIN")
    ensures JoinMatches(s, 0) == []
  {
    JoinMatchesSkip(s, 0, |s|);
  }

  /** `extract_joins_from_query`: the JOIN clauses in order, or `None` when there is none. */
  function ExtractJoins(sql: string): (r: Option<seq<JoinClause>>)
    ensures r.None? <==> JoinMatches(sql, 0) == []
    ensures r.Some? ==> |r.value| > 0 && r.value == JoinMatches(sql, 0)
  {
    var m := JoinMatches(sql, 0);
    if |m| == 0 then None else Some(m)
  }

  /** Each piece stripped, as the list comprehension `[col.strip() for col in pieces]`. */
  function StripEach(pieces: seq<string>): (r: seq<string>)
    ensures |r| == |pieces|
    ensures forall i | 0 <= i < |r| :: r[i] == Strip(pieces[i])
  {
    seq(|pieces|, i requires 0 <= i < |pieces| => Strip(pieces[i]))
  }

  /** The comma-separated columns of one side of the condition, each stripped. */
  function ColumnList(t: string): (r: seq<string>)
    ensures |r| == |Split(Unquote(t), ',')| && |r| >= 1
    ensures forall i | 0 <= i < |r| :: Avoids(r[i], ',') && Avoids(r[i], '"')
  {
    var u := Unquote(t);
    ColumnsClean(u);
    StripEach(Split(u, ','))
  }

  /** Each stripped piece of a quote-free text is free of quotes and commas. */
  lemma ColumnsClean(u: string)
    requires Avoids(u, '"')
    ensures forall i | 0 <= i < |Split(u, ',')| :: Avoids(Strip(Split(u, ',')[i]), ',') && Avoids(Strip(Split(u, ',')[i]), '"')
  {
    var pieces := Split(u, ',');
    SplitAvoids(u, ',', '"');
    forall i | 0 <= i < |pieces| ensures Avoids(Strip(pieces[i]), ',') && Avoids(Strip(pieces[i]), '"') {
      StripAvoids(pieces[i], ',');
      StripAvoids(pieces[i], '"');
    }
  }

  /**
   * `get_join_columns`: the foreign-key and referenced column lists of a
   * clause; a `ValueError` when the two sides list different numbers of
   * columns. The "cannot be empty" check of the source can never fire, since
   * `split` always returns at least one piece.
   */
  function GetJoinColumns(c: JoinClause): (r: Result<(seq<string>, seq<string>), Error>)
    ensures r.Ok? <==> |Split(Unquote(c.left), ',')| == |Split(Unquote(c.right), ',')|
    ensures r.Ok? ==> r.value == (ColumnList(c.left), ColumnList(c.right))
    ensures r.Err? ==> r.error == ValueError("Mismatched number of foreign key and referenced columns.")
  {
    var fk := ColumnList(c.left);
    var refs := ColumnList(c.right);
    if |fk| != |refs| then Err(ValueError("Mismatched number of foreign key and referenced columns."))
    else Ok((fk, refs))
  }

  /** A side without commas is a single column. */
  lemma SingleColumn(t: string)
    requires Avoids(t, ',')
    ensures ColumnList(t) == [Unquote(t)]
  {
    DeleteCharAvoids(t, '"', ',');
    StripAvoids(DeleteChar(t, '"'), ',');
    SplitWithoutSep(Unquote(t), ',');
    StripNoSpaceEnds(Unquote(t));
  }

  /**
   * A clause found by the JOIN scanner never makes `get_join_columns` fail: its
   * captures hold no comma, so each side is exactly one unquoted column.
   */
  lemma ScannedClauseColumns(sql: string, c: JoinClause)
    requires c in JoinMatches(sql, 0)
    ensures GetJoinColumns(c) == Ok(([Unquote(c.left)], [Unquote(c.right)]))
  {
    assert RunText(c.left, JoinColumn) && RunText(c.right, JoinColumn);
    RunAvoidsComma(c.left);
    RunAvoidsComma(c.right);
    SingleColumn(c.left);
    SingleColumn(c.right);
  }

  /** A run of column characters holds no comma. */
  lemma RunAvoidsComma(t: string)
    requires RunText(t, JoinColumn)
    ensures Avoids(t, ',')
  {
  }
}

=== FILE: lists.dfy ===
/** Sequence helpers for the places where the source turns a list into a set and back. */
module Lists {

  predicate NoDup<T(==,!new)>(xs: seq<T>) {
    forall i, j | 0 <= i < j < |xs| :: xs[i] != xs[j]
  }

  /**
   * `list(set(xs))`, with the element order fixed to first occurrence (Python's
   * order is that of its hash table, which the model does not fix).
   */
  function Dedup<T(==,!new)>(xs: seq<T>): (r: seq<T>)
    ensures NoDup(r)
    ensures forall x :: x in r <==> x in xs
    ensures |r| <= |xs|
    decreases |xs|
  {
    if |xs| == 0 then []
    else
      var d := Dedup(xs[..|xs| - 1]);
      assert xs == xs[..|xs| - 1] + [xs[|xs| - 1]];
      if xs[|xs| - 1] in d then d else d + [xs[|xs| - 1]]
  }

  /** A list without repetitions comes back unchanged. */
  lemma {:induction false} DedupNoDup<T(!new)>(xs: seq<T>)
    requires NoDup(xs)
    ensures Dedup(xs) == xs
    decreases |xs|
  {
    if |xs| > 0 {
      var init := xs[..|xs| - 1];
      assert NoDup(init);
      DedupNoDup(init);
      assert xs[|xs| - 1] !in init;
      assert xs == init + [xs[|xs| - 1]];
    }
  }

  /** `[make(x) for x in xs if keep(x)]`. */
  function FilterMap<A, B>(keep: A -> bool, make: A -> B, xs: seq<A>): (r: seq<B>)
    ensures |r| <= |xs|
    ensures forall y | y in r :: exists x | x in xs :: keep(x) && y == make(x)
    ensures forall x | x in xs && keep(x) :: make(x) in r
    decreases |xs|
  {
    if |xs| == 0 then []
    else
      var rest := FilterMap(keep, make, xs[1..]);
      assert forall x | x in xs[1..] :: x in xs;
      assert forall x | x in xs :: x == xs[0] || x in xs[1..];
      if keep(xs[0]) then [make(xs[0])] + rest else rest
  }

  /** Filtering and mapping a split list is doing it to each part: the order is kept. */
  lemma {:induction false} FilterMapConcat<A, B>(keep: A -> bool, make: A -> B, xs: seq<A>, ys: seq<A>)
    ensures FilterMap(keep, make, xs + ys) == FilterMap(keep, make, xs) + FilterMap(keep, make, ys)
    decreases |xs|
  {
    if |xs| > 0 {
      assert (xs + ys)[1..] == xs[1..] + ys;
      FilterMapConcat(keep, make, xs[1..], ys);
    } else {
      assert xs + ys == ys;
    }
  }

  /** Filtering and mapping two elements. */
  lemma FilterMapPair<A, B>(keep: A -> bool, make: A -> B, x: A, y: A)
    ensures FilterMap(keep, make, [x, y]) ==
      (if keep(x) then [make(x)] else []) + (if keep(y) then [make(y)] else [])
  {
    assert [x, y][1..] == [y];
    assert [y][1..] == [];
  }

  /** `xs` is `ys` with some elements left out and the others in their order. */
  predicate IsSubsequence<T(==)>(xs: seq<T>, ys: seq<T>)
    decreases |ys|
  {
    if |xs| == 0 then true
    else if |ys| == 0 then false
    else if xs[0] == ys[0] then IsSubsequence(xs[1..], ys[1..])
    else IsSubsequence(xs, ys[1..])
  }
}

=== FILE: nplusone.dfy ===
/**
 * The N+1 rule: `ignore_legitimate_batches_and_transactions` drops
 * transaction and bulk-write statements, `QueryAnalyzer.detect_n_plus_one`
 * groups the remaining SELECT ... WHERE queries by their simplified text, and
 * `detect_repeated_queries_for_related_objects` reports the repeated groups.
 */
module NPlusOne {
  import opened Wrappers
  import opened Text
  import opened Records
  import opened Lists
  import opened Simplify

  // ---------------------------------------------------------------------------
  // Legitimate batches and transactions

  /** `\bkw\b` at `p`, case-insensitively. */
  predicate WordAt(s: string, p: int, kw: string) {
    WordBoundary(s, p) && KeywordAt(s, p, kw) && WordBoundary(s, p + |kw|)
  }

  /** `re.search(r"\b(BEGIN|COMMIT|ROLLBACK)\b", sql, re.IGNORECASE)` */
  predicate TransactionStatement(sql: string) {
    exists p | 0 <= p <= |sql| :: WordAt(sql, p, "BEGIN") || WordAt(sql, p, "COMMIT") || WordAt(sql, p, "ROLLBACK")
  }

  /**
   * `\bkw\b.*?\bVALUES\b` at `p`: the lazy `.*?` succeeds as soon as some
   * whole word VALUES follows on the same line.
   */
  predicate BulkWriteAt(sql: string, p: nat, kw: string) {
    && WordAt(sql, p, kw)
    && exists q | p + |kw| <= q <= |sql| :: NoNewline(sql, p + |kw|, q) && WordAt(sql, q, "VALUES")
  }

  /** `re.search(r"\b(INSERT INTO|UPDATE)\b.*?\bVALUES\b", sql, re.IGNORECASE)` */
  predicate BulkWrite(sql: string) {
    exists p | 0 <= p <= |sql| :: BulkWriteAt(sql, p, "INSERT INTO") || BulkWriteAt(sql, p, "UPDATE")
  }

  /** A statement the rule treats as a legitimate batch or transaction. */
  predicate Batch(sql: string) {
    TransactionStatement(sql) || BulkWrite(sql)
  }

  /** The filtering loop over the dictionaries. */
  function KeepUnbatched(qs: seq<QueryRecord>): (r: seq<QueryRecord>)
    ensures forall q | q in r :: q in qs && !Batch(q.sql)
    ensures forall q | q in qs && !Batch(q.sql) :: q in r
    ensures IsSubsequence(r, qs)
    decreases |qs|
  {
    if |qs| == 0 then []
    else
      var rest := KeepUnbatched(qs[1..]);
      if Batch(qs[0].sql) then
        assert |rest| > 0 ==> rest[0] != qs[0] by {
          if |rest| > 0 { assert rest[0] in rest; }
        }
        rest
      else [qs[0]] + rest
  }

  /**
   * `ignore_legitimate_batches_and_transactions`: the dictionaries in order,
   * without the transaction and bulk-write statements.
   */
  function IgnoreBatches(entries: seq<Entry>): (r: seq<QueryRecord>)
    ensures forall q | q in r :: Query(q) in entries && !Batch(q.sql)
    ensures forall e | e in entries && e.Query? && !Batch(e.record.sql) :: e.record in r
    ensures IsSubsequence(r, QueryRecords(entries))
  {
    KeepUnbatched(QueryRecords(entries))
  }

  /** The filter keeps a list's order and multiplicity: filtering a split list filters each part. */
  lemma {:induction false} KeepUnbatchedConcat(a: seq<QueryRecord>, b: seq<QueryRecord>)
    ensures KeepUnbatched(a + b) == KeepUnbatched(a) + KeepUnbatched(b)
    decreases |a|
  {
    if |a| > 0 {
      var ab := a + b;
      assert ab[0] == a[0] && ab[1..] == a[1..] + b;
      KeepUnbatchedConcat(a[1..], b);
      if !Batch(a[0].sql) {
        assert [a[0]] + (KeepUnbatched(a[1..]) + KeepUnbatched(b)) == ([a[0]] + KeepUnbatched(a[1..])) + KeepUnbatched(b);
      }
    } else {
      assert a + b == b;
    }
  }

  /** One query is kept iff it is not a batch. */
  lemma KeepUnbatchedOne(q: QueryRecord)
    ensures KeepUnbatched([q]) == if Batch(q.sql) then [] else [q]
  {
    assert [q][1..] == [];
  }

  /** Filtering a split list of entries filters each part, in order. */
  lemma IgnoreBatchesConcat(a: seq<Entry>, b: seq<Entry>)
    ensures IgnoreBatches(a + b) == IgnoreBatches(a) + IgnoreBatches(b)
  {
    QueryRecordsConcat(a, b);
    KeepUnbatchedConcat(QueryRecords(a), QueryRecords(b));
  }

  /** One entry survives iff it is a dictionary whose SQL is not a batch. */
  lemma IgnoreBatchesOne(e: Entry)
    ensures IgnoreBatches([e]) == if e.Query? && !Batch(e.record.sql) then [e.record] else []
  {
    QueryRecordsOne(e);
    if e.Query? {
      KeepUnbatchedOne(e.record);
    }
  }

  // ---------------------------------------------------------------------------
  // Grouping by simplified text

  /** The case-sensitive test the N+1 loop applies before grouping a query. */
  predicate Candidate(sql: string) {
    Contains(sql, "SELECT") && Contains(sql, "WHERE")
  }

  /** A keyed query: its simplified text and its raw SQL. */
  datatype Keyed = Keyed(key: string, sql: string)

  /** The candidates among the filtered queries, keyed by `simplify_query`, in order. */
  function Candidates(qs: seq<QueryRecord>): (r: seq<Keyed>)
    ensures |r| <= |qs|
    ensures forall k | k in r :: Candidate(k.sql) && k.key == SimplifyQuery(k.sql)
    ensures forall k | k in r :: exists q | q in qs :: q.sql == k.sql
    decreases |qs|
  {
    if |qs| == 0 then []
    else
      var rest := Candidates(qs[1..]);
      assert forall q | q in qs[1..] :: q in qs;
      if Candidate(qs[0].sql) then [Keyed(SimplifyQuery(qs[0].sql), qs[0].sql)] + rest else rest
  }

  /** Every SELECT ... WHERE query is keyed, in log order: keying a split list keys each part. */
  lemma {:induction false} CandidatesConcat(a: seq<QueryRecord>, b: seq<QueryRecord>)
    ensures Candidates(a + b) == Candidates(a) + Candidates(b)
    decreases |a|
  {
    if |a| > 0 {
      assert (a + b)[1..] == a[1..] + b;
      CandidatesConcat(a[1..], b);
    } else {
      assert a + b == b;
    }
  }

  /** One query is keyed by its simplified text iff it contains SELECT and WHERE. */
  lemma CandidatesOne(q: QueryRecord)
    ensures Candidates([q]) == if Candidate(q.sql) then [Keyed(SimplifyQuery(q.sql), q.sql)] else []
  {
    assert [q][1..] == [];
  }

  /**
   * How many of the queries the N+1 loop files under `key`: those containing
   * SELECT and WHERE whose simplified text is `key`.
   */
  function Occurrences(qs: seq<QueryRecord>, key: string): nat
    decreases |qs|
  {
    if |qs| == 0 then 0
    else
      var q := qs[|qs| - 1];
      Occurrences(qs[..|qs| - 1], key) + (if Candidate(q.sql) && SimplifyQuery(q.sql) == key then 1 else 0)
  }

  /** An entry of `seen_queries`: the simplified text, how often it was seen, and the first raw SQL. */
  datatype Group = Group(key: string, count: nat, rawSql: string)

  function Keys(gs: seq<Group>): (r: seq<string>)
    ensures |r| == |gs|
    ensures forall i | 0 <= i < |gs| :: r[i] == gs[i].key
  {
    seq(|gs|, i requires 0 <= i < |gs| => gs[i].key)
  }

  /** The position of `key` among the groups. */
  function Find(gs: seq<Group>, key: string): (r: Option<nat>)
    ensures r.Some? ==> r.value < |gs| && gs[r.value].key == key
    ensures r.None? ==> forall i | 0 <= i < |gs| :: gs[i].key != key
    decreases |gs|
  {
    if |gs| == 0 then None
    else if gs[|gs| - 1].key == key then Some(|gs| - 1)
    else Find(gs[..|gs| - 1], key)
  }

  /** One step of the loop: count the query in its group, or open a group for it. */
  function AddQuery(gs: seq<Group>, k: Keyed): (r: seq<Group>)
    requires NoDup(Keys(gs))
    ensures NoDup(Keys(r))
    ensures |r| == |gs| || |r| == |gs| + 1
  {
    match Find(gs, k.key)
    case Some(i) =>
      var r := gs[i := gs[i].(count := gs[i].count + 1)];
      assert Keys(r) == Keys(gs);
      r
    case None =>
      var r := gs + [Group(k.key, 1, k.sql)];
      assert Keys(r) == Keys(gs) + [k.key];
      r
  }

  /**
   * `seen_queries` after the loop, in insertion order: one group per distinct
   * simplified text.
   */
  function GroupQueries(ks: seq<Keyed>): (gs: seq<Group>)
    ensures NoDup(Keys(gs))
    ensures |gs| <= |ks|
    decreases |ks|
  {
    if |ks| == 0 then []
    else AddQuery(GroupQueries(ks[..|ks| - 1]), ks[|ks| - 1])
  }

  /** How many keyed queries have `key`. */
  function CountKey(ks: seq<Keyed>, key: string): nat
    decreases |ks|
  {
    if |ks| == 0 then 0
    else CountKey(ks[..|ks| - 1], key) + (if ks[|ks| - 1].key == key then 1 else 0)
  }

  /** Counting over a split list adds the counts of the parts. */
  lemma {:induction false} CountKeyConcat(xs: seq<Keyed>, ys: seq<Keyed>, key: string)
    ensures CountKey(xs + ys, key) == CountKey(xs, key) + CountKey(ys, key)
    decreases |ys|
  {
    if |ys| > 0 {
      assert (xs + ys)[..|xs + ys| - 1] == xs + ys[..|ys| - 1];
      CountKeyConcat(xs, ys[..|ys| - 1], key);
    } else {
      assert xs + ys == xs;
    }
  }

  /** The keyed list counts a key as often as the log has SELECT ... WHERE queries simplifying to it. */
  lemma {:induction false} CandidatesCount(qs: seq<QueryRecord>, key: string)
    ensures CountKey(Candidates(qs), key) == Occurrences(qs, key)
    decreases |qs|
  {
    if |qs| > 0 {
      var init := qs[..|qs| - 1];
      var q := qs[|qs| - 1];
      assert qs == init + [q];
      CandidatesConcat(init, [q]);
      CandidatesOne(q);
      CountKeyConcat(Candidates(init), Candidates([q]), key);
      CandidatesCount(init, key);
      if Candidate(q.sql) {
        var one := [Keyed(SimplifyQuery(q.sql), q.sql)];
        assert one[..0] == [];
      }
    }
  }

  /** The groups are exactly the keys that occur, each counting its queries. */
  lemma {:induction false} GroupCounts(ks: seq<Keyed>)
    ensures forall i | 0 <= i < |GroupQueries(ks)| :: GroupQueries(ks)[i].count == CountKey(ks, GroupQueries(ks)[i].key)
    ensures forall key :: key in Keys(GroupQueries(ks)) <==> CountKey(ks, key) > 0
    decreases |ks|
  {
    if |ks| > 0 {
      var init := ks[..|ks| - 1];
      var k := ks[|ks| - 1];
      GroupCounts(init);
      var gs := GroupQueries(init);
      var r := GroupQueries(ks);
      assert r == AddQuery(gs, k);
      match Find(gs, k.key)
      case Some(j) =>
        forall i | 0 <= i < |r| ensures r[i].count == CountKey(ks, r[i].key) {
          assert r[i].key == gs[i].key;
        }
        forall key ensures key in Keys(r) <==> CountKey(ks, key) > 0 {
          assert Keys(r) == Keys(gs);
        }
      case None =>
        assert CountKey(init, k.key) == 0 by {
          assert k.key !in Keys(gs);
        }
        forall i | 0 <= i < |r| ensures r[i].count == CountKey(ks, r[i].key) {
          if i < |gs| {
            assert r[i] == gs[i];
            assert gs[i].key in Keys(gs);
          }
        }
        forall key ensures key in Keys(r) <==> CountKey(ks, key) > 0 {
          assert Keys(r) == Keys(gs) + [k.key];
        }
    }
  }

  /** Each group keeps the raw SQL of the first query with its key. */
  lemma {:induction false} GroupFirstRaw(ks: seq<Keyed>)
    ensures forall key :: key in Keys(GroupQueries(ks)) <==> exists m | 0 <= m < |ks| :: ks[m].key == key
    ensures forall i | 0 <= i < |GroupQueries(ks)| :: FirstRaw(ks, GroupQueries(ks)[i])
    decreases |ks|
  {
    if |ks| > 0 {
      var init := ks[..|ks| - 1];
      GroupFirstRaw(init);
      var gs := GroupQueries(init);
      var r := GroupQueries(ks);
      assert r == AddQuery(gs, ks[|ks| - 1]);
      FirstRawStep(ks, init, gs, r);
    }
  }

  /** The loop step keeps the first raw SQL of the old groups and records it for a new one. */
  lemma FirstRawStep(ks: seq<Keyed>, init: seq<Keyed>, gs: seq<Group>, r: seq<Group>)
    requires |ks| > 0 && init == ks[..|ks| - 1] && NoDup(Keys(gs))
    requires forall key :: key in Keys(gs) <==> exists m | 0 <= m < |init| :: init[m].key == key
    requires forall i | 0 <= i < |gs| :: FirstRaw(init, gs[i])
    requires r == AddQuery(gs, ks[|ks| - 1])
    ensures forall key :: key in Keys(r) <==> exists m | 0 <= m < |ks| :: ks[m].key == key
    ensures forall i | 0 <= i < |r| :: FirstRaw(ks, r[i])
  {
    var k := ks[|ks| - 1];
    assert forall m | 0 <= m < |init| :: ks[m] == init[m];
    forall g | FirstRaw(init, g) ensures FirstRaw(ks, g) {
      var j :| 0 <= j < |init| && init[j].key == g.key && init[j].sql == g.rawSql && forall m | 0 <= m < j :: init[m].key != g.key;
      assert ks[j] == init[j];
    }
    match Find(gs, k.key)
    case Some(j) =>
      assert Keys(r) == Keys(gs);
      forall i | 0 <= i < |r| ensures FirstRaw(ks, r[i]) {
        assert r[i].key == gs[i].key && r[i].rawSql == gs[i].rawSql;
        assert FirstRaw(init, gs[i]);
      }
    case None =>
      assert Keys(r) == Keys(gs) + [k.key];
      assert forall m | 0 <= m < |init| :: init[m].key != k.key by {
        assert k.key !in Keys(gs);
      }
      forall i | 0 <= i < |r| ensures FirstRaw(ks, r[i]) {
        if i < |gs| {
          assert r[i] == gs[i];
        } else {
          assert r[i] == Group(k.key, 1, k.sql);
        }
      }
  }

  /** `g.rawSql` is the SQL of the first keyed query with `g`'s key. */
  predicate FirstRaw(ks: seq<Keyed>, g: Group) {
    exists j | 0 <= j < |ks| :: ks[j].key == g.key && ks[j].sql == g.rawSql && forall m | 0 <= m < j :: ks[m].key != g.key
  }

  /** The sum of the group counts. */
  function TotalCount(gs: seq<Group>): nat
    decreases |gs|
  {
    if |gs| == 0 then 0 else TotalCount(gs[..|gs| - 1]) + gs[|gs| - 1].count
  }

  /** Counting one more query in one group adds one to the total. */
  lemma {:induction false} TotalCountBump(gs: seq<Group>, i: nat)
    requires i < |gs|
    ensures TotalCount(gs[i := gs[i].(count := gs[i].count + 1)]) == TotalCount(gs) + 1
    decreases |gs|
  {
    var r := gs[i := gs[i].(count := gs[i].count + 1)];
    if i < |gs| - 1 {
      assert r[..|r| - 1] == gs[..|gs| - 1][i := gs[i].(count := gs[i].count + 1)];
      TotalCountBump(gs[..|gs| - 1], i);
    } else {
      assert r[..|r| - 1] == gs[..|gs| - 1];
    }
  }

  /** Every grouped query is counted exactly once. */
  lemma {:induction false} GroupTotal(ks: seq<Keyed>)
    ensures TotalCount(GroupQueries(ks)) == |ks|
    decreases |ks|
  {
    if |ks| > 0 {
      var init := ks[..|ks| - 1];
      var k := ks[|ks| - 1];
      GroupTotal(init);
      var gs := GroupQueries(init);
      assert GroupQueries(ks) == AddQuery(gs, k);
      match Find(gs, k.key)
      case Some(j) =>
        assert AddQuery(gs, k) == gs[j := gs[j].(count := gs[j].count + 1)];
        TotalCountBump(gs, j);
      case None =>
        var r := gs + [Group(k.key, 1, k.sql)];
        assert r[..|r| - 1] == gs;
    }
  }

  // ---------------------------------------------------------------------------
  // Reporting the repeated groups

  const NPlusOneKind: string := "N+1 Query"
  const SelectRelatedAdvice: string := "Consider using select_related to optimize this query."
  const PrefetchRelatedAdvice: string := "Consider using prefetch_related to optimize this query."

  /** The related-object heuristic: seen more than once, and a SELECT with a WHERE but no JOIN (case-sensitive). */
  predicate Repeated(g: Group) {
    g.count > 1 && !Contains(g.rawSql, "JOIN") && Contains(g.rawSql, "SELECT") && Contains(g.rawSql, "WHERE")
  }

  /** The finding for a repeated group; a LIMIT suggests a single related object. */
  function RelatedFinding(g: Group): (f: Finding) {
    var advice := if Contains(g.rawSql, "LIMIT") then SelectRelatedAdvice else PrefetchRelatedAdvice;
    Finding(NPlusOneKind, g.rawSql, advice, Some(g.count), None, None, None, None)
  }

  /** `detect_repeated_queries_for_related_objects`: one finding per repeated group, in group order. */
  function DetectRepeatedQueries(gs: seq<Group>): (r: seq<Finding>)
    ensures |r| <= |gs|
    ensures forall f | f in r :: exists g | g in gs :: Repeated(g) && f == RelatedFinding(g)
    ensures forall g | g in gs && Repeated(g) :: RelatedFinding(g) in r
    ensures forall f | f in r :: && f.kind == NPlusOneKind && f.count.Some? && f.count.value > 1
                                 && !Contains(f.query, "JOIN")
                                 && (f.suggestion == SelectRelatedAdvice <==> Contains(f.query, "LIMIT"))
    decreases |gs|
  {
    if |gs| == 0 then []
    else
      var rest := DetectRepeatedQueries(gs[1..]);
      assert forall g | g in gs[1..] :: g in gs;
      (if Repeated(gs[0]) then [RelatedFinding(gs[0])] else []) + rest
  }

  /**
   * `QueryAnalyzer.detect_n_plus_one`: filter, key, group, report. Each
   * finding is the SQL of a filtered query, carrying as its count the number
   * of filtered SELECT ... WHERE queries with the same simplified text.
   */
  function DetectNPlusOne(entries: seq<Entry>): (r: seq<Finding>)
    ensures forall f | f in r :: f.kind == NPlusOneKind
    ensures forall f | f in r :: && f.count == Some(Occurrences(IgnoreBatches(entries), SimplifyQuery(f.query)))
                                 && f.count.value > 1 && Candidate(f.query) && !Contains(f.query, "JOIN")
    ensures forall f | f in r :: exists q | q in IgnoreBatches(entries) :: q.sql == f.query
  {
    NPlusOneSound(entries);
    DetectRepeatedQueries(GroupQueries(Candidates(IgnoreBatches(entries))))
  }

  /** What every finding of the N+1 rule says about the filtered log. */
  lemma NPlusOneSound(entries: seq<Entry>)
    ensures var qs := IgnoreBatches(entries);
      forall f | f in DetectRepeatedQueries(GroupQueries(Candidates(qs))) ::
        && f.count == Some(Occurrences(qs, SimplifyQuery(f.query)))
        && Candidate(f.query) && (exists q | q in qs :: q.sql == f.query)
  {
    var qs := IgnoreBatches(entries);
    var ks := Candidates(qs);
    var gs := GroupQueries(ks);
    forall f | f in DetectRepeatedQueries(gs)
      ensures f.count == Some(Occurrences(qs, SimplifyQuery(f.query)))
      ensures Candidate(f.query) && exists q | q in qs :: q.sql == f.query
    {
      var g :| g in gs && Repeated(g) && f == RelatedFinding(g);
      GroupedQuery(ks, g);
      var j :| 0 <= j < |ks| && ks[j].sql == g.rawSql && ks[j].key == g.key;
      assert ks[j] in ks;
      CandidatesCount(qs, g.key);
    }
  }

  /** The first keyed query with `key` has no JOIN. */
  predicate FirstJoinFree(ks: seq<Keyed>, key: string) {
    exists j | 0 <= j < |ks| :: ks[j].key == key && !Contains(ks[j].sql, "JOIN") && forall m | 0 <= m < j :: ks[m].key != key
  }

  /**
   * A simplified text is reported iff more than one filtered SELECT ... WHERE
   * query has it and the first of them has no JOIN.
   */
  lemma NPlusOneReported(entries: seq<Entry>, key: string)
    ensures (exists f | f in DetectNPlusOne(entries) :: SimplifyQuery(f.query) == key) <==>
      Occurrences(IgnoreBatches(entries), key) > 1 && FirstJoinFree(Candidates(IgnoreBatches(entries)), key)
  {
    var qs := IgnoreBatches(entries);
    var ks := Candidates(qs);
    CandidatesCount(qs, key);
    assert DetectNPlusOne(entries) == DetectRepeatedQueries(GroupQueries(ks));
    if f :| f in DetectNPlusOne(entries) && SimplifyQuery(f.query) == key {
      ReportedFirst(ks, f);
    }
    if Occurrences(qs, key) > 1 && FirstJoinFree(ks, key) {
      ReportedKey(ks, key);
    }
  }

  /** A reported group's key is seen more than once, and its first query has no JOIN. */
  lemma ReportedFirst(ks: seq<Keyed>, f: Finding)
    requires forall k | k in ks :: Candidate(k.sql) && k.key == SimplifyQuery(k.sql)
    requires f in DetectRepeatedQueries(GroupQueries(ks))
    ensures CountKey(ks, SimplifyQuery(f.query)) > 1 && FirstJoinFree(ks, SimplifyQuery(f.query))
  {
    var gs := GroupQueries(ks);
    var g :| g in gs && Repeated(g) && f == RelatedFinding(g);
    var i :| 0 <= i < |gs| && gs[i] == g;
    GroupCounts(ks);
    GroupFirstRaw(ks);
    assert FirstRaw(ks, gs[i]);
    var j :| 0 <= j < |ks| && ks[j].key == g.key && ks[j].sql == g.rawSql && forall m | 0 <= m < j :: ks[m].key != g.key;
    assert ks[j] in ks;
    assert FirstJoinFree(ks, g.key);
  }

  /** The group of a key seen more than once whose first query has no JOIN is reported. */
  lemma ReportedKey(ks: seq<Keyed>, key: string)
    requires forall k | k in ks :: Candidate(k.sql) && k.key == SimplifyQuery(k.sql)
    requires CountKey(ks, key) > 1 && FirstJoinFree(ks, key)
    ensures exists f | f in DetectRepeatedQueries(GroupQueries(ks)) :: SimplifyQuery(f.query) == key
  {
    var j :| 0 <= j < |ks| && ks[j].key == key && !Contains(ks[j].sql, "JOIN") && forall m | 0 <= m < j :: ks[m].key != key;
    var gs := GroupQueries(ks);
    GroupCounts(ks);
    GroupFirstRaw(ks);
    var i :| 0 <= i < |gs| && gs[i].key == key;
    assert FirstRaw(ks, gs[i]);
    var j' :| 0 <= j' < |ks| && ks[j'].key == key && ks[j'].sql == gs[i].rawSql && forall m | 0 <= m < j' :: ks[m].key != key;
    assert j' == j;
    assert ks[j] in ks;
    assert Repeated(gs[i]);
    assert gs[i] in gs;
    assert RelatedFinding(gs[i]).query == ks[j].sql;
  }

  /** Reporting depends only on the group itself: a group is reported iff it is repeated. */
  lemma ReportedIffRepeated(gs: seq<Group>, g: Group)
    requires g in gs
    ensures RelatedFinding(g) in DetectRepeatedQueries(gs) <==> Repeated(g)
  {
    if RelatedFinding(g) in DetectRepeatedQueries(gs) {
      var h :| h in gs && Repeated(h) && RelatedFinding(g) == RelatedFinding(h);
      assert g.rawSql == h.rawSql && g.count == h.count;
    }
  }

  /** A group counts the queries with its key, and its raw SQL is one of theirs. */
  lemma GroupedQuery(ks: seq<Keyed>, g: Group)
    requires g in GroupQueries(ks)
    ensures g.count == CountKey(ks, g.key)
    ensures exists j | 0 <= j < |ks| :: ks[j].sql == g.rawSql && ks[j].key == g.key
  {
    var gs := GroupQueries(ks);
    var i :| 0 <= i < |gs| && gs[i] == g;
    GroupFirstRaw(ks);
    GroupCounts(ks);
    assert FirstRaw(ks, gs[i]);
  }

  /**
   * A group of the N+1 loop is reported iff it was seen more than once and
   * its first raw SQL has no JOIN: the SELECT and WHERE tests always hold,
   * since only such queries are grouped. Its count is the number of filtered
   * queries that simplify to its key.
   */
  lemma NPlusOneGroups(entries: seq<Entry>, g: Group)
    requires g in GroupQueries(Candidates(IgnoreBatches(entries)))
    ensures RelatedFinding(g) in DetectNPlusOne(entries) <==> g.count > 1 && !Contains(g.rawSql, "JOIN")
    ensures g.count == CountKey(Candidates(IgnoreBatches(entries)), g.key)
    ensures g.count == Occurrences(IgnoreBatches(entries), g.key)
  {
    var ks := Candidates(IgnoreBatches(entries));
    GroupedQuery(ks, g);
    CandidatesCount(IgnoreBatches(entries), g.key);
    var j :| 0 <= j < |ks| && ks[j].sql == g.rawSql;
    assert ks[j] in ks;
    ReportedIffRepeated(GroupQueries(ks), g);
  }

  /** The first example of `test_utils.py`: three repeats of a query with LIMIT suggest select_related. */
  lemma RepeatedWithLimitExample(g: Group, a: string, b: string, c: string)
    requires a == "SELECT * FROM orders " && b == "WHERE user_id = 1 " && c == "LIMIT 1"
    requires g.count == 3 && g.rawSql == a + b + c
    ensures DetectRepeatedQueries([g]) == [Finding(NPlusOneKind, g.rawSql, SelectRelatedAdvice, Some(3), None, None, None, None)]
  {
    var s := g.rawSql;
    assert Avoids(a, 'J') && Avoids(b, 'J') && Avoids(c, 'J');
    AvoidsConcat(a, b, 'J');
    AvoidsConcat(a + b, c, 'J');
    AbsentByFirst(s, "JOIN");
    assert s[..6] == a[..6] == "SELECT";
    assert MatchAt(s, 0, "SELECT");
    assert s[|a|..|a| + 5] == b[..5] == "WHERE";
    assert MatchAt(s, |a|, "WHERE");
    assert s[|a + b|..] == c;
    assert MatchAt(s, |a + b|, "LIMIT");
  }

  /** A group seen once is not reported. */
  lemma SingleGroupExample(g: Group)
    requires g.count == 1
    ensures DetectRepeatedQueries([g]) == []
  {
  }

  /** The transaction statements of `test_utils.py` are recognised as batches. */
  lemma TransactionExamples(b: string, c: string, r: string)
    requires b == "BEGIN" && c == "COMMIT" && r == "ROLLBACK"
    ensures Batch(b) && Batch(c) && Batch(r)
  {
    assert WordAt(b, 0, "BEGIN");
    assert WordAt(c, 0, "COMMIT");
    assert WordAt(r, 0, "ROLLBACK");
  }

  /**
   * A one-line `INSERT INTO ...` prefix followed by a whole word VALUES is a
   * bulk write, whatever the prefix names between the two.
   */
  lemma InsertValues(a: string, v: string)
    requires KeywordAt(a, 0, "INSERT INTO") && |a| > 11 && !IsWordChar(a[11]) && !IsWordChar(a[|a| - 1])
    requires Avoids(a, '\n')
    requires KeywordAt(v, 0, "VALUES") && (|v| == 6 || !IsWordChar(v[6]))
    ensures Batch(a + v)
  {
    var s := a + v;
    assert forall k | 0 <= k < |a| :: s[k] == a[k];
    assert forall k | 0 <= k < |v| :: s[|a| + k] == v[k];
    assert KeywordAt(s, 0, "INSERT INTO");
    assert UpperChar(s[0]) == 'I' && UpperChar(s[10]) == 'O' by {
      assert UpperChar(a[0]) == "INSERT INTO"[0] && UpperChar(a[10]) == "INSERT INTO"[10];
    }
    assert WordAt(s, 0, "INSERT INTO");
    assert KeywordAt(s, |a|, "VALUES");
    assert UpperChar(s[|a|]) == 'V' && UpperChar(s[|a| + 5]) == 'S' by {
      assert UpperChar(v[0]) == "VALUES"[0] && UpperChar(v[5]) == "VALUES"[5];
    }
    assert WordAt(s, |a|, "VALUES");
    assert NoNewline(s, 11, |a|);
    assert BulkWriteAt(s, 0, "INSERT INTO");
  }

  /** The multi-row INSERT of `test_utils.py` is recognised as a bulk write. */
  lemma BulkInsertExample(a: string, v: string)
    requires a == "INSERT INTO orders (product, price) " && v == "VALUES (1, 20), (2, 30)"
    ensures Batch(a + v)
  {
    assert a[..11] == "INSERT INTO";
    assert KeywordAt(a, 0, "INSERT INTO");
    assert v[..6] == "VALUES";
    InsertValues(a, v);
  }
}

=== FILE: orderby.dfy ===
/**
 * `extract_order_by_columns`: the `"table"."column"` references of an ORDER BY
 * list. The source first rejects an ORDER BY with nothing after it, then
 * searches the list pattern, splits the captured list on commas, strips the
 * pieces and deletes the ASC/DESC directions; the pieces then turn out to be
 * exactly the column references the pattern recognised.
 */
module OrderBy {
  import opened Wrappers
  import opened Text
  import opened Records
  import Simplify

  const InvalidOrderBy: string := "ORDER BY clause contains empty or invalid columns."

  /** `ORDER\s+BY\s*(;|$)` matches at `p`. */
  predicate BareOrderByAt(s: string, p: nat)
    requires p <= |s|
  {
    && KeywordAt(s, p, "ORDER")
    && var b := SkipSpaces(s, p + 5);
    && b > p + 5
    && KeywordAt(s, b, "BY")
    && var c := SkipSpaces(s, b + 2);
    && ((c < |s| && s[c] == ';') || EndAnchor(s, c))
  }

  /** The `re.search` for an empty ORDER BY succeeds somewhere. */
  predicate BareOrderBy(s: string) {
    exists p | 0 <= p <= |s| :: BareOrderByAt(s, p)
  }

  /** A double-quoted table name, a dot and a double-quoted column name. */
  predicate RefText(t: string) {
    && |t| >= 7 && t[0] == '"' && t[|t| - 1] == '"'
    && forall k | 0 <= k < |t| :: InClass(t[k], JoinColumn)
  }

  /** `"[\w_]+"\."[\w_]+"` at `i`: the end of the reference. */
  function RefEnd(s: string, i: nat): (r: Option<nat>)
    requires i <= |s|
    ensures r.Some? ==> i < r.value <= |s| && RefText(s[i..r.value])
  {
    if i < |s| && s[i] == '"' then
      var a := RunEnd(s, i + 1, Word);
      if a > i + 1 && a + 2 < |s| && s[a] == '"' && s[a + 1] == '.' && s[a + 2] == '"' then
        var b := RunEnd(s, a + 3, Word);
        if b > a + 3 && b < |s| && s[b] == '"' then
          assert forall k | i <= k <= b :: InClass(s[k], JoinColumn);
          Some(b + 1)
        else None
      else None
    else None
  }

  /**
   * `\s*,\s*ITEM` after the whitespace that ends at `c`: where the next
   * reference starts, when a comma and a reference follow.
   */
  function NextItem(s: string, c: nat): (g: Option<nat>)
    requires c <= |s|
    ensures g.Some? ==> c < g.value <= |s| && s[c] == ',' && RefEnd(s, g.value).Some?
    ensures g.Some? ==> forall k | c < k < g.value :: IsSpace(s[k])
  {
    if c < |s| && s[c] == ',' && RefEnd(s, SkipSpaces(s, c + 1)).Some? then Some(SkipSpaces(s, c + 1)) else None
  }

  /**
   * `ITEM(?:\s*,\s*ITEM)*` at `i`, with ITEM the reference and an optional
   * `\s+ASC` or `\s+DESC`, when a reference starts at `i`: the references in
   * order and the end of the list. The repetition is greedy and each step is
   * forced, so the list runs up to the first comma not followed by another
   * reference.
   */
  function ItemList(s: string, i: nat): (r: (seq<string>, nat))
    requires i <= |s| && RefEnd(s, i).Some?
    ensures |r.0| > 0 && i < r.1 <= |s|
    ensures forall k | 0 <= k < |r.0| :: RefText(r.0[k])
    decreases |s| - i
  {
    var b := RefEnd(s, i).value;
    var e := Simplify.DirectionEnd(s, b);
    match NextItem(s, SkipSpaces(s, e))
    case Some(g) =>
      var rest := ItemList(s, g);
      ([s[i..b]] + rest.0, rest.1)
    case None => ([s[i..b]], e)
  }

  /** The list at `i`, or `None` when no reference starts there. */
  function Items(s: string, i: nat): (r: Option<(seq<string>, nat)>)
    requires i <= |s|
    ensures r.Some? <==> RefEnd(s, i).Some?
    ensures r.Some? ==> r.value == ItemList(s, i)
  {
    if RefEnd(s, i).Some? then Some(ItemList(s, i)) else None
  }

  /** `ORDER\s+BY\s+` at `p`: where the list has to start. */
  function ListStart(s: string, p: nat): (r: Option<nat>)
    requires p <= |s|
    ensures r.Some? ==> p + 8 < r.value + 1 <= |s| + 1 && KeywordAt(s, p, "ORDER")
  {
    if !KeywordAt(s, p, "ORDER") then None
    else
      var b := SkipSpaces(s, p + 5);
      if b == p + 5 || !KeywordAt(s, b, "BY") then None
      else
        var g := SkipSpaces(s, b + 2);
        if g == b + 2 then None else Some(g)
  }

  /**
   * `ORDER\s+BY\s+(list)(?:\s*|\s*;)` at `p`: where group 1 starts; it ends
   * where `Items` ends, and the trailing alternatives always match.
   */
  function OrderByAt(s: string, p: nat): (r: Option<nat>)
    requires p <= |s|
    ensures r.Some? ==> p < r.value <= |s| && RefEnd(s, r.value).Some?
  {
    match ListStart(s, p)
    case None => None
    case Some(g) => if RefEnd(s, g).Some? then Some(g) else None
  }

  /** `re.search` of the list pattern from `p`: the leftmost position where it matches. */
  function FirstOrderBy(s: string, p: nat): (r: Option<nat>)
    requires p <= |s|
    ensures r.Some? ==> p <= r.value <= |s| && OrderByAt(s, r.value).Some?
    decreases |s| - p
  {
    if OrderByAt(s, p).Some? then Some(p)
    else if p == |s| then None
    else FirstOrderBy(s, p + 1)
  }

  /** No list pattern matches before the position the search reports, nor anywhere when it reports none. */
  lemma {:induction false} FirstOrderByLeftmost(s: string, p: nat, q: nat)
    requires p <= q <= |s|
    requires FirstOrderBy(s, p).None? || q < FirstOrderBy(s, p).value
    ensures OrderByAt(s, q).None?
    decreases q - p
  {
    var r := FirstOrderBy(s, p);
    if OrderByAt(s, p).None? && p < q {
      assert r == FirstOrderBy(s, p + 1);
      FirstOrderByLeftmost(s, p + 1, q);
    }
  }

  /** The length of an `ASC` or `DESC` at `w` (0 when neither). */
  function DirectionLength(t: string, w: nat): (n: nat)
    ensures n == 0 || n == 3 || n == 4
    ensures n > 0 ==> w + n <= |t|
  {
    if KeywordAt(t, w, "ASC") then 3 else if KeywordAt(t, w, "DESC") then 4 else 0
  }

  /** The length of a `\s+(ASC|DESC)` match at the start of `t` (0 when there is none). */
  function DirectionMatch(t: string): (n: nat)
    ensures n <= |t|
    ensures n > 0 ==> IsSpace(t[0])
  {
    if |t| > 0 && IsSpace(t[0]) then
      var w := SkipSpaces(t, 0);
      if DirectionLength(t, w) > 0 then w + DirectionLength(t, w) else 0
    else 0
  }

  /** `re.sub(r'\s+(ASC|DESC)', '', t, flags=re.IGNORECASE)` */
  function RemoveDirections(t: string): (r: string)
    ensures |r| <= |t|
    decreases |t|
  {
    if |t| == 0 then ""
    else if DirectionMatch(t) > 0 then RemoveDirections(t[DirectionMatch(t)..])
    else [t[0]] + RemoveDirections(t[1..])
  }

  /** One piece of the split list, cleaned as the source does. */
  function CleanColumn(piece: string): string {
    Strip(RemoveDirections(Strip(piece)))
  }

  function CleanColumns(pieces: seq<string>): (r: seq<string>)
    ensures |r| == |pieces|
    decreases |pieces|
  {
    if |pieces| == 0 then [] else [CleanColumn(pieces[0])] + CleanColumns(pieces[1..])
  }

  /**
   * `extract_order_by_columns`: a `ValueError` for an ORDER BY without a
   * column list; otherwise the cleaned pieces of the first list the pattern
   * recognises, or `[]` when there is none.
   */
  function ExtractOrderByColumns(sql: string): (r: Result<seq<string>, Error>)
    ensures r.Err? <==> BareOrderBy(sql)
    ensures r.Err? ==> r.error == ValueError(InvalidOrderBy)
    ensures r.Ok? ==> forall k | 0 <= k < |r.value| :: RefText(r.value[k])
    ensures r.Ok? && FirstOrderBy(sql, 0).None? ==> r.value == []
    ensures r.Ok? && FirstOrderBy(sql, 0).Some? ==>
      r.value == ItemList(sql, OrderByAt(sql, FirstOrderBy(sql, 0).value).value).0
  {
    if BareOrderBy(sql) then Err(ValueError(InvalidOrderBy))
    else
      match FirstOrderBy(sql, 0)
      case None => Ok([])
      case Some(q) =>
        var g := OrderByAt(sql, q).value;
        var cols := CleanColumns(Split(sql[g..ItemList(sql, g).1], ','));
        ListClean(sql, g);
        if exists k | 0 <= k < |cols| :: cols[k] == "" then Err(ValueError(InvalidOrderBy))
        else Ok(cols)
  }

  /** The cleaned pieces of a captured list are its references, none of them empty. */
  lemma ListClean(s: string, g: nat)
    requires g <= |s| && RefEnd(s, g).Some?
    ensures var cols := CleanColumns(Split(s[g..ItemList(s, g).1], ','));
      cols == ItemList(s, g).0 && forall k | 0 <= k < |cols| :: cols[k] != ""
  {
    ItemsClean(s, g, g, ItemList(s, g));
    var refs := ItemList(s, g).0;
    assert forall k | 0 <= k < |refs| :: RefText(refs[k]);
  }

  // ---------------------------------------------------------------------------
  // Why the cleaning gives back the references

  /** Characters without whitespace pass through the direction removal untouched. */
  lemma {:induction false} RemoveDirectionsKeep(x: string, y: string)
    requires forall k | 0 <= k < |x| :: !IsSpace(x[k])
    ensures RemoveDirections(x + y) == x + RemoveDirections(y)
    decreases |x|
  {
    if |x| > 0 {
      var t := x + y;
      assert t[0] == x[0] && t[1..] == x[1..] + y;
      assert !IsSpace(t[0]);
      assert DirectionMatch(t) == 0;
      assert RemoveDirections(t) == [x[0]] + RemoveDirections(x[1..] + y);
      RemoveDirectionsKeep(x[1..], y);
      assert [x[0]] + (x[1..] + RemoveDirections(y)) == ([x[0]] + x[1..]) + RemoveDirections(y);
      assert [x[0]] + x[1..] == x;
    } else {
      assert x + y == y;
    }
  }

  /** What `DirectionEnd` consumes: nothing, or whitespace followed by ASC or DESC. */
  lemma DirectionShape(s: string, b: nat)
    requires b <= |s|
    ensures var e := Simplify.DirectionEnd(s, b);
      e == b || (SkipSpaces(s, b) > b && e == SkipSpaces(s, b) + DirectionLength(s, SkipSpaces(s, b)) && e > SkipSpaces(s, b))
  {
  }

  /** A direction is removed completely. */
  lemma RemoveDirectionsDirection(s: string, b: nat)
    requires b <= |s|
    ensures RemoveDirections(s[b..Simplify.DirectionEnd(s, b)]) == ""
  {
    var e := Simplify.DirectionEnd(s, b);
    DirectionShape(s, b);
    if e > b {
      var d := SkipSpaces(s, b);
      var n := DirectionLength(s, d);
      var t := s[b..e];
      assert forall k | 0 <= k < |t| :: t[k] == s[b + k];
      SkipSpacesTo(t, 0, d - b);
      if n == 3 {
        assert KeywordAt(t, d - b, "ASC");
      } else {
        KeywordFirst(s, d, "DESC");
        assert t[d - b] == s[d];
        NotKeywordByFirst(t, d - b, "ASC");
        assert KeywordAt(t, d - b, "DESC");
      }
      assert DirectionLength(t, d - b) == n;
      assert t[d - b + n..] == "";
    }
  }

  /** No character of an item (reference and direction) is whitespace at its ends, or a comma anywhere. */
  lemma ItemChars(s: string, i: nat, b: nat)
    requires i <= |s| && RefEnd(s, i) == Some(b)
    ensures var e := Simplify.DirectionEnd(s, b);
      && b <= e <= |s|
      && (forall k | i <= k < e :: s[k] != ',')
      && (forall k | i <= k < b :: !IsSpace(s[k]))
      && !IsSpace(s[i]) && !IsSpace(s[e - 1])
  {
    var e := Simplify.DirectionEnd(s, b);
    assert RefText(s[i..b]);
    assert forall k | i <= k < b :: s[k] == s[i..b][k - i];
    DirectionShape(s, b);
    if e > b {
      var d := SkipSpaces(s, b);
      var n := DirectionLength(s, d);
      var kw := if n == 3 then "ASC" else "DESC";
      assert KeywordAt(s, d, kw);
      forall k | d <= k < e ensures s[k] != ',' && !IsSpace(s[k]) {
        assert UpperChar(s[d + (k - d)]) == kw[k - d];
      }
    }
  }

  /** One piece, `ws ITEM ws`, cleans to the reference of its item. */
  lemma CleanPiece(s: string, h: nat, i: nat, b: nat, c: nat)
    requires h <= i <= |s| && RefEnd(s, i) == Some(b)
    requires Simplify.DirectionEnd(s, b) <= c <= |s|
    requires forall k | h <= k < i :: IsSpace(s[k])
    requires forall k | Simplify.DirectionEnd(s, b) <= k < c :: IsSpace(s[k])
    ensures CleanColumn(s[h..c]) == s[i..b]
  {
    var e := Simplify.DirectionEnd(s, b);
    ItemChars(s, i, b);
    StripPadded(s, h, i, e, c);
    assert s[i..e] == s[i..b] + s[b..e];
    RemoveDirectionsKeep(s[i..b], s[b..e]);
    RemoveDirectionsDirection(s, b);
    assert s[i..b] + "" == s[i..b];
    assert RefText(s[i..b]);
    StripNoSpaceEnds(s[i..b]);
  }

  lemma CleanColumnsCons(x: string, xs: seq<string>)
    ensures CleanColumns([x] + xs) == [CleanColumn(x)] + CleanColumns(xs)
  {
    assert ([x] + xs)[1..] == xs;
  }

  /** A piece `ws ITEM ws` holds no comma. */
  lemma PieceNoComma(s: string, h: nat, i: nat, b: nat, c: nat)
    requires h <= i <= |s| && RefEnd(s, i) == Some(b)
    requires Simplify.DirectionEnd(s, b) <= c <= |s|
    requires forall k | h <= k < i :: IsSpace(s[k])
    requires forall k | Simplify.DirectionEnd(s, b) <= k < c :: IsSpace(s[k])
    ensures Avoids(s[h..c], ',')
  {
    ItemChars(s, i, b);
    assert forall k | h <= k < c :: s[k] != ',';
    assert forall k | 0 <= k < c - h :: s[h..c][k] == s[h + k];
  }

  /** The list continues after a comma: the first piece, then the pieces of the rest. */
  lemma CleanMore(s: string, h: nat, i: nat, b: nat, c: nat, n: nat, end: nat, rest: seq<string>)
    requires h <= i <= |s| && RefEnd(s, i) == Some(b)
    requires Simplify.DirectionEnd(s, b) <= c < end <= |s| && s[c] == ',' && n == c + 1
    requires forall k | h <= k < i :: IsSpace(s[k])
    requires forall k | Simplify.DirectionEnd(s, b) <= k < c :: IsSpace(s[k])
    requires CleansTo(s, n, end, rest)
    ensures CleansTo(s, h, end, [s[i..b]] + rest)
  {
    PieceNoComma(s, h, i, b, c);
    assert s[h..end] == s[h..c] + [','] + s[c + 1..end];
    SplitHead(s[h..c], s[c + 1..end], ',');
    CleanPiece(s, h, i, b, c);
    CleanColumnsCons(s[h..c], Split(s[c + 1..end], ','));
  }

  /** The last item: the rest of the capture is one piece. */
  lemma CleanLast(s: string, h: nat, i: nat, b: nat)
    requires h <= i <= |s| && RefEnd(s, i) == Some(b)
    requires forall k | h <= k < i :: IsSpace(s[k])
    ensures CleansTo(s, h, Simplify.DirectionEnd(s, b), [s[i..b]])
  {
    var e := Simplify.DirectionEnd(s, b);
    PieceNoComma(s, h, i, b, e);
    SplitWithoutSep(s[h..e], ',');
    CleanPiece(s, h, i, b, e);
    CleanColumnsCons(s[h..e], []);
  }

  /** Splitting `s[h..end]` on commas and cleaning each piece gives `refs`. */
  predicate CleansTo(s: string, h: nat, end: nat, refs: seq<string>)
    requires h <= end <= |s|
  {
    CleanColumns(Split(s[h..end], ',')) == refs
  }

  /**
   * Splitting the captured list on commas and cleaning each piece yields the
   * references of its items, in order, however much whitespace precedes it.
   */
  lemma {:induction false} ItemsClean(s: string, h: nat, i: nat, list: (seq<string>, nat))
    requires h <= i <= |s| && RefEnd(s, i).Some? && list == ItemList(s, i)
    requires forall k | h <= k < i :: IsSpace(s[k])
    ensures h <= list.1 && CleansTo(s, h, list.1, list.0)
    decreases |s| - i, 1
  {
    var b := RefEnd(s, i).value;
    var e := Simplify.DirectionEnd(s, b);
    var c := SkipSpaces(s, e);
    assert i < b <= e <= c;
    match NextItem(s, c)
    case Some(g) =>
      assert forall k | c + 1 <= k < g :: IsSpace(s[k]);
      ItemsCleanMore(s, h, i, b, c, g, list);
    case None =>
      ItemsCleanLast(s, h, i, c, list);
  }

  /** `ItemsClean` for the last item of the list. */
  lemma ItemsCleanLast(s: string, h: nat, i: nat, c: nat, list: (seq<string>, nat))
    requires h <= i <= |s| && RefEnd(s, i).Some? && list == ItemList(s, i)
    requires forall k | h <= k < i :: IsSpace(s[k])
    requires c == SkipSpaces(s, Simplify.DirectionEnd(s, RefEnd(s, i).value)) && NextItem(s, c).None?
    ensures h <= list.1 && CleansTo(s, h, list.1, list.0)
  {
    var b := RefEnd(s, i).value;
    ItemListLast(s, i, b, c);
    CleanLast(s, h, i, b);
  }

  /** The step of `ItemsClean` over a comma: the first reference, then the rest of the list. */
  lemma {:induction false} ItemsCleanMore(s: string, h: nat, i: nat, b: nat, c: nat, g: nat, list: (seq<string>, nat))
    requires h <= i <= |s| && RefEnd(s, i) == Some(b) && list == ItemList(s, i)
    requires forall k | h <= k < i :: IsSpace(s[k])
    requires c == SkipSpaces(s, Simplify.DirectionEnd(s, b)) && NextItem(s, c) == Some(g)
    ensures h <= list.1 && CleansTo(s, h, list.1, list.0)
    decreases |s| - i, 0
  {
    var e := Simplify.DirectionEnd(s, b);
    var rest := ItemList(s, g);
    ItemListMore(s, i, b, c, g);
    assert list == ([s[i..b]] + rest.0, rest.1);
    var n := c + 1;
    ItemsClean(s, n, g, rest);
    assert forall k | e <= k < c :: IsSpace(s[k]);
    CleanMore(s, h, i, b, c, n, rest.1, rest.0);
  }

  /** A reference followed by a comma and another reference heads a longer list. */
  lemma ItemListMore(s: string, i: nat, b: nat, c: nat, g: nat)
    requires i <= |s| && RefEnd(s, i) == Some(b)
    requires c == SkipSpaces(s, Simplify.DirectionEnd(s, b))
    requires NextItem(s, c) == Some(g)
    ensures ItemList(s, i) == ([s[i..b]] + ItemList(s, g).0, ItemList(s, g).1)
  {
  }

  /** A reference not followed by a comma and another reference ends the list. */
  lemma ItemListLast(s: string, i: nat, b: nat, c: nat)
    requires i <= |s| && RefEnd(s, i) == Some(b)
    requires c == SkipSpaces(s, Simplify.DirectionEnd(s, b))
    requires NextItem(s, c).None?
    ensures ItemList(s, i) == ([s[i..b]], Simplify.DirectionEnd(s, b))
  {
  }
}

=== FILE: patterns.dfy ===
/**
 * The regular expressions the detectors of `QueryAnalyzer` search with, as
 * predicates over match positions, and the verb check of `QueryFetcher`.
 * `re.search` succeeds iff some start position and some choice of the
 * quantified runs fit the pattern, so each search is an existential.
 */
module Patterns {
  import opened Wrappers
  import opened Text

  /** Every character of `s[i..j]` is whitespace. */
  predicate SpaceRun(s: string, i: int, j: int) {
    0 <= i <= j <= |s| && forall m | i <= m < j :: IsSpace(s[m])
  }

  /** Every character of `s[i..j]` is a word character. */
  predicate WordRun(s: string, i: int, j: int) {
    0 <= i <= j <= |s| && forall m | i <= m < j :: IsWordChar(s[m])
  }

  // ---------------------------------------------------------------------------
  // `\(SELECT .* FROM`

  /** The subquery pattern matched from the parenthesis at `p`, with ` FROM` at `q`. */
  predicate SubqueryAt(s: string, p: int, q: int) {
    && 0 <= p && p + 8 <= q && q + 5 <= |s|
    && s[p] == '(' && KeywordAt(s, p + 1, "SELECT ")
    && NoNewline(s, p + 8, q)
    && KeywordAt(s, q, " FROM")
  }

  /** `re.search(r'\(SELECT .* FROM', sql, re.IGNORECASE)` */
  predicate HasSubquery(sql: string) {
    exists p, q | 0 <= p <= q <= |sql| :: SubqueryAt(sql, p, q)
  }

  /** A parenthesised SELECT whose FROM follows on the same line is found, wherever it sits. */
  lemma SubqueryIn(a: string, x: string, b: string)
    requires Avoids(x, '\n')
    ensures HasSubquery(a + "(SELECT " + x + " FROM" + b)
  {
    var s := a + "(SELECT " + x + " FROM" + b;
    var p := |a|;
    var q := |a| + 8 + |x|;
    assert s[p..p + 8] == "(SELECT ";
    assert s[p + 8..q] == x;
    assert s[q..q + 5] == " FROM";
    assert forall k | 0 <= k < 7 :: s[p + 1 + k] == "SELECT "[k];
    assert forall k | 0 <= k < 5 :: s[q + k] == " FROM"[k];
    assert forall k | p + 8 <= k < q :: s[k] == x[k - p - 8];
    assert SubqueryAt(s, p, q);
  }

  // ---------------------------------------------------------------------------
  // `JOIN\s+\w+\s*(?!ON|USING)`

  /**
   * The plain-JOIN pattern matched at `p`: the whitespace after JOIN ends at
   * `a`, the word at `b`, the optional whitespace at `c`, and what follows
   * `c` starts with neither ON nor USING.
   */
  predicate JoinPatternAt(s: string, p: int, a: int, b: int, c: int) {
    && 0 <= p && p + 4 < a < b <= c <= |s|
    && KeywordAt(s, p, "JOIN")
    && SpaceRun(s, p + 4, a) && WordRun(s, a, b) && SpaceRun(s, b, c)
    && !KeywordAt(s, c, "ON") && !KeywordAt(s, c, "USING")
  }

  /** `re.search(r'JOIN\s+\w+\s*(?!ON|USING)', sql, re.IGNORECASE)` */
  predicate CartesianJoin(sql: string) {
    exists p, a, b, c | 0 <= p <= a <= b <= c <= |sql| :: JoinPatternAt(sql, p, a, b, c)
  }

  /** JOIN, then whitespace, then a word character: all the pattern actually asks for. */
  predicate JoinWordAt(s: string, p: int) {
    && KeywordAt(s, p, "JOIN")
    && var a := SkipSpaces(s, p + 4);
       p + 4 < a < |s| && IsWordChar(s[a])
  }

  /**
   * The lookahead never rejects a match: the word run can always be taken
   * whole and the optional whitespace empty, and then the next character is
   * not a word character, so it cannot start ON or USING. Hence the search
   * flags every `JOIN <word>`, an ON condition or not.
   */
  lemma CartesianJoinIff(sql: string)
    ensures CartesianJoin(sql) <==> exists p | 0 <= p <= |sql| :: JoinWordAt(sql, p)
  {
    if CartesianJoin(sql) {
      var p, a, b, c :| 0 <= p <= a <= b <= c <= |sql| && JoinPatternAt(sql, p, a, b, c);
      assert !IsSpace(sql[a]);
      SkipSpacesTo(sql, p + 4, a);
      assert JoinWordAt(sql, p);
    }
    if exists p | 0 <= p <= |sql| :: JoinWordAt(sql, p) {
      var p :| 0 <= p <= |sql| && JoinWordAt(sql, p);
      var a := SkipSpaces(sql, p + 4);
      var b := RunEnd(sql, a, Word);
      assert b < |sql| ==> !IsWordChar(sql[b]);
      if KeywordAt(sql, b, "ON") {
        KeywordFirst(sql, b, "ON");
      }
      if KeywordAt(sql, b, "USING") {
        KeywordFirst(sql, b, "USING");
      }
      assert JoinPatternAt(sql, p, a, b, b);
    }
  }

  /** A JOIN followed by whitespace and a word is flagged, whatever comes after the word. */
  lemma JoinWordFlagged(a: string, t: string, rest: string)
    requires |t| > 0 && IsWordChar(t[0])
    ensures CartesianJoin(a + "JOIN " + t + rest)
  {
    var s := a + "JOIN " + t + rest;
    var p := |a|;
    assert s[p..p + 5] == "JOIN ";
    assert forall k | 0 <= k < 4 :: s[p + k] == "JOIN"[k];
    assert s[p + 4] == ' ' && s[p + 5] == t[0];
    SkipSpacesTo(s, p + 4, p + 5);
    assert JoinWordAt(s, p);
    CartesianJoinIff(s);
  }

  // ---------------------------------------------------------------------------
  // `OFFSET\s+(\d+)`

  /** `int()` of a run of ASCII digits. */
  function DigitsValue(d: string): (n: nat)
    decreases |d|
  {
    if |d| == 0 then 0
    else DigitsValue(d[..|d| - 1]) * 10 + (if IsDigit(d[|d| - 1]) then d[|d| - 1] as int - '0' as int else 0)
  }

  /** `str(n)` for a natural number. */
  function Decimal(n: nat): (d: string)
    ensures |d| > 0 && forall k | 0 <= k < |d| :: IsDigit(d[k])
    decreases n
  {
    var last := ('0' as int + n % 10) as char;
    if n < 10 then [last] else Decimal(n / 10) + [last]
  }

  /** Reading back the decimal text of a number gives the number. */
  lemma {:induction false} DecimalRoundTrip(n: nat)
    ensures DigitsValue(Decimal(n)) == n
    decreases n
  {
    var d := Decimal(n);
    if n < 10 {
      assert d[..0] == [];
    } else {
      DecimalRoundTrip(n / 10);
      assert d[..|d| - 1] == Decimal(n / 10);
    }
  }

  /** The pattern matched at `p`: its digit group, if it fits there. */
  function OffsetGroup(s: string, p: nat): Option<string> {
    if !KeywordAt(s, p, "OFFSET") then None
    else
      var a := SkipSpaces(s, p + 6);
      var b := RunEnd(s, a, Digit);
      if a == p + 6 || b == a then None
      else Some(s[a..b])
  }

  /**
   * What a fit at `p` is: the keyword, a non-empty run of whitespace, and a
   * non-empty run of digits, which is the group. Both runs are forced: a
   * digit is not whitespace, and nothing follows the digit group.
   */
  lemma OffsetGroupShape(s: string, p: nat)
    requires OffsetGroup(s, p).Some?
    ensures KeywordAt(s, p, "OFFSET") && SpaceRun(s, p + 6, SkipSpaces(s, p + 6))
    ensures p + 6 < SkipSpaces(s, p + 6) < RunEnd(s, SkipSpaces(s, p + 6), Digit)
    ensures OffsetGroup(s, p).value == s[SkipSpaces(s, p + 6)..RunEnd(s, SkipSpaces(s, p + 6), Digit)]
    ensures forall k | 0 <= k < |OffsetGroup(s, p).value| :: IsDigit(OffsetGroup(s, p).value[k])
  {
    assert SpaceRun(s, p + 6, SkipSpaces(s, p + 6));
  }

  /** The leftmost position in `[p, n]` that fits, as `re.search` tries start positions left to right. */
  function FirstFit(fit: nat -> bool, p: nat, n: nat): (r: Option<nat>)
    requires p <= n
    ensures r.Some? ==> p <= r.value <= n && fit(r.value)
    ensures r.Some? ==> forall k | p <= k < r.value :: !fit(k)
    ensures r.None? <==> forall m | p <= m <= n :: !fit(m)
    decreases n - p
  {
    if fit(p) then Some(p)
    else if p == n then None
    else FirstFit(fit, p + 1, n)
  }

  /** The leftmost scan reaches a fit with no fit before it. */
  lemma {:induction false} FirstFitAt(fit: nat -> bool, p: nat, n: nat, m: nat)
    requires p <= m <= n && fit(m)
    requires forall k | p <= k < m :: !fit(k)
    ensures FirstFit(fit, p, n) == Some(m)
    decreases m - p
  {
    if p < m {
      FirstFitAt(fit, p + 1, n, m);
    }
  }

  /** Where `re.search` finds the pattern: the leftmost position from `p` at which it fits. */
  function FirstOffset(s: string, p: nat): (r: Option<nat>)
    requires p <= |s|
    ensures r.None? <==> forall m | p <= m <= |s| :: OffsetGroup(s, m).None?
    ensures r.Some? ==> p <= r.value <= |s| && OffsetGroup(s, r.value).Some?
    ensures r.Some? ==> forall k | p <= k < r.value :: OffsetGroup(s, k).None?
  {
    var fit := (m: nat) => OffsetGroup(s, m).Some?;
    assert forall m: nat :: fit(m) == OffsetGroup(s, m).Some?;
    FirstFit(fit, p, |s|)
  }

  /** The number the search captures, if it finds the pattern: `int()` of the leftmost digit group. */
  function OffsetValue(s: string): (r: Option<nat>)
    ensures r.Some? <==> exists m | 0 <= m <= |s| :: OffsetGroup(s, m).Some?
    ensures r.Some? ==> exists m | 0 <= m <= |s| ::
      && OffsetGroup(s, m).Some? && r.value == DigitsValue(OffsetGroup(s, m).value)
      && forall k | 0 <= k < m :: OffsetGroup(s, k).None?
  {
    match FirstOffset(s, 0)
    case None => None
    case Some(m) => Some(DigitsValue(OffsetGroup(s, m).value))
  }

  /** `OFFSET <digits>` after a stretch without the keyword yields exactly that number. */
  lemma OffsetExample(a: string, n: nat, rest: string)
    requires forall m | 0 <= m < |a| :: !KeywordAt(a + "OFFSET " + Decimal(n) + rest, m, "OFFSET")
    requires |rest| > 0 ==> !IsDigit(rest[0])
    ensures OffsetValue(a + "OFFSET " + Decimal(n) + rest) == Some(n)
  {
    var s := a + "OFFSET " + Decimal(n) + rest;
    var d := Decimal(n);
    OffsetPieces(s, a, d, rest);
    OffsetGroupAt(s, |a|, d);
    NoOffsetBefore(s, |a|);
    OffsetValueAt(s, |a|, d);
    assert DigitsValue(d) == n by {
      DecimalRoundTrip(n);
    }
  }

  /** No OFFSET keyword before `n` means no fit before `n`. */
  lemma NoOffsetBefore(s: string, n: nat)
    requires n <= |s| && forall m | 0 <= m < n :: !KeywordAt(s, m, "OFFSET")
    ensures forall k | 0 <= k < n :: OffsetGroup(s, k).None?
  {
  }

  /** The value read is that of the first group found. */
  lemma OffsetValueAt(s: string, m: nat, d: string)
    requires m <= |s| && OffsetGroup(s, m) == Some(d)
    requires forall k | 0 <= k < m :: OffsetGroup(s, k).None?
    ensures OffsetValue(s) == Some(DigitsValue(d))
  {
    var r := FirstOffset(s, 0);
    assert r.Some? by {
      assert OffsetGroup(s, m).Some?;
    }
    assert r.value == m by {
      assert OffsetGroup(s, r.value).Some? && OffsetGroup(s, m).Some?;
    }
  }

  /** Where the pieces of `a + "OFFSET " + d + rest` sit. */
  lemma OffsetPieces(s: string, a: string, d: string, rest: string)
    requires s == a + "OFFSET " + d + rest
    ensures |s| == |a| + 7 + |d| + |rest|
    ensures s[|a|..|a| + 6] == "OFFSET" && s[|a| + 6] == ' '
    ensures s[|a| + 7..|a| + 7 + |d|] == d
    ensures |rest| > 0 ==> s[|a| + 7 + |d|] == rest[0]
  {
    assert s[|a|..|a| + 7] == "OFFSET ";
    assert s[|a|..|a| + 6] == s[|a|..|a| + 7][..6];
  }

  /** `OFFSET`, one space and a run of digits at `p` fit the pattern, and the run is the group. */
  lemma OffsetGroupAt(s: string, p: nat, d: string)
    requires |d| > 0 && forall k | 0 <= k < |d| :: IsDigit(d[k])
    requires p + 7 + |d| <= |s| && s[p..p + 6] == "OFFSET" && s[p + 6] == ' ' && s[p + 7..p + 7 + |d|] == d
    requires p + 7 + |d| < |s| ==> !IsDigit(s[p + 7 + |d|])
    ensures OffsetGroup(s, p) == Some(d)
  {
    assert KeywordAt(s, p, "OFFSET") by {
      KeywordAtSlice(s, p, "OFFSET");
    }
    assert SkipSpaces(s, p + 6) == p + 7 by {
      assert s[p + 7] == s[p + 7..p + 7 + |d|][0];
      SkipSpacesTo(s, p + 6, p + 7);
    }
    assert RunEnd(s, p + 7, Digit) == p + 7 + |d| by {
      forall m | p + 7 <= m < p + 7 + |d| ensures InClass(s[m], Digit) {
        assert s[m] == s[p + 7..p + 7 + |d|][m - p - 7];
      }
      RunEndTo(s, p + 7, p + 7 + |d|, Digit);
    }
  }

  /** A greedy run stops at the first character outside its class. */
  lemma {:induction false} RunEndTo(s: string, i: nat, j: nat, k: CharClass)
    requires i <= j <= |s|
    requires forall m | i <= m < j :: InClass(s[m], k)
    requires j < |s| ==> !InClass(s[j], k)
    ensures RunEnd(s, i, k) == j
    decreases j - i
  {
    if i < j {
      RunEndTo(s, i + 1, j, k);
    }
  }

  // ---------------------------------------------------------------------------
  // `WHERE\s+.*\b(FUNCTION|EXPRESSION)\(.*\)`

  /** The length of `FUNCTION(` or `EXPRESSION(` at `f`, case-insensitively (0 when neither). */
  function CallLength(s: string, f: int): (n: nat)
    ensures n == 0 || n == 9 || n == 11
    ensures n > 0 ==> 0 <= f && f + n <= |s| && s[f + n - 1] == '('
  {
    if KeywordAt(s, f, "FUNCTION(") then
      assert UpperChar(s[f + 8]) == "FUNCTION("[8];
      9
    else if KeywordAt(s, f, "EXPRESSION(") then
      assert UpperChar(s[f + 10]) == "EXPRESSION("[10];
      11
    else 0
  }

  /**
   * The non-sargable pattern matched at `p`: whitespace after WHERE up to
   * `k`, the rest of the line up to the call at `f`, which starts a word,
   * and a closing parenthesis at `c` later on the same line.
   */
  predicate NonSargableAt(s: string, p: int, k: int, f: int, c: int) {
    && 0 <= p && p + 5 < k <= f && f + CallLength(s, f) <= c < |s|
    && KeywordAt(s, p, "WHERE")
    && SpaceRun(s, p + 5, k) && NoNewline(s, k, f)
    && WordBoundary(s, f) && CallLength(s, f) > 0
    && NoNewline(s, f + CallLength(s, f), c) && s[c] == ')'
  }

  /** `re.search(r'WHERE\s+.*\b(FUNCTION|EXPRESSION)\(.*\)', sql, re.IGNORECASE)` */
  predicate NonSargable(sql: string) {
    exists p, k, f, c | 0 <= p <= k <= f <= c <= |sql| :: NonSargableAt(sql, p, k, f, c)
  }

  /** A function call in the WHERE clause, closed on the same line, is flagged. */
  lemma FunctionInWhere(a: string, x: string, b: string)
    requires Avoids(x, '\n')
    ensures NonSargable(a + "WHERE " + "FUNCTION(" + x + ")" + b)
  {
    var s := a + "WHERE " + "FUNCTION(" + x + ")" + b;
    var p := |a|;
    var f := p + 6;
    var c := f + 9 + |x|;
    assert s[p..p + 6] == "WHERE ";
    assert s[f..f + 9] == "FUNCTION(";
    assert forall k | 0 <= k < 5 :: s[p + k] == "WHERE"[k];
    assert forall k | 0 <= k < 9 :: s[f + k] == "FUNCTION("[k];
    assert KeywordAt(s, f, "FUNCTION(");
    assert s[f - 1] == ' ' && s[f] == 'F';
    assert forall k | f + 9 <= k < c :: s[k] == x[k - f - 9];
    assert s[c] == ')';
    assert NonSargableAt(s, p, f, f, c);
  }

  // ---------------------------------------------------------------------------
  // `QueryFetcher.is_valid_sql`

  /** The statement verbs a valid query starts with. */
  const SqlVerbs: seq<string> := ["SELECT", "INSERT", "UPDATE", "DELETE", "CREATE", "ALTER", "DROP", "TRUNCATE", "GRANT", "REVOKE"]

  /** `re.match(r'^(VERB)\s', u)` for one verb. */
  predicate VerbAt(u: string, verb: string) {
    |verb| < |u| && u[..|verb|] == verb && IsSpace(u[|verb|])
  }

  /** `is_valid_sql`: the stripped, upper-cased query starts with a verb and whitespace. */
  predicate IsValidSql(sql: string) {
    exists i | 0 <= i < |SqlVerbs| :: VerbAt(Upper(Strip(sql)), SqlVerbs[i])
  }

  /** The verb check in terms of the query itself, compared case-insensitively. */
  lemma ValidSqlKeyword(sql: string)
    ensures IsValidSql(sql) <==>
      exists i | 0 <= i < |SqlVerbs| :: KeywordAt(Strip(sql), 0, SqlVerbs[i]) && |SqlVerbs[i]| < |Strip(sql)| && IsSpace(Strip(sql)[|SqlVerbs[i]|])
  {
    var t := Strip(sql);
    var u := Upper(t);
    forall i | 0 <= i < |SqlVerbs|
      ensures VerbAt(u, SqlVerbs[i]) <==> KeywordAt(t, 0, SqlVerbs[i]) && |SqlVerbs[i]| < |t| && IsSpace(t[|SqlVerbs[i]|])
    {
      var verb := SqlVerbs[i];
      KeywordAtUpper(t, 0, verb);
      if |verb| < |t| {
        assert u[|verb|] == UpperChar(t[|verb|]);
      }
    }
  }

  /** Text that already has no surrounding whitespace is its own strip. */
  lemma StripTrimmed(sql: string)
    requires |sql| > 0 && !IsSpace(sql[0]) && !IsSpace(sql[|sql| - 1])
    ensures Strip(sql) == sql
  {
    StripNoSpaceEnds(sql);
  }

  /** A statement opening with a verb in any case, then whitespace, is valid. */
  lemma VerbStatement(i: nat, v: string, rest: string)
    requires i < |SqlVerbs|
    requires |v| == |SqlVerbs[i]| && forall k | 0 <= k < |v| :: UpperChar(v[k]) == SqlVerbs[i][k]
    requires |rest| > 0 && IsSpace(rest[0]) && !IsSpace(rest[|rest| - 1])
    ensures IsValidSql(v + rest)
  {
    var verb := SqlVerbs[i];
    var s := v + rest;
    assert |verb| > 0;
    assert s[0] == v[0];
    assert !IsSpace(s[0]) by {
      assert UpperChar(v[0]) == verb[0];
    }
    StripTrimmed(s);
    assert forall k | 0 <= k < |v| :: s[k] == v[k];
    assert s[|verb|] == rest[0];
    assert KeywordAt(s, 0, verb);
    ValidSqlKeyword(s);
  }

  /** The verb-check examples: SELECT, CREATE and DROP statements pass. */
  lemma ValidSqlExample(i: nat, verb: string, rest: string)
    requires || (i == 0 && verb == "SELECT" && rest == " * FROM users")
             || (i == 4 && verb == "CREATE" && rest == " TABLE test")
             || (i == 6 && verb == "DROP" && rest == " DATABASE test")
    ensures IsValidSql(verb + rest)
  {
    assert verb == SqlVerbs[i];
    VerbStatement(i, verb, rest);
  }

  /** A statement starting with INVALID is rejected: no verb fits its first letters. */
  lemma InvalidSqlExample(s: string)
    requires s == "INVALID SQL"
    ensures !IsValidSql(s)
  {
    StripTrimmed(s);
    ValidSqlKeyword(s);
    assert UpperChar(s[0]) == 'I' && UpperChar(s[2]) == 'V';
    forall i | 0 <= i < |SqlVerbs| ensures !KeywordAt(s, 0, SqlVerbs[i]) {
      if i == 1 {
        assert UpperChar(s[0 + 2]) != SqlVerbs[i][2];
      } else {
        NotKeywordByFirst(s, 0, SqlVerbs[i]);
      }
    }
  }
}

=== FILE: records.dfy ===
/**
 * The data the analyzer works on: captured query records, the findings it
 * reports, the settings it reads, the database facts it consults, and the
 * exceptions that can escape it.
 */
module Records {
  import opened Wrappers

  /**
   * One captured query, as the dictionaries built by the middleware and by
   * `QueryFetcher`: the SQL text, the bound parameters, the execution time in
   * seconds (`None` when the dictionary has no `time` key) and the stack trace.
   */
  datatype QueryRecord = QueryRecord(sql: string, params: seq<string>, time: Option<real>, stackTrace: seq<string>)

  /** An element of the list handed to the analyzer; anything that is not a dictionary is skipped by every detector. */
  datatype Entry = Query(record: QueryRecord) | Malformed

  /** The dictionaries among `entries`, in order. */
  function QueryRecords(entries: seq<Entry>): (r: seq<QueryRecord>)
    ensures |r| <= |entries|
    ensures forall q | q in r :: Query(q) in entries
    ensures forall e | e in entries && e.Query? :: e.record in r
  {
    if |entries| == 0 then []
    else
      var rest := QueryRecords(entries[1..]);
      assert forall e | e in entries[1..] :: e in entries;
      match entries[0]
      case Query(q) => [q] + rest
      case Malformed => rest
  }

  /** Reading a split list reads each part: the dictionaries keep their order and multiplicity. */
  lemma {:induction false} QueryRecordsConcat(a: seq<Entry>, b: seq<Entry>)
    ensures QueryRecords(a + b) == QueryRecords(a) + QueryRecords(b)
    decreases |a|
  {
    if |a| > 0 {
      assert (a + b)[1..] == a[1..] + b;
      QueryRecordsConcat(a[1..], b);
    } else {
      assert a + b == b;
    }
  }

  /** A dictionary is read as its record; anything else is skipped. */
  lemma QueryRecordsOne(e: Entry)
    ensures QueryRecords([e]) == if e.Query? then [e.record] else []
  {
    assert [e][1..] == [];
  }

  /**
   * One reported inefficiency. `kind` is the `type` string that also selects
   * the rendering template; the optional fields are the extra keys some
   * detectors add (`count`, `time`, `execution_time`, `table`, `columns`).
   */
  datatype Finding = Finding(
    kind: string,
    query: string,
    suggestion: string,
    count: Option<nat>,
    time: Option<real>,
    executionTime: Option<real>,
    table: Option<string>,
    columns: Option<seq<string>>)

  /** A finding with only the three keys every detector sets. */
  function Plain(kind: string, query: string, suggestion: string): (f: Finding)
    ensures f.kind == kind && f.query == query && f.suggestion == suggestion
    ensures f.count.None? && f.time.None? && f.executionTime.None? && f.table.None? && f.columns.None?
  {
    Finding(kind, query, suggestion, None, None, None, None, None)
  }

  /** The Python exceptions the modelled functions let escape. */
  datatype Error =
    | ValueError(message: string)
    | KeyError(key: string)
    | IndexError(message: string)
    | UnboundLocalError(name: string)

  /**
   * Django settings read by the detectors. `formatSeconds` renders a time as
   * `f"{t:.2f}"` does; floating-point formatting is a parameter of the model.
   */
  datatype Config = Config(
    slowQueryThreshold: real,
    offsetThreshold: int,
    lockThreshold: real,
    transactionThreshold: real,
    smallTableThreshold: int,
    formatSeconds: real -> string)

  /** The defaults used when a setting is absent. */
  function DefaultConfig(formatSeconds: real -> string): (c: Config)
    ensures c.slowQueryThreshold == 0.5 && c.offsetThreshold == 500
    ensures c.lockThreshold == 5.0 && c.transactionThreshold == 5.0
    ensures c.smallTableThreshold == 100
  {
    Config(0.5, 500, 5.0, 5.0, 100, formatSeconds)
  }

  /** An entry of `connection.introspection.get_constraints`. */
  datatype Constraint = Constraint(isIndex: bool, columns: seq<string>)

  /**
   * What the database and the Django app registry answer, by table name:
   * the planner's row estimate (`pg_class.reltuples`, absent for an unknown
   * table), the constraints and indexes, the model fields declared with
   * `db_index=True` (absent when no model uses the table), the primary keys,
   * the unique fields, and the first column of each `EXPLAIN` output row by SQL text.
   */
  datatype SchemaFacts = SchemaFacts(
    rowEstimate: map<string, int>,
    constraints: map<string, seq<Constraint>>,
    indexedFields: map<string, set<string>>,
    primaryKeys: map<string, seq<string>>,
    uniqueFields: map<string, seq<string>>,
    plans: map<string, seq<string>>)
}

=== FILE: simplify.dfy ===
/**
 * `simplify_query`: the normal form under which repeated queries are grouped
 * for N+1 detection. Each `re.sub` of the source is one scanner here; the
 * regular expressions are recognised by hand, position by position, with
 * the match `re.sub` would pick at that position (greedy or lazy as written).
 */
module Simplify {
  import opened Wrappers
  import opened Text

  /** A PostgreSQL positional parameter `$<digits>` starts at `k`. */
  predicate DollarParamAt(s: string, k: int) {
    0 <= k && k + 1 < |s| && s[k] == '$' && IsDigit(s[k + 1])
  }

  predicate NoDollarParams(s: string) {
    forall k | 0 <= k < |s| :: !DollarParamAt(s, k)
  }

  /** `re.sub(r"\$\d+", "?", sql)`: each `$` with its whole digit run becomes `?`. */
  function ReplaceDollarParams(s: string): (r: string)
    ensures NoDollarParams(r)
    ensures |r| <= |s|
    ensures |r| > 0 ==> |s| > 0 && (IsDigit(r[0]) <==> IsDigit(s[0]))
    decreases |s|
  {
    if |s| == 0 then ""
    else if DollarParamAt(s, 0) then
      var rest := ReplaceDollarParams(s[RunEnd(s, 1, Digit)..]);
      assert forall k | 1 <= k < |rest| + 1 :: DollarParamAt("?" + rest, k) == DollarParamAt(rest, k - 1);
      "?" + rest
    else
      var rest := ReplaceDollarParams(s[1..]);
      assert forall k | 1 <= k < |rest| + 1 :: DollarParamAt([s[0]] + rest, k) == DollarParamAt(rest, k - 1);
      [s[0]] + rest
  }

  /** Text without parameters is left alone, so the replacement is idempotent. */
  lemma {:induction false} DollarParamsFixpoint(s: string)
    requires NoDollarParams(s)
    ensures ReplaceDollarParams(s) == s
    decreases |s|
  {
    if |s| > 0 {
      assert forall k | 0 <= k < |s| - 1 :: s[1..][k] == s[k + 1];
      assert NoDollarParams(s[1..]) by {
        forall k | 0 <= k < |s| - 1 ensures !DollarParamAt(s[1..], k) {
          assert !DollarParamAt(s, k + 1);
        }
      }
      DollarParamsFixpoint(s[1..]);
    }
  }

  /** A `$` and its whole run of digits become a single `?`; replacement resumes after the run. */
  lemma DollarRun(d: string, y: string)
    requires |d| > 0 && forall k | 0 <= k < |d| :: IsDigit(d[k])
    requires |y| > 0 ==> !IsDigit(y[0])
    ensures ReplaceDollarParams("$" + d + y) == "?" + ReplaceDollarParams(y)
  {
    var s := "$" + d + y;
    assert forall k | 0 <= k < |d| :: s[1 + k] == d[k];
    assert DollarParamAt(s, 0) by { assert s[1] == d[0]; }
    var e := RunEnd(s, 1, Digit);
    assert e >= 1 + |d|;
    assert e <= 1 + |d| by {
      if |y| > 0 { assert s[1 + |d|] == y[0] && !InClass(s[1 + |d|], Digit); }
    }
    assert s[e..] == y;
  }

  /** Any other character is copied, and replacement goes on with the next one. */
  lemma DollarKeep(c: char, y: string)
    requires c != '$' || |y| == 0 || !IsDigit(y[0])
    ensures ReplaceDollarParams([c] + y) == [c] + ReplaceDollarParams(y)
  {
    assert !DollarParamAt([c] + y, 0);
    assert ([c] + y)[1..] == y;
  }

  lemma DollarParamsIdempotent(s: string)
    ensures ReplaceDollarParams(ReplaceDollarParams(s)) == ReplaceDollarParams(s)
  {
    DollarParamsFixpoint(ReplaceDollarParams(s));
  }

  /** `re.sub(r"%s", "?", sql)`: the MySQL-style placeholder. */
  function ReplacePercentParams(s: string): (r: string)
    ensures !Contains(r, "%s")
  {
    PercentParamsGone(s);
    Replace(s, "%s", "?")
  }

  lemma {:induction false} PercentParamsHead(s: string)
    ensures var r := Replace(s, "%s", "?");
      |r| > 0 ==> |s| > 0 && (r[0] == '?' || r[0] == s[0]) && (r[0] == 's' ==> s[0] == 's')
    decreases |s|
  {
  }

  lemma {:induction false} PercentParamsGone(s: string)
    ensures !Contains(Replace(s, "%s", "?"), "%s")
    decreases |s|
  {
    var r := Replace(s, "%s", "?");
    if |s| < 2 {
      assert |r| < 2;
      assert forall i | 0 <= i <= |r| :: !MatchAt(r, i, "%s");
    } else if s[..2] == "%s" {
      var t := Replace(s[2..], "%s", "?");
      PercentParamsGone(s[2..]);
      assert r == "?" + t;
      forall i | 0 <= i <= |r| ensures !MatchAt(r, i, "%s") {
        if i >= 1 && i + 2 <= |r| {
          assert r[i..i + 2] == t[i - 1..i + 1];
          assert !MatchAt(t, i - 1, "%s");
        } else if i == 0 && 2 <= |r| {
          assert r[0..2][0] == '?';
        }
      }
    } else {
      var t := Replace(s[1..], "%s", "?");
      PercentParamsGone(s[1..]);
      PercentParamsHead(s[1..]);
      assert r == [s[0]] + t;
      forall i | 0 <= i <= |r| ensures !MatchAt(r, i, "%s") {
        if i >= 1 && i + 2 <= |r| {
          assert r[i..i + 2] == t[i - 1..i + 1];
          assert !MatchAt(t, i - 1, "%s");
        } else if i == 0 && 2 <= |r| {
          assert r[0..2][0] == s[0] && r[0..2][1] == t[0];
          assert s[..2][0] == s[0] && s[..2][1] == s[1];
        }
      }
    }
  }

  /** One of the alternatives `(T1|T2|…|$)` that end a lazily matched clause matches at `k`. */
  predicate StopAt(s: string, k: int, terms: seq<string>) {
    EndAnchor(s, k) || exists t | t in terms :: KeywordAt(s, k, t)
  }

  /**
   * `.*?(T1|…|$)` from `k`: the first position where a terminator matches,
   * provided no newline comes first (`.` does not match a newline).
   */
  function FirstStop(s: string, terms: seq<string>, k: nat): (r: Option<nat>)
    requires k <= |s|
    ensures r.Some? ==> k <= r.value <= |s| && StopAt(s, r.value, terms)
    ensures r.Some? ==> forall m | k <= m < r.value :: !StopAt(s, m, terms) && s[m] != '\n'
    ensures r.None? ==> exists n | k <= n < |s| :: s[n] == '\n' && forall m | k <= m <= n :: !StopAt(s, m, terms)
    decreases |s| - k
  {
    if StopAt(s, k, terms) then Some(k)
    else if s[k] == '\n' then None
    else FirstStop(s, terms, k + 1)
  }

  /** The first terminator of `terms` matching at `k`, in the order of the alternation. */
  function FirstTerm(s: string, k: int, terms: seq<string>): (r: Option<string>)
    ensures r.Some? ==> r.value in terms && KeywordAt(s, k, r.value)
    ensures r.Some? ==> exists i | 0 <= i < |terms| :: terms[i] == r.value && forall j | 0 <= j < i :: !KeywordAt(s, k, terms[j])
    ensures r.None? ==> forall t | t in terms :: !KeywordAt(s, k, t)
    decreases |terms|
  {
    if |terms| == 0 then None
    else if KeywordAt(s, k, terms[0]) then Some(terms[0])
    else
      var r := FirstTerm(s, k, terms[1..]);
      if r.Some? then
        var i :| 0 <= i < |terms| - 1 && terms[1..][i] == r.value && forall j | 0 <= j < i :: !KeywordAt(s, k, terms[1..][j]);
        assert terms[i + 1] == r.value;
        assert forall j | 0 <= j < i + 1 :: !KeywordAt(s, k, terms[j]) by {
          forall j | 0 <= j < i + 1 ensures !KeywordAt(s, k, terms[j]) {
            if j > 0 { assert terms[j] == terms[1..][j - 1]; }
          }
        }
        r
      else r
  }

  /** What the source removes: a clause running from a keyword to a terminator, or an ORDER BY column list. */
  datatype Pattern =
    | Clause(keyword: string, terms: seq<string>)  // `KEYWORD\s+.*?(T1|…|$)`, case-insensitive
    | OrderByList                                   // the ORDER BY column-list pattern of utils.py:182

  /** `WHERE\s+.*?(GROUP BY|ORDER BY|$)` */
  const WhereClause: Pattern := Clause("WHERE", ["GROUP BY", "ORDER BY"])

  /** `GROUP BY\s+.*?(ORDER BY|$)` */
  const GroupByClause: Pattern := Clause("GROUP BY", ["ORDER BY"])

  /** Characters an ORDER BY column list is made of. */
  predicate ListChar(c: char) {
    IsWordChar(c) || IsSpace(c) || c == '"' || c == '.' || c == ','
  }

  predicate ListChars(s: string, i: int, j: int)
    requires 0 <= i <= j <= |s|
  {
    forall k | i <= k < j :: ListChar(s[k])
  }

  lemma ListCharsJoin(s: string, i: int, j: int, k: int)
    requires 0 <= i <= j <= k <= |s|
    requires ListChars(s, i, j) && ListChars(s, j, k)
    ensures ListChars(s, i, k)
  {
  }

  lemma SpacesListChars(s: string, i: nat)
    requires i <= |s|
    ensures ListChars(s, i, SkipSpaces(s, i))
  {
  }

  /** A case-insensitive match of an all-letter keyword spans letters only. */
  lemma KeywordListChars(s: string, w: int, kw: string)
    requires KeywordAt(s, w, kw)
    requires forall k | 0 <= k < |kw| :: IsLetter(kw[k])
    ensures ListChars(s, w, w + |kw|)
  {
    forall m | w <= m < w + |kw| ensures ListChar(s[m]) {
      assert UpperChar(s[w + (m - w)]) == kw[m - w];
    }
  }

  /** `"?[\w_]+"?`: an identifier with optional double quotes around it. */
  function IdentEnd(s: string, i: nat): (r: Option<nat>)
    requires i <= |s|
    ensures r.Some? ==> i < r.value <= |s| && ListChars(s, i, r.value)
  {
    if i + 1 < |s| && s[i] == '"' && IsWordChar(s[i + 1]) then
      var e := RunEnd(s, i + 1, Word);
      Some(if e < |s| && s[e] == '"' then e + 1 else e)
    else if i < |s| && IsWordChar(s[i]) then
      var e := RunEnd(s, i, Word);
      Some(if e < |s| && s[e] == '"' then e + 1 else e)
    else None
  }

  /** `"?[\w_]+"?(?:\."?[\w_]+"?)?`: an optionally table-qualified column. */
  function ColumnRefEnd(s: string, i: nat): (r: Option<nat>)
    requires i <= |s|
    ensures r.Some? ==> i < r.value <= |s| && ListChars(s, i, r.value)
  {
    match IdentEnd(s, i)
    case None => None
    case Some(e) =>
      if e < |s| && s[e] == '.' && IdentEnd(s, e + 1).Some? then IdentEnd(s, e + 1) else Some(e)
  }

  /** `(?:\s+ASC|\s+DESC)?` */
  function DirectionEnd(s: string, i: nat): (j: nat)
    requires i <= |s|
    ensures i <= j <= |s| && ListChars(s, i, j)
  {
    var w := SkipSpaces(s, i);
    if w > i && KeywordAt(s, w, "ASC") then
      KeywordListChars(s, w, "ASC");
      ListCharsJoin(s, i, w, w + 3);
      w + 3
    else if w > i && KeywordAt(s, w, "DESC") then
      KeywordListChars(s, w, "DESC");
      ListCharsJoin(s, i, w, w + 4);
      w + 4
    else i
  }

  /** One ordering item: a column reference and an optional direction. */
  function OrderItemEnd(s: string, i: nat): (r: Option<nat>)
    requires i <= |s|
    ensures r.Some? ==> i < r.value <= |s| && ListChars(s, i, r.value)
  {
    match ColumnRefEnd(s, i)
    case None => None
    case Some(e) =>
      ListCharsJoin(s, i, e, DirectionEnd(s, e));
      Some(DirectionEnd(s, e))
  }

  /** `(?:\s*,\s*ITEM)*`, greedy: as many further items as parse. */
  function MoreItemsEnd(s: string, i: nat): (j: nat)
    requires i <= |s|
    ensures i <= j <= |s| && ListChars(s, i, j)
    decreases |s| - i
  {
    var c := SkipSpaces(s, i);
    if c < |s| && s[c] == ',' then
      var d := SkipSpaces(s, c + 1);
      match OrderItemEnd(s, d)
      case None => i
      case Some(e) =>
        ListCharsJoin(s, i, c, c + 1);
        ListCharsJoin(s, i, c + 1, d);
        ListCharsJoin(s, i, d, e);
        ListCharsJoin(s, i, e, MoreItemsEnd(s, e));
        MoreItemsEnd(s, e)
    else i
  }

  /** `ORDER\s+BY\s+ITEM(?:\s*,\s*ITEM)*(?:\s*|\s*;)`; the first alternative `\s*` always wins. */
  function OrderByMatch(s: string, i: nat): (r: Option<nat>)
    requires i <= |s|
    ensures r.Some? ==> i < r.value <= |s| && ListChars(s, i, r.value)
  {
    if !KeywordAt(s, i, "ORDER") then None
    else
      var b := SkipSpaces(s, i + 5);
      if b == i + 5 || !KeywordAt(s, b, "BY") then None
      else
        var c := SkipSpaces(s, b + 2);
        if c == b + 2 then None
        else match OrderItemEnd(s, c)
          case None => None
          case Some(e) =>
            var m := SkipSpaces(s, MoreItemsEnd(s, e));
            OrderByHeadListChars(s, i, b, c);
            ListCharsJoin(s, i, c, e);
            ListCharsJoin(s, e, MoreItemsEnd(s, e), m);
            ListCharsJoin(s, i, e, m);
            Some(m)
  }

  lemma OrderByHeadListChars(s: string, i: nat, b: nat, c: nat)
    requires i + 5 <= b && b + 2 <= c <= |s|
    requires KeywordAt(s, i, "ORDER") && KeywordAt(s, b, "BY")
    requires b == SkipSpaces(s, i + 5) && c == SkipSpaces(s, b + 2)
    ensures ListChars(s, i, c)
  {
    KeywordListChars(s, i, "ORDER");
    KeywordListChars(s, b, "BY");
    ListCharsJoin(s, i, i + 5, b);
    ListCharsJoin(s, i, b, b + 2);
    ListCharsJoin(s, i, b + 2, c);
  }

  /** Where a clause that starts at `i` ends, if one starts there. */
  function ClauseMatch(s: string, i: nat, keyword: string, terms: seq<string>): (r: Option<nat>)
    requires i <= |s|
    ensures r.Some? ==> i + |keyword| < r.value <= |s| && KeywordAt(s, i, keyword)
  {
    var w := i + |keyword|;
    if !KeywordAt(s, i, keyword) || w == |s| || !IsSpace(s[w]) then None
    else
      var j := SkipSpaces(s, w);
      match FirstStop(s, terms, j)
      case None => None
      case Some(k) =>
        match FirstTerm(s, k, terms)
        case Some(t) => Some(k + |t|)
        case None => Some(k)
  }

  /** The end of the match of `p` starting at position `i`, if there is one. */
  function MatchEnd(p: Pattern, s: string, i: nat): (r: Option<nat>)
    requires i <= |s|
    ensures r.Some? ==> i < r.value <= |s|
  {
    match p
    case Clause(keyword, terms) => ClauseMatch(s, i, keyword, terms)
    case OrderByList => OrderByMatch(s, i)
  }

  /** `re.sub(p, "", s)`: matches are removed left to right, never overlapping. */
  function RemoveAll(p: Pattern, s: string): (r: string)
    ensures |r| <= |s|
    decreases |s|
  {
    if |s| == 0 then ""
    else match MatchEnd(p, s, 0)
      case Some(e) => RemoveAll(p, s[e..])
      case None => [s[0]] + RemoveAll(p, s[1..])
  }

  /** The first character every match of `p` starts with, upper-cased. */
  function Lead(p: Pattern): char {
    match p
    case Clause(keyword, _) => if |keyword| > 0 then keyword[0] else ' '
    case OrderByList => 'O'
  }

  /** No match can start where the character is not the pattern's lead character. */
  lemma NoMatchOffLead(p: Pattern, s: string, i: nat)
    requires i < |s| && UpperChar(s[i]) != Lead(p)
    requires p.Clause? ==> |p.keyword| > 0
    ensures MatchEnd(p, s, i).None?
  {
    match p
    case Clause(keyword, _) =>
      assert !KeywordAt(s, i, keyword) by {
        assert UpperChar(s[i + 0]) != keyword[0];
      }
    case OrderByList =>
      assert !KeywordAt(s, i, "ORDER") by {
        assert UpperChar(s[i + 0]) != "ORDER"[0];
      }
  }

  lemma RemoveAllStep(p: Pattern, s: string)
    requires |s| > 0 && UpperChar(s[0]) != Lead(p)
    requires p.Clause? ==> |p.keyword| > 0
    ensures RemoveAll(p, s) == [s[0]] + RemoveAll(p, s[1..])
  {
    NoMatchOffLead(p, s, 0);
  }

  lemma RemoveAllSkipNone(p: Pattern, s: string)
    ensures RemoveAll(p, s) == s[..0] + RemoveAll(p, s[0..])
  {
    assert s[..0] == [] && s[0..] == s;
  }

  lemma ConsPrefix(s: string, n: nat, x: string, y: string)
    requires 0 < n <= |s|
    requires y == s[1..][..n - 1] + x
    ensures [s[0]] + y == s[..n] + x
  {
    assert s[..n] == [s[0]] + s[1..][..n - 1];
  }

  lemma RemoveAllSkipMore(p: Pattern, s: string, n: nat)
    requires 0 < n <= |s|
    requires p.Clause? ==> |p.keyword| > 0
    requires UpperChar(s[0]) != Lead(p)
    requires RemoveAll(p, s[1..]) == s[1..][..n - 1] + RemoveAll(p, s[1..][n - 1..])
    ensures RemoveAll(p, s) == s[..n] + RemoveAll(p, s[n..])
  {
    RemoveAllStep(p, s);
    assert s[1..][n - 1..] == s[n..];
    ConsPrefix(s, n, RemoveAll(p, s[n..]), RemoveAll(p, s[1..]));
  }

  /** Removal passes over a prefix where no match can start, keeping it verbatim. */
  lemma {:induction false} RemoveAllSkip(p: Pattern, s: string, n: nat)
    requires n <= |s|
    requires p.Clause? ==> |p.keyword| > 0
    requires forall i | 0 <= i < n :: UpperChar(s[i]) != Lead(p)
    ensures RemoveAll(p, s) == s[..n] + RemoveAll(p, s[n..])
    decreases n
  {
    if n == 0 {
      RemoveAllSkipNone(p, s);
    } else {
      var t := s[1..];
      assert forall i | 0 <= i < n - 1 :: UpperChar(t[i]) != Lead(p) by {
        assert forall i | 0 <= i < n - 1 :: t[i] == s[i + 1];
      }
      RemoveAllSkip(p, t, n - 1);
      RemoveAllSkipMore(p, s, n);
    }
  }

  /** Text in which the lead character never occurs is left unchanged. */
  lemma RemoveAllAbsent(p: Pattern, s: string)
    requires p.Clause? ==> |p.keyword| > 0
    requires forall i | 0 <= i < |s| :: UpperChar(s[i]) != Lead(p)
    ensures RemoveAll(p, s) == s
  {
    RemoveAllSkip(p, s, |s|);
    assert s[..|s|] == s;
  }

  /** `simplify_query` on a string. */
  function SimplifyQuery(sql: string): (r: string)
    ensures Normalized(r)
  {
    var placeholders := ReplacePercentParams(ReplaceDollarParams(sql));
    var clauses := RemoveAll(GroupByClause, RemoveAll(OrderByList, RemoveAll(WhereClause, placeholders)));
    CollapseStripNormalized(clauses);
    Strip(CollapseSpaces(clauses))
  }

  /** `simplify_query` on any value: a non-string (`None`) raises inside the `try` and is returned unchanged. */
  function SimplifyQueryValue(sql: Option<string>): (r: Option<string>)
    ensures sql.None? ==> r == sql
    ensures sql.Some? ==> r.Some? && Normalized(r.value)
  {
    match sql
    case None => None
    case Some(s) => Some(SimplifyQuery(s))
  }
}

=== FILE: simplify_examples.dfy ===
/**
 * `simplify_query` on the query of the repository's basic test, pass by
 * pass: the `$1` parameter becomes `?`, the WHERE clause is removed up to
 * and including the `ORDER BY` keyword that ends it, the ORDER BY and
 * GROUP BY passes find nothing left to remove, and the double space where
 * the clause was is collapsed. The query is written in pieces so that
 * each pass only has to look at the pieces it touches.
 */
module SimplifyExamples {
  import opened Wrappers
  import opened Text
  import opened Simplify

  // ---------------------------------------------------------------------------
  // The parameter pass

  /** Text before the first `$` passes through the parameter replacement unchanged. */
  lemma {:induction false} DollarSkip(x: string, y: string)
    requires Avoids(x, '$')
    ensures ReplaceDollarParams(x + y) == x + ReplaceDollarParams(y)
    decreases |x|
  {
    if |x| > 0 {
      var s := x + y;
      assert s[0] == x[0] && !DollarParamAt(s, 0);
      assert s[1..] == x[1..] + y;
      DollarSkip(x[1..], y);
    } else {
      assert x + y == y;
    }
  }

  /** A `$` followed by a single digit becomes one `?`. */
  lemma DollarParam(d: string, y: string)
    requires |d| == 2 && d[0] == '$' && IsDigit(d[1])
    requires |y| > 0 ==> !IsDigit(y[0])
    ensures ReplaceDollarParams(d + y) == "?" + ReplaceDollarParams(y)
  {
    var s := d + y;
    assert s[0] == '$' && IsDigit(s[1]);
    assert DollarParamAt(s, 0);
    var e := RunEnd(s, 1, Digit);
    assert e != 1 by { assert InClass(s[1], Digit); }
    assert e <= 2 by {
      if |y| > 0 { assert s[2] == y[0] && !InClass(s[2], Digit); }
    }
    assert s[2..] == y;
  }

  /** Text without a `$` has no parameter to replace. */
  lemma DollarFree(y: string)
    requires Avoids(y, '$')
    ensures ReplaceDollarParams(y) == y
  {
    assert NoDollarParams(y);
    DollarParamsFixpoint(y);
  }

  /** Text without a `%` has no `%s` placeholder to replace. */
  lemma PercentFree(y: string)
    requires Avoids(y, '%')
    ensures ReplacePercentParams(y) == y
  {
    AbsentByFirst(y, "%s");
    ReplaceAbsent(y, "%s", "?");
  }

  // ---------------------------------------------------------------------------
  // The clause passes

  /** The scan for a terminator stops at the first one when no newline comes before it. */
  lemma {:induction false} FirstStopAt(s: string, terms: seq<string>, j: nat, k: nat)
    requires j <= k <= |s| && StopAt(s, k, terms)
    requires forall m | j <= m < k :: !StopAt(s, m, terms) && s[m] != '\n'
    ensures FirstStop(s, terms, j) == Some(k)
    decreases k - j
  {
    if j < k {
      FirstStopAt(s, terms, j + 1, k);
    }
  }

  /** No letter of the clause body starts a GROUP BY or ORDER BY terminator. */
  predicate PlainBody(b: string) {
    forall k | 0 <= k < |b| :: b[k] != '\n' && UpperChar(b[k]) != 'G' && UpperChar(b[k]) != 'O'
  }

  /** The keywords of the WHERE clause and of its terminator, in place. */
  lemma WhereKeywords(s: string, b: string, c: string)
    requires s == "WHERE " + b + "ORDER BY" + c
    ensures KeywordAt(s, 0, "WHERE") && IsSpace(s[5])
    ensures KeywordAt(s, 6 + |b|, "ORDER BY") && !IsSpace(s[6 + |b|])
  {
    var k := 6 + |b|;
    assert s[..6] == "WHERE ";
    forall i | 0 <= i < 5 ensures UpperChar(s[0 + i]) == "WHERE"[i] {
      assert s[i] == s[..6][i];
    }
    assert s[5] == s[..6][5];
    assert s[k..k + 8] == "ORDER BY";
    forall i | 0 <= i < 8 ensures UpperChar(s[k + i]) == "ORDER BY"[i] {
      assert s[k + i] == s[k..k + 8][i];
    }
  }

  /** Between the keyword and the terminator the body has no stop and no newline. */
  lemma WhereGap(s: string, b: string, c: string, j: nat)
    requires s == "WHERE " + b + "ORDER BY" + c && PlainBody(b)
    requires 6 <= j <= 6 + |b|
    ensures forall m | j <= m < 6 + |b| :: !StopAt(s, m, ["GROUP BY", "ORDER BY"]) && s[m] != '\n'
  {
    var terms := ["GROUP BY", "ORDER BY"];
    forall m | j <= m < 6 + |b| ensures !StopAt(s, m, terms) && s[m] != '\n' {
      assert s[m] == b[m - 6];
      NotKeywordByFirst(s, m, "GROUP BY");
      NotKeywordByFirst(s, m, "ORDER BY");
    }
  }

  /** At the terminator, GROUP BY is tried first and fails, and ORDER BY matches. */
  lemma WhereTerm(s: string, k: nat)
    requires k < |s| && KeywordAt(s, k, "ORDER BY")
    ensures FirstTerm(s, k, ["GROUP BY", "ORDER BY"]) == Some("ORDER BY")
  {
    var terms := ["GROUP BY", "ORDER BY"];
    assert UpperChar(s[k + 0]) == "ORDER BY"[0];
    NotKeywordByFirst(s, k, "GROUP BY");
    assert terms[1..] == ["ORDER BY"];
  }

  /**
   * A WHERE clause on one line, ended by ORDER BY, is matched through the end
   * of the ORDER BY keyword: the lazy `.*?` stops at the first terminator,
   * and the terminator is part of the match.
   */
  lemma WhereMatch(b: string, c: string)
    requires PlainBody(b)
    ensures MatchEnd(WhereClause, "WHERE " + b + "ORDER BY" + c, 0) == Some(14 + |b|)
  {
    var s := "WHERE " + b + "ORDER BY" + c;
    var terms := ["GROUP BY", "ORDER BY"];
    var k := 6 + |b|;
    WhereKeywords(s, b, c);
    var j := SkipSpaces(s, 5);
    assert 6 <= j <= k;
    WhereGap(s, b, c, j);
    assert StopAt(s, k, terms);
    FirstStopAt(s, terms, j, k);
    WhereTerm(s, k);
    assert ClauseMatch(s, 0, "WHERE", terms) == Some(k + 8);
  }

  /** The WHERE pass deletes the clause and its ORDER BY keyword, and goes on after them. */
  lemma WhereRemoved(b: string, c: string)
    requires PlainBody(b)
    ensures RemoveAll(WhereClause, "WHERE " + b + "ORDER BY" + c) == RemoveAll(WhereClause, c)
  {
    var s := "WHERE " + b + "ORDER BY" + c;
    WhereMatch(b, c);
    assert s[14 + |b|..] == c;
  }

  /** A keyword that does not start at a position of `s` does not start at the matching position of `s[1..]`. */
  lemma KeywordShift(s: string, i: nat, kw: string)
    requires 0 < |s| && !KeywordAt(s, i + 1, kw)
    ensures !KeywordAt(s[1..], i, kw)
  {
    if KeywordAt(s[1..], i, kw) {
      forall k | 0 <= k < |kw| ensures UpperChar(s[i + 1 + k]) == kw[k] {
        assert s[1..][i + k] == s[i + 1 + k];
      }
    }
  }

  /** Without an ORDER keyword anywhere, the ORDER BY pass changes nothing. */
  lemma {:induction false} OrderByFree(s: string)
    requires forall i | 0 <= i <= |s| :: !KeywordAt(s, i, "ORDER")
    ensures RemoveAll(OrderByList, s) == s
    decreases |s|
  {
    if |s| > 0 {
      assert MatchEnd(OrderByList, s, 0).None?;
      forall i | 0 <= i <= |s| - 1 ensures !KeywordAt(s[1..], i, "ORDER") {
        KeywordShift(s, i, "ORDER");
      }
      OrderByFree(s[1..]);
    }
  }

  /** An O never followed by an R, ignoring case, leaves no ORDER keyword. */
  lemma NoOrderByPair(s: string)
    requires forall k | 0 <= k < |s| - 1 :: !(UpperChar(s[k]) == 'O' && UpperChar(s[k + 1]) == 'R')
    ensures forall i | 0 <= i <= |s| :: !KeywordAt(s, i, "ORDER")
  {
    forall i | 0 <= i <= |s| ensures !KeywordAt(s, i, "ORDER") {
      if i + 5 <= |s| {
        if UpperChar(s[i]) != 'O' {
          NotKeywordByFirst(s, i, "ORDER");
        } else {
          NotKeywordBySecond(s, i, "ORDER");
        }
      }
    }
  }

  /** A keyword whose second letter differs from the text's does not start there. */
  lemma NotKeywordBySecond(s: string, i: int, kw: string)
    requires |kw| > 1 && 0 <= i && i + 1 < |s| && UpperChar(s[i + 1]) != kw[1]
    ensures !KeywordAt(s, i, kw)
  {
    assert UpperChar(s[i + 1]) != kw[1];
  }

  // ---------------------------------------------------------------------------
  // The whitespace pass

  /** Every whitespace character is a space followed by a non-space. */
  predicate SingleSpaced(x: string) {
    forall k | 0 <= k < |x| :: IsSpace(x[k]) ==> x[k] == ' ' && k + 1 < |x| && !IsSpace(x[k + 1])
  }

  /** Dropping the first character keeps a text single-spaced. */
  lemma SingleSpacedTail(x: string)
    requires |x| > 0 && SingleSpaced(x)
    ensures SingleSpaced(x[1..])
  {
    var t := x[1..];
    forall k | 0 <= k < |t| && IsSpace(t[k]) ensures t[k] == ' ' && k + 1 < |t| && !IsSpace(t[k + 1]) {
      assert t[k] == x[k + 1];
      assert x[k + 2] == t[k + 1];
    }
  }

  /** A single-spaced prefix passes through the whitespace collapse unchanged. */
  lemma {:induction false} CollapseKeep(x: string, y: string)
    requires SingleSpaced(x)
    ensures CollapseSpaces(x + y) == x + CollapseSpaces(y)
    decreases |x|
  {
    if |x| > 0 {
      ConcatTail(x, y);
      SingleSpacedTail(x);
      CollapseKeep(x[1..], y);
      CollapseHead(x + y);
      ConsRegroup(x, CollapseSpaces(y));
    } else {
      assert x + y == y;
    }
  }

  /** A character that is not the start of a longer whitespace run is copied as it is. */
  lemma CollapseHead(s: string)
    requires |s| > 0
    requires IsSpace(s[0]) ==> s[0] == ' ' && |s| > 1 && !IsSpace(s[1])
    ensures CollapseSpaces(s) == [s[0]] + CollapseSpaces(s[1..])
  {
    if IsSpace(s[0]) {
      SkipSpacesTo(s, 0, 1);
    }
  }

  /** The first character followed by the rest, then more text, is the whole followed by that text. */
  lemma ConsRegroup(x: string, z: string)
    requires |x| > 0
    ensures [x[0]] + (x[1..] + z) == x + z
  {
  }

  /** A run of two spaces before a non-space becomes one. */
  lemma CollapseDouble(z: string)
    requires |z| > 0 && !IsSpace(z[0])
    ensures CollapseSpaces("  " + z) == " " + CollapseSpaces(z)
  {
    var s := "  " + z;
    assert s[2] == z[0];
    assert SkipSpaces(s, 0) == 2 by {
      assert SkipSpaces(s, 2) == 2;
      assert SkipSpaces(s, 1) == SkipSpaces(s, 2);
    }
    assert s[2..] == z;
  }

  // ---------------------------------------------------------------------------
  // `test_simplify_query_basic`

  /** The characters no pass reacts to: no parameter sign, no line break, no W or G. */
  predicate Quiet(s: string) {
    forall k | 0 <= k < |s| :: s[k] != '$' && s[k] != '%' && s[k] != '\n' && UpperChar(s[k]) != 'W' && UpperChar(s[k]) != 'G'
  }

  /** The piece of the test query before the WHERE clause. */
  lemma HeadQuiet(head: string)
    requires head == "SELECT * FROM users"
    ensures Quiet(head) && !IsSpace(head[|head| - 1])
  {
  }

  lemma HeadSingleSpaced(head: string)
    requires head == "SELECT * FROM users"
    ensures SingleSpaced(head)
  {
  }

  /** The piece of the test query after the ORDER BY keyword. */
  lemma TailQuiet(tail: string)
    requires tail == "created_at LIMIT 10 OFFSET 20"
    ensures Quiet(tail) && !IsSpace(tail[0]) && !IsSpace(tail[|tail| - 1])
  {
  }

  lemma TailSingleSpaced(tail: string)
    requires tail == "created_at LIMIT 10 OFFSET 20"
    ensures SingleSpaced(tail)
  {
  }

  /** The test query after the WHERE pass holds no ORDER keyword. */
  lemma OuterNoOrder(head: string, tail: string)
    requires head == "SELECT * FROM users" && tail == "created_at LIMIT 10 OFFSET 20"
    ensures forall i | 0 <= i <= |head + "  " + tail| :: !KeywordAt(head + "  " + tail, i, "ORDER")
  {
    NoOrderByPair(head + "  " + tail);
  }

  /** The pieces of the WHERE condition, once its parameter is replaced. */
  lemma ConditionPieces(cond: string, param: string)
    requires cond == "id = " && param == "$1"
    ensures Quiet(cond + "?" + " ") && PlainBody(cond + "?" + " ")
    ensures |param| == 2 && param[0] == '$' && IsDigit(param[1])
  {
  }

  /** Quiet text stays quiet when joined. */
  lemma QuietConcat(x: string, y: string)
    requires Quiet(x) && Quiet(y)
    ensures Quiet(x + y)
  {
    assert forall k | 0 <= k < |x + y| :: (x + y)[k] == if k < |x| then x[k] else y[k - |x|];
  }

  /** Quiet text has no parameter sign. */
  lemma QuietAvoids(s: string)
    requires Quiet(s)
    ensures Avoids(s, '$') && Avoids(s, '%')
  {
  }

  /** The keyword pieces hold no parameter sign. */
  lemma KeywordPieces(w: string, o: string)
    requires w == "WHERE " && o == "ORDER BY"
    ensures Avoids(w, '$') && Avoids(w, '%') && Avoids(o, '$') && Avoids(o, '%')
  {
  }

  /** A single `$` parameter between parameter-free text is replaced by `?`. */
  lemma DollarCut(x: string, d: string, y: string)
    requires Avoids(x, '$') && Avoids(y, '$')
    requires |d| == 2 && d[0] == '$' && IsDigit(d[1]) && (|y| > 0 ==> !IsDigit(y[0]))
    ensures ReplaceDollarParams(x + d + y) == x + "?" + y
  {
    assert x + d + y == x + (d + y);
    DollarSkip(x, d + y);
    DollarParam(d, y);
    DollarFree(y);
    assert x + ("?" + y) == x + "?" + y;
  }

  /** A WHERE clause ended by ORDER BY between quiet text is removed with its terminator. */
  lemma WhereCut(a: string, b: string, c: string)
    requires Quiet(a) && Quiet(c) && PlainBody(b)
    ensures RemoveAll(WhereClause, a + ("WHERE " + b + "ORDER BY" + c)) == a + c
  {
    var s1 := a + ("WHERE " + b + "ORDER BY" + c);
    assert Lead(WhereClause) == 'W';
    RemoveAllSkip(WhereClause, s1, |a|);
    assert s1[..|a|] == a && s1[|a|..] == "WHERE " + b + "ORDER BY" + c;
    WhereRemoved(b, c);
    RemoveAllAbsent(WhereClause, c);
  }

  /** The `$` pass: the one parameter of a query whose other pieces have none becomes `?`. */
  lemma DollarPass(x: string, d: string, y: string)
    requires Avoids(x, '$') && Avoids(y, '$')
    requires |d| == 2 && d[0] == '$' && IsDigit(d[1])
    ensures ReplaceDollarParams(x + d + " " + y) == x + "?" + " " + y
  {
    AvoidsConcat(" ", y, '$');
    DollarCut(x, d, " " + y);
    Regroup(x, d, " ", y);
    Regroup(x, "?", " ", y);
  }

  /** The `%s` pass: a query whose pieces have no `%` is left alone. */
  lemma PercentPass(x: string, y: string)
    requires Avoids(x, '%') && Avoids(y, '%')
    ensures ReplacePercentParams(x + "?" + " " + y) == x + "?" + " " + y
  {
    AvoidsConcat(x, "? ", '%');
    AvoidsConcat(x + "? ", y, '%');
    assert x + "?" + " " + y == x + "? " + y;
    PercentFree(x + "?" + " " + y);
  }

  /** The WHERE pass: the clause and its ORDER BY keyword go, leaving two spaces. */
  lemma WherePass(head: string, cond: string, tail: string)
    requires head == "SELECT * FROM users" && cond == "id = " && tail == "created_at LIMIT 10 OFFSET 20"
    ensures RemoveAll(WhereClause, (head + " ") + ("WHERE " + (cond + "?" + " ") + "ORDER BY" + (" " + tail)))
         == head + "  " + tail
  {
    HeadQuiet(head);
    TailQuiet(tail);
    ConditionPieces(cond, "$1");
    QuietConcat(head, " ");
    QuietConcat(" ", tail);
    WhereCut(head + " ", cond + "?" + " ", " " + tail);
    assert (head + " ") + (" " + tail) == head + "  " + tail;
  }

  /** The ORDER BY and GROUP BY passes find nothing to remove. */
  lemma LaterPasses(head: string, tail: string)
    requires head == "SELECT * FROM users" && tail == "created_at LIMIT 10 OFFSET 20"
    ensures RemoveAll(GroupByClause, RemoveAll(OrderByList, head + "  " + tail)) == head + "  " + tail
  {
    var s3 := head + "  " + tail;
    OuterNoOrder(head, tail);
    OrderByFree(s3);
    HeadQuiet(head);
    TailQuiet(tail);
    QuietConcat(head, "  ");
    QuietConcat(head + "  ", tail);
    RemoveAllAbsent(GroupByClause, s3);
  }

  /** The whitespace pass: the double space collapses, and there is nothing to strip. */
  lemma CollapsePass(head: string, tail: string)
    requires head == "SELECT * FROM users" && tail == "created_at LIMIT 10 OFFSET 20"
    ensures Strip(CollapseSpaces(head + "  " + tail)) == head + " " + tail
  {
    HeadQuiet(head);
    TailQuiet(tail);
    HeadSingleSpaced(head);
    TailSingleSpaced(tail);
    assert head + "  " + tail == head + ("  " + tail);
    CollapseKeep(head, "  " + tail);
    CollapseDouble(tail);
    CollapseKeep(tail, "");
    assert tail + "" == tail;
    var r := head + " " + tail;
    assert CollapseSpaces(head + "  " + tail) == r;
    StripNoSpaceEnds(r);
  }

  /** Neither side of the parameter in the test query holds a `$` or a `%`. */
  lemma ExampleSides(head: string, w: string, cond: string, o: string, tail: string)
    requires head == "SELECT * FROM users" && w == "WHERE " && cond == "id = "
    requires o == "ORDER BY" && tail == "created_at LIMIT 10 OFFSET 20"
    ensures Avoids(head + " " + w + cond, '$') && Avoids(head + " " + w + cond, '%')
    ensures Avoids(o + (" " + tail), '$') && Avoids(o + (" " + tail), '%')
  {
    var a := head + " ";
    var c := " " + tail;
    HeadQuiet(head);
    TailQuiet(tail);
    ConditionPieces(cond, "$1");
    KeywordPieces(w, o);
    QuietConcat(head, " ");
    QuietConcat(" ", tail);
    QuietAvoids(a);
    QuietAvoids(c);
    assert Avoids(cond, '$') && Avoids(cond, '%') by {
      assert forall k | 0 <= k < |cond| :: cond[k] == (cond + "?" + " ")[k];
      QuietAvoids(cond + "?" + " ");
    }
    AvoidsConcat(a, w, '$');
    AvoidsConcat(a + w, cond, '$');
    AvoidsConcat(o, c, '$');
    AvoidsConcat(a, w, '%');
    AvoidsConcat(a + w, cond, '%');
    AvoidsConcat(o, c, '%');
  }

  /** The test query, and the text the parameter passes leave, cut where each later pass needs it. */
  lemma ExampleShapes(head: string, w: string, cond: string, param: string, o: string, tail: string)
    ensures head + " " + w + cond + param + " " + o + " " + tail
         == (head + " " + w + cond) + param + " " + (o + (" " + tail))
    ensures (head + " " + w + cond) + "?" + " " + (o + (" " + tail))
         == (head + " ") + (w + (cond + "?" + " ") + o + (" " + tail))
  {
  }

  /**
   * `test_simplify_query_basic`: `SELECT * FROM users WHERE id = $1 ORDER BY
   * created_at LIMIT 10 OFFSET 20` simplifies to `SELECT * FROM users
   * created_at LIMIT 10 OFFSET 20`; the ORDER BY keyword goes with the WHERE
   * clause, and the column it was followed by stays.
   */
  lemma SimplifyExample(head: string, w: string, cond: string, param: string, o: string, tail: string)
    requires head == "SELECT * FROM users" && w == "WHERE " && cond == "id = " && param == "$1"
    requires o == "ORDER BY" && tail == "created_at LIMIT 10 OFFSET 20"
    ensures SimplifyQuery(head + " " + w + cond + param + " " + o + " " + tail) == head + " " + tail
  {
    var x := head + " " + w + cond;
    var y := o + (" " + tail);
    ExampleSides(head, w, cond, o, tail);
    ExampleShapes(head, w, cond, param, o, tail);
    ConditionPieces(cond, param);
    DollarPass(x, param, y);
    PercentPass(x, y);
    WherePass(head, cond, tail);
    LaterPasses(head, tail);
    CollapsePass(head, tail);
  }
}

=== FILE: suggestions.dfy ===
/**
 * `OptimizationSuggestion.suggest` and the `suggest_*` helpers: the text
 * attached to each finding and the rendering of a finding for the report.
 */
module Suggestions {
  import opened Wrappers
  import opened Text
  import Indexes

  // ---------------------------------------------------------------------------
  // Rendering a finding

  /** The finding types that have a template, in the order of the templates dictionary. */
  const TemplateKinds: seq<string> := [
      "N+1 Query",
      "Missing Index on WHERE",
      "Missing Index on JOIN",
      "Missing index on ORDER BY",
      "Missing Index on AGGREGATE",
      "Overuse of Subqueries",
      "Cartesian Product in JOIN",
      "Inefficient Pagination",
      "Non-Sargable Query",
      "Locking Issue",
      "Overuse of Transactions",
      "Slow Query",
      "Duplicate Query",
      "Unnecessary DISTINCT",
      "Missing LIMIT",
      "Full Table Scan",
      "Inefficient SELECT *"]

  /** What `suggest` returns for a type without a template. */
  const NoSuggestion: string := "No suggestion available."

  /** What is put into a template when the finding has no `suggestion` key. */
  const MissingSuggestion: string := "No suggestion available"

  /**
   * A template: a warning header line with its title, the explanation, and
   * a labelled line whose value is the `{suggestion}` field, followed by the
   * rest. No template has another replacement field.
   */
  datatype Template = Template(title: string, body: string, field: string, tail: string)

  const Recommendation: string := "Recommendation"
  const SuggestedIndex: string := "Suggested Index"

  /** The first line of every template. */
  function Header(title: string): string {
    "\U{26A0}\U{FE0F} **" + title + "**\n"
  }

  /** The label in front of the suggestion. */
  function FieldLabel(field: string): string {
    "\U{2705} **" + field + "**: "
  }

  /** A template with the suggestion filled in. */
  function Render(t: Template, suggestion: string): string {
    Header(t.title) + t.body + FieldLabel(t.field) + suggestion + t.tail
  }

  /** The title in the header of the template of `TemplateKinds[i]`. */
  function TemplateTitle(i: nat): string
    requires i < |TemplateKinds|
  {
    if i == 0 then "N+1 Query Detected"
    else if i == 1 then "Missing Index Detected"
    else if i == 2 then "Missing Index Detected on Foreign Key Column in JOIN"
    else if i == 3 then "Missing Index Detected on ORDER BY clause"
    else if i == 4 then "Missing Index on Aggregate Detected"
    else if i == 5 then "Overuse of Subqueries Detected"
    else if i == 6 then "Cartesian Product Detected in JOIN"
    else if i == 7 then "Inefficient Pagination Detected"
    else if i == 8 then "Non-Sargable Query Detected"
    else if i == 9 then "Locking Issue Detected"
    else if i == 10 then "Overuse of Transactions Detected"
    else if i == 11 then "Slow Query Detected"
    else if i == 12 then "Duplicate Query Detected"
    else if i == 13 then "Unnecessary DISTINCT Detected"
    else if i == 14 then "Missing LIMIT Clause Detected"
    else if i == 15 then "Full Table Scan Detected"
    else "Inefficient SELECT * Detected"
  }

  /** The explanation lines of the template of `TemplateKinds[i]`. */
  function TemplateBody(i: nat): string
    requires i < |TemplateKinds|
  {
    if i == 0 then 
      "Multiple queries are executed to fetch related objects in this query.\n\U{1F6A9} **Impact**: N+1 queries can significantly degrade performance, particularly with large datasets, leading to excessive database calls and increased latency.\n\U{1F6E0} **Cause**: Appropriate optimizations for querying related objects are not employed.\n"
    else if i == 1 then 
      "The absence of an index can severely impact query performance. Consider the following steps:\n\U{1F6E0} **Analyze the Query**: Identify columns in the WHERE clause, JOIN conditions, or ORDER BY clause that may be causing slow lookups.\n\U{1F6E0} **Verify Using `EXPLAIN`**: Execute `EXPLAIN` on the query to determine if  the query conducts a `Seq Scan`, if it does it's a strong candidate for indexing.\n\U{1F6E0} **Create Index**: Implement an index on the relevant column(s) with the SQL command: `CREATE INDEX index_name ON table_name(column_name);` or declare it in your model with `db_index=True`.\n"
    else if i == 2 then 
      "JOIN operations involving foreign key columns without an index might lead to significant performance bottlenecks. Consider the following steps:\n\U{1F6E0} **Analyze the JOIN Condition**: Identify the Foreign key column involved in the JOIN operation.\n\U{1F6E0} **Verify Using `EXPLAIN`**: Run `EXPLAIN` on the query and verify the JOIN is causing a full table scan `Seq Scan`. If detected, adding an index is recommended.\n\U{1F6E0} **Create Index**: Add an index on the foreign key column using the SQL command: `CREATE INDEX index_name ON table_name (column_name);` or declare it in your model with `db_index=True`.\n"
    else if i == 3 then 
      "ORDER BY operations involving columns without indexes might lead to significant performance bottlenecks. Consider the following steps:\n\U{1F6E0} **Analyze the ORDER BY Condition**: Identify the columns involved in the ORDER BY operation.\n\U{1F6E0} **Verify Using `EXPLAIN`**: Run `EXPLAIN` on the query and verify the ORDER BY is causing a full table scan `Seq Scan`. If detected, adding an index is recommended.\n\U{1F6E0} **Create Index**: Add an index on the column or columns involved using the SQL command: `CREATE INDEX index_name ON table_name (column_name);` or declare it in your model with `db_index=True`.\n"
    else if i == 4 then 
      "Queries involving aggregate functions on unindexed columns might cause performance bottlenecks with large datasets. Consider the following steps to optimize performance:\n\U{1F6E0} **Analyze the Query**: Check the column(s) involved in the aggregate function, (`SUM()`, `COUNT()`, etc) are prime candidates for indexing.\n\U{1F6E0} **Verify Using `EXPLAIN`**: Run `EXPLAIN` on the query to identify if a full table scan (`Seq Scan`) is taking place. If the query scans the table for aggregation, it is likely inefficient.\n\U{1F6E0} **Create Index**: Add an index to the column(s) used in the aggregate function with the SQL command: `CREATE INDEX index_name ON table_name(column_name);` or declare it in your model with `db_index=True`.\n"
    else if i == 5 then 
      "The query makes excessive use of subqueries, which might be inefficient unless intentional.\n\U{1F6E0} **Consider**: Rewriting the query using `JOIN` operations or Common Table Expressions (CTEs) for better performance.\n"
    else if i == 6 then 
      "The query performs a JOIN without specifying an ON condition, resulting in a Cartesian product. This might lead to a massive result set with performance issues.\n\U{1F6E0} **Consider**: Adding appropriate JOIN conditions using `ON` or `USING` clauses to filter the result set preventing Cartesian product.\n"
    else if i == 7 then 
      "The query uses a large OFFSET, which can cause performance degradation as the dataset grows.\n\U{1F6E0} **Consider**: Using keyset pagination (cursor-based pagination) instead of OFFSET-based pagination.\n"
    else if i == 8 then 
      "The query uses a function or expression on an indexed column, which prevents the use of indexes and might lead to full table scans.\n\U{1F6E0} **Consider**: Rewriting the query to be sargable by avoiding the use of functions on indexed columns in the WHERE clause.\n"
    else if i == 9 then 
      "The query or transaction takes longer than expected, potentially causing locking issues or deadlocks.\n\U{1F6E0} **Consider**: Optimizing the query or reducing the scope of the transaction to avoid long locks.\n"
    else if i == 10 then 
      "The transaction is running for too long, which could cause lock contention and performance issues.\n\U{1F6E0} **Consider**: Reducing the scope of the transaction or breaking it into smaller transactions.\n"
    else if i == 11 then 
      "The execution time for this query is longer than expected. Review the query's execution plan.\n\U{1F6E0} **Consider**: Optimize by reducing joins, refining conditions or increasing the execution time threshold.\n"
    else if i == 12 then 
      "This query is being executed multiple times. Consider caching the result or eliminating duplicate query calls to improve efficiency.\n"
    else if i == 13 then 
      "The use of DISTINCT in this query may be redundant. Verify if DISTINCT is applied to fields that are already unique.\n\U{1F6E0} **Removing DISTINCT**: Can simplify the query and enhance performance. Additionally, ensure that duplicates are not being introduced from other parts of the query (e.g., JOINs).\n"
    else if i == 14 then 
      "Omitting a LIMIT clause can lead to performance degradation due to processing large datasets.\n\U{1F6E0} **Consider**: Adding a LIMIT clause to restrict the dataset size and improve performance.\n"
    else if i == 15 then 
      "Full table scans can be inefficient, particularly on large tables.\n\U{1F6E0} **Utilize**: WHERE clause to filter rows can significantly enhance query performance.\n"
    else 
      "Using SELECT * retrieves all columns from the table, which can be inefficient.\n\U{1F6E0} **Consider**: Specify only the necessary columns to reduce data transfer and improve performance.\n"
  }

  /** The text after the suggestion in the template of `TemplateKinds[i]`. */
  function TemplateTail(i: nat): string
    requires i < |TemplateKinds|
  {
    if i == 0 then "\n"
    else if i == 1 then "\n\U{1F6A9} **Best Practices**: Avoid indexing very small tables or columns with low cardinality, as they may not yield performance improvements."
    else if i == 2 then "\n\U{1F6A9} **Best Practices**: Ensure the indexed column is used frequently in JOINs, as indexing infrequent columns may not yield significant improvements."
    else if i == 3 then "\n\U{1F6A9} **Best Practices**: Ensure the indexed column is used frequently in ORDER BYs, as indexing infrequent columns may not yield significant improvements."
    else if i == 4 then "\n\U{1F6A9} **Best Practices**: Avoid creating indexes for columns with low cardinality as they may not lead to significant performance improvements.\n"
    else if i == 5 then "\n\U{1F6A9} **Best Practices**: Subqueries are useful in certain cases, but using JOINs or CTEs is more efficient for most queries, especially with larger datasets."
    else if i == 6 then "\n\U{1F6A9} **Best Practices**: Avoid Cartesian products unless explicitly needed. Always use appropriate `ON` conditions when joining tables."
    else if i == 7 then "\n\U{1F6A9} **Best Practices**: Keyset pagination improves performance by avoiding large OFFSET scans. Consider tracking the last seen record for pagination."
    else if i == 8 then "\n\U{1F6A9} **Best Practices**: Use direct comparisons to allow indexes to work efficiently. Avoid applying functions on indexed columns in WHERE clauses."
    else if i == 9 then "\n\U{1F6A9} **Best Practices**: Keep transactions short and break long-running queries into smaller operations to reduce lock contention."
    else if i == 10 then "\n\U{1F6A9} **Best Practices**: Use transactions only when necessary and avoid wrapping non-critical operations in transaction blocks."
    else if i == 11 then "\n"
    else if i == 12 then "\n"
    else if i == 13 then "\n"
    else if i == 14 then "\n"
    else if i == 15 then "\n"
    else "\n"
  }

  /** The template of `TemplateKinds[i]`; the four missing-index types label the suggestion as the suggested index. */
  function TemplateOf(i: nat): (t: Template)
    requires i < |TemplateKinds|
  {
    Template(TemplateTitle(i), TemplateBody(i), if 1 <= i <= 4 then SuggestedIndex else Recommendation, TemplateTail(i))
  }

  /** The position of `kind` among `kinds`, as the dictionary lookup finds it. */
  function TemplateIndex(kinds: seq<string>, kind: string): (r: Option<nat>)
    ensures r.Some? ==> r.value < |kinds| && kinds[r.value] == kind
    ensures r.None? <==> kind !in kinds
  {
    if |kinds| == 0 then None
    else if kinds[0] == kind then Some(0)
    else
      match TemplateIndex(kinds[1..], kind)
      case None => None
      case Some(i) => Some(i + 1)
  }

  /**
   * `OptimizationSuggestion.suggest`: the template of the finding type with
   * the suggestion filled in, or the fallback text for a type without one.
   */
  function Suggest(kind: string, suggestion: Option<string>): (r: string)
    ensures kind !in TemplateKinds ==> r == NoSuggestion
    ensures kind in TemplateKinds ==>
      exists i | 0 <= i < |TemplateKinds| && TemplateKinds[i] == kind ::
        r == Render(TemplateOf(i), suggestion.GetOr(MissingSuggestion))
  {
    match TemplateIndex(TemplateKinds, kind)
    case None => NoSuggestion
    case Some(i) => Render(TemplateOf(i), suggestion.GetOr(MissingSuggestion))
  }

  /**
   * A rendered template starts with its header and shows the suggestion
   * right after its label, even when the suggestion is empty.
   */
  lemma RenderShows(t: Template, s: string)
    ensures StartsWith(Render(t, s), Header(t.title))
    ensures Contains(Render(t, s), t.title)
    ensures Contains(Render(t, s), FieldLabel(t.field) + s)
    ensures Contains(Render(t, s), s)
  {
    var r := Render(t, s);
    var h := Header(t.title);
    var a := h + t.body;
    var l := FieldLabel(t.field);
    assert r == h + (t.body + (l + s) + t.tail);
    assert r[..|h|] == h;
    assert h[5..5 + |t.title|] == t.title;
    assert r[5..5 + |t.title|] == t.title;
    assert MatchAt(r, 5, t.title);
    assert r == a + (l + s) + t.tail;
    assert r[|a|..|a| + |l + s|] == l + s;
    assert MatchAt(r, |a|, l + s);
    assert r == (a + l) + s + t.tail;
    assert r[|a + l|..|a + l| + |s|] == s;
    assert MatchAt(r, |a + l|, s);
  }

  /** The template a known finding type is rendered with. */
  lemma KnownTemplate(kind: string, s: Option<string>) returns (i: nat)
    requires kind in TemplateKinds
    ensures i < |TemplateKinds| && TemplateKinds[i] == kind
    ensures Suggest(kind, s) == Render(TemplateOf(i), s.GetOr(MissingSuggestion))
  {
    i :| 0 <= i < |TemplateKinds| && TemplateKinds[i] == kind && Suggest(kind, s) == Render(TemplateOf(i), s.GetOr(MissingSuggestion));
  }

  /** The template a successful lookup selects. */
  lemma FirstTemplate(kind: string, s: Option<string>, i: nat)
    requires i < |TemplateKinds| && TemplateIndex(TemplateKinds, kind) == Some(i)
    ensures Suggest(kind, s) == Render(TemplateOf(i), s.GetOr(MissingSuggestion))
  {
  }

  /** A known finding type shows its header and the suggestion it carries. */
  lemma SuggestShowsSuggestion(kind: string, s: string)
    requires kind in TemplateKinds
    ensures exists i | 0 <= i < |TemplateKinds| && TemplateKinds[i] == kind ::
      StartsWith(Suggest(kind, Some(s)), Header(TemplateTitle(i)))
    ensures Contains(Suggest(kind, Some(s)), s)
  {
    var i := KnownTemplate(kind, Some(s));
    RenderShows(TemplateOf(i), s);
  }

  /** A type without a template renders as the fallback text, whatever the suggestion. */
  lemma SuggestFallback(kind: string, s: Option<string>)
    requires kind !in TemplateKinds
    ensures Suggest(kind, s) == NoSuggestion
  {
  }

  /**
   * The ORDER BY missing-index finding renders as the fallback text: its
   * type has an upper-case `Index`, the template key a lower-case one.
   */
  lemma OrderByKeyMisspelled(kind: string, s: Option<string>)
    requires kind == "Missing Index on ORDER BY"
    ensures Suggest(kind, s) == NoSuggestion
  {
    assert kind !in TemplateKinds;
    SuggestFallback(kind, s);
  }

  /** The CROSS JOIN and explicit LOCK findings have no template and render as the fallback text. */
  lemma KindsWithoutTemplate(crossJoin: string, lock: string, s: Option<string>)
    requires crossJoin == "Cartesian Product in CROSS JOIN"
    requires lock == "Explicit LOCK Statement"
    ensures Suggest(crossJoin, s) == NoSuggestion
    ensures Suggest(lock, s) == NoSuggestion
  {
    assert crossJoin !in TemplateKinds && lock !in TemplateKinds;
    SuggestFallback(crossJoin, s);
    SuggestFallback(lock, s);
  }

  /** An unknown type of `test_suggestions.py` renders as the fallback text. */
  lemma UnknownKindExample(kind: string, s: Option<string>)
    requires kind == "Unknown Inefficiency Type"
    ensures Suggest(kind, s) == NoSuggestion
  {
    assert kind !in TemplateKinds;
    SuggestFallback(kind, s);
  }

  /** A finding type that has a template shows that template's title. */
  lemma SuggestShowsTitle(kind: string, s: Option<string>, i: nat)
    requires i < |TemplateKinds| && TemplateIndex(TemplateKinds, kind) == Some(i)
    ensures Contains(Suggest(kind, s), TemplateTitle(i))
  {
    FirstTemplate(kind, s, i);
    RenderShows(TemplateOf(i), s.GetOr(MissingSuggestion));
  }

  /** The N+1 template of `test_suggestions.py` names the problem in its header. */
  lemma NPlusOneTemplateExample(kind: string, s: Option<string>, title: string, i: nat)
    requires kind == "N+1 Query" && title == "N+1 Query Detected" && i == 0
    ensures Contains(Suggest(kind, s), title)
  {
    assert TemplateIndex(TemplateKinds, kind) == Some(i);
    SuggestShowsTitle(kind, s, i);
  }

  // ---------------------------------------------------------------------------
  // The suggestion texts the detectors attach

  // Each sentence is its opening words followed by the rest, so that contracts can name the opening.
  const JoinConditionsAdvice: string := "Consider optimizing" + " the JOIN conditions or adding indexes to the joined columns."
  const SelectStarAdvice: string := "Avoid" + " using SELECT *; select only the needed columns to reduce data retrieval."
  const CachingAdvice: string := "Consider caching" + " this query if the result doesn't change frequently."

  /** The sentences `suggest_optimization_for_slow_query` collects, in order. */
  function SlowQuerySentences(sql: string): seq<string> {
    (if Contains(Upper(sql), "JOIN") then [JoinConditionsAdvice] else [])
    + (if Contains(Upper(sql), "SELECT *") then [SelectStarAdvice] else [])
    + [CachingAdvice]
  }

  /**
   * `suggest_optimization_for_slow_query`: the JOIN advice first when the
   * upper-cased query mentions JOIN, then the SELECT * advice when it
   * mentions SELECT *, and the caching advice always last, one space apart.
   */
  function SlowQueryAdvice(sql: string): (r: string)
    ensures EndsWith(r, CachingAdvice)
    ensures StartsWith(r, JoinConditionsAdvice) <==> Contains(Upper(sql), "JOIN")
    ensures StartsWith(r, SelectStarAdvice) <==> !Contains(Upper(sql), "JOIN") && Contains(Upper(sql), "SELECT *")
    ensures r == CachingAdvice <==> !Contains(Upper(sql), "JOIN") && !Contains(Upper(sql), "SELECT *")
  {
    var tail := (if Contains(Upper(sql), "SELECT *") then SelectStarAdvice + " " else "") + CachingAdvice;
    EndsWithConcat(if Contains(Upper(sql), "SELECT *") then SelectStarAdvice + " " else "", CachingAdvice);
    SentencesDiffer(tail);
    var r := (if Contains(Upper(sql), "JOIN") then JoinConditionsAdvice + " " else "") + tail;
    EndsWithConcat(if Contains(Upper(sql), "JOIN") then JoinConditionsAdvice + " " else "", tail);
    assert StartsWith(r, SelectStarAdvice) <==> !Contains(Upper(sql), "JOIN") && StartsWith(tail, SelectStarAdvice) by {
      if Contains(Upper(sql), "JOIN") {
        assert JoinConditionsAdvice[0] == 'C' && SelectStarAdvice[0] == 'A';
        assert r[0] == 'C';
      }
    }
    r
  }

  /** The three sentences start differently, so a text starting with one does not start with another. */
  lemma SentencesDiffer(tail: string)
    requires tail == SelectStarAdvice + " " + CachingAdvice || tail == CachingAdvice
    ensures !StartsWith(tail, JoinConditionsAdvice)
    ensures StartsWith(tail, SelectStarAdvice) <==> tail != CachingAdvice
  {
    assert JoinConditionsAdvice[9] == 'o' && CachingAdvice[9] == 'c' && SelectStarAdvice[0] == 'A' && CachingAdvice[0] == 'C';
    if tail == CachingAdvice {
      assert tail[9] == 'c' && tail[0] == 'C';
    } else {
      assert tail[..|SelectStarAdvice|] == SelectStarAdvice;
      assert tail[0] == 'A';
    }
  }

  /** The advice is the sentences joined with single spaces, as `' '.join` builds it. */
  lemma SlowQueryAdviceJoined(sql: string)
    ensures SlowQueryAdvice(sql) == Join(SlowQuerySentences(sql), " ")
  {
    var ss := SlowQuerySentences(sql);
    if |ss| == 3 {
      assert Join(ss, " ") == ss[0] + " " + Join(ss[1..], " ");
      assert Join(ss[1..], " ") == ss[1] + " " + Join(ss[2..], " ");
    } else if |ss| == 2 {
      assert Join(ss, " ") == ss[0] + " " + Join(ss[1..], " ");
    }
  }

  const DuplicateCachingAdvice: string := "Consider caching the result of this query to avoid redundant executions."

  /** `suggest_optimization_for_duplicate_query`: the caching sentence for a repeated query, nothing otherwise. */
  function DuplicateQueryAdvice(sql: string, count: int): (r: string)
    ensures r == "" <==> count <= 1
    ensures r != "" ==> r == DuplicateCachingAdvice
  {
    if count > 1 then DuplicateCachingAdvice else ""
  }

  const DistinctLead: string := "The DISTINCT clause in this query may be unnecessary. The selected fields ("
  const DistinctTrail: string := ") are unique, so the DISTINCT clause may be redundant. Consider removing DISTINCT to simplify the query and improve performance."

  /** The listed fields: a string is split on commas and each piece stripped. */
  function ListedFields(columns: Indexes.ColumnsArg): seq<string> {
    match columns
    case ColumnText(text) => Indexes.StripPieces(Split(text, ','))
    case Columns(items) => items
  }

  /** `suggest_removing_distinct`: the fixed message naming the selected fields, comma-separated. */
  function RemovingDistinctAdvice(columns: Indexes.ColumnsArg): (r: string)
    ensures StartsWith(r, DistinctLead) && EndsWith(r, DistinctTrail)
    ensures |r| >= |DistinctLead| + |DistinctTrail|
    ensures r[|DistinctLead|..|r| - |DistinctTrail|] == Join(ListedFields(columns), ", ")
  {
    Framed(DistinctLead, Join(ListedFields(columns), ", "), DistinctTrail);
    DistinctLead + Join(ListedFields(columns), ", ") + DistinctTrail
  }

  /**
   * Naming the fields as a list or as their comma-separated text gives the
   * same message, for fields that are stripped and hold no comma.
   */
  lemma RemovingDistinctText(cs: seq<string>)
    requires |cs| > 0
    requires forall k | 0 <= k < |cs| :: Indexes.CleanListed(cs[k])
    ensures RemovingDistinctAdvice(Indexes.ColumnText(Join(cs, ", "))) == RemovingDistinctAdvice(Indexes.Columns(cs))
  {
    Indexes.ColumnListRoundTrip(cs);
  }

  const LimitAdvice: string := "Consider adding a LIMIT clause to avoid returning large datasets. For example: 'SELECT ... LIMIT 100'."
  const WhereAdvice: string := "Consider adding a WHERE clause to filter the data and avoid a full table scan. For example: 'SELECT ... WHERE condition'."
  const SpecificColumnsAdvice: string := "Avoid using 'SELECT *'. Specify only the columns you need, such as 'SELECT column1, column2 FROM ...'."

  const JoinSubqueryAdvice: string :=
    "Consider replacing the correlated subquery with a JOIN. Using subqueries in the WHERE clause might lead to inefficient execution plans.\n"
    + "For example:\n"
    + "Instead of: SELECT * FROM table WHERE column IN (SELECT column FROM ...)\n"
    + "Use: SELECT t1.* FROM table t1 JOIN (SELECT column FROM ...) AS t2 ON t1.column = t2.column"
  const CteSubqueryAdvice: string :=
    "Consider using a CTE to replace the subquery for better readability and performance.\n"
    + "For example:\n"
    + "WITH subquery AS (SELECT ... FROM ...) SELECT * FROM subquery JOIN ..."
  const DefaultSubqueryAdvice: string :=
    "Consider using JOINs or CTEs to replace subqueries. Subqueries can often be optimized by rewriting them as joins."

  /** `IN\s*\(SELECT` at `q`, case-insensitively. */
  predicate InSelectAt(s: string, q: int) {
    && KeywordAt(s, q, "IN")
    && var o := SkipSpaces(s, q + 2);
       o < |s| && s[o] == '(' && KeywordAt(s, o + 1, "SELECT")
  }

  /** `re.search(r'WHERE.*IN\s*\(SELECT.*', sql, re.IGNORECASE)`: a WHERE and, later on the same line, `IN (SELECT`. */
  predicate CorrelatedSubquery(sql: string) {
    exists p, q | 0 <= p && p + 5 <= q <= |sql| :: KeywordAt(sql, p, "WHERE") && NoNewline(sql, p + 5, q) && InSelectAt(sql, q)
  }

  /** `sql.lower().count('(select') > 1` */
  predicate RepeatedSubqueries(sql: string) {
    Count(Lower(sql), "(select") > 1
  }

  /**
   * `suggest_alternative_to_subquery`: JOIN advice for a correlated
   * subquery, otherwise CTE advice when more than one subquery opens,
   * otherwise the general advice.
   */
  function SubqueryAdvice(sql: string): (r: string)
    ensures r == JoinSubqueryAdvice <==> CorrelatedSubquery(sql)
    ensures r == CteSubqueryAdvice <==> !CorrelatedSubquery(sql) && RepeatedSubqueries(sql)
    ensures r == DefaultSubqueryAdvice <==> !CorrelatedSubquery(sql) && !RepeatedSubqueries(sql)
  {
    if CorrelatedSubquery(sql) then JoinSubqueryAdvice
    else if RepeatedSubqueries(sql) then CteSubqueryAdvice
    else DefaultSubqueryAdvice
  }

  const CrossJoinAdvice: string :=
    "CROSS JOIN results in a Cartesian product. Ensure that this is intentional. If not, add appropriate JOIN conditions "
    + "(e.g., INNER JOIN or LEFT JOIN with ON conditions) to limit the result set."
  const JoinConditionAdvice: string :=
    "A JOIN without an ON condition might lead to a Cartesian product, causing a large result set. "
    + "Include appropriate JOIN conditions (ON or USING) to join on related keys."

  /** `suggest_alternative_to_cartesian`: CROSS JOIN advice iff the upper-cased query mentions CROSS JOIN. */
  function CartesianAdvice(sql: string): (r: string)
    ensures r == CrossJoinAdvice <==> Contains(Upper(sql), "CROSS JOIN")
    ensures r == JoinConditionAdvice <==> !Contains(Upper(sql), "CROSS JOIN")
  {
    if Contains(Upper(sql), "CROSS JOIN") then CrossJoinAdvice else JoinConditionAdvice
  }

  const PaginationAdvice: string :=
    "Consider using keyset pagination (cursor-based pagination) instead of OFFSET-based pagination. "
    + "OFFSET can cause performance degradation on large datasets as the OFFSET value increases. "
    + "With keyset pagination, you can paginate more efficiently by using WHERE conditions and tracking the last seen record."
  const SargableAdvice: string :=
    "Rewriting the query to make it sargable will allow it to leverage indexes. "
    + "Avoid using functions or expressions on indexed columns in the WHERE clause. "
    + "Instead, rewrite the query to allow direct comparison (e.g., avoid using `WHERE FUNCTION(column)`; instead use `WHERE column = value`)."
  const LockOptimizationAdvice: string :=
    "Avoid using explicit LOCK statements unless necessary. "
    + "Consider using appropriate isolation levels or reducing the scope of the lock to avoid performance bottlenecks."

  const LockLead: string := "Query execution time of "
  const LockTrail: string := " seconds exceeds the lock threshold. Consider optimizing the query or breaking it into smaller transactions to avoid long locks."

  /** `suggest_avoiding_locks`: the message around the execution time as `format` renders it. */
  function AvoidingLocksAdvice(format: real -> string, t: real): (r: string)
    ensures StartsWith(r, LockLead) && EndsWith(r, LockTrail)
    ensures |r| == |LockLead| + |format(t)| + |LockTrail|
    ensures r[|LockLead|..|r| - |LockTrail|] == format(t)
  {
    var r := LockLead + format(t) + LockTrail;
    EndsWithConcat(LockLead + format(t), LockTrail);
    r
  }

  const TransactionLead: string := "The transaction running for "
  const TransactionTrail: string :=
    " seconds might be too long. Consider reducing the scope of the transaction or splitting it into smaller transactions "
    + "to reduce lock contention and improve performance."

  /** `suggest_transaction_optimization`: the message around the execution time as `format` renders it. */
  function TransactionAdvice(format: real -> string, t: real): (r: string)
    ensures StartsWith(r, TransactionLead) && EndsWith(r, TransactionTrail)
    ensures |r| == |TransactionLead| + |format(t)| + |TransactionTrail|
    ensures r[|TransactionLead|..|r| - |TransactionTrail|] == format(t)
  {
    var r := TransactionLead + format(t) + TransactionTrail;
    EndsWithConcat(TransactionLead + format(t), TransactionTrail);
    r
  }
}

=== FILE: tables.dfy ===
/**
 * Extraction of table names, WHERE/AND column names and the SELECT list from
 * query text (`extract_table_names`, `extract_table_and_column_names`,
 * `extract_select_clause`). Each `re.findall`/`re.search` is a scanner that
 * tries the pattern at every position from left to right and, after a match,
 * resumes where the match ended.
 */
module Tables {
  import opened Wrappers
  import opened Text
  import opened Lists

  /** A non-empty run of the `["'\w.]` class: what a table or column capture can be. */
  predicate NameText(t: string) {
    |t| > 0 && forall k | 0 <= k < |t| :: InClass(t[k], TableName)
  }

  /** `\s+(["'\w.]+)` after a keyword ending at `q0`: the bounds of the capture. */
  function NameAfter(s: string, q0: nat): (r: Option<(nat, nat)>)
    requires q0 <= |s|
    ensures r.Some? ==> q0 < r.value.0 < r.value.1 <= |s| && NameText(s[r.value.0..r.value.1])
    ensures r.Some? ==> forall k | q0 <= k < r.value.0 :: IsSpace(s[k])
  {
    var q := SkipSpaces(s, q0);
    var e := RunEnd(s, q, TableName);
    if q == q0 || e == q then None else Some((q, e))
  }

  /** The optional `(?:\s+AS\s+\w+)?` after a FROM capture ending at `e`: where the match ends. */
  function AliasEnd(s: string, e: nat): (r: nat)
    requires e <= |s|
    ensures e <= r <= |s|
    ensures r > e ==> IsSpace(s[e]) && InClass(s[r - 1], Word)
  {
    var w := SkipSpaces(s, e);
    if w > e && KeywordAt(s, w, "AS") then
      var v := SkipSpaces(s, w + 2);
      if v > w + 2 && v < |s| && IsWordChar(s[v]) then RunEnd(s, v, Word) else e
    else e
  }

  /**
   * `FROM\s+(["'\w.]+)(?:\s+AS\s+\w+)?|JOIN\s+(["'\w.]+)` tried at `p`: the
   * captured name (of whichever alternative matched) and the end of the match.
   */
  function TableMatch(s: string, p: nat): (r: Option<(string, nat)>)
    requires p <= |s|
    ensures r.Some? ==> NameText(r.value.0) && p < r.value.1 <= |s|
    ensures r.Some? ==> KeywordAt(s, p, "FROM") || KeywordAt(s, p, "JOIN")
  {
    if KeywordAt(s, p, "FROM") then
      match NameAfter(s, p + 4)
      case Some((q, e)) => Some((s[q..e], AliasEnd(s, e)))
      case None => None
    else if KeywordAt(s, p, "JOIN") then
      match NameAfter(s, p + 4)
      case Some((q, e)) => Some((s[q..e], e))
      case None => None
    else None
  }

  /**
   * `re.findall` with a pattern tried by `step`: from `p` on, the captures in
   * order, resuming after each match where it ended.
   */
  function Scan(step: nat -> Option<(string, nat)>, n: nat, p: nat): (r: seq<string>)
    requires p <= n
    requires forall m | p <= m <= n :: step(m).Some? ==> m < step(m).value.1 <= n
    ensures forall t | t in r :: exists q | p <= q <= n :: step(q).Some? && step(q).value.0 == t
    decreases n - p
  {
    if p == n then []
    else
      match step(p)
      case Some((t, e)) => [t] + Scan(step, n, e)
      case None => Scan(step, n, p + 1)
  }

  /** The scan passes over positions where the pattern does not match without collecting anything. */
  lemma {:induction false} ScanSkip(step: nat -> Option<(string, nat)>, n: nat, p: nat, q: nat)
    requires p <= q <= n
    requires forall m | p <= m <= n :: step(m).Some? ==> m < step(m).value.1 <= n
    requires forall m | p <= m < q :: step(m).None?
    ensures Scan(step, n, p) == Scan(step, n, q)
    decreases q - p
  {
    if p < q {
      ScanSkip(step, n, p + 1, q);
    }
  }

  /** The table pattern tried at each position of `s`. */
  function TableStep(s: string): (step: nat -> Option<(string, nat)>)
    ensures forall m: nat | m <= |s| :: step(m) == TableMatch(s, m)
    ensures forall m: nat | m <= |s| :: step(m).Some? ==> m < step(m).value.1 <= |s|
  {
    (m: nat) => if m <= |s| then TableMatch(s, m) else None
  }

  /** `re.findall` of the table pattern from position `p`: the captures in order. */
  function TableMatches(s: string, p: nat): (r: seq<string>)
    requires p <= |s|
    ensures forall t | t in r :: NameText(t)
    ensures forall t | t in r :: exists q | p <= q <= |s| :: TableMatch(s, q).Some? && TableMatch(s, q).value.0 == t
  {
    Scan(TableStep(s), |s|, p)
  }

  /** The scan passes over positions where the pattern does not match without collecting anything. */
  lemma TableMatchesSkip(s: string, p: nat, q: nat)
    requires p <= q <= |s|
    requires forall m | p <= m < q :: TableMatch(s, m).None?
    ensures TableMatches(s, p) == TableMatches(s, q)
  {
    ScanSkip(TableStep(s), |s|, p, q);
  }

  /** The first place the pattern matches gives the first table name. */
  lemma FirstTable(s: string, p: nat)
    requires p < |s| && TableMatch(s, p).Some?
    requires forall m | 0 <= m < p :: TableMatch(s, m).None?
    ensures |TableMatches(s, 0)| > 0 && TableMatches(s, 0)[0] == TableMatch(s, p).value.0
  {
    TableMatchesSkip(s, 0, p);
  }

  /** A text in which neither keyword occurs names no table. */
  lemma NoKeywordNoTables(s: string)
    requires forall m | 0 <= m <= |s| :: !KeywordAt(s, m, "FROM") && !KeywordAt(s, m, "JOIN")
    ensures TableMatches(s, 0) == []
  {
    TableMatchesSkip(s, 0, |s|);
  }

  /** `extract_table_names`: the distinct names following FROM or JOIN, quotes kept. */
  function ExtractTableNames(sql: string): (r: seq<string>)
    ensures NoDup(r)
    ensures forall t | t in r :: NameText(t)
    ensures forall t :: t in r <==> t in TableMatches(sql, 0)
  {
    Dedup(TableMatches(sql, 0))
  }

  /**
   * `WHERE\s+(["'\w.]+)\s*=|AND\s+(["'\w.]+)\s*=` tried at `p`: the captured
   * column and the end of the match (just past the `=`).
   */
  function ColumnMatch(s: string, p: nat): (r: Option<(string, nat)>)
    requires p <= |s|
    ensures r.Some? ==> NameText(r.value.0) && p < r.value.1 <= |s| && s[r.value.1 - 1] == '='
    ensures r.Some? ==> KeywordAt(s, p, "WHERE") || KeywordAt(s, p, "AND")
  {
    var n := if KeywordAt(s, p, "WHERE") then 5 else if KeywordAt(s, p, "AND") then 3 else 0;
    if n == 0 then None
    else
      match NameAfter(s, p + n)
      case None => None
      case Some((q, e)) =>
        var f := SkipSpaces(s, e);
        if f < |s| && s[f] == '=' then Some((s[q..e], f + 1)) else None
  }

  /** `re.findall` of the column pattern from position `p`. */
  function ColumnMatches(s: string, p: nat): (r: seq<string>)
    requires p <= |s|
    ensures forall t | t in r :: NameText(t)
    ensures forall t | t in r :: exists q | p <= q <= |s| :: ColumnMatch(s, q).Some? && ColumnMatch(s, q).value.0 == t
    decreases |s| - p
  {
    if p == |s| then []
    else
      match ColumnMatch(s, p)
      case Some((t, e)) => [t] + ColumnMatches(s, e)
      case None => ColumnMatches(s, p + 1)
  }

  /** `extract_table_and_column_names`: the table names and the distinct columns compared with `=`. */
  function ExtractTableAndColumnNames(sql: string): (r: (seq<string>, seq<string>))
    ensures r.0 == ExtractTableNames(sql)
    ensures NoDup(r.1)
    ensures forall c :: c in r.1 <==> c in ColumnMatches(sql, 0)
  {
    (ExtractTableNames(sql), Dedup(ColumnMatches(sql, 0)))
  }

  // ---------------------------------------------------------------------------
  // The SELECT list

  /** `\s+FROM` starts at `k`: a whitespace run ending where FROM begins. */
  predicate FromAt(s: string, k: nat)
    requires k <= |s|
  {
    k < |s| && IsSpace(s[k]) && KeywordAt(s, SkipSpaces(s, k), "FROM")
  }

  /** The lazy `(.+?)\s+FROM` under DOTALL: the first `k >= i` where `\s+FROM` begins. */
  function NextFrom(s: string, i: nat): (r: Option<nat>)
    requires i <= |s|
    ensures r.Some? ==> i <= r.value < |s| && FromAt(s, r.value)
    ensures r.Some? ==> forall m | i <= m < r.value :: !FromAt(s, m)
    ensures r.None? ==> forall m | i <= m <= |s| :: !FromAt(s, m)
    decreases |s| - i
  {
    if i == |s| then None
    else if FromAt(s, i) then Some(i)
    else NextFrom(s, i + 1)
  }

  /**
   * A way `SELECT\s+(.+?)\s+FROM` can match at `p` with group 1 at `[a, b)`,
   * whichever the regex engine prefers: SELECT, whitespace up to `a`, at least
   * one character, and `\s+FROM` at `b`.
   */
  predicate SelectSpan(s: string, p: nat, a: nat, b: nat) {
    && p + 6 < a < b < |s|
    && KeywordAt(s, p, "SELECT")
    && (forall m | p + 6 <= m < a :: IsSpace(s[m]))
    && FromAt(s, b)
  }

  /**
   * `SELECT\s+(.+?)\s+FROM` tried at `p`: group 1. The greedy `\s+` first
   * takes the whole whitespace run; when no `\s+FROM` follows the first
   * non-blank character, backtracking into that run succeeds only if FROM
   * comes right after it and the run is at least three characters long, and
   * then the group is the single whitespace character two before FROM.
   */
  function SelectAt(s: string, p: nat): (r: Option<string>)
    requires p <= |s|
    ensures r.Some? ==> KeywordAt(s, p, "SELECT")
    ensures r.Some? ==> exists a, b | p + 6 < a < b < |s| ::
      && SelectSpan(s, p, a, b)
      && r.value == s[a..b]
      && (forall m | a < m < b :: !FromAt(s, m))
      && (|| a == SkipSpaces(s, p + 6)
          || (b == a + 1 && SkipSpaces(s, p + 6) == b + 1 && forall m | b + 1 < m < |s| :: !FromAt(s, m)))
  {
    if !KeywordAt(s, p, "SELECT") then None
    else
      var w := SkipSpaces(s, p + 6);
      if w == p + 6 || w == |s| then None
      else
        match NextFrom(s, w + 1)
        case Some(k) =>
          assert SelectSpan(s, p, w, k);
          Some(s[w..k])
        case None =>
          if w >= p + 9 && KeywordAt(s, w, "FROM") then
            assert SkipSpaces(s, w - 1) == w;
            assert SelectSpan(s, p, w - 2, w - 1);
            Some(s[w - 2..w - 1])
          else None
  }

  /** Whenever the pattern can match at `p` at all, the match at `p` is found. */
  lemma SelectAtComplete(s: string, p: nat, a: nat, b: nat)
    requires SelectSpan(s, p, a, b)
    ensures SelectAt(s, p).Some?
  {
    var w := SkipSpaces(s, p + 6);
    assert p + 6 < a <= w;
    if b <= w {
      assert b < w;
      SkipSpacesTo(s, b, w);
    }
  }

  /**
   * A column list that neither starts nor ends with whitespace and holds no
   * letter F, between `SELECT ` and ` FROM`, is exactly the group.
   */
  lemma SelectPlain(c: string, rest: string)
    requires |c| > 0 && !IsSpace(c[0]) && !IsSpace(c[|c| - 1])
    requires forall k | 0 <= k < |c| :: UpperChar(c[k]) != 'F'
    ensures SelectAt("SELECT " + c + " FROM" + rest, 0) == Some(c)
  {
    var s := "SELECT " + c + " FROM" + rest;
    var b := 7 + |c|;
    assert forall k | 0 <= k < |c| :: s[7 + k] == c[k];
    assert s[..7] == "SELECT " && s[b..b + 5] == " FROM";
    forall k | 0 <= k < 6 ensures UpperChar(s[0 + k]) == "SELECT"[k] {
      assert s[k] == s[..7][k];
    }
    forall k | 0 <= k < 4 ensures UpperChar(s[b + 1 + k]) == "FROM"[k] {
      assert s[b + 1 + k] == s[b..b + 5][1 + k];
    }
    assert s[6] == s[..7][6] && s[b] == s[b..b + 5][0] && s[b + 1] == s[b..b + 5][1];
    SkipSpacesTo(s, 6, 7);
    SkipSpacesTo(s, b, b + 1);
    assert FromAt(s, b);
    forall m | 8 <= m < b ensures !FromAt(s, m) {
      var j := SkipSpaces(s, m);
      if IsSpace(s[m]) && j < b {
        NotKeywordByFirst(s, j, "FROM");
      }
    }
    assert s[7..b] == c;
  }

  /** `re.search` of the SELECT pattern from `p`: where the leftmost match starts. */
  function FirstSelect(s: string, p: nat): (r: Option<nat>)
    requires p <= |s|
    ensures r.Some? ==> p <= r.value <= |s| && SelectAt(s, r.value).Some?
    decreases |s| - p
  {
    if SelectAt(s, p).Some? then Some(p)
    else if p == |s| then None
    else FirstSelect(s, p + 1)
  }

  /** No SELECT pattern matches before the position the search reports, nor anywhere when it reports none. */
  lemma {:induction false} FirstSelectLeftmost(s: string, p: nat, q: nat)
    requires p <= q <= |s|
    requires FirstSelect(s, p).None? || q < FirstSelect(s, p).value
    ensures SelectAt(s, q).None?
    decreases q - p
  {
    var r := FirstSelect(s, p);
    if SelectAt(s, p).None? && p < q {
      assert r == FirstSelect(s, p + 1);
      FirstSelectLeftmost(s, p + 1, q);
    }
  }

  /** A `)` occurs in `s` before any line break. */
  predicate CloseOnLine(s: string)
    decreases |s|
  {
    |s| > 0 && s[0] != '\n' && (s[0] == ')' || CloseOnLine(s[1..]))
  }

  /** The offset of that `)`: where the lazy `.*?\)` stops. */
  function CloseOffset(s: string): (k: nat)
    requires CloseOnLine(s)
    ensures k < |s| && s[k] == ')'
    ensures forall m | 0 <= m < k :: s[m] != '\n' && s[m] != ')'
    decreases |s|
  {
    if s[0] == ')' then 0 else 1 + CloseOffset(s[1..])
  }

  /** No `(` has a `)` after it on the same line: nothing `\(.*?\)` could match. */
  predicate NoParenGroups(s: string) {
    forall i | 0 <= i < |s| && s[i] == '(' :: !CloseOnLine(s[i + 1..])
  }

  /** `re.sub(r'\(.*?\)', '', s)`: each parenthesised stretch within one line is deleted. */
  function RemoveParenGroups(s: string): (r: string)
    ensures |r| <= |s|
    decreases |s|
  {
    if |s| == 0 then ""
    else if s[0] == '(' && CloseOnLine(s[1..]) then RemoveParenGroups(s[1..][CloseOffset(s[1..]) + 1..])
    else [s[0]] + RemoveParenGroups(s[1..])
  }

  /** Deleting groups never brings a `)` onto a line that had none before its first line break. */
  lemma {:induction false} RemoveKeepsLineOpen(t: string)
    requires !CloseOnLine(t)
    ensures !CloseOnLine(RemoveParenGroups(t))
    decreases |t|
  {
    if |t| > 0 && t[0] != '\n' {
      assert !CloseOnLine(t[1..]);
      RemoveKeepsLineOpen(t[1..]);
      var r := RemoveParenGroups(t[1..]);
      assert RemoveParenGroups(t) == [t[0]] + r;
      assert ([t[0]] + r)[1..] == r;
    }
  }

  /** After the substitution no parenthesised group is left. */
  lemma {:induction false} RemoveParenGroupsClean(s: string)
    ensures NoParenGroups(RemoveParenGroups(s))
    decreases |s|
  {
    if |s| > 0 {
      if s[0] == '(' && CloseOnLine(s[1..]) {
        RemoveParenGroupsClean(s[1..][CloseOffset(s[1..]) + 1..]);
      } else {
        var rest := RemoveParenGroups(s[1..]);
        RemoveParenGroupsClean(s[1..]);
        var r := [s[0]] + rest;
        assert RemoveParenGroups(s) == r;
        forall i | 0 <= i < |r| && r[i] == '(' ensures !CloseOnLine(r[i + 1..]) {
          if i == 0 {
            RemoveKeepsLineOpen(s[1..]);
            assert r[1..] == rest;
          } else {
            assert r[i] == rest[i - 1];
            assert r[i + 1..] == rest[i..] by {
              assert forall j | 1 <= j < |r| :: r[j] == rest[j - 1];
            }
          }
        }
      }
    }
  }

  /** Text without parenthesised groups is left unchanged, so the substitution is idempotent. */
  lemma {:induction false} RemoveParenGroupsFixpoint(s: string)
    requires NoParenGroups(s)
    ensures RemoveParenGroups(s) == s
    decreases |s|
  {
    if |s| > 0 {
      assert NoParenGroups(s[1..]) by {
        forall i | 0 <= i < |s| - 1 && s[1..][i] == '(' ensures !CloseOnLine(s[1..][i + 1..]) {
          assert s[1..][i + 1..] == s[i + 2..];
        }
      }
      RemoveParenGroupsFixpoint(s[1..]);
      assert s == [s[0]] + s[1..];
    }
  }

  /**
   * `extract_select_clause`: the text between the first SELECT and the FROM
   * the lazy pattern stops at, stripped, with parenthesised groups removed;
   * `None` when the pattern matches nowhere.
   */
  function ExtractSelectClause(sql: string): (r: Option<string>)
    ensures r.None? <==> FirstSelect(sql, 0).None?
    ensures r.Some? ==> r.value == RemoveParenGroups(Strip(SelectAt(sql, FirstSelect(sql, 0).value).value))
    ensures r.Some? ==> NoParenGroups(r.value)
  {
    match FirstSelect(sql, 0)
    case None => None
    case Some(q) =>
      var g := SelectAt(sql, q).value;
      RemoveParenGroupsClean(Strip(g));
      Some(RemoveParenGroups(Strip(g)))
  }

  /** Without a SELECT match anywhere, there is no clause; with one, there is. */
  lemma SelectClauseExists(sql: string, p: nat)
    requires p <= |sql|
    ensures SelectAt(sql, p).Some? ==> ExtractSelectClause(sql).Some?
    ensures ExtractSelectClause(sql).None? ==> SelectAt(sql, p).None?
  {
    if ExtractSelectClause(sql).None? {
      FirstSelectLeftmost(sql, 0, p);
    }
  }

  /** test_utils.py: `SELECT id, name, age FROM users WHERE id = $1` selects `id, name, age`. */
  lemma SelectClauseExample(c: string, rest: string)
    requires c == "id, name, age" && rest == " users WHERE id = $1"
    ensures ExtractSelectClause("SELECT " + c + " FROM" + rest) == Some(c)
  {
    var s := "SELECT " + c + " FROM" + rest;
    assert forall k | 0 <= k < |c| :: c[k] in "idnameg, " by {
      assert c == ['i', 'd', ',', ' ', 'n', 'a', 'm', 'e', ',', ' ', 'a', 'g', 'e'];
    }
    assert forall k | 0 <= k < |c| :: UpperChar(c[k]) != 'F' && c[k] != '(';
    SelectPlain(c, rest);
    assert FirstSelect(s, 0) == Some(0);
    StripNoSpaceEnds(c);
    RemoveParenGroupsFixpoint(c);
  }
}

=== FILE: text.dfy ===
/**
 * Character classes and the Python `str` operations the SQL heuristics rely on:
 * `isspace`, `upper`/`lower`, `in`, `count`, `replace`, `strip`, `split` and `join`.
 * Case mapping and the word-character class cover ASCII only.
 */
module Text {

  /** Python's `str.isspace()`, which is also the `\s` class of `re` on `str` patterns. */
  predicate IsSpace(c: char) {
    || c == ' '
    || '\t' <= c <= '\r'
    || '\U{1C}' <= c <= '\U{1F}'
    || c == '\U{85}' || c == '\U{A0}' || c == '\U{1680}'
    || '\U{2000}' <= c <= '\U{200A}'
    || c == '\U{2028}' || c == '\U{2029}' || c == '\U{202F}' || c == '\U{205F}' || c == '\U{3000}'
  }

  predicate IsDigit(c: char) { '0' <= c <= '9' }

  predicate IsLetter(c: char) { 'a' <= c <= 'z' || 'A' <= c <= 'Z' }

  /** The `\w` class of `re`, restricted to ASCII. */
  predicate IsWordChar(c: char) { IsLetter(c) || IsDigit(c) || c == '_' }

  function UpperChar(c: char): char {
    if 'a' <= c <= 'z' then (c as int - 32) as char else c
  }

  function LowerChar(c: char): char {
    if 'A' <= c <= 'Z' then (c as int + 32) as char else c
  }

  /** `str.upper()` */
  function Upper(s: string): (r: string)
    ensures |r| == |s|
    ensures forall i | 0 <= i < |s| :: r[i] == UpperChar(s[i])
  {
    seq(|s|, i requires 0 <= i < |s| => UpperChar(s[i]))
  }

  /** `str.lower()` */
  function Lower(s: string): (r: string)
    ensures |r| == |s|
    ensures forall i | 0 <= i < |s| :: r[i] == LowerChar(s[i])
  {
    seq(|s|, i requires 0 <= i < |s| => LowerChar(s[i]))
  }

  /** No ASCII capital letter in `s`. */
  predicate NoUpper(s: string) {
    forall k | 0 <= k < |s| :: !('A' <= s[k] <= 'Z')
  }

  /** Lower-casing a text without capitals changes nothing. */
  lemma LowerKeep(s: string)
    requires NoUpper(s)
    ensures Lower(s) == s
  {
  }

  predicate MatchAt(s: string, i: int, pat: string) {
    0 <= i && i + |pat| <= |s| && s[i..i + |pat|] == pat
  }

  /** Python's `pat in s`. */
  predicate Contains(s: string, pat: string) {
    exists i | 0 <= i <= |s| :: MatchAt(s, i, pat)
  }

  /** The upper-case keyword `kw` occurs at `i`, compared the way `re.IGNORECASE` compares ASCII. */
  predicate KeywordAt(s: string, i: int, kw: string) {
    0 <= i && i + |kw| <= |s| && forall k | 0 <= k < |kw| :: UpperChar(s[i + k]) == kw[k]
  }

  lemma KeywordAtUpper(s: string, i: int, kw: string)
    ensures KeywordAt(s, i, kw) <==> MatchAt(Upper(s), i, kw)
  {
    if 0 <= i && i + |kw| <= |s| {
      var u := Upper(s);
      if KeywordAt(s, i, kw) {
        assert u[i..i + |kw|] == kw;
      }
      if MatchAt(u, i, kw) {
        forall k | 0 <= k < |kw| ensures UpperChar(s[i + k]) == kw[k] {
          assert u[i..i + |kw|][k] == kw[k];
        }
      }
    }
  }

  /** An upper-case keyword written out in the text matches there. */
  lemma KeywordAtSlice(s: string, i: int, kw: string)
    requires 0 <= i && i + |kw| <= |s| && s[i..i + |kw|] == kw
    requires forall k | 0 <= k < |kw| :: UpperChar(kw[k]) == kw[k]
    ensures KeywordAt(s, i, kw)
  {
    forall k | 0 <= k < |kw| ensures UpperChar(s[i + k]) == kw[k] {
      assert s[i + k] == s[i..i + |kw|][k];
    }
  }

  /** A keyword match fixes the first character. */
  lemma KeywordFirst(s: string, i: int, kw: string)
    requires KeywordAt(s, i, kw) && |kw| > 0
    ensures UpperChar(s[i]) == kw[0]
  {
    assert UpperChar(s[i + 0]) == kw[0];
  }

  /** A keyword cannot match where its first two characters are not both there. */
  lemma NotKeywordByPair(s: string, i: int, kw: string)
    requires |kw| >= 2 && 0 <= i
    requires i + 1 < |s| ==> UpperChar(s[i]) != kw[0] || UpperChar(s[i + 1]) != kw[1]
    ensures !KeywordAt(s, i, kw)
  {
    if i + 1 < |s| {
      assert UpperChar(s[i + 0]) != kw[0] || UpperChar(s[i + 1]) != kw[1];
    }
  }

  /** A keyword cannot match where its first character is missing. */
  lemma NotKeywordByFirst(s: string, i: int, kw: string)
    requires |kw| > 0 && 0 <= i < |s| && UpperChar(s[i]) != kw[0]
    ensures !KeywordAt(s, i, kw)
  {
    assert UpperChar(s[i + 0]) != kw[0];
  }

  /** `$` without MULTILINE: the very end, or just before a final newline. */
  predicate EndAnchor(s: string, k: int) {
    k == |s| || (0 <= k == |s| - 1 && s[k] == '\n')
  }

  /** `\b`: a word character on exactly one side of position `i`. */
  predicate WordBoundary(s: string, i: int) {
    0 <= i <= |s| && ((i < |s| && IsWordChar(s[i])) != (i > 0 && IsWordChar(s[i - 1])))
  }

  /** No line break in `s[i..j]`, as `.` without DOTALL requires. */
  predicate NoNewline(s: string, i: int, j: int)
    requires 0 <= i <= j <= |s|
  {
    forall k | i <= k < j :: s[k] != '\n'
  }

  /** A pattern whose first two characters never occur side by side is absent. */
  lemma AbsentByPair(s: string, pat: string)
    requires |pat| >= 2
    requires forall k | 0 <= k < |s| - 1 :: !(s[k] == pat[0] && s[k + 1] == pat[1])
    ensures !Contains(s, pat)
  {
    forall i | 0 <= i <= |s| ensures !MatchAt(s, i, pat) {
      if i + |pat| <= |s| {
        assert s[i..i + |pat|][0] == s[i] && s[i..i + |pat|][1] == s[i + 1];
      }
    }
  }

  /** A pattern whose first character never occurs is absent. */
  lemma AbsentByFirst(s: string, pat: string)
    requires |pat| >= 1
    requires forall k | 0 <= k < |s| :: s[k] != pat[0]
    ensures !Contains(s, pat)
  {
    forall i | 0 <= i <= |s| ensures !MatchAt(s, i, pat) {
      if i + |pat| <= |s| {
        assert s[i..i + |pat|][0] == s[i];
      }
    }
  }

  lemma ContainsIn(s: string, i: int, pat: string)
    requires MatchAt(s, i, pat)
    ensures Contains(s, pat)
  {
  }

  /** Python's `s.count(pat)`: non-overlapping occurrences, scanned left to right. */
  function Count(s: string, pat: string): nat
    requires |pat| > 0
    decreases |s|
  {
    if |s| < |pat| then 0
    else if s[..|pat|] == pat then 1 + Count(s[|pat|..], pat)
    else Count(s[1..], pat)
  }

  /** Python's `s.replace(pat, rep)`: every non-overlapping occurrence, left to right. */
  function Replace(s: string, pat: string, rep: string): string
    requires |pat| > 0
    decreases |s|
  {
    if |s| < |pat| then s
    else if s[..|pat|] == pat then rep + Replace(s[|pat|..], pat, rep)
    else [s[0]] + Replace(s[1..], pat, rep)
  }

  /** Replacing a pattern the text does not contain changes nothing. */
  lemma {:induction false} ReplaceAbsent(s: string, pat: string, rep: string)
    requires |pat| > 0 && !Contains(s, pat)
    ensures Replace(s, pat, rep) == s
    decreases |s|
  {
    if |s| >= |pat| {
      assert !MatchAt(s, 0, pat);
      assert !Contains(s[1..], pat) by {
        forall i | 0 <= i <= |s[1..]| ensures !MatchAt(s[1..], i, pat) {
          assert !MatchAt(s, i + 1, pat);
          if i + |pat| <= |s[1..]| {
            assert s[1..][i..i + |pat|] == s[i + 1..i + 1 + |pat|];
          }
        }
      }
      ReplaceAbsent(s[1..], pat, rep);
      assert [s[0]] + s[1..] == s;
    }
  }

  /** `s.startswith(prefix)` */
  predicate StartsWith(s: string, prefix: string) {
    |prefix| <= |s| && s[..|prefix|] == prefix
  }

  /** Python's `s.endswith(suffix)`. */
  predicate EndsWith(s: string, suffix: string) {
    |suffix| <= |s| && s[|s| - |suffix|..] == suffix
  }

  lemma EndsWithConcat(a: string, b: string)
    ensures EndsWith(a + b, b)
  {
    assert (a + b)[|a|..] == b;
  }

  /** A text built as `a + m + b` starts with `a` and ends with `b`. */
  lemma Framed(a: string, m: string, b: string)
    ensures StartsWith(a + m + b, a) && EndsWith(a + m + b, b)
  {
    assert (a + m + b)[..|a|] == a;
    assert (a + m + b)[|a + m|..] == b;
  }

  /** No character of `s` is `c` (`c not in s`). */
  predicate Avoids(s: string, c: char) {
    forall k | 0 <= k < |s| :: s[k] != c
  }

  /** A concatenation avoids what both parts avoid. */
  lemma AvoidsConcat(x: string, y: string, c: char)
    requires Avoids(x, c) && Avoids(y, c)
    ensures Avoids(x + y, c)
  {
    assert forall k | |x| <= k < |x + y| :: (x + y)[k] == y[k - |x|];
  }

  /** The head and the rest of a concatenation whose first part is not empty. */
  lemma ConcatTail(x: string, y: string)
    requires |x| > 0
    ensures (x + y)[0] == x[0] && (x + y)[1..] == x[1..] + y
  {
  }

  /** Four pieces joined left to right are the first two followed by the last two. */
  /** The middle of a concatenation can be sliced back out. */
  lemma Middle(a: string, m: string, b: string)
    ensures (a + m + b)[|a|..|a| + |m|] == m
  {
  }

  lemma Regroup(a: string, b: string, c: string, d: string)
    ensures a + b + c + d == a + b + (c + d)
  {
  }

  /** `s.replace(c, '')` for a single character. */
  function DeleteChar(s: string, c: char): (r: string)
    ensures Avoids(r, c)
    ensures |r| <= |s|
    decreases |s|
  {
    if |s| == 0 then ""
    else if s[0] == c then DeleteChar(s[1..], c)
    else [s[0]] + DeleteChar(s[1..], c)
  }

  /** Deleting one character keeps the others out that were out before, and keeps the rest in order. */
  lemma {:induction false} DeleteCharAvoids(s: string, c: char, d: char)
    requires Avoids(s, d)
    ensures Avoids(DeleteChar(s, c), d)
    decreases |s|
  {
    if |s| > 0 {
      DeleteCharAvoids(s[1..], c, d);
    }
  }

  /** Deleting a character the text does not hold changes nothing. */
  lemma {:induction false} DeleteCharKeep(s: string, c: char)
    requires Avoids(s, c)
    ensures DeleteChar(s, c) == s
    decreases |s|
  {
    if |s| > 0 {
      DeleteCharKeep(s[1..], c);
      assert [s[0]] + s[1..] == s;
    }
  }

  /** Deleting a character distributes over concatenation. */
  lemma {:induction false} DeleteCharConcat(a: string, b: string, c: char)
    ensures DeleteChar(a + b, c) == DeleteChar(a, c) + DeleteChar(b, c)
    decreases |a|
  {
    if |a| > 0 {
      assert (a + b)[1..] == a[1..] + b;
      DeleteCharConcat(a[1..], b, c);
    } else {
      assert a + b == b;
    }
  }

  /** Deleting the quote character from a quoted text leaves the text. */
  lemma DeleteCharQuoted(x: string, c: char)
    requires Avoids(x, c)
    ensures DeleteChar([c] + x + [c], c) == x
  {
    DeleteCharConcat([c] + x, [c], c);
    DeleteCharConcat([c], x, c);
    DeleteCharKeep(x, c);
    assert DeleteChar([c], c) == "" by {
      assert [c][1..] == "";
    }
  }

  lemma DeleteCharSingle(s: string, c: char)
    ensures DeleteChar(s, c) == Replace(s, [c], "")
  {
    if |s| > 0 {
      assert s[..1] == [s[0]];
      DeleteCharSingle(s[1..], c);
    }
  }

  /** The bracketed character classes the patterns of the analyzer use, with ASCII `\w` and `\d`. */
  datatype CharClass =
    | Digit       // `\d`
    | Word        // `\w`
    | TableName   // `["'\w.]`
    | JoinName    // `[a-zA-Z0-9_"]`
    | JoinColumn  // `[a-zA-Z0-9_".]`
    | NotClose    // `[^)]`

  predicate InClass(c: char, k: CharClass) {
    match k
    case Digit => IsDigit(c)
    case Word => IsWordChar(c)
    case TableName => IsWordChar(c) || c == '"' || c == '\'' || c == '.'
    case JoinName => IsWordChar(c) || c == '"'
    case JoinColumn => IsWordChar(c) || c == '"' || c == '.'
    case NotClose => c != ')'
  }

  /** The end of the longest run of class `k` starting at `i`, as a greedy `[...]*` reaches. */
  function RunEnd(s: string, i: nat, k: CharClass): (j: nat)
    requires i <= |s|
    ensures i <= j <= |s|
    ensures forall m | i <= m < j :: InClass(s[m], k)
    ensures j < |s| ==> !InClass(s[j], k)
    decreases |s| - i
  {
    if i < |s| && InClass(s[i], k) then RunEnd(s, i + 1, k) else i
  }

  /** The index of the first non-whitespace character at or after `i` (or `|s|`). */
  function SkipSpaces(s: string, i: nat): (j: nat)
    requires i <= |s|
    ensures i <= j <= |s|
    ensures forall k | i <= k < j :: IsSpace(s[k])
    ensures j < |s| ==> !IsSpace(s[j])
    decreases |s| - i
  {
    if i < |s| && IsSpace(s[i]) then SkipSpaces(s, i + 1) else i
  }

  /** The index just past the last non-whitespace character of `s[lo..j]` (or `lo`). */
  function SkipSpacesBack(s: string, lo: nat, j: nat): (b: nat)
    requires lo <= j <= |s|
    ensures lo <= b <= j
    ensures forall k | b <= k < j :: IsSpace(s[k])
    ensures b > lo ==> !IsSpace(s[b - 1])
    decreases j
  {
    if j > lo && IsSpace(s[j - 1]) then SkipSpacesBack(s, lo, j - 1) else j
  }

  /** `SkipSpaces` stops at the first non-whitespace character. */
  lemma {:induction false} SkipSpacesTo(s: string, i: nat, j: nat)
    requires i <= j <= |s|
    requires forall k | i <= k < j :: IsSpace(s[k])
    requires j < |s| ==> !IsSpace(s[j])
    ensures SkipSpaces(s, i) == j
    decreases j - i
  {
    if i < j {
      SkipSpacesTo(s, i + 1, j);
    }
  }

  /** `RunEnd` stops at the first character outside the class. */
  lemma {:induction false} RunEndTo(s: string, i: nat, j: nat, k: CharClass)
    requires i <= j <= |s|
    requires forall m | i <= m < j :: InClass(s[m], k)
    requires j < |s| ==> !InClass(s[j], k)
    ensures RunEnd(s, i, k) == j
    decreases j - i
  {
    if i < j {
      RunEndTo(s, i + 1, j, k);
    }
  }

  /** `SkipSpacesBack` stops just after the last non-whitespace character. */
  lemma {:induction false} SkipSpacesBackTo(s: string, lo: nat, b: nat, j: nat)
    requires lo <= b <= j <= |s|
    requires forall k | b <= k < j :: IsSpace(s[k])
    requires b > lo ==> !IsSpace(s[b - 1])
    ensures SkipSpacesBack(s, lo, j) == b
    decreases j - b
  {
    if b < j {
      SkipSpacesBackTo(s, lo, b, j - 1);
    }
  }

  /** `str.lstrip()` */
  function TrimStart(s: string): string {
    s[SkipSpaces(s, 0)..]
  }

  /** The bounds `[a, b)` of what `str.strip()` keeps. */
  function StripBounds(s: string): (ab: (nat, nat))
    ensures ab.0 <= ab.1 <= |s|
    ensures forall k | 0 <= k < ab.0 :: IsSpace(s[k])
    ensures forall k | ab.1 <= k < |s| :: IsSpace(s[k])
    ensures ab.0 < ab.1 ==> !IsSpace(s[ab.0]) && !IsSpace(s[ab.1 - 1])
  {
    var a := SkipSpaces(s, 0);
    (a, SkipSpacesBack(s, a, |s|))
  }

  /** `str.strip()` */
  function Strip(s: string): (r: string)
    ensures |r| <= |s|
    ensures |r| > 0 ==> !IsSpace(r[0]) && !IsSpace(r[|r| - 1])
  {
    var ab := StripBounds(s);
    s[ab.0..ab.1]
  }

  /** `strip` only removes characters, so it keeps a character out. */
  lemma StripAvoids(s: string, c: char)
    requires Avoids(s, c)
    ensures Avoids(Strip(s), c)
  {
    var ab := StripBounds(s);
    assert forall k | 0 <= k < ab.1 - ab.0 :: Strip(s)[k] == s[ab.0 + k];
  }

  lemma StripNoSpace(s: string)
    requires forall k | 0 <= k < |s| :: !IsSpace(s[k])
    ensures Strip(s) == s
  {
  }

  /** Text that neither starts nor ends with whitespace is its own strip. */
  lemma StripNoSpaceEnds(s: string)
    requires |s| > 0 ==> !IsSpace(s[0]) && !IsSpace(s[|s| - 1])
    ensures Strip(s) == s
  {
  }

  /** `str.strip(c)`: removes the character `c` from both ends. */
  function StripChar(s: string, c: char): (r: string)
    ensures |r| <= |s|
    ensures |r| > 0 ==> r[0] != c && r[|r| - 1] != c
    decreases |s|
  {
    if |s| > 0 && s[0] == c then StripChar(s[1..], c)
    else if |s| > 0 && s[|s| - 1] == c then StripChar(s[..|s| - 1], c)
    else s
  }

  /** `s.replace('"', '').strip()`: quotes removed, then surrounding whitespace. */
  function Unquote(t: string): (r: string)
    ensures Avoids(r, '"')
    ensures |r| > 0 ==> !IsSpace(r[0]) && !IsSpace(r[|r| - 1])
  {
    StripAvoids(DeleteChar(t, '"'), '"');
    Strip(DeleteChar(t, '"'))
  }

  /** `s.split(sep)` for a one-character separator: always at least one piece. */
  function Split(s: string, sep: char): (r: seq<string>)
    ensures |r| >= 1
    decreases |s|
  {
    if |s| == 0 then [""]
    else
      var rest := Split(s[1..], sep);
      if s[0] == sep then [""] + rest else [[s[0]] + rest[0]] + rest[1..]
  }

  /** No piece of a split holds the separator, nor any character the text avoids. */
  lemma {:induction false} SplitAvoids(s: string, sep: char, c: char)
    ensures forall k | 0 <= k < |Split(s, sep)| :: Avoids(Split(s, sep)[k], sep)
    ensures Avoids(s, c) ==> forall k | 0 <= k < |Split(s, sep)| :: Avoids(Split(s, sep)[k], c)
    decreases |s|
  {
    if |s| > 0 {
      SplitAvoids(s[1..], sep, c);
      var rest := Split(s[1..], sep);
      var r := Split(s, sep);
      if s[0] == sep {
        assert r == [""] + rest;
        assert forall k | 1 <= k < |r| :: r[k] == rest[k - 1];
      } else {
        assert r == [[s[0]] + rest[0]] + rest[1..];
        assert forall k | 1 <= k < |r| :: r[k] == rest[k];
        assert forall m | 1 <= m < |r[0]| :: r[0][m] == rest[0][m - 1];
      }
    }
  }

  /** The first separator ends the first piece. */
  lemma {:induction false} SplitHead(x: string, y: string, sep: char)
    requires Avoids(x, sep)
    ensures Split(x + [sep] + y, sep) == [x] + Split(y, sep)
    decreases |x|
  {
    var s := x + [sep] + y;
    if |x| == 0 {
      assert s == [sep] + y;
      assert s[1..] == y;
    } else {
      assert s[1..] == x[1..] + [sep] + y;
      SplitHead(x[1..], y, sep);
      assert [x[0]] + x[1..] == x;
    }
  }

  /** `strip` keeps exactly the stretch between leading and trailing whitespace. */
  lemma StripIs(x: string, a: nat, b: nat)
    requires a < b <= |x|
    requires forall k | 0 <= k < a :: IsSpace(x[k])
    requires forall k | b <= k < |x| :: IsSpace(x[k])
    requires !IsSpace(x[a]) && !IsSpace(x[b - 1])
    ensures Strip(x) == x[a..b]
  {
    SkipSpacesTo(x, 0, a);
    SkipSpacesBackTo(x, a, b, |x|);
  }

  /** Whitespace around a stretch with non-blank ends is exactly what `strip` removes. */
  lemma StripPadded(s: string, h: nat, i: nat, e: nat, c: nat)
    requires h <= i < e <= c <= |s|
    requires forall k | h <= k < i :: IsSpace(s[k])
    requires forall k | e <= k < c :: IsSpace(s[k])
    requires !IsSpace(s[i]) && !IsSpace(s[e - 1])
    ensures Strip(s[h..c]) == s[i..e]
  {
    var x := s[h..c];
    assert forall k | 0 <= k < |x| :: x[k] == s[h + k];
    StripIs(x, i - h, e - h);
    var y := x[i - h..e - h];
    assert forall k | 0 <= k < |y| :: y[k] == s[i + k];
    assert y == s[i..e];
  }

  /** Text without the separator splits into itself alone. */
  lemma {:induction false} SplitWithoutSep(s: string, sep: char)
    requires Avoids(s, sep)
    ensures Split(s, sep) == [s]
    decreases |s|
  {
    if |s| > 0 {
      SplitWithoutSep(s[1..], sep);
      assert [s[0]] + s[1..] == s;
    }
  }

  /** `sep.join(parts)` */
  function Join(parts: seq<string>, sep: string): string
    decreases |parts|
  {
    if |parts| == 0 then ""
    else if |parts| == 1 then parts[0]
    else parts[0] + sep + Join(parts[1..], sep)
  }

  /** Splitting and re-joining on the same separator gives the text back, and no piece holds it. */
  lemma SplitJoin(s: string, sep: char)
    ensures Join(Split(s, sep), [sep]) == s
    ensures forall k | 0 <= k < |Split(s, sep)| :: sep !in Split(s, sep)[k]
  {
    SplitJoinBack(s, sep);
    SplitAvoids(s, sep, sep);
  }

  /** Re-joining the pieces of a split on its separator gives the text back. */
  lemma {:induction false} SplitJoinBack(s: string, sep: char)
    ensures Join(Split(s, sep), [sep]) == s
    decreases |s|
  {
    if |s| > 0 {
      var rest := Split(s[1..], sep);
      SplitJoinBack(s[1..], sep);
      if s[0] == sep {
        assert Split(s, sep) == [""] + rest;
        assert Join([""] + rest, [sep]) == "" + [sep] + Join(rest, [sep]);
      } else {
        JoinConsHead(s[0], rest, [sep]);
      }
      assert s == [s[0]] + s[1..];
    }
  }

  /** Putting a character in front of the first piece puts it in front of the joined text. */
  lemma JoinConsHead(c: char, parts: seq<string>, sep: string)
    requires |parts| > 0
    ensures Join([[c] + parts[0]] + parts[1..], sep) == [c] + Join(parts, sep)
  {
    var r := [[c] + parts[0]] + parts[1..];
    assert r[0] == [c] + parts[0] && r[1..] == parts[1..];
    if |parts| > 1 {
      assert [c] + parts[0] + sep + Join(parts[1..], sep) == [c] + (parts[0] + sep + Join(parts[1..], sep));
    }
  }

  /** The part after the last `sep`, as `s.split(sep)[-1]`. */
  function LastPiece(s: string, sep: char): string {
    var parts := Split(s, sep);
    parts[|parts| - 1]
  }

  /** `re.sub(r"\s+", " ", s)`: every whitespace run becomes a single space. */
  function CollapseSpaces(s: string): (r: string)
    ensures forall k | 0 <= k < |r| :: IsSpace(r[k]) ==> r[k] == ' '
    ensures forall k | 0 <= k < |r| - 1 :: !(IsSpace(r[k]) && IsSpace(r[k + 1]))
    ensures |r| > 0 && |s| > 0 ==> (IsSpace(r[0]) <==> IsSpace(s[0]))
    decreases |s|
  {
    if |s| == 0 then ""
    else if IsSpace(s[0]) then " " + CollapseSpaces(s[SkipSpaces(s, 0)..])
    else [s[0]] + CollapseSpaces(s[1..])
  }

  /** Whitespace is single spaces between words, never at either end. */
  predicate Normalized(s: string) {
    && (forall k | 0 <= k < |s| :: IsSpace(s[k]) ==> s[k] == ' ')
    && (forall k | 0 <= k < |s| - 1 :: !(IsSpace(s[k]) && IsSpace(s[k + 1])))
    && (|s| > 0 ==> !IsSpace(s[0]) && !IsSpace(s[|s| - 1]))
  }

  /** Collapsing then stripping whitespace normalizes a string. */
  lemma CollapseStripNormalized(s: string)
    ensures Normalized(Strip(CollapseSpaces(s)))
  {
    StripSingleSpaces(CollapseSpaces(s));
  }

  /** Stripping a text whose whitespace is single spaces normalizes it. */
  lemma StripSingleSpaces(c: string)
    requires forall k | 0 <= k < |c| :: IsSpace(c[k]) ==> c[k] == ' '
    requires forall k | 0 <= k < |c| - 1 :: !(IsSpace(c[k]) && IsSpace(c[k + 1]))
    ensures Normalized(Strip(c))
  {
    var ab := StripBounds(c);
    var r := c[ab.0..ab.1];
    assert r == Strip(c);
    forall k | 0 <= k < |r| ensures IsSpace(r[k]) ==> r[k] == ' ' {
      assert r[k] == c[ab.0 + k];
    }
    forall k | 0 <= k < |r| - 1 ensures !(IsSpace(r[k]) && IsSpace(r[k + 1])) {
      assert r[k] == c[ab.0 + k] && r[k + 1] == c[ab.0 + k + 1];
    }
  }
}

=== FILE: wrappers.dfy ===
/** Failure-compatible Option and Result types shared by every module of the model. */
module Wrappers {

  datatype Option<+T> = None | Some(value: T) {
    predicate IsFailure() { None? }

    function PropagateFailure<U>(): Option<U>
      requires None?
    {
      None
    }

    function Extract(): T
      requires Some?
    {
      value
    }

    function GetOr(default: T): T {
      match this
      case Some(v) => v
      case None => default
    }
  }

  /** `Err` stands for a Python exception that propagates to the caller. */
  datatype Result<+T, +E> = Ok(value: T) | Err(error: E) {
    predicate IsFailure() { Err? }

    function PropagateFailure<U>(): Result<U, E>
      requires Err?
    {
      Err(error)
    }

    function Extract(): T
      requires Ok?
    {
      value
    }
  }
}
